=== FILE: README.md ===
# MeloBot event core, modelled in Dafny

MeloBot is an event-driven framework for QQ chat bots that speak the
OneBot 11 protocol. Raw protocol events (messages, requests, notices, meta
events, action responses) are classified into event objects. Those objects
are routed by priority to the registered handlers, filtered through
composable checkers and matchers, and optionally correlated into sessions
that span several events. Handlers answer with outbound actions, encoded
as OneBot action frames with CQ-coded message text.

The repository keeps several generations of this framework side by side:
- the root `utils/` package;
- `common/` with `core/`;
- `bot/`;
- `melobot/`;
- `src/melobot/`.

This project models the sequential logic each generation repeats:
- the priority dispatcher with its blocking floor;
- the checker and matcher algebra, with the fill-once callbacks;
- the fill-once flag, argument and trigger stores on events and actions;
- both session registries, and the session lookup by rule;
- handler admission, the one-shot `temp` handlers and plugin registration;
- the shared-object and signal registries, and the response table;
- event classification and field extraction;
- outbound actions, with CQ escaping and face-code splitting;
- command splitting, parsing and matching, and access levels;
- the Snowflake-style id worker, default-config merging, load-once and
  dispose-once resource trees, and uptime arithmetic.

**How the model is written.** Each modelled source file maps to one Dafny
module.
- Pure code (predicates, string and dict builders, folds) becomes
  functions and lemmas.
- Objects whose fields the source updates become classes, with methods
  that `modify` those fields.
- Loops become methods with `while` loops, proved against specification
  functions.

**What is taken as input.** Asyncio is modelled as steps whose outcomes
are parameters. Such steps include:
- an `await`;
- a handler's `evoke`;
- a checker or matcher leaf;
- a session rule;
- a clock reading;
- what `json.loads` makes of a text.

Raw events are JSON values (`Json.Value`), and a missing key is the
KeyError the source raises. Results that the source may raise are
`Result` values that name the exception.

**Mixed revisions.** The handler files melobot/core/plugin.py,
melobot/plugins/handler.py and melobot/models/plugin.py come from a
different revision than melobot/models/session.py. They call a
`BotSessionManager` API that this session.py lacks: a six-argument `get`,
`bind`, `try_attach`, `make_temp` and `recycle(..., alive=)`. This
session.py only has `recycle(cls, session)` (session.py:1209) and
`get(cls, event, responder, handler, forbid_rule=False)` (session.py:1220).
`ModelsSession` models this session.py. It is not the manager those
handlers call: in `CorePlugin`, `PluginsHandler` and `ModelsPlugin`, that
manager's answers are inputs.

**Modules.**
- Shared: `Wrap` (Option, Result, the exception names), `Json`, `Text`
  (Python's `str`, `int`, `join`, `replace`, `split` on the values used)
  and `OneBot` (the action frame).
- Rows of the table below are grouped by module.

## Model

| member | source | states |
|---|---|---|
| Dispatcher.SortByPriorityOrdered | melobot/core/dispatcher.py:39-40 | sorting by `priority` with `reverse=True` yields a list in descending priority that is a permutation (same multiset) of the input |
| Dispatcher.SortByPriorityStable | melobot/core/dispatcher.py:40 | the sort is stable: two handlers of equal priority keep their registration order |
| Dispatcher.RouteExact | melobot/core/dispatcher.py:31-37 | a family list holds exactly the handlers of the matching handler class, in registration order; a handler of no known class lands in no list |
| Dispatcher.EvokedUpToExact | melobot/core/dispatcher.py:49-57 | the dispatch walk evokes exactly those handlers whose priority reaches the floor current at their turn, in list order, and no skipped handler is evoked |
| Dispatcher.FloorMonotone | melobot/core/dispatcher.py:46-57 | the floor starts at `PriorityLevel.MIN` and never decreases along the walk |
| Dispatcher.FloorStep | melobot/core/dispatcher.py:51-57 | one step: a skipped or rejecting handler leaves the floor; an accepting one raises it to its priority iff it blocks and its priority strictly exceeds the floor |
| Dispatcher.BlockingHandlerEffect | melobot/core/dispatcher.py:49-57 | on a sorted list, an accepting blocking handler still lets later handlers of its own priority be evoked and excludes every later handler of strictly lower priority |
| Dispatcher.AppendRouted | melobot/core/dispatcher.py:31-37 | each family list is extended by exactly the new handlers of its class, in registration order |
| Dispatcher.SortEach | melobot/core/dispatcher.py:39-40 | every family list is replaced by its priority sort |
| Dispatcher.BotDispatcher.BindHandlers | melobot/core/dispatcher.py:27-41 | each family list becomes `SortByPriority` of the old list plus the handlers routed to that family (ordered and a permutation, by the two lemmas above); the three families stay and the ready signal is set |
| Dispatcher.BotDispatcher.Dispatch | melobot/core/dispatcher.py:43-57 | once ready, the evoked positions are `EvokedUpTo` of the family list under the evoke oracle and the final floor is `FloorBefore` at its end; an event type with no list raises KeyError |
| Responder.Insert | melobot/core/responder.py:57 | the id maps to the new future, the keys grow by that id only, and every other entry is kept |
| Responder.Resolve | melobot/core/responder.py:30-41 | a response without id does nothing; one whose id is in the table resolves that entry and removes it (other entries kept); one with an unknown id raises BotUnexceptedObj |
| Responder.InsertThenResolve | melobot/core/responder.py:50-57 | an action waited on with id `i`, then a response with id `i`: the response reaches the future filed for it and the table is back to what it was without `i` |
| Responder.NoIdNeverResolved | melobot/core/responder.py:33-34 | an action waited on without a response id is filed under None, and no response ever removes or resolves that entry |
| Responder.BotResponder.Bind | melobot/core/responder.py:23-28 | the sender is bound and the ready signal set; the table is untouched |
| Responder.BotResponder.Dispatch | melobot/core/responder.py:30-41 | suspends before `bind`; a response without id returns with nothing changed; a known id resolves its future with the response and removes the entry; an unknown id raises BotUnexceptedObj and changes nothing |
| Responder.BotResponder.TakeAction | melobot/core/responder.py:43-48 | suspends before `bind`; afterwards the action is appended to what the sender has sent and the response table is unchanged |
| Responder.BotResponder.TakeActionWait | melobot/core/responder.py:50-59 | suspends before `bind`; afterwards a fresh unresolved future is filed under the action's response id (`Insert`, replacing an earlier one), returned, and the action is sent |
| Logic.Calc | src/melobot/base/typing.py:78-86 | NOT negates `v1`; with no second operand AND, OR and XOR give `bool(v1)`; with one they are conjunction, disjunction and inequality |
| Logic.SeqCalc | src/melobot/base/typing.py:89-104 | the `idx`/`res` loop returns False for no values, the value itself for one, and otherwise the left fold of `calc` over the list |
| Logic.FoldAnd | src/melobot/base/typing.py:89-104 | `seq_calc(AND, vs)` on two or more values holds iff every value holds |
| Logic.FoldOr | src/melobot/base/typing.py:89-104 | `seq_calc(OR, vs)` on two or more values holds iff some value holds |
| Logic.FoldXor | src/melobot/base/typing.py:89-104 | `seq_calc(XOR, vs)` on two or more values holds iff an odd number of them hold |
| Logic.FoldNot | src/melobot/base/typing.py:83-84 | under NOT the second operand is ignored, so `seq_calc(NOT, vs)` is the first value negated once per further value: only the first value and the length matter |
| Logic.UserValue | src/melobot/base/typing.py:107-114 | each user level has its integer value; only BLACK is negative |
| Logic.NewParseArgs | src/melobot/base/typing.py:64-66 | a new argument object holds the given values and is not yet formatted |
| BaseAbc.MarkOutcome | src/melobot/base/abc.py:98-108 | a mark raises iff the name is already marked in that namespace, and a raising mark leaves the store as it was |
| BaseAbc.MarkThenCheck | src/melobot/base/abc.py:98-119 | after a successful mark, `flag_check` holds exactly for the marked value, and marking the same name again raises |
| BaseAbc.MarkIndependent | src/melobot/base/abc.py:98-119 | a mark under another name or namespace changes neither what `flag_check` answers nor whether a name is marked |
| BaseAbc.Flagable.Mark | src/melobot/base/abc.py:98-108 | the store becomes that of `MarkStore`: the namespace map is created on first use and the flag added; TryFlagFailed exactly when it was already there |
| BaseAbc.StoreThenGet | src/melobot/base/abc.py:173-183 | `_get_args` after `_store_args(p, g)` gives `g`; other parser ids read as before; a second store overwrites the first; before any store the answer is the Void marker |
| BaseAbc.BotEvent.TypePredicatesExclusive | src/melobot/base/abc.py:153-171 | at most one of the five `is_*` type predicates holds for an event |
| BaseAbc.BotEvent.StoreArgsOf | src/melobot/base/abc.py:178-183 | the argument map becomes `StoreArgs` of the old one: created on first use, the entry overwritten without a duplicate check |
| BaseAbc.BotAction.Extract | src/melobot/base/abc.py:225-233 | the frame is a dict with exactly `action` (the type) and `params`, plus `echo` (the response id) iff the response id is present and non-empty |
| BaseAbc.BotAction.FillTrigger | src/melobot/base/abc.py:239-245 | the first call records the triggering event; a later call raises BotActionError and keeps the first event |
| BaseAbc.Combine | src/melobot/base/abc.py:343-365 | `&`, `|` and `^` raise (BotCheckerError, or BotMatcherError for matchers) exactly when the operand is not a checker (matcher); otherwise they give a new wrapped node over the two operands |
| BaseAbc.Invert | src/melobot/base/abc.py:357-358 | `~` gives a NOT node over the operand with no second child |
| BaseAbc.CombineMeaning | src/melobot/base/abc.py:430-435 | checking a combined node is the conjunction, disjunction or exclusive or of its operands' answers, `~` negates, and both operands are always run, left first |
| BaseAbc.FillFrame | src/melobot/base/abc.py:418-428 | recursive callback filling never changes a slot that was already set and sets only nodes of the tree, to the given callback; on success every node is set; on failure the nodes filled before it stay filled |
| BaseAbc.FillOkIff | src/melobot/base/abc.py:367-378 | filling a tree succeeds iff no node of it already has that callback and no checker object occurs twice in it |
| BaseAbc.SharedNodeFilledOnce | src/melobot/base/abc.py:367-372 | a checker shared by two trees cannot receive the same kind of callback through both |
| BaseAbc.CheckerCallbacks.FillOkCb | src/melobot/base/abc.py:367-372 | the `ok_cb` slots become those of the recursive fill; BotCheckerError iff it fails, and the `fail_cb` slots are untouched |
| BaseAbc.CheckerCallbacks.FillFailCb | src/melobot/base/abc.py:373-378 | the same walk over the `fail_cb` slots, leaving `ok_cb` untouched |
| Access.Level | utils/authority.py:61-81 | a blacklisted (or, for the older message checkers, anonymous) sender is BLACK; otherwise the owner is OWNER, a super-user SU, a white-listed sender WHITE, and anyone else USER, checked in that order |
| Access.LevelRange | utils/authority.py:8-13 | every level computed is one of the five user levels, never above OWNER (so always below SYS), and negative only for BLACK |
| Access.PassesProperties | melobot/utils/checker.py:28-39 | a blacklisted or anonymous sender never passes `0 < level >= threshold`, a SYS threshold is never met, and raising the threshold never admits more |
| Access.NewAccessChecker | melobot/utils/checker.py:12-26 | missing owner/su/white/black lists become empty lists, a missing group list becomes empty, and the level and owner are kept as given |
| Access.AccessCheck | melobot/utils/checker.py:28-39 | a group message from a group outside a non-empty white-group list is rejected; otherwise the sender's level against the checker's threshold decides |
| Access.AccessCheckProperties | melobot/utils/checker.py:28-54 | with no group list every group is admitted exactly as the level allows; a higher threshold never admits more; a blacklisted sender is always rejected |
| Json.Field | utils/authority.py:65 | reading `event[key]` raises KeyError exactly when the key is absent, and gives the stored value otherwise |
| Access.IsReport | utils/authority.py:32-40 | `event['post_type'] == t`, raising KeyError when there is no `post_type` |
| Access.ReportsExclusive | utils/authority.py:32-40 | at most one of the meta, request, notice and message report predicates holds for an event |
| Access.RawMsgLevel | utils/authority.py:61-81 | the level of the raw dict's `user_id`, an `anonymous` sub-type ranking as BLACK; KeyError unless both `user_id` and `sub_type` are present |
| Access.RawMsgCheck | utils/authority.py:83-95 | the level first, then `message_type`: a group message from a group outside the group list is rejected (even when the list is empty); otherwise the level test decides; a missing key raises KeyError |
| Access.EmptyGroupsRejectGroups | utils/authority.py:83-95 | with an empty group list every group message is rejected, whatever the sender's level |
| Access.RawNoticeCheck | utils/authority.py:112-134 | the notice checker reads `event[key]` (KeyError when absent) and applies the level test to it without regard to anonymity |
| Access.BuiltMsgCheck | bot/utils/Access.py:51-84 | the bot generation's message check on a built event: a group outside the group list is rejected, else the level test (anonymous senders are BLACK) decides |
| Access.BuiltAgreesWithRaw | bot/utils/Access.py:73-84 | for every built message event and its raw dict, the bot generation's check answers what the raw-dict checker of utils/authority.py answers |
| Access.IntListsLevel | bot/utils/Access.py:51-71 | the level of an integer id is the same whether the lists hold ints or their JSON encodings |
| Access.BuiltNoticeCheck | bot/utils/Access.py:101-123 | the bot generation's notice check on an id: the level test on that id's level, so a blacklisted id is always rejected |
| Access.AuthStr | utils/authority.py:22-29 | `auth_str_map` names exactly the six levels SYS, OWNER, SU, WHITE, USER and BLACK |
| Access.AuthStrDistinct | bot/utils/Access.py:21-30 | distinct levels have distinct names |
| ActInterface.TextMode | utils/actInterface.py:35-51 | any mode other than "str" yields the dict text segment; in "str" mode text taken from an event is kept as it is, and other text is CQ-escaped and then holds no `[` or `]` |
| ActInterface.GroupFrameNeedsMessageKey | utils/actInterface.py:339 | the chained comparison also demands a "message" key, so a group message frame without one is rejected as an unexpected event |
| ActInterface.Route | utils/actInterface.py:338-351 | the intended routing: a frame without `post_type` raises KeyError; otherwise group messages, private messages and pokes are routed as the lemmas below state |
| ActInterface.RouteMessages | utils/actInterface.py:339-342 | every group message frame with a group id goes to that group, every private one to its user, and any other message type is an unexpected event |
| ActInterface.RoutePokes | utils/actInterface.py:343-350 | a poke goes to its group when the frame has one, else to its user; any other notice is an unexpected event |
| ActInterface.RoutesAgreeWithMessageKey | utils/actInterface.py:339 | on every frame that carries a "message" key the as-written and the intended routings agree |
| ActInterface.Pack | utils/actInterface.py:330-351 | routing errors are raised with the shared params untouched; otherwise the group or private packer runs: the action type follows the destination and the shared params get the message, `auto_escape` and the destination id |
| BotActions.TextOut | utils/botAction.py:37-58 | dict mode gives the text segment; string mode gives event text unchanged and other text CQ-escaped except for commas, so the result holds no `[` or `]` and keeps exactly the commas of the input |
| BotActions.TextStrReadsBack | utils/botAction.py:19-35 | string-mode text without `&` or `,` reads back unchanged under `anti_escape` |
| BotActions.FaceStr | utils/botAction.py:60-76 | for any integer id, the string is the face opening, the id in decimal that reads back as the given id, and a closing bracket; for a non-negative id the face pattern finds one complete CQ code ending the string (a negative id's minus sign is not a `\d`, so its code is not recognised as a face code) |
| BotActions.RecordStr | utils/botAction.py:88-94 | a complete record code whose comma-separated fields are, in order, the escaped url, "magic=1" exactly when magic is set, and the timeout exactly when it is given and non-zero |
| BotActions.RecordStrReadsBack | utils/botAction.py:88-94 | the first field is the file field, which un-escapes to a url without '&'; "magic=1" is a field iff magic is set; the last field is a timeout iff one is given and non-zero, and it parses back to that timeout |
| BotActions.AtNameLost | utils/botAction.py:106-130 | the `name` field lacks its f-string prefix, so two different names give the same code |
| BotActions.AtStr | utils/botAction.py:106-130 | with the name interpolated: `[CQ:at,qq=<id or all>]`, with `,name=<escaped name>` added only when a name is given |
| BotActions.AtNameKept | utils/botAction.py:106-130 | for a non-empty name without `&`, the name reads back from the code after `anti_escape` |
| BotActions.AtDict | utils/botAction.py:121-130 | dict mode: the data keys are `qq`, plus `name` exactly when a name is given; `qq` holds the user id or "all", and `name` the name as given |
| BotActions.TtsStr | utils/botAction.py:304-306 | a complete tts code whose one field is the escaped text |
| BotActions.TtsStrReadsBack | utils/botAction.py:304-306 | a text without '&' reads back from the text field of its tts code |
| BotActions.JoinStrs | utils/botAction.py:389-392 | `''.join` succeeds exactly when every item is a string, and raises TypeError otherwise |
| BotActions.ForwardNodesShape | utils/botAction.py:315-341 | a successful forward yields one node per message, each carrying the nickname, the id and that message's content |
| BotActions.ForwardNodesAppend | utils/botAction.py:315-341 | forwarding `a + b` after a successful `a` fails exactly as `b` fails, and otherwise gives the nodes of `a` followed by those of `b` |
| BotActions.Forward | utils/botAction.py:315-341 | the collecting loop returns exactly `ForwardNodes` over the messages with the id written in decimal |
| BotActions.SendParams | utils/botAction.py:387-394 | one send writes the message, the destination id and (for pure text) `auto_escape` into the shared dict; every other key an earlier pack wrote stays |
| BotActions.StaleKeysPersist | utils/botAction.py:409-417 | a private send after a pure-text group send on the same packer still carries the group id and `auto_escape`: the shared params dict is never cleared |
| BotActions.MsgSendPacker.PrivatePack | utils/botAction.py:375-396 | action `send_private_msg` over the shared params, which become `SendParams` with `message` and `user_id`; a message list that does not join raises with the params untouched |
| BotActions.MsgSendPacker.GroupPack | utils/botAction.py:397-418 | action `send_group_msg` over the shared params, which become `SendParams` with `message` and `group_id`; a failing join raises with the params untouched |
| BotActions.MsgSendPacker.Pack | utils/botAction.py:419-445 | an unroutable event raises with the params untouched; otherwise the group or private pack runs according to `Route` testing the notice attribute `group_id` |
| BotActions.Route | utils/botAction.py:419-445 | group messages go to their group, private messages to the sender, pokes to their group only when the notice has the attribute looked up, else to the user; anything else raises BotUnexpectedEvent |
| BotActions.ForwardPokeGoesPrivate | utils/botAction.py:514 | the forward packer tests the attribute "gruop_id", which no notice has, so a group poke is forwarded to the user privately |
| BotActions.PokeGoesToGroup | utils/botAction.py:437-441 | testing "group_id", a group poke is routed to its group |
| BotActions.ForwardSendPacker.PrivatePack | utils/botAction.py:458-476 | action `send_private_forward_msg`; the shared params become `SendParams` with `messages` and `user_id` |
| BotActions.ForwardSendPacker.GroupPack | utils/botAction.py:477-495 | action `send_group_forward_msg`; the shared params become `SendParams` with `messages` and `group_id` |
| BotActions.ForwardSendPacker.PackAsWritten | utils/botAction.py:496-522 | routing by "gruop_id": when it raises, that error with the params unchanged; otherwise the forward action whose params are the original dict, now holding the send parameters for the destination that routing picks |
| BotActions.ForwardSendPacker.Pack | utils/botAction.py:496-522 | the same, routing by "group_id", so group pokes are forwarded to the group |
| BotActions.ForwardSendPacker.PackBy | utils/botAction.py:496-522 | an unroutable event raises with the params untouched; otherwise the params written are those of the group or private forward pack |
| BotActions.MsgDelPacker.Pack | utils/botAction.py:536-544 | action `delete_msg`; `message_id` is written into the shared params and nothing else changes |
| BotActions.GetBotInfoPacker.Pack | utils/botAction.py:557-563 | action `get_login_info` over the packer's params |
| BotActions.Build | utils/botAction.py:576-589 | the built dict has `action` and a copy of the params as they are now, plus `echo` from the clock exactly when asked for |
| BotActions.BuiltActionDetached | utils/botAction.py:576-589 | a later pack on the same packer changes the params an earlier pack returned, but not the action already built from them |
| BotSession.WalkAppend | bot/common/Session.py:1093-1102 | walking a chain `p + q` is walking `q` from where `p` ends, and stops at the first failure |
| BotSession.WalkFrame | bot/common/Session.py:1093-1112 | setting an attribute that a walk does not pass through leaves that walk's result unchanged |
| BotSession.Reflector.Get | bot/common/Session.py:1093-1102 | the `getattr` loop returns exactly the walk of the chain: the value reached, or AttributeError at the first missing attribute |
| BotSession.Reflector.Set | bot/common/Session.py:1103-1112 | an empty chain raises IndexError; a prefix whose walk fails raises AttributeError; otherwise exactly the last attribute of the object the prefix reaches is set, nothing else changing |
| BotSession.SetThenGet | bot/common/Session.py:1093-1112 | after setting a chain whose prefix walk does not pass through the edge being set, getting the same chain gives the value set |
| BotSession.RemoveFirst | bot/common/Session.py:70-77 | `list.remove(x)` removes one occurrence of a present session (the multiset loses exactly `x`) and leaves a list without it unchanged |
| BotSession.BotSession.AddEvent | bot/common/Session.py:51-56 | a recorded event's count goes up in place; a new event is appended last with count 1; the record invariant is kept |
| BotSession.BotSession.Event | bot/common/Session.py:57-60 | the session's event is the last recorded one; with no record `next` raises StopIteration, which the `except IndexError` does not catch |
| BotSession.BotSession.Destroy | bot/common/Session.py:70-77 | the first call removes the session from its space and marks it expired (ValueError if it is not in the space, AttributeError without a space); a call on an expired session does nothing |
| BotSession.Scan | bot/common/Session.py:1164-1171 | the scan finds the first stored event from position `k` that matches, or the first comparison that raises; every position passed before it does not match |
| BotSession.StoredEvents | bot/common/Session.py:1164-1165 | the `event` of every session of a space, one per session in list order |
| BotSession.ScanSpace | bot/common/Session.py:1164-1170 | the scan over the session list finds what the specification `Scan` finds: the first matching session, or a raising comparison |
| BotSession.GetInSpace | bot/common/Session.py:1155-1200 | the first session in list order whose event matches: refused (None, nothing changed) when active, else it records the event; a raising comparison raises with nothing changed; with no match a fresh session holding the event is appended to the space; no other session changes |
| BotSession.GetSession | bot/common/Session.py:1117-1154 | a custom method wins over an attribute rule; with neither, a fresh one-shot session holding the event that no list receives; an unusable rule raises TypeError; every session returned is activated and is either fresh or was in the space |
| BotSession.BotSession.StoreGet | bot/common/Session.py:62 | the value stored under the key, or KeyError exactly when the key is absent; nothing changes |
| BotSession.BotSession.StoreAdd | bot/common/Session.py:64 | the key is bound to the value, replacing any earlier binding, and every other key is kept |
| BotSession.BotSession.StoreUpdate | bot/common/Session.py:66 | the keys become the union; the given entries win and every other old entry is kept |
| BotSession.BotSession.StoreRemove | bot/common/Session.py:68 | a present key is removed and nothing else; a missing key raises KeyError with the store unchanged |
| CmdTable.Bind | bot/core/Executor.py:401-405 | after binding a command's aliases the keys are the old ones plus those aliases; each alias maps to the command and every other entry is kept |
| CmdTable.BindSnoc | bot/core/Executor.py:403-405 | binding one more alias is one more map update |
| CmdTable.BuildAliasMap | bot/core/Executor.py:397-405 | the loop over the loaded commands returns exactly `AliasSpec` of them: every alias of every command written in load order |
| CmdTable.AliasKeys | utils/Interface.py:426-434 | the keys of the alias map are exactly the aliases listed by some command, and each maps to a command that lists it |
| CmdTable.AliasLastWins | utils/cmdInterface.py:339-347 | when commands share an alias the later command wins: an alias maps to the last command that lists it |
| CmdTable.ResolveAliasFirst | utils/Interface.py:310-319 | an alias resolves to its command first, then a command name to itself; BotUnknownCmdName exactly when the name is neither |
| CmdTable.ResolveNameFirst | utils/cmdInterface.py:235-240 | a command name resolves to itself first, then an alias to its command; None exactly when the name is neither |
| CmdTable.ResolveOrders | bot/core/Executor.py:289-298 | with the alias map built from the loaded commands, both resolution orders succeed on the same names, always reach a loaded command, and differ only on a name that is also another command's alias |
| Text.JoinSep | utils/cmdInterface.py:263 | `sep.join`: empty for no parts and the part itself for one |
| CmdTable.Prefix | utils/cmdInterface.py:263 | the prefix text naming the command and its arguments; an empty command sequence raises IndexError |
| CmdTable.PrefixShape | utils/cmdInterface.py:263 | the prefix starts with `[cmd]: ` and the command name; without arguments it shows an empty bracket pair, with one argument that argument in brackets |
| CmdTable.Prefixed | utils/cmdInterface.py:265-276 | a string reply gets the prefix in front, a single dict becomes [prefix segment, dict], a list gets the prefix segment inserted first; any other value raises AttributeError |
| CmdTable.PrefixKeepsReply | utils/Interface.py:256-267 | the original reply survives behind the prefix: a string or list comes back whole, a dict as the one-item list |
| CmdTable.PrefixParams | utils/cmdInterface.py:261-276 | params without "message" are unchanged; with one, an empty command sequence raises IndexError and otherwise the message is replaced by its prefixed form |
| CmdTable.PrefixOnlyMessage | utils/Interface.py:252-267 | prefixing keeps the set of param keys and every param other than "message" |
| CmdInterface.ExecInterface.CallTarget | utils/cmdInterface.py:228-243 | the command `call` runs: the name itself when it is a command, else the command of the alias; None exactly for a name that is neither |
| CmdInterface.ExecInterface.GetCmdAlias | utils/cmdInterface.py:58-62 | only command names are accepted (KeyError otherwise); a command without aliases raises AttributeError; otherwise its alias list |
| CmdInterface.ExecInterface.SysCall | utils/cmdInterface.py:245-253 | the event is flagged `sys_pass = 1` first, so the flag stays even when the command is unknown; KeyError exactly for an unknown system command |
| CmdInterface.ExecInterface.AddPrefix | utils/cmdInterface.py:255-276 | the action's params dict is edited in place to `PrefixParams` of its old contents; on an error it is left unchanged |
| Interface.ExecInterface.CallTarget | utils/Interface.py:200-211 | the command `call` runs: an alias's command first, then the name itself; None exactly for a name that is neither |
| Interface.ExecInterface.GetCmdLock | utils/Interface.py:349-366 | an unknown name raises BotUnknownCmdName; a coroutine command gets the lock under "LOCK", any other the thread lock under "TLOCK"; each is created on first request (fresh, of the right kind) and returned unchanged ever after |
| Interface.ExecInterface.AddPrefix | utils/Interface.py:244-269 | a fresh copy of the action is returned; without "message" it keeps its own copy of the params and the original is untouched; with one, the original params are prefixed in place and the copy takes them over |
| Executor.ExecInterface.GetCmdAliases | bot/core/Executor.py:300-305 | an unknown name raises BotUnknownCmdName; otherwise the aliases of the command the name or alias resolves to, which always exists in a loaded table |
| Executor.ExecInterface.GetCmdLock | bot/core/Executor.py:328-336 | an unknown name raises BotUnknownCmdName with nothing changed; otherwise the command's asyncio lock, created fresh on first request and the same object ever after |
| Executor.ExecInterface.GetCmdLockTwice | bot/core/Executor.py:328-336 | two requests for a command's lock, by name and by alias, return the same lock |
| Executor.ExecInterface.GetSessionFor | bot/core/Executor.py:97-123 | no rule gives a fresh one-shot session; an attribute, tuple or method rule looks the event up in the command's space after the command's lock exists; any session returned is activated and fresh or already in a space |
| Executor.ExecInterface.Call | bot/core/Executor.py:212-227 | an unknown name returns quietly; otherwise the resolved command runs in the session its rule gives; a refusal happens only under a rule; a session that ran is released unless the command raised |
| TokenSplit.StripLeft | src/melobot/utils/parser.py:74 | `lstrip(chars)`: a suffix of the input that is empty or does not start with one of the characters |
| TokenSplit.StripRight | src/melobot/utils/parser.py:74 | `rstrip(chars)`: a prefix of the input that is empty or does not end with one of the characters |
| TokenSplit.Strip | src/melobot/utils/parser.py:74 | `strip(chars)`: no longer than the input, and empty or neither starting nor ending with one of the characters |
| TokenSplit.FirstToken | src/melobot/utils/parser.py:67-68 | the regex alternation at one position: the first token in list order that occurs there; None exactly when no non-empty token does |
| TokenSplit.Pieces | src/melobot/utils/parser.py:81-82 | substituting the marker and splitting on it always gives at least one piece |
| TokenSplit.NonEmpty | src/melobot/utils/parser.py:85 | the filter keeps only non-empty pieces, all taken from the input, and gives nothing exactly when every piece is empty |
| Text.SplitMarkCons | src/melobot/utils/parser.py:82 | splitting on a one-character marker, one character at a time: a leading marker starts a new empty piece, any other character joins the first piece |
| TokenSplit.PiecesClean | src/melobot/utils/parser.py:76-85 | the pieces hold no token and no marker, and keep every property of the input that rules out other tokens |
| TokenSplit.SplitStringClean | src/melobot/utils/parser.py:76-85 | every piece `_split_string` returns is non-empty, free of the tokens and the marker, and free of any token the input was free of |
| TokenSplit.PopFirstDropsPrefix | src/melobot/utils/parser.py:83-84 | with `popFirst` the text before the first token is dropped: the result is the non-empty pieces after the first |
| TokenSplit.NonEmptyGroups | src/melobot/utils/parser.py:93 | the filter keeps only non-empty groups, all taken from the input, and gives nothing exactly when every group is empty |
| TokenSplit.SplitEach | src/melobot/utils/parser.py:90-92 | each command string is split on the separators, one result per string, in order |
| TokenSplit.GroupsClean | src/melobot/utils/parser.py:87-94 | every command group `_parse` produces is non-empty and its pieces are non-empty and free of start tokens, separator tokens and the marker |
| CmdParser.New | src/melobot/utils/parser.py:17-70 | overlapping start and separator tokens raise ArgParseError, as do tokens holding a banned character; construction succeeds exactly otherwise, and formatting is needed exactly when there is a target and a non-empty formatter list |
| CmdParser.Purify | src/melobot/utils/parser.py:72-74 | the purified text is no longer than the input and neither starts nor ends with a space |
| CmdParser.ParseGroups | src/melobot/utils/parser.py:87-94 | the command groups of the purified text, None exactly when there is none |
| CmdParser.ParseGroupsClean | src/melobot/utils/parser.py:87-94 | every group found is non-empty and its pieces are non-empty and hold no start or separator token |
| CmdParser.Put | src/melobot/utils/parser.py:99-102 | `d[k] = v` on an insertion-ordered dict: a new key goes last, an existing key keeps its place and takes the new value |
| CmdParser.ToDict | src/melobot/utils/parser.py:99-102 | the dict comprehension yields a well-formed insertion-ordered dict |
| CmdParser.ToDictNames | src/melobot/utils/parser.py:99-102 | the dict's keys are exactly the command names (first pieces) of the groups |
| CmdParser.ToDictLastWins | src/melobot/utils/parser.py:99-102 | each name holds the arguments of the last group with that name: a later duplicate overwrites an earlier one |
| CmdParser.Parse | src/melobot/utils/parser.py:96-104 | None exactly when `_parse` finds no group; otherwise the dict of the groups |
| CmdParser.FirstTarget | src/melobot/utils/parser.py:113-115 | the position of the first name, in insertion order, that is a target; None exactly when no name is |
| CmdParser.Test | src/melobot/utils/parser.py:106-116 | `(False, None, None)` for no dict or no target name; otherwise True with the first name in insertion order that is a target and its arguments |
| CmdParser.Format | src/melobot/utils/parser.py:118-130 | already formatted arguments pass untouched; a failing formatter stops with False and nothing changed; after all pass, the values are cut to one per formatter and marked formatted (TypeError for None values) |
| MelobotParser.New | melobot/utils/parser.py:13-35 | overlapping tokens raise BotValueError first; mixing a string and a list fails at `cmd_sep + cmd_start` with TypeError; banned characters raise BotValueError; otherwise the token lists are the given ones |
| MelobotParser.ParseGroups | melobot/utils/parser.py:54-62 | the command groups of the purified text, None exactly when there is none |
| MelobotParser.Parse | melobot/utils/parser.py:64-69 | None exactly when there is no group; otherwise one argument object per group, in text order, holding that group |
| MelobotParser.ParseKeepsNames | melobot/utils/parser.py:64-69 | each argument object holds a whole group: a non-empty list whose first value is the command name and none of whose values holds a token |
| ExactCmdParser.Remove | utils/cmdParser.py:16-21 | deleting the filtered characters leaves none of them and never lengthens the text |
| ExactCmdParser.Purify | utils/cmdParser.py:20-21 | the purified text holds no quote, backslash, tab or line end, and neither starts nor ends with a space |
| ExactCmdParser.StripAvoids | utils/cmdParser.py:21 | `strip` keeps a piece of its input, so a character absent from the input is absent from the result |
| ExactCmdParser.New | utils/cmdParser.py:38-76 | overlapping start and separator tokens select the single-group parse, and the kernel store records "single" or "multiple" before the banned-character test; BotUnsupportCmdFlag exactly when a token holds a banned character |
| ExactCmdParser.SingleParse | utils/cmdParser.py:96-105 | the single parse always returns exactly one group: the pieces after the first token of the union, or the empty group |
| ExactCmdParser.MultiParse | utils/cmdParser.py:108-119 | the multi parse never returns an empty list: the non-empty groups in text order, or `[[]]` |
| ExactCmdParser.Parse | utils/cmdParser.py:86-94 | `parse` is bound to the single or the multi parse when the parser is built, and never returns an empty list |
| ExactCmdParser.ParseShape | utils/cmdParser.py:96-119 | a parse is never empty, "no command" is exactly `[[]]`, and only the first group can be empty |
| ExactCmdParser.MultiParseClean | utils/cmdParser.py:108-129 | the pieces of a multi parse are non-empty and free of start tokens, separator tokens and the marker |
| ExactCmdParser.PriorCheckMeaning | utils/cmdParser.py:131-137 | `prior_check` never raises, and holds iff the first group is non-empty and some group starts with "prior" |
| ExactCmdParser.FuzzyParse | utils/cmdParser.py:147-162 | too few matches give False; "any" gives True; "begin" and "end" compare the first match's start with 0 and the last match's end with the length (IndexError when a zero threshold lets no match through); any other position raises ValueError |
| ExactCmdParser.FuzzyMultiMissesKeyword | utils/cmdParser.py:168-170 | the loop iterates over the characters of the joined pattern string, so a keyword that occurs in the text is still reported missing |
| ExactCmdParser.FuzzyMulti | utils/cmdParser.py:164-170 | the intended check: True iff every keyword of the condition is among the matches |
| ExactCmdParser.FuzzyMultiFindsKeyword | utils/cmdParser.py:164-170 | the input of the finding passes once the keywords are checked |
| Matcher.PyBound | melobot/utils/matcher.py:22 | Python's normalisation of a slice bound: negative bounds count from the end, and the result is clamped to `0..n` |
| Matcher.PySlice | melobot/utils/matcher.py:44 | `s[i:j]` with Python's negative indices and clamping: the characters between the normalised bounds, or empty when they cross |
| Matcher.StartMatch | melobot/utils/matcher.py:16-22 | holds iff the text starts with the target |
| Matcher.Contains | melobot/utils/matcher.py:33 | `target in text` holds iff the target occurs at some position of the text |
| Matcher.AtShift | melobot/utils/matcher.py:33 | an occurrence at position `i >= 1` is one at `i - 1` in the text's tail |
| Matcher.ContainMatch | melobot/utils/matcher.py:25-35 | for frequency 1, holds iff the target occurs in the text; otherwise iff the regex occurrence count equals the frequency |
| Matcher.EndNeverMatches | melobot/utils/matcher.py:44 | the compared slice `text[-len(t):-1]` stops one character before the end, so no non-empty target ever matches |
| Matcher.EndMissesSuffix | melobot/utils/matcher.py:38-44 | "goodbye" ends with "bye" but the as-written matcher rejects it, while the corrected one accepts it |
| Matcher.EndMatch | melobot/utils/matcher.py:38-44 | the corrected end matcher: holds iff the target is no longer than the text and occurs at its end, as `text.endswith(target)` |
| Matcher.FullMatch | melobot/utils/matcher.py:47-53 | holds iff the text equals the target |
| Matcher.FullImpliesOthers | melobot/utils/matcher.py:16-53 | a full match is also a start match, a (corrected) end match and a frequency-1 contain match |
| Matcher.StartImpliesContain | melobot/utils/matcher.py:16-35 | a start match is a frequency-1 contain match |
| Ipc.ShareObject.FillCb | src/melobot/plugin/ipc.py:26-29 | the callback is stored and the callback-set event is set; the reflector is kept |
| Ipc.PluginStore.Get | src/melobot/plugin/ipc.py:80-88 | the object stored under the namespace and id, or ShareObjError exactly when either is missing |
| Ipc.PluginStore.CreateSo | src/melobot/plugin/ipc.py:49-62 | an id already taken in the namespace raises ShareObjError with nothing changed; otherwise a fresh object with the reflector and no callback is stored and `get` returns it; no other entry changes |
| Ipc.PluginStore.BindCbAsWritten | src/melobot/plugin/ipc.py:74 | a missing namespace or id raises ShareObjError; for every stored object the name-mangled `__cb_set` lookup raises AttributeError, so no callback can ever be bound |
| Ipc.PluginStore.BindCb | src/melobot/plugin/ipc.py:64-78 | succeeds exactly when the object exists and has no callback yet (ShareObjError otherwise, with nothing changed); the object then holds the callback with its reflector kept, and no other object changes, so a second binding is refused |
| Ipc.RunOnCtx | src/melobot/plugin/ipc.py:122-131 | the handler's value when it returns; when it raises an `Exception`, None and three error log lines, so no `Exception` leaves it (a `BaseException` such as cancellation still propagates and is not modelled) |
| Ipc.PluginBus.Register | src/melobot/plugin/ipc.py:112-120 | a second handler for a signal in the same namespace raises PluginSignalError with nothing changed; otherwise the handler is stored, the namespace created if new, and every other namespace kept |
| Ipc.PluginBus.Emit | src/melobot/plugin/ipc.py:133-156 | an unknown namespace raises PluginSignalError; an unknown signal logs a warning and gives None; without `wait` the handler is only started and None comes back; with `wait` the handler's outcome through `_run_on_ctx` is returned; a non-None result implies `wait` |
| CorePlugin.CheckConfig | melobot/core/plugin.py:222-224 | a message handler is built iff exactly one of matcher and parser is given (BotValueError otherwise); request and notice handlers always are |
| CorePlugin.VerifyFacts | melobot/core/plugin.py:226-241 | a rejecting checker decides alone and nothing else runs; otherwise a message handler answers with its matcher, or with "the parse gave a result" after writing the parse onto the event; request and notice handlers answer with the checker or True; matcher and parser run only after the checker passed |
| CorePlugin.TempFiresAtMostOnce | melobot/core/plugin.py:291-301 | over any sequence of events a temporary handler accepts at most one, and none once it is invalid |
| CorePlugin.NonTempAcceptsVerified | melobot/core/plugin.py:285-293 | a handler that is not temporary accepts exactly the verified events while valid, one answer per event, and never changes its validity |
| CorePlugin.EventHandler.Evoke | melobot/core/plugin.py:281-301 | an invalid handler answers False without verifying; a verified event is accepted and a run scheduled; a temporary handler becomes invalid when it accepts; the answer and the new validity are those of `EvokeStep` |
| CorePlugin.EventHandler.Run | melobot/core/plugin.py:266-279 | with no session only the conflict callback (when set) runs, in a temporary session; with a session the executor runs first, the overtime callback runs exactly when the executor timed out and one is set, and the session is recycled last unless an exception propagates |
| CorePlugin.TemplateVerify | melobot/core/plugin.py:108-131 | the template passes exactly when it has a name, every executor is async, both callbacks of each executor are async or None, and every caller is async; BotException otherwise |
| CorePlugin.FirstBad | melobot/core/plugin.py:63-66 | the index of the first wrapper whose handler constructor raises, or the length when none does; every wrapper before it builds |
| CorePlugin.BotPlugin.InitHandlers | melobot/core/plugin.py:59-66 | no wrappers leaves the handlers alone; otherwise one handler per wrapper in order until a constructor raises, which propagates and leaves the handlers built so far |
| ModelsPlugin.CheckArgs | melobot/models/plugin.py:126-136 | a message handler is built exactly when one of matcher and parser is given, the session options come with a rule, and conflict_wait is not combined with a conflict callback; the first failed check decides between BotValueError and BotException |
| ModelsPlugin.BuiltHandlerSessionOptions | melobot/models/plugin.py:130-136 | every built handler that holds sessions, rouses directly, waits on conflicts or has a conflict callback has a session rule, and never both waits and has a conflict callback |
| ModelsPlugin.VerifyOk | melobot/models/plugin.py:138-144 | the event passes iff there is no checker or the checker accepts it |
| ModelsPlugin.Match | melobot/models/plugin.py:146-158 | the matcher decides when there is one; otherwise the answer is whether the parser gave arguments, and arguments are stored on the event exactly when the parser produced them |
| ModelsPlugin.EvokeOrder | melobot/models/plugin.py:208-238 | the checker is asked first and a rejection ends evoke with nothing else done; with direct_rouse an attachment is accepted before validity and matcher are consulted; `_run` is scheduled only for a valid handler and never after such an attachment; validity changes only for a temporary handler that schedules |
| ModelsPlugin.ArgsStoredOnlyOnParse | melobot/models/plugin.py:151-155 | parse arguments reach the event iff the handler got past checker, attachment and validity and the parser produced them |
| ModelsPlugin.TempRunsAtMostOnce | melobot/models/plugin.py:229-238 | over any sequence of events a temporary handler schedules `_run` at most once, and never when it starts invalid |
| ModelsPlugin.MsgEventHandler.Evoke | melobot/models/plugin.py:208-238 | the answer, the new validity and the calls made are those of the specification `EvokeSpec`; the event's argument map changes exactly by the stored parse result |
| ModelsPlugin.MsgEventHandler.Run | melobot/models/plugin.py:172-206 | the calls `_run` makes, in order, are exactly the specification `RunSteps` of the handler's options and the answers of the session manager, executor and callbacks |
| ModelsPlugin.RunAttached | melobot/models/plugin.py:178-181 | without direct_rouse, a successful attachment is the whole run: no session is fetched and nothing runs |
| ModelsPlugin.RunWithoutSession | melobot/models/plugin.py:182-189 | when no session is granted, the executor never runs and nothing is recycled; the conflict callback is called iff one is set, and a log entry appears iff it raised |
| ModelsPlugin.RunHandlesOutcome | melobot/models/plugin.py:191-202 | with a session, the overtime callback runs iff the executor timed out and a callback is set; an exception is logged iff the executor raised or the overtime callback raised |
| ModelsPlugin.RunRecyclesLast | melobot/models/plugin.py:191-206 | with a session, the executor runs and the very last call recycles that session with `alive` set to session_hold, with no earlier recycle |
| ModelsPlugin.RunExecutesOwnSession | melobot/models/plugin.py:182-193 | the executor only ever runs in the session the manager handed out |
| ModelsPlugin.FirstBad | melobot/models/plugin.py:66-70 | the index of the first handler constructor that raises, or the length when none does; every constructor before it builds |
| ModelsPlugin.Plugin.Init | melobot/models/plugin.py:29-38 | every handler constructor among the members is appended to the executors and every hook constructor to the hooks, in member order, and nothing else |
| ModelsPlugin.MembersCollected | melobot/models/plugin.py:29-38 | a handler constructor is among the collected executors iff it is a member, and a hook constructor among the hooks iff it is a member |
| ModelsPlugin.Plugin.AttrCheck | melobot/models/plugin.py:40-59 | the plugin passes iff it has an id, every executor is async, both callbacks of each executor are None or async and every hook is async; BotException otherwise |
| ModelsPlugin.MakeRunners | melobot/models/plugin.py:71-73 | one runner per hook constructor, in order, each built from its own constructor |
| ModelsPlugin.RegisterNew | melobot/models/plugin.py:71 | registering the next new handler id succeeds and adds empty tables and a lock for it alone |
| ModelsPlugin.Plugin.Build | melobot/models/plugin.py:61-74 | one handler per constructor, in order, each registered with the session manager as it is built (empty active and suspended sets and a lock for its id), until a constructor raises, which propagates and leaves the handlers built and registered so far and the runners untouched; otherwise one runner per hook |
| ModelsPlugin.Plugin.BuildAll | melobot/models/plugin.py:76-82 | `_init`, then `_attr_check`, then `_build`; a failing check builds and registers no handler |
| PluginsHandler.EventHandler.Verify | melobot/plugins/handler.py:44-59 | a rejecting checker ends the check; the matcher decides, or the parse result is written onto the event and the answer is whether there was one; request and notice handlers (118-122, 181-185) answer with their checker, or True without one |
| PluginsHandler.EventHandler.Handle | melobot/plugins/handler.py:73-95 | without a session only the conflict callback runs, in a temporary session got without the rule, and nothing is recycled; with one the executor runs, the overtime callback follows a timeout when set, and the session is recycled last unless an exception propagated |
| ModelsSession.Last | melobot/models/session.py:56-75 | the last element of a list, and None exactly for the empty list; the properties `event`, `last_hup` and `args` read their lists with it |
| ModelsSession.BotSession.AppendRecords | melobot/models/session.py:47-54 | the event and the handler's popped arguments are appended, one record each, so `event` and `args` then read them back |
| ModelsSession.BotSession.StoreGet | melobot/models/session.py:96-97 | the stored value for a present key; KeyError exactly for a missing one |
| ModelsSession.BotSession.StoreAdd | melobot/models/session.py:99-100 | the store maps the key to the value and keeps every other entry |
| ModelsSession.BotSession.StoreUpdate | melobot/models/session.py:102-103 | the keys are the union of both, the new entries win and the other old ones are kept |
| ModelsSession.BotSession.StoreRemove | melobot/models/session.py:105-106 | a present key is removed with nothing else changed; a missing one raises KeyError and leaves the store alone |
| ModelsSession.BotSession.StoreClear | melobot/models/session.py:108-109 | the store is empty afterwards |
| ModelsSession.Move | melobot/models/session.py:1184-1194 | the session leaves the handler's source set and joins its target set; every other handler's sets are unchanged |
| ModelsSession.MoveBack | melobot/models/session.py:1174-1196 | rousing a session that was just suspended puts both the active and the suspended tables back as they were |
| ModelsSession.BotSessionManager.Register | melobot/models/session.py:1162-1171 | a new handler gets an empty active set, a lock and an empty suspended set; registering it a second time raises BotException with nothing changed |
| ModelsSession.BotSessionManager.Hup | melobot/models/session.py:1174-1187 | a one-shot or expired session cannot be suspended (BotException); otherwise one suspension time is recorded, the awake flag cleared and the session moved from the active to the suspended set of its space, KeyError when it was not active |
| ModelsSession.BotSessionManager.Rouse | melobot/models/session.py:1189-1196 | the session moves from the suspended set back to the active set of its space and is awake again |
| ModelsSession.BotSessionManager.Expire | melobot/models/session.py:1198-1207 | the first call clears events, suspension times and store and marks the session expired; on an expired session it changes nothing, so expiring twice is expiring once |
| ModelsSession.BotSessionManager.Recycle | melobot/models/session.py:1209-1217 | the session always becomes free; it leaves its space exactly when it has one and is expired, KeyError when it is not in that space |
| ModelsSession.BotSessionManager.Make | melobot/models/session.py:1251-1263 | a fresh free, awake, unexpired session of the handler's space, holding the event as its only record when there is one, and added to the active set only when a space is given |
| ModelsSession.BotSessionManager.FindSuspended | melobot/models/session.py:1276-1279 | some suspended session of the handler whose last event the rule matches with the new event, None iff there is none |
| ModelsSession.BotSessionManager.FindActive | melobot/models/session.py:1287-1290 | some active, unexpired session whose last event the rule matches, None iff there is none |
| ModelsSession.BotSessionManager.AttachTo | melobot/models/session.py:1282-1285 | a suspended session gets the event appended and is moved back to the active set, awake, with nothing else changed |
| ModelsSession.BotSessionManager.GetActiveOnRule | melobot/models/session.py:1287-1304 | without a matching suspended session: a new session when no active one matches, the free match with the event appended, None when busy without conflict_wait, else the busy match to wait on |
| ModelsSession.BotSessionManager.GetOnRule | melobot/models/session.py:1266-1304 | a matching suspended session wins: it gets the event and is roused, and 'attached' comes back; else a matching free active session gets the event and is returned; a busy one gives None without conflict_wait; no match makes a new session in the space |
| ModelsSession.BotSessionManager.ResumeOnRule | melobot/models/session.py:1306-1318 | after the wait, an expired session is replaced by a new session in the space, and an unexpired one gets the event; either way the session returned is marked busy |
| ModelsSession.BotSessionManager.Get | melobot/models/session.py:1220-1249 | with a registered handler that has a rule and forbid_rule unset, the lookup by rule: attached iff a suspended session matches, which is moved back to the active set; a matching free session, or a fresh one in the space, is returned busy; a matching busy one without waiting is a rejection; otherwise a one-shot session outside any space; every session it returns is marked busy |
| PluginInit.WithBuiltin | src/melobot/plugin/init.py:370-375 | the checker holds iff the built-in checker holds and, when the user gave one, the user's checker holds too |
| PluginInit.OnEvent | src/melobot/plugin/init.py:183-230 | an any-event handler record carrying the user's checker and options unchanged |
| PluginInit.OnMessage | src/melobot/plugin/init.py:232-285 | a message handler record with the user's matcher, parser, checker and options |
| PluginInit.OnEveryMessage | src/melobot/plugin/init.py:287-336 | a message handler record with neither matcher nor parser, and the user's checker and options |
| PluginInit.OnAtQq | src/melobot/plugin/init.py:338-401 | a message handler record whose checker holds iff the at-checker for the qq id holds and the user's checker, when given, holds too |
| PluginInit.OnTargetMatch | src/melobot/plugin/init.py:437-463 | a message handler record with the built matcher, no parser, and the user's checker and options |
| PluginInit.OnStartMatch | src/melobot/plugin/init.py:403-463 | the matcher is the start matcher of the target and logic mode, and there is no parser |
| PluginInit.OnContainMatch | src/melobot/plugin/init.py:465-525 | the matcher is the contain matcher of the target and logic mode, and there is no parser |
| PluginInit.OnFullMatch | src/melobot/plugin/init.py:527-587 | the matcher is the full matcher of the target and logic mode, and there is no parser |
| PluginInit.OnEndMatch | src/melobot/plugin/init.py:589-649 | the matcher is the end matcher of the target and logic mode, and there is no parser |
| PluginInit.OnRegexMatch | src/melobot/plugin/init.py:651-705 | the matcher is the regex matcher of the pattern, and there is no parser |
| PluginInit.OnPlain | src/melobot/plugin/init.py:707-754 | request and meta-event handler records carry the user's checker and options unchanged (also 942-989) |
| PluginInit.OnBuiltinChecked | src/melobot/plugin/init.py:756-940 | friend-request, group-request and notice records carry a checker that holds iff the built-in checker holds and the user's, when given, holds too |
| PluginInit.SharePairs | src/melobot/plugin/init.py:170 | one (namespace, id) pair per shared object, in order |
| PluginInit.CbPairs | src/melobot/plugin/init.py:171 | one (namespace, id) pair per shared-object callback, in order |
| PluginInit.SignalPairs | src/melobot/plugin/init.py:172 | one (namespace, signal) pair per signal handler, in order |
| PluginInit.AllOwnedIff | src/melobot/plugin/init.py:174-178 | the `all(False for ...)` test passes iff every callback pair is among the plugin's own share pairs |
| PluginInit.BotPlugin.constructor | src/melobot/plugin/init.py:128-159 | the metadata as given, an empty keyword list for None, every registration list empty and no proxy yet |
| PluginInit.BotPlugin.DecorateHandler | src/melobot/plugin/init.py:208-229 | applying a handler decorator appends exactly one handler record and returns the executor unchanged; every other list stays as it was |
| PluginInit.BotPlugin.OnSignal | src/melobot/plugin/init.py:991-1024 | one signal handler record is appended and the function comes back unchanged; nothing else changes |
| PluginInit.BotPlugin.OnShare | src/melobot/plugin/init.py:1026-1069 | with a reflector the object is recorded at once with the reflector made async and None comes back; without one nothing is recorded and the decorator comes back |
| PluginInit.BotPlugin.DecorateShare | src/melobot/plugin/init.py:1063-1068 | the returned decorator records the object with the decorated coroutine function as its reflector and returns the function |
| PluginInit.BotPlugin.OnShareAffected | src/melobot/plugin/init.py:1071-1104 | one callback record is appended and the function comes back unchanged; nothing else changes |
| PluginInit.BotPlugin.OnBotLife | src/melobot/plugin/init.py:1106-1178 | one hook record of the life type is appended and the function comes back unchanged; the shorthands fix the type |
| PluginInit.BotPlugin.SelfBuild | src/melobot/plugin/init.py:161-181 | the proxy is published first with the share, callback and signal pairs; PluginInitError is raised iff some callback pair names an object the plugin does not share; the registration lists are not changed |
| SrcEvent.Classify | src/melobot/models/event.py:16-26 | "message" and "message_sent" make a message event, "request", "notice" and "meta_event" their classes, and any other or missing post_type a response |
| SrcEvent.RawOfAsWritten | src/melobot/models/event.py:12-16 | a text is parsed; a dict leaves `raw` unbound, so reading it raises (exhibited by `DictInputNeverBuilds`) |
| SrcEvent.RawOf | src/melobot/models/event.py:12-16 | the dict `build` is meant to read: the parsed text, or the dict itself |
| SrcEvent.BuildKind | src/melobot/models/event.py:12-26 | the class picked for the intended raw dict; a parsed text that is not a dict raises AttributeError at `.get` |
| SrcEvent.DictInputNeverBuilds | src/melobot/models/event.py:13-16 | the as-written and intended builders agree on texts, but every dict input fails as written, while a dict whose post_type is "message" builds a message event as intended |
| SrcEvent.Coerce | src/melobot/models/event.py:124-125 | a string of digits, or '-' followed by at least one digit, becomes that integer; any other string is kept |
| SrcEvent.CoerceRoundTrip | src/melobot/models/event.py:124-125 | coercing the decimal text of any integer gives that integer back, and coercing twice is coercing once |
| SrcEvent.FormatItem | src/melobot/models/event.py:118-130 | a text segment is untouched; every other segment keeps its type and keys and has each string value coerced; a segment without "type" or "data" raises KeyError |
| SrcEvent.FormatAll | src/melobot/models/event.py:117-131 | every segment formatted, in order, and the first failing segment's error raised |
| SrcEvent.FormatItemIdempotent | src/melobot/models/event.py:118-130 | formatting a formatted segment changes nothing |
| SrcEvent.FormatToArray | src/melobot/models/event.py:115-133 | a string is handed to `to_cq_arr`; a list is formatted in place, the caller's list ending up as the formatted one; anything else fails on its first item, so only an empty dict gets through unchanged |
| SrcEvent.JoinValues | src/melobot/models/event.py:141 | the concatenation of the parts when all are strings, TypeError otherwise |
| SrcEvent.TextPartsAppend | src/melobot/models/event.py:135-141 | the text of two runs of segments is the text of the first followed by that of the second |
| SrcEvent.FormatKeepsText | src/melobot/models/event.py:118-141 | formatting changes neither which segments are text nor what they say, so `_get_text` reads the same before and after |
| SrcEvent.GetText | src/melobot/models/event.py:135-141 | the text of the text segments in order, joined; KeyError for a segment missing its keys, TypeError for a non-string text |
| SrcEvent.MsgTypeIs | src/melobot/models/event.py:176-208 | message_type is compared first and sub_type read only when it matched, a missing key raising KeyError |
| SrcEvent.MessageKinds | src/melobot/models/event.py:176-208 | a message is never both private and group; friend and group-temporary messages are private, normal, anonymous and self group messages are group |
| SrcEvent.TempSrc | src/melobot/models/event.py:93-96 | None unless temp_source is present and truthy; then the mapped source name (true reads as 1), TypeError for a list or dict, which cannot be a key, and KeyError for any other code the map lacks |
| SrcEvent.TempSourceZero | src/melobot/models/event.py:94-95 | code 0 is in the map but fails the truthiness test, so it reads as no temporary source |
| SrcEvent.SenderOf | src/melobot/models/event.py:239-313 | an empty sender takes its id from the event's user_id and has no nickname, sex or age; otherwise the sender's own id and nickname, optional sex and age, and for group messages the group fields |
| SrcEvent.EmptySender | src/melobot/models/event.py:308-313 | an empty sender's id is the event's user_id and its nickname, sex and age are None |
| SrcEvent.IsBot | src/melobot/models/event.py:339-342 | true iff the sender's id is the event's self_id |
| SrcEvent.SenderRoles | src/melobot/models/event.py:315-337 | outside groups every role test is false; an owner is an admin; owner, plain member and anonymous member exclude each other |
| SrcEvent.AnonymousSender | src/melobot/models/event.py:333-337 | a sender built for an anonymous group message is an anonymous member |
| SrcEvent.MessageInit | src/melobot/models/event.py:83-106 | the loops of `_format_to_array` and `_get_text` give exactly the event `MessageOf` describes: id, content in both forms, text, font, temporary source, sender and, for group messages only, group id, the first failure raising; a list message is formatted in place in the raw event |
| SrcEvent.MessageOf | src/melobot/models/event.py:83-106 | the steps of `__init__` in source order, the first failing one raising its own error; once id, content, text and font are read, a temporary-source error (TypeError for a list or dict, KeyError for an unknown code) is the result |
| SrcEvent.RequestInit | src/melobot/models/event.py:381-395 | friend requests have no group id; group requests add the group id and the sub type; missing keys raise KeyError |
| SrcEvent.FixUserId | src/melobot/models/event.py:428-429 | an event with target_id and no user_id gets the target as its user id; every other event is left unchanged |
| SrcEvent.FixUserIdIdempotent | src/melobot/models/event.py:428-429 | after the repair an event with a target has a user id, and repairing again changes nothing |
| SrcEvent.NoticeTypeOf | src/melobot/models/event.py:476-538 | the `is_*` chain of `_init`: KeyError when notice_type is missing, or when it is "notify" and sub_type is missing; otherwise some kind is picked |
| SrcEvent.NoticeTypeSound | src/melobot/models/event.py:550-618 | a kind the chain picks, other than none, is one whose `is_*` test holds |
| SrcEvent.NoticeTypeComplete | src/melobot/models/event.py:550-618 | a kind whose `is_*` test holds is the kind the chain picks |
| SrcEvent.NoticeTypeExact | src/melobot/models/event.py:476-618 | the chain picks a kind iff its `is_*` test holds, and picks none iff no test holds |
| SrcEvent.AttributeKeysRead | src/melobot/models/event.py:476-544 | every key a branch takes the user, operator, group or message id from is among the keys that branch reads |
| SrcEvent.ReadAll | src/melobot/models/event.py:476-544 | reading a branch's keys in order succeeds iff every key is present, giving their values; KeyError otherwise |
| SrcEvent.FileOf | src/melobot/models/event.py:629-647 | KeyError without a file key, TypeError when the file is not a dict; otherwise succeeds iff name, size and either id and busid (group) or url (offline) are present, and carries those |
| SrcEvent.ClientOf | src/melobot/models/event.py:658-666 | succeeds iff online and the client's app_id, device_name and device_kind are present, and carries the online flag and the client's id, name and kind |
| SrcEvent.NoticeFields | src/melobot/models/event.py:476-544 | every kind without a file or client record builds; the event keeps the bot id and the repaired raw dict |
| SrcEvent.NoticeAttributes | src/melobot/models/event.py:476-544 | user, operator, group and message ids are read from the keys each kind's branch names (poke: the group id only when present); only uploads and offline files carry a file, only client changes a client |
| SrcEvent.NoticeInit | src/melobot/models/event.py:424-544 | on the repaired dict: KeyError when the type tests fail or a key the picked branch reads is missing; every kind without a nested record builds once its keys are present; a built event carries the bot id, the raw dict and the ids its branch reads |
| SrcEvent.NoticeWithoutType | src/melobot/models/event.py:476-478 | a notice without notice_type raises KeyError |
| SrcEvent.ResponseInit | src/melobot/models/event.py:739-745 | the status is the retcode (KeyError when missing); the id is the echo and the data the data field, each only when present and truthy |
| SrcEvent.OkFailedComplementary | src/melobot/models/event.py:747-757 | every response with a status field is exactly one of ok and failed |
| SrcEvent.Build | src/melobot/models/event.py:12-26 | per kind `Classify` picks on the intended raw dict: exactly `MessageOf`, `RequestInit`, `NoticeInit` or `ResponseInit` lifted into the event, their error propagated, or a meta event on the raw dict |
| MelobotEvent.BuildKind | melobot/models/event.py:40-57 | a text is parsed first and a dict used as it is; then classified by post_type exactly as the later builder does |
| MelobotEvent.ExactlyOneKind | melobot/models/event.py:33-37 | exactly one of the five `is_*` predicates holds for a built event, and a raw event without post_type is a response |
| MelobotEvent.CloseAt | melobot/models/event.py:112-127 | the first ']' at or after the position, provided no line break comes before it; None otherwise |
| MelobotEvent.StripCq | melobot/models/event.py:112-127 | every `[CQ:...]` code removed in one left-to-right scan; the result is never longer than the input |
| MelobotEvent.StripCqNoCode | melobot/models/event.py:112-127 | a text without "[CQ:" is unchanged |
| MelobotEvent.StripCqCode | melobot/models/event.py:112-127 | a code at the front, whose body has no ']' or line break, is dropped whole and the rest stripped |
| MelobotEvent.CqContent | melobot/models/event.py:129-136 | the raw content with the four CQ entities turned back; a non-string raises |
| MelobotEvent.GetText | melobot/models/event.py:112-127 | a CQ string has its codes removed and its entities turned back; a list gives the text of its text segments; anything else fails |
| MelobotEvent.SenderOf | melobot/models/event.py:192-231 | every sender field is read from the event with no fallback, the first missing one raising |
| MelobotEvent.MessageInit | melobot/models/event.py:85-110 | exactly the event `MelobotEvent.MessageOf` describes: id, raw content, content and font read as they are, text and CQ content derived, temporary source looked up, sender built and, for group messages only, group id read; the first failure propagates |
| MelobotEvent.MessageOf | melobot/models/event.py:85-110 | the steps of `_init` in source order, the first failing one raising its own error; once the fields, text and CQ content are read, a temporary-source error (TypeError for a list or dict, KeyError for an unknown code) is the result |
| MelobotEvent.SuccessIsNotOk | melobot/models/event.py:563-572 | as written (`IsOkAsWritten`), a response with OneBot retcode 0 is neither ok nor failed, and one with retcode 100 is not failed |
| MelobotEvent.Status | melobot/models/event.py:535-557 | retcode equal to 0 reads as 200, equal to 1 as 202 and anything else as 500; as in Python, false equals 0 and true equals 1 |
| MelobotEvent.ExactlyOneStatus | melobot/models/event.py:563-572 | with the status mapped, every response is exactly one of ok, processing and failed, and retcode 0 is ok |
| OneBot.ActionFrame | common/Action.py:147-156 | the frame holds "action" and "params" as given, "echo" exactly when one is given, and no other member |
| OneBot.EchoOf | common/Action.py:153-154 | an echo exactly for a response id that is present and not empty, and then that id |
| CqCode.EscChar | common/Encoder.py:6-13 | '&', '[', ']' and ',' become their entities and every other character stays itself |
| CqCode.EscapePlain | common/Encoder.py:6-13 | a text without any of the four special characters is its own escape |
| CqCode.EscapeIsEscAll | common/Encoder.py:6-13 | the four whole-text replacements, '&' first, equal rewriting each character on its own |
| CqCode.EscapeShape | common/Encoder.py:6-13 | an escaped text has no '[', ']' or ',', and every '&' in it starts one of the four entities |
| CqCode.EscapeKeepCommaShape | utils/botAction.py:48-52 | the string-mode escaping removes every '[' and ']' and keeps a ',' exactly when the text had one |
| CqCode.RoundTrip | common/Encoder.py:6-23 | un-escaping an escaped text gives the text back whenever it has no '&' |
| CqCode.EntityTextCollapses | common/Encoder.py:16-23 | with a '&' the round trip fails: "&#91;" escapes to "&amp;#91;", which un-escapes to "[" |
| CqCode.AntiEscapeNoAmp | common/Encoder.py:16-23 | a text without '&' is left unchanged by un-escaping |
| CqCode.CodeAt | common/Encoder.py:52 | the text starts with the opener, a non-empty run of digits and the closer, and the result is where the closer sits; this is what the face regexes match |
| CqCode.CodeAtExact | common/Encoder.py:52 | the opener, any digit string and the closer are recognised, and the digits read back unchanged |
| CommonEvent.TypeOf | common/Event.py:17-36 | the type is post_type, with "message_sent" read as "message", overridden by "response" whenever there is a retcode; None when neither key is there; a post_type without time raises KeyError |
| CommonEvent.KindOfType | common/Event.py:47-64 | each of the six types selects its info object; any other type raises ValueError, and a type never set raises AttributeError |
| CommonEvent.RetcodeForcesResponse | common/Event.py:34-35 | a frame with a retcode is a response whatever its post_type says |
| CommonEvent.FaceEncodePlain | common/Event.py:234-244 | a text without '[' holds no face code and is left unchanged by the face marking |
| CommonEvent.FaceDecodePlain | common/Event.py:237-248 | a text without '&' holds no mark and is left unchanged by the face restoring |
| CommonEvent.StrTextPlain | common/Event.py:240-248 | plain text without '[' and '&' comes out of the string pipeline unchanged |
| CommonEvent.EncodeFace | common/Event.py:234-236 | a face code with a canonical id becomes the hidden mark with that id |
| CommonEvent.DecodeMark | common/Event.py:237-238 | the hidden mark with an id becomes the face code with that id |
| CommonEvent.MarkUntouched | common/Event.py:242-247 | the mark holds no CQ code and no entity, so stripping and un-escaping leave it alone |
| CommonEvent.FaceCodeKept | common/Event.py:240-248 | a face code survives the string pipeline as it was written |
| CommonEvent.NoFaceSameText | common/Event.py:249-255 | without face segments the text of a segment list is that of the later generations: the text segments only |
| CommonEvent.GetText | common/Event.py:230-255 | a CQ string goes through mark, strip, un-escape and restore; a segment list collects its text segments and writes face segments back as face codes |
| CommonEvent.TempSrc | common/Event.py:218-219 | the mapped source whenever temp_source is present; TypeError for a list or dict, empty ones included, and KeyError for null, a string or a code the map lacks |
| CommonEvent.TempSourceZero | common/Event.py:218-219 | source 0 is found and names the group chat, unlike the truthiness test of the later generations |
| CommonEvent.MsgBuild | common/Event.py:203-228 | exactly the info object `CommonEvent.MsgOf` describes: the message fields in source order, the first failure raising; the group id only for group messages |
| CommonEvent.MsgOf | common/Event.py:203-228 | the steps of `__build` in source order, the first failing one raising its own error; once the fields and the text are read, a temporary-source error (TypeError for any list or dict, KeyError for an unknown key) is the result |
| CommonEvent.RespBuild | common/Event.py:670-682 | retcode equal to 0 (false included) gives status 200, equal to 1 (true included) gives 202, anything else 500; echo and data are kept when present |
| CommonEvent.Build | common/Event.py:17-18 | the frame is the dict itself or the object a JSON text parses to; a parse error propagates, a parsed non-object raises AttributeError and any other value TypeError; the event built keeps the frame as its raw dict, with the kind its type names and only that info object |
| CommonEvent.BuildFrame | common/Event.py:17-64 | an untyped frame raises KeyError; otherwise the info object of exactly the type the frame names; a message carries `MsgOf` of the frame, a response the mapped status, and a kernel event an origin that is None exactly when the frame's origin is null and otherwise the event built on the frame of that origin, whose errors propagate |
| CommonEvent.KernelEvent | common/Event.py:86-100 | a text origin is parsed first and its parse error propagates; the result is a kernel event whose origin is None exactly when the origin is None, and otherwise the event built on the origin's frame |
| CommonEvent.OtherInfoAnswersFalse | common/Event.py:66-84 | a built event has exactly one type; the predicates of the other info objects answer False and the response predicates None |
| CommonEvent.RespExclusive | common/Event.py:688-710 | a response is exactly one of ok, processing and failed, ok iff retcode equals 0 and processing iff it equals 1 |
| CommonEncoder.ZipFlat | common/Encoder.py:62 | as long as twice the longer input, the even places from the first and the odd from the second, padded with the fill value |
| CommonEncoder.ZipFlatAt | common/Encoder.py:62 | element 2i is the first input's i-th (or the fill) and element 2i+1 the second's |
| CommonEncoder.TextMsg | common/Encoder.py:26-63 | a text without "[CQ:face" is a single text segment; otherwise a list of an even number of at least two segments |
| CommonEncoder.ScanFaces | common/Encoder.py:52 | the text pieces between face codes and the face ids, one more piece than ids, every id a digit string |
| CommonEncoder.StripFaces | common/Encoder.py:52 | the text with every face code deleted, never longer than the input |
| CommonEncoder.SplitAtMarks | common/Encoder.py:52-61 | in a text without '&' the only marks are those of the faces, so splitting at them gives the pieces between faces |
| CommonEncoder.FaceTextShape | common/Encoder.py:26-63 | for a text with n face codes and no '&': 2n+2 segments alternating text and face, the faces in written order, the last an empty text, and the texts joined are the text without its faces |
| CommonEncoder.Face | common/Encoder.py:65-77 | a face segment whose id is the decimal string that reads back as the id |
| CommonEncoder.Record | common/Encoder.py:79-96 | the file always, "magic" only when asked for and "timeout" only for a non-zero timeout, as its decimal string |
| CommonEncoder.At | common/Encoder.py:98-114 | the qq always and the name only when one is given |
| CommonEncoder.WithCard | common/Encoder.py:116-136 | the given data plus "content" and "image" each only when given, and every given key kept |
| CommonEncoder.Share | common/Encoder.py:116-136 | url and title always, content and image only when given |
| CommonEncoder.Music | common/Encoder.py:138-152 | a music segment holding exactly the platform type and the song id |
| CommonEncoder.CustomMusic | common/Encoder.py:154-177 | a music card of type "custom" with url, audio and title, content and image only when given |
| CommonEncoder.Image | common/Encoder.py:179-201 | the file always, the type only when given, and the cache flag whenever it is not 0 |
| CommonEncoder.ImageCachedByDefault | common/Encoder.py:179-201 | with the default arguments the segment is the file and cache 1 |
| CommonAction.MakeAction | common/Action.py:131-146 | the action keeps the pack's name and params and has a response id exactly when its response is waited for |
| CommonAction.Extract | common/Action.py:147-156 | the frame has the action name and params, and an echo exactly for a non-empty response id |
| CommonAction.EchoIffWaited | common/Action.py:131-156 | an action's frame carries an echo exactly when its response is waited for |
| CommonAction.FlatOneAppend | common/Action.py:209-216 | flattening one level distributes over concatenation |
| CommonAction.FlatOneNoLists | common/Action.py:209-216 | content with no list in it is already flat |
| CommonAction.Flatten | common/Action.py:209-216 | the loop over a list of content collects exactly its one-level flattening |
| CommonAction.Normalise | common/Action.py:203-218 | a string becomes one text segment, a dict one segment, a list its flattened segments; any other content gives nothing |
| CommonAction.MsgPack | common/Action.py:165-191 | a send_msg pack with the message type, the user and the segments, and a group id exactly for a group message |
| CommonAction.MsgAction | common/Action.py:192-227 | content of another type raises BotUnexpectFormat; otherwise the action of the message pack of the normalised content |
| CommonAction.ListContentOrder | common/Action.py:209-216 | segments given as a list of lists come out in the same order, one level down |
| CommonAction.ForwardMsgPack | common/Action.py:228-252 | the private or group forward action, addressed by user or by group and holding the nodes |
| CommonAction.CustomMsgNode | common/Action.py:253-286 | a node with the sender's name, the id as a decimal string, the normalised content and "seq" only when given; content of another type leaves the message unbound (UnboundLocalError) |
| CommonAction.UinReadsBack | common/Action.py:253-286 | the node's decimal sender id reads back as the id |
| CommonAction.ReferMsgNode | common/Action.py:287-297 | a node holding only the message id, as its decimal string |
| CommonAction.UploadFilePack | common/Action.py:1376-1405 | the private upload addresses a user; the group upload a group and carries the folder |
| CommonAction.SetGroupAddPack | common/Action.py:839-858 | flag, sub type and approval always, the reason only when given |
| CommonAction.SetGroupNoticePack | common/Action.py:1745-1762 | group and content always, the image only when given |
| CommonAction.SetGroupEssencePack | common/Action.py:1916-1933 | "add" sets an essence message and anything else deletes one, the params being the message id only |
| CommonAction.RecordCheckAsksImage | common/Action.py:1239-1247 | as written (`CheckSendRecordPackAsWritten`), the record check is the image check |
| CommonAction.CheckSendRecordPack | common/Action.py:1239-1247 | the record check asks OneBot's `can_send_record` with no params |
| CommonAction.RecordCheckDistinct | common/Action.py:1239-1247 | the corrected record check is a different action from the image check |
| TypesModels.GetArgs | melobot/types/models.py:14-17 | -1 before any store and for a parser id never stored; otherwise the stored argument group |
| TypesModels.StoreThenGet | melobot/types/models.py:14-22 | after storing a group under a parser id, `_get_args` of that id is the group, other ids are unaffected, and a second store overwrites |
| TypesModels.BotEvent.StoreArgsOf | melobot/types/models.py:19-22 | the argument map is created on first use and the group stored without a duplicate check, so `_get_args` then reads it |
| TypesModels.TypePredicates | melobot/types/models.py:29-33 | each predicate holds exactly for its type string, and at most one of them holds |
| TypesModels.IEventHandler.constructor | melobot/types/models.py:37-44 | priority, timeout, blocking and temporariness as given, and the handler starts valid |
| Json.Index | common/Event.py:219 | `raw[key]` is the member when the dict has it, KeyError when it lacks it, TypeError when the value is not a dict |
| Text.IntStrRoundTrip | common/Action.py:253-286 | reading back the decimal text of any integer gives that integer |
| Text.Split | common/Encoder.py:61 | at least one piece: the text pieces between the non-overlapping occurrences of a non-empty separator, found left to right |
| Text.SplitJoin | common/Encoder.py:61 | joining the pieces with the separator gives the text back |
| Text.SplitPiecesFree | common/Encoder.py:61 | no piece contains the separator |
| Text.SplitOfJoin | common/Encoder.py:61 | splitting the join of pieces free of a one-character separator gives the pieces back |
| Store.GlobalMeta.SetAttr | bot/common/Store.py:47-51 | only `working_status` may be assigned; any other name raises PermissionError and leaves the record unchanged |
| Store.StoredAgreement | bot/common/Store.py:208-211 | the as-written and awaited results agree exactly for a plain loader, a raising one (both raise the same exception), or a coroutine that awaits to itself |
| Store.AsyncLoaderKeepsCoroutine | bot/common/Store.py:208-211 | an async loader whose coroutine awaits to 42 leaves the coroutine object stored as written, and 42 as intended |
| Store.SetInfo | bot/common/Store.py:156-160 | assigning `crt_time` or `type` raises PermissionError; every other attribute is assigned and creation time and type are kept |
| Store.NewResource | bot/common/Store.py:162-165 | a node without a value is a "class" node, one with a value a "resource" node, not yet loaded or disposed, with no children |
| Store.Find | bot/common/Store.py:167-177 | the position of the first child with the name, None iff there is none |
| Store.FindAppend | bot/common/Store.py:171-175 | appending a child leaves every earlier lookup alone and makes the new name findable at the end |
| Store.FindReplace | bot/common/Store.py:171-175 | replacing a child keeps every lookup of another name |
| Store.GetAttr | bot/common/Store.py:167-169 | reading a child by name gives an empty "class" node stored under that name, replacing any child there |
| Store.SetAttr | bot/common/Store.py:171-177 | a value that is not a resource node, or the name `_info`, raises ValueError with nothing changed; an existing child is replaced in place and a new one added last |
| Store.CountResources | bot/common/Store.py:191-202 | a "resource" node counts 1; a "class" node counts the sum over its children, computed by the loop |
| Store.EmptyClassCountsZero | bot/common/Store.py:191-202 | an empty "class" node counts no resources |
| Store.NumFromAppend | bot/common/Store.py:191-202 | the count of a "class" node with one more child is the old count plus that child's |
| Store.GetAttrKeepsNum | bot/common/Store.py:167-202 | reading an absent child never changes how many resources a node counts |
| Store.SetAttrAddsNum | bot/common/Store.py:171-202 | assigning a new child to a "class" node adds that child's count |
| Store.Val | bot/common/Store.py:239-245 | a given value is stored and returned; without one the stored value is returned unchanged |
| Store.LoadNodeAsWritten | bot/common/Store.py:204-214 | raises exactly when a node not yet loaded has a raising loader, the node staying unloaded; otherwise the node ends loaded, and as written an async loader leaves its coroutine object stored (exhibited by `LoadNodeDiffers`) |
| Store.LoadNode | bot/common/Store.py:204-214 | a loaded node is left alone; a node not yet loaded calls its loader, if any: a raising loader propagates its exception and the node stays unloaded, otherwise it stores what the loader awaits to and becomes a loaded "resource" node |
| Store.LoadNodeDiffers | bot/common/Store.py:208-211 | the as-written and intended load steps differ only for an async loader whose coroutine does not await to itself |
| Store.DisposeNode | bot/common/Store.py:222-233 | a disposed node is left alone; a node not yet disposed calls its disposer, if any: a raising disposer propagates its exception and the node stays undisposed with its value, otherwise the value is dropped; without a disposer the value stays; either way the node ends disposed |
| Store.Walk | bot/common/Store.py:216-237 | a node step applied to the node and then recursively to every child, in order; a step that raises leaves its node unchanged and stops the walk with that exception, keeping the children not yet reached |
| Store.WalkEstablishes | bot/common/Store.py:216-237 | after a walk that raises nothing, every node is in a state the step always produces when it succeeds |
| Store.WalkFails | bot/common/Store.py:216-237 | when the step raises only on nodes without a property, a walk that raises leaves some node without it |
| Store.WalkFixes | bot/common/Store.py:216-237 | a walk whose step fixes every node with a property changes nothing and raises nothing in a tree where every node has it |
| Store.WalkTwice | bot/common/Store.py:216-237 | when a successful step is idempotent, walking the result of a walk again gives the same tree and the same exception, if any |
| Store.LoadAllOnce | bot/common/Store.py:204-220 | a `load_all` that raises nothing leaves every node loaded, and one that raises leaves some node unloaded; a second `load_all` gives the same tree and outcome, so after success it calls no loader, and after a failure the raising loader is called again and raises again |
| Store.DisposeAllOnce | bot/common/Store.py:222-237 | a `dispose_all` that raises nothing leaves every node disposed, and one that raises leaves some node undisposed; a second `dispose_all` gives the same tree and outcome, so after success it calls no disposer, and after a failure the raising disposer is called again and raises again |
| Store.LoadAllMarksResources | bot/common/Store.py:204-214 | a `load_all` that raises nothing leaves every node loaded; a root waiting on a loader that does not raise becomes a "resource" node, and one whose loader raises makes `load_all` raise that exception with the tree unchanged |
| Store.ComposeFields | bot/common/Store.py:292-293 | the sequence, worker, datacenter and timestamp fields read back out of an id by shifting and masking |
| Store.ComposeMonotone | bot/common/Store.py:292-293 | a later timestamp, or a larger sequence in the same millisecond, gives a larger id |
| Store.IdWorker.GetId | bot/common/Store.py:276-304 | a clock reading before the last raises ValueError with nothing changed; in the same millisecond the 12-bit sequence advances and on wrap-around the next later reading is taken; a new millisecond resets the sequence; every id exceeds the previous one |
| Store.NewIdWorker | bot/common/Store.py:252-268 | a worker id outside 0..7 or a datacenter id outside 0..31 raises ValueError; otherwise a fresh worker with those ids that has issued no id |
| Store.TwoIds | test/base/IdWorker.py:33-51 | two successful calls in a row at non-decreasing readings give increasing ids |
| ModelsResource.BotResource.LoadAsWritten | melobot/models/resource.py:40-52 | calls the loader exactly when not yet loaded and there is one; a raising loader propagates, leaving the resource unloaded and its value as before; otherwise the resource ends loaded, and as written an async loader's coroutine object is what is stored |
| ModelsResource.BotResource.Load | melobot/models/resource.py:40-52 | calls the loader exactly when not yet loaded and there is one; a raising loader propagates, leaving the resource unloaded and its value as before; otherwise the resource ends loaded, storing what the loader awaits to; without a loader the value stays |
| ModelsResource.BotResource.Dispose | melobot/models/resource.py:54-67 | calls the disposer exactly when not yet disposed and there is one; a raising disposer propagates, leaving the resource undisposed and its value as before; otherwise the value becomes None and the resource is disposed; a disposed resource is left alone |
| ModelsResource.BotResource.LoadTwice | melobot/models/resource.py:40-52 | after a first call that succeeds the second calls no loader and succeeds, the awaited value stored; after a first call that raises the resource is still unloaded, so the second calls the loader again and raises the same exception |
| ModelsResource.BotResource.DisposeTwice | melobot/models/resource.py:54-67 | after a first call that succeeds the second calls no disposer and the value is None; after a first call that raises the resource is still undisposed, so the second calls the disposer again and raises the same exception |
| Definition.ErrText | utils/Definition.py:79-85 | the text is the class name in brackets, a space and the message, and it starts with the bracketed class name |
| Definition.ErrTextInjective | utils/Definition.py:79-85 | for one exception class, different messages give different texts |
| Config.Fill | common/Config.py:113-122 | every default section and item is present, a value the user gave is kept, and sections and items the defaults do not know survive |
| Config.FillIdempotent | common/Config.py:113-122 | filling a filled table changes nothing |
| Config.FillItems | common/Config.py:119-122 | the inner loop copies in every default item missing from the section, the user's items winning |
| Config.FillSection | common/Config.py:117-122 | one section is created empty when missing and then topped up from its defaults |
| Config.FillSections | common/Config.py:117-122 | the outer loop over the default sections leaves the table `Fill` describes |
| Config.ConfigManager.FillDefaults | utils/config.py:109-118 | the configuration becomes the filled table, in either generation of the code (also common/Config.py:113-122) |
| Config.ConfigManager.ProcessConfig | common/Config.py:124-129 | a working time of at most 0 becomes None and any other value is kept; a missing section or item raises KeyError, and a value that cannot be compared with 0 raises TypeError |
| Config.ConfigManager.ProcessTwice | common/Config.py:124-129 | processing twice fails with TypeError on a working time the first call cleared |
| Monitor.SplitTime | core/Monitor.py:138-142 | days, hours below 24, minutes and seconds below 60 that add back up to the elapsed seconds |
| Monitor.SplitTimeUnique | core/Monitor.py:138-142 | no other split within the same bounds adds up to the same time |
| Monitor.LeadingZero | core/Monitor.py:135-136 | a leading zero does not change a digit string's value |
| Monitor.Pad | core/Monitor.py:135-136 | a number below 10 gets a '0' in front; a non-negative number gives at least two digits that read back as it |
| Monitor.RunningTimeReadBack | core/Monitor.py:131-144 | the running-time string is days, hours, minutes and seconds joined by ':', the last three two digits each, and the four fields read back add up to the elapsed seconds |
| Monitor.FieldsReadBack | core/Monitor.py:135-144 | any four fields within their bounds, padded and joined by ':', read back as their total in seconds |
| Monitor.BotMonitor.HoldCoros | core/Monitor.py:43-48 | the coroutines are appended in argument order after the ones already held |

## Left out

**Runtime plumbing.** The websocket linkers, queues and process lifecycle
(`start_tasks`, `run_bot`, `stop_bot`) are not modelled. Neither are
logging, importlib plugin loading, or ContextVar session and plugin
proxies.
- An `await`, an asyncio task, a lock or a timeout is a step boundary whose
  outcome is an input; a Future is a pending or resolved entry.
- Logging calls appear only as steps in the traces some methods return.

**Clocks and randomness.** Clocks and `time.time()` are parameters, and
the floating-point creation times are integers.
- The id worker's busy-wait is the reading `next`, assumed later than
  `now`.
- `Monitor.RunningTime` takes the elapsed whole seconds.
- The root path of `GlobalMeta` is a parameter.

**Engines outside the model.**
- Regular expressions are not modelled. Command splitting is
  literal-token splitting, leftmost match first. RegexMatcher,
  TimeCmdParser (local time) and the regex side of FuzzyCmdParser are
  left out.
- The `float(v)` coercion of `_format_to_array` is left out; only the
  integer coercion is modelled.
- JSON and TOML parsing and file I/O of the configuration are left out.
  A configuration value that is not a table, and a floating-point
  WORKING_TIME, are not modelled.
- `CommonEvent.Build`: `json.loads` is the parameter `parse`. Of the
  parser the model asks only that a text holds fewer nested origin events
  than it has characters. An origin that is already a `BotEvent` object,
  which `Kernel.__build` keeps as it is, is not modelled; origins are
  JSON values.

- `SrcEvent.Coerce`: digits are the ASCII digits. Python's `str.isdigit`
  also accepts other Unicode digits, which `int` reads (an Arabic-Indic
  three is 3), and superscripts, on which `int` raises ValueError; neither
  is modelled.
- `CqCode.CodeAt`: the `\d` of the face patterns matches ASCII digits only;
  Python's `\d` also matches other Unicode decimal digits.
- `CommonEncoder.TextMsg`: the face-code split relies on `CqCode.CodeAt`
  and matches ASCII digits only.
- `CommonEvent.EncodeFace`: the face marking in `GetText` recognises ASCII
  digit ids only.

**Event fields.**
- The field extraction of `Notice.__build` and `Meta.__build` in
  common/Event.py is not modelled; those info objects keep the raw frame.
- `SrcEvent.NoticeInit`: an attribute that a branch of `NoticeEvent._init`
  does not assign is None here, where Python leaves it unset and reading it
  raises AttributeError.

**Actions and encoding.**
- Of the many `*Pack` classes of common/Action.py, the ones listed in the
  table are modelled; the remaining ones set a constant type and copy
  their arguments.
- The CQEncoder builders of utils/actInterface.py other than `text` are
  the same code as those of utils/botAction.py. The packers and `build`
  are modelled once, in `BotActions`.
- utils/Action.py is not part of this model. `Interface.AddPrefix`
  assumes its `extract` hands back the action's own params dict.
- `CommonEncoder.FaceTextShape` is proved for texts without '&'. With a
  '&' the marker `&pos;` may also occur in the user's text.

**Sessions and resources.**
- Aliasing of message lists beyond the shared params dict is not captured.
- `BotResource` in bot/common/Store.py is modelled as a value tree:
  - no node is shared between two parents, and there are no cycles;
  - looking up the class's own members by name is not modelled.

- `Dispatcher.BotDispatcher.Dispatch`: the evoke oracle always answers.
  A handler whose `evoke` raises (a checker raising in `_verify`, say)
  ends the pass, and the exception escapes `dispatch`; that path is not
  modelled.

**Commands.**
- `Executor`: the command run is the oracle `cmdRaises`. The
  authorization check `__cmd_auth_check`, the cool-down intervals and the
  echo text of `sys_call` are not modelled.
- The lock pre-creation in `__after_loop_init` is not modelled.
- `get_cmd_aliases` of utils/Interface.py is the same code as
  bot/core/Executor.py's and is modelled once, in `Executor`.
- `CmdParser.Format`: what the formatters do to the values is not
  modelled; their statuses are an input.
- `TokenSplit`: an empty start or separator token matches nowhere.
- The united single-mode order of the exact parser (a set) is a
  parameter.

**Code modelled in one place.**
- utils/botEvent.py is not part of this model.
- The IdWorker classes of utils/Definition.py and test/base/IdWorker.py
  issue ids as bot/common/Store.py's does, which `Store` models. They
  differ in one way that is not modelled: both inherit a `Singleton`
  base (utils/Definition.py:4-11, and the one test/base/IdWorker.py:2
  imports). Every `IdWorker(...)` call gives back the
  one shared instance and runs `__init__` on it again, resetting its
  sequence and last timestamp.

## Findings

| source | as written | input that shows it | evidently intended | confidence | as-written member | corrected member |
|---|---|---|---|---|---|---|
| src/melobot/plugin/ipc.py:74 | `obj.__cb_set` inside PluginStore is name-mangled to `_PluginStore__cb_set`, which no ShareObject has | any `bind_cb` on an existing object raises AttributeError | refuse only a second binding, bind otherwise | not executed | Ipc.PluginStore.BindCbAsWritten | Ipc.PluginStore.BindCb |
| src/melobot/models/event.py:13-16 | `raw` is assigned only when the input is a string | `build({"post_type": "message", ...})` raises UnboundLocalError | a dict is used as it is | not executed | SrcEvent.RawOfAsWritten (shown by SrcEvent.DictInputNeverBuilds) | SrcEvent.RawOf |
| melobot/models/event.py:535-572 | `is_ok`, `is_processing` and `is_failed` compare the raw retcode with 200, 202 and 500 | a response with retcode 0, OneBot's success, is neither ok nor failed | map retcode 0/1/other to 200/202/500 first, as common/Event.py:675-676 does | not executed | MelobotEvent.IsOkAsWritten (shown by MelobotEvent.SuccessIsNotOk) | MelobotEvent.Status (proved by MelobotEvent.ExactlyOneStatus) |
| common/Action.py:1239-1247 | CheckSendRecordPack sends `can_send_image` | asking whether a record can be sent asks about images | `can_send_record` | not executed | CommonAction.CheckSendRecordPackAsWritten (shown by CommonAction.RecordCheckAsksImage) | CommonAction.CheckSendRecordPack (proved by CommonAction.RecordCheckDistinct) |
| utils/botAction.py:119 | `',name={notInName}'` lacks the `f` prefix | `at(qq, "alice")` and `at(qq, "bob")` give the same text, the literal `{notInName}` | the name interpolated | not executed | BotActions.AtStrAsWritten (shown by BotActions.AtNameLost) | BotActions.AtStr (proved by BotActions.AtNameKept) |
| utils/botAction.py:514 | the forward packer tests the attribute `gruop_id` | a group poke notice is forwarded to the user privately | test `group_id` | not executed | BotActions.ForwardSendPacker.PackAsWritten (shown by BotActions.ForwardPokeGoesPrivate) | BotActions.ForwardSendPacker.Pack (proved by BotActions.PokeGoesToGroup) |
| utils/actInterface.py:339 | the chained comparison `post_type == 'message' in keys` also demands a "message" key | a group message frame without a "message" key raises BotUnexpectedEvent | test only post_type and message_type | not executed | ActInterface.RouteAsWritten (shown by ActInterface.GroupFrameNeedsMessageKey) | ActInterface.Route (proved by ActInterface.RouteMessages) |
| utils/cmdParser.py:168-170 | `all(s in matches for s in condition)` iterates the characters of the joined pattern | condition `["hi"]` on text "hi" is rejected, since "h" is not a match | iterate the keywords | not executed | ExactCmdParser.FuzzyMultiAsWritten (shown by ExactCmdParser.FuzzyMultiMissesKeyword) | ExactCmdParser.FuzzyMulti (proved by ExactCmdParser.FuzzyMultiFindsKeyword) |
| melobot/utils/matcher.py:44 | `text[-len(t):-1]` drops the last character | target "bye" does not match text "goodbye"; no non-empty target ever matches | `text.endswith(t)` | not executed | Matcher.EndMatchAsWritten (shown by Matcher.EndNeverMatches, Matcher.EndMissesSuffix) | Matcher.EndMatch |
| bot/common/Store.py:208-211 | the loader's result is awaited but the result itself, a coroutine object, is stored | an async loader returning 42 leaves a coroutine stored | store the awaited value | not executed | Store.LoadNodeAsWritten (shown by Store.AsyncLoaderKeepsCoroutine) | Store.LoadNode (proved by Store.LoadAllOnce) |
| melobot/models/resource.py:45-49 | the same: the coroutine object is stored | an async loader returning 42 leaves a coroutine stored | store the awaited value | not executed | ModelsResource.BotResource.LoadAsWritten | ModelsResource.BotResource.Load (proved by ModelsResource.BotResource.LoadTwice) |

=== FILE: abc.dfy ===
/**
 * Flag stores, argument maps, actions and the checker/matcher algebra of
 * src/melobot/base/abc.py.
 */
module BaseAbc {
  import opened Wrap
  import opened Json
  import opened Logic
  import OneBot

  // ---------------------------------------------------------------------
  // Flagable: namespaced marks that can be added once and never removed.
  // ---------------------------------------------------------------------

  /** `_flags_store`: None until the first mark, then namespace -> flag name -> value. */
  type FlagStore<V> = Option<map<string, map<string, Option<V>>>>

  /** The store after `mark`, and whether it raised TryFlagFailed. */
  datatype Marked<V> = Marked(store: FlagStore<V>, raised: bool)

  /** `mark`: the store and the namespace are created lazily before the duplicate test. */
  function MarkStore<V>(s: FlagStore<V>, namespace: string, flagName: string, val: Option<V>): Marked<V> {
    var s1 := if s.None? then map[] else s.value;
    var s2 := if namespace !in s1 then s1[namespace := map[]] else s1;
    if flagName in s2[namespace] then Marked(Some(s2), true)
    else Marked(Some(s2[namespace := s2[namespace][flagName := val]]), false)
  }

  /** `flag_check`: `flag is None` when `val` is None, `flag == val` otherwise. */
  predicate CheckStore<V(==)>(s: FlagStore<V>, namespace: string, flagName: string, val: Option<V>) {
    s.Some? && namespace in s.value && flagName in s.value[namespace] && s.value[namespace][flagName] == val
  }

  /** Whether (namespace, flag name) already carries a mark. */
  predicate IsMarked<V>(s: FlagStore<V>, namespace: string, flagName: string) {
    s.Some? && namespace in s.value && flagName in s.value[namespace]
  }

  /** A mark succeeds iff the name is not yet marked; a failed mark leaves the store as it was. */
  lemma MarkOutcome<V>(s: FlagStore<V>, namespace: string, flagName: string, val: Option<V>)
    ensures MarkStore(s, namespace, flagName, val).raised <==> IsMarked(s, namespace, flagName)
    ensures MarkStore(s, namespace, flagName, val).raised ==> MarkStore(s, namespace, flagName, val).store == s
  {
  }

  /** After a successful mark the flag checks against the marked value; a second mark of it raises. */
  lemma {:induction false} MarkThenCheck<V>(s: FlagStore<V>, namespace: string, flagName: string, val: Option<V>, other: Option<V>)
    requires !IsMarked(s, namespace, flagName)
    ensures CheckStore(MarkStore(s, namespace, flagName, val).store, namespace, flagName, val)
    ensures CheckStore(MarkStore(s, namespace, flagName, val).store, namespace, flagName, other) <==> other == val
    ensures MarkStore(MarkStore(s, namespace, flagName, val).store, namespace, flagName, other).raised
  {
    var m := MarkStore(s, namespace, flagName, val).store;
    assert m.value[namespace][flagName] == val;
  }

  /** Marks under another name or namespace neither conflict nor change what other checks answer. */
  lemma {:induction false} MarkIndependent<V>(s: FlagStore<V>, ns: string, name: string, val: Option<V>, ns2: string, name2: string, val2: Option<V>)
    requires ns != ns2 || name != name2
    ensures CheckStore(MarkStore(s, ns, name, val).store, ns2, name2, val2) <==> CheckStore(s, ns2, name2, val2)
    ensures IsMarked(MarkStore(s, ns, name, val).store, ns2, name2) <==> IsMarked(s, ns2, name2)
  {
    var s1 := if s.None? then map[] else s.value;
    var s2 := if ns !in s1 then s1[ns := map[]] else s1;
    if ns == ns2 && ns !in s1 {
      assert !IsMarked(s, ns2, name2);
    }
  }

  /** An object that carries marks (`Flagable`). */
  class Flagable<V(==)> {
    var store: FlagStore<V>

    constructor ()
      ensures store == None
    {
      store := None;
    }

    /** `mark`: adds the flag, or raises TryFlagFailed when it is already there. */
    method Mark(namespace: string, flagName: string, val: Option<V>) returns (r: Result<()>)
      modifies this
      ensures store == MarkStore(old(store), namespace, flagName, val).store
      ensures r.Err? <==> MarkStore(old(store), namespace, flagName, val).raised
      ensures r.Err? ==> r.error == TryFlagFailed
    {
      if store.None? {
        store := Some(map[]);
      }
      if namespace !in store.value {
        store := Some(store.value[namespace := map[]]);
      }
      if flagName in store.value[namespace] {
        return Err(TryFlagFailed);
      }
      store := Some(store.value[namespace := store.value[namespace][flagName := val]]);
      r := Ok(());
    }

    /** `flag_check`. */
    predicate FlagCheck(namespace: string, flagName: string, val: Option<V>)
      reads this
    {
      CheckStore(store, namespace, flagName, val)
    }
  }

  // ---------------------------------------------------------------------
  // BotEvent: event type predicates and the per-parser argument map.
  // ---------------------------------------------------------------------

  /** What `_get_args` returns: the stored group, or `Void` when nothing was stored. */
  datatype Lookup<A> = Void | Found(value: A)

  /** `_get_args` on the argument map. */
  function GetArgs<K, A>(m: Option<map<K, A>>, parserId: K): Lookup<A> {
    if m.None? then Void else if parserId in m.value then Found(m.value[parserId]) else Void
  }

  /** `_store_args`: lazily creates the map, then overwrites the entry. */
  function StoreArgs<K, A>(m: Option<map<K, A>>, parserId: K, group: A): Option<map<K, A>> {
    Some((if m.None? then map[] else m.value)[parserId := group])
  }

  /** Storing then reading gives back the stored group; other parser ids are unaffected; a second store overwrites. */
  lemma StoreThenGet<K, A>(m: Option<map<K, A>>, parserId: K, group: A, other: K, group2: A)
    ensures GetArgs(StoreArgs(m, parserId, group), parserId) == Found(group)
    ensures other != parserId ==> GetArgs(StoreArgs(m, parserId, group), other) == GetArgs(m, other)
    ensures StoreArgs(StoreArgs(m, parserId, group), parserId, group2) == StoreArgs(m, parserId, group2)
    ensures GetArgs<K, A>(None, parserId) == Void
  {
    var base := if m.None? then map[] else m.value;
    assert base[parserId := group][parserId := group2] == base[parserId := group2];
  }

  /** The fields of `BotEvent` the core reads and writes. */
  class BotEvent {
    /** The `type` property. */
    const eventType: string
    /** `raw`, the undecoded event. */
    const raw: Value
    var argsMap: Option<map<nat, Option<map<string, ParseArgs>>>>
    const flags: Flagable<Value>

    constructor (eventType: string, raw: Value)
      ensures this.eventType == eventType && this.raw == raw && argsMap == None
      ensures fresh(flags) && flags.store == None
    {
      this.eventType := eventType;
      this.raw := raw;
      argsMap := None;
      flags := new Flagable();
    }

    predicate IsMsgEvent() { eventType == "message" }
    predicate IsReqEvent() { eventType == "request" }
    predicate IsNoticeEvent() { eventType == "notice" }
    predicate IsMetaEvent() { eventType == "meta" }
    predicate IsRespEvent() { eventType == "response" }

    /** At most one of the type predicates holds. */
    lemma TypePredicatesExclusive()
      ensures (if IsMsgEvent() then 1 else 0) + (if IsReqEvent() then 1 else 0) + (if IsNoticeEvent() then 1 else 0)
        + (if IsMetaEvent() then 1 else 0) + (if IsRespEvent() then 1 else 0) <= 1
    {
    }

    function GetArgsOf(parserId: nat): Lookup<Option<map<string, ParseArgs>>>
      reads this
    {
      GetArgs(argsMap, parserId)
    }

    method StoreArgsOf(parserId: nat, group: Option<map<string, ParseArgs>>)
      modifies this
      ensures argsMap == StoreArgs(old(argsMap), parserId, group)
    {
      if argsMap.None? {
        argsMap := Some(map[]);
      }
      argsMap := Some(argsMap.value[parserId := group]);
    }
  }

  // ---------------------------------------------------------------------
  // BotAction: the one-shot trigger and the OneBot action frame.
  // ---------------------------------------------------------------------

  class BotAction {
    var respId: Option<string>
    var actionType: string
    var params: Value
    /** The identity of the triggering event, if recorded. */
    var trigger: Option<nat>
    var ready: bool
    const flags: Flagable<Value>

    constructor (actionType: string, params: Value, respId: Option<string>, trigger: Option<nat>, ready: bool)
      ensures this.actionType == actionType && this.params == params && this.respId == respId
      ensures this.trigger == trigger && this.ready == ready
      ensures fresh(flags) && flags.store == None
    {
      this.respId := respId;
      this.actionType := actionType;
      this.params := params;
      this.trigger := trigger;
      this.ready := ready;
      flags := new Flagable();
    }

    /** `extract`: the action frame; `echo` is present iff the response id is truthy. */
    function Extract(): (f: Value)
      reads this
      ensures f.Dict? && "action" in f.fields && "params" in f.fields
      ensures f.fields["action"] == Str(actionType) && f.fields["params"] == params
      ensures "echo" in f.fields <==> respId.Some? && respId.value != ""
      ensures "echo" in f.fields ==> f.fields["echo"] == Str(respId.value)
      ensures forall k :: k in f.fields ==> k in {"action", "params", "echo"}
    {
      OneBot.ActionFrame(actionType, params, OneBot.EchoOf(respId))
    }

    /** `_fill_trigger`: records the event once; a second call raises BotActionError and keeps the first. */
    method FillTrigger(event: nat) returns (r: Result<()>)
      modifies this`trigger
      ensures old(trigger).None? ==> r == Ok(()) && trigger == Some(event)
      ensures old(trigger).Some? ==> r == Err(BotActionError) && trigger == old(trigger)
    {
      if trigger.None? {
        trigger := Some(event);
        return Ok(());
      }
      return Err(BotActionError);
    }
  }

  // ---------------------------------------------------------------------
  // Checker and matcher trees built with & | ^ ~.
  // ---------------------------------------------------------------------

  /** Object identity of a checker or matcher. */
  type NodeId = nat

  /** A leaf is a user-defined checker (or matcher); an inner node is a `WrappedChecker` (or `WrappedMatcher`). */
  datatype Tree = Leaf(id: NodeId) | Wrapped(id: NodeId, mode: LogicMode, c1: Tree, c2: Option<Tree>)

  /** The right operand of `&`, `|` or `^`: a checker (matcher) or any other object. */
  datatype Operand = Pred(tree: Tree) | NotAPredicate

  /** Which family an operator belongs to; it decides the error a bad operand raises. */
  datatype Family = CheckerFamily | MatcherFamily

  function OperandError(fam: Family): Exc {
    if fam == CheckerFamily then BotCheckerError else BotMatcherError
  }

  /** `__and__`, `__or__`, `__xor__`: a non-predicate operand raises; otherwise a new node with the new node's identity. */
  function Combine(fam: Family, mode: LogicMode, left: Tree, other: Operand, newId: NodeId): (r: Result<Tree>)
    requires mode != NOT
    ensures other.NotAPredicate? <==> r.Err?
    ensures r.Err? ==> r.error == OperandError(fam)
    ensures r.Ok? ==>
      r.value.Wrapped? && r.value.id == newId && r.value.mode == mode && r.value.c1 == left && r.value.c2 == Some(other.tree)
  {
    if other.NotAPredicate? then Err(OperandError(fam)) else Ok(Wrapped(newId, mode, left, Some(other.tree)))
  }

  /** `__invert__`: a NOT node with no second child. */
  function Invert(left: Tree, newId: NodeId): (r: Tree)
    ensures r.Wrapped? && r.mode == NOT && r.c1 == left && r.c2.None?
  {
    Wrapped(newId, NOT, left, None)
  }

  /** `check` / `match`: `calc(mode, left, right-or-None)`, leaves answered by `leaf`. */
  function Eval(t: Tree, leaf: NodeId -> bool): bool {
    match t
    case Leaf(id) => leaf(id)
    case Wrapped(_, mode, c1, c2) =>
      Calc(mode, Eval(c1, leaf), if c2.Some? then Some(Eval(c2.value, leaf)) else None)
  }

  /** The leaf predicates a check runs, in order: both children always run, whatever the first answered. */
  function Calls(t: Tree): seq<NodeId> {
    match t
    case Leaf(id) => [id]
    case Wrapped(_, _, c1, c2) => Calls(c1) + (if c2.Some? then Calls(c2.value) else [])
  }

  /** What the operators mean: & is conjunction, | disjunction, ^ exclusive or, ~ negation, and no operand is skipped. */
  lemma CombineMeaning(fam: Family, mode: LogicMode, a: Tree, b: Tree, newId: NodeId, leaf: NodeId -> bool)
    requires mode != NOT
    ensures Combine(fam, mode, a, Pred(b), newId).Ok?
    ensures mode == AND ==> Eval(Combine(fam, mode, a, Pred(b), newId).value, leaf) == (Eval(a, leaf) && Eval(b, leaf))
    ensures mode == OR ==> Eval(Combine(fam, mode, a, Pred(b), newId).value, leaf) == (Eval(a, leaf) || Eval(b, leaf))
    ensures mode == XOR ==> Eval(Combine(fam, mode, a, Pred(b), newId).value, leaf) == (Eval(a, leaf) != Eval(b, leaf))
    ensures Calls(Combine(fam, mode, a, Pred(b), newId).value) == Calls(a) + Calls(b)
    ensures Eval(Invert(a, newId), leaf) == !Eval(a, leaf) && Calls(Invert(a, newId)) == Calls(a)
  {
  }

  /** The identities `_fill_*_cb` visits, in order: the node itself, then its first and second child. */
  function Ids(t: Tree): seq<NodeId> {
    match t
    case Leaf(id) => [id]
    case Wrapped(id, _, c1, c2) => [id] + Ids(c1) + (if c2.Some? then Ids(c2.value) else [])
  }

  predicate Distinct(s: seq<NodeId>) {
    forall i, j :: 0 <= i < j < |s| ==> s[i] != s[j]
  }

  /** The callback slots after `_fill_*_cb`, and whether it completed without raising. */
  datatype Filled = Filled(slots: map<NodeId, nat>, ok: bool)

  /**
   * `_fill_ok_cb` / `_fill_fail_cb` on a tree, over the slots of every
   * checker object (a node is in the map iff its callback is set). The node
   * sets its own slot, then recurses; an error stops the walk and nothing
   * already set is undone.
   */
  function Fill(t: Tree, cb: nat, s: map<NodeId, nat>): Filled {
    if t.id in s then Filled(s, false)
    else
      var s1 := s[t.id := cb];
      match t
      case Leaf(_) => Filled(s1, true)
      case Wrapped(_, _, c1, c2) =>
        var f1 := Fill(c1, cb, s1);
        if !f1.ok || c2.None? then f1 else Fill(c2.value, cb, f1.slots)
  }

  lemma DistinctConcat(a: seq<NodeId>, b: seq<NodeId>)
    ensures Distinct(a + b) <==> Distinct(a) && Distinct(b) && forall x :: x in a ==> x !in b
  {
    if Distinct(a) && Distinct(b) && forall x :: x in a ==> x !in b {
      forall i, j | 0 <= i < j < |a + b| ensures (a + b)[i] != (a + b)[j] {
        if j >= |a| && i < |a| {
          assert (a + b)[i] in a;
          assert (a + b)[j] == b[j - |a|];
        }
      }
    }
    if Distinct(a + b) {
      forall i, j | 0 <= i < j < |a| ensures a[i] != a[j] {
        assert a[i] == (a + b)[i] && a[j] == (a + b)[j];
      }
      forall i, j | 0 <= i < j < |b| ensures b[i] != b[j] {
        assert b[i] == (a + b)[i + |a|] && b[j] == (a + b)[j + |a|];
      }
      forall i, j | 0 <= i < |a| && 0 <= j < |b| ensures a[i] != b[j] {
        assert a[i] == (a + b)[i] && b[j] == (a + b)[|a| + j];
      }
    }
  }

  /**
   * Filling never changes a slot that was already set and only sets nodes
   * of the tree, to `cb`; when it completes every node is set. When it
   * raises, the root it filled first stays filled: there is no rollback.
   */
  lemma {:induction false} FillFrame(t: Tree, cb: nat, s: map<NodeId, nat>)
    ensures forall k :: k in s ==> k in Fill(t, cb, s).slots && Fill(t, cb, s).slots[k] == s[k]
    ensures forall k :: k in Fill(t, cb, s).slots && k !in s ==> k in Ids(t) && Fill(t, cb, s).slots[k] == cb
    ensures Fill(t, cb, s).ok ==> forall i :: i in Ids(t) ==> i in Fill(t, cb, s).slots
    ensures t.id !in s ==> t.id in Fill(t, cb, s).slots
  {
    if t.id !in s {
      var s1 := s[t.id := cb];
      match t
      case Leaf(_) =>
      case Wrapped(id, _, c1, c2) =>
        FillFrame(c1, cb, s1);
        var f1 := Fill(c1, cb, s1);
        if f1.ok && c2.Some? {
          FillFrame(c2.value, cb, f1.slots);
        }
    }
  }

  /** Filling completes iff no node of the tree already has a callback and no checker object occurs twice in it. */
  lemma {:induction false} FillOkIff(t: Tree, cb: nat, s: map<NodeId, nat>)
    ensures Fill(t, cb, s).ok <==> Distinct(Ids(t)) && forall i :: i in Ids(t) ==> i !in s
    decreases t, 1
  {
    if t.id in s {
      assert Ids(t)[0] == t.id;
    } else {
      match t
      case Leaf(_) =>
      case Wrapped(id, _, c1, c2) =>
        FillOkIffWrapped(id, t.mode, c1, c2, cb, s);
    }
  }

  /** The step of FillOkIff at a wrapped node whose own slot is free. */
  lemma {:induction false} FillOkIffWrapped(id: NodeId, mode: LogicMode, c1: Tree, c2: Option<Tree>, cb: nat, s: map<NodeId, nat>)
    requires id !in s
    requires c1 < Wrapped(id, mode, c1, c2) && (c2.Some? ==> c2.value < Wrapped(id, mode, c1, c2))
    ensures var t := Wrapped(id, mode, c1, c2);
      Fill(t, cb, s).ok <==> Distinct(Ids(t)) && forall i :: i in Ids(t) ==> i !in s
    decreases Wrapped(id, mode, c1, c2), 0
  {
    var t := Wrapped(id, mode, c1, c2);
    var s1 := s[id := cb];
    FillOkIff(c1, cb, s1);
    var f1 := Fill(c1, cb, s1);
    var rest := if c2.Some? then Ids(c2.value) else [];
    assert Ids(t) == [id] + (Ids(c1) + rest);
    if f1.ok && c2.Some? {
      var f2 := Fill(c2.value, cb, f1.slots);
      assert Fill(t, cb, s) == f2;
      FillOkIff(c2.value, cb, f1.slots);
      FillFrame(c1, cb, s1);
      RightFillOk(id, Ids(c1), rest, s, s1, f1.slots, f2.ok);
    } else {
      assert Fill(t, cb, s) == f1;
      LeftFillOk(id, Ids(c1), rest, s, s1, f1.ok);
    }
  }

  /** When the left subtree's fill is the whole fill, its verdict is the whole tree's. */
  lemma LeftFillOk(id: NodeId, c1ids: seq<NodeId>, rest: seq<NodeId>, s: map<NodeId, nat>, s1: map<NodeId, nat>, ok1: bool)
    requires id !in s && s1.Keys == s.Keys + {id}
    requires ok1 <==> Distinct(c1ids) && forall i :: i in c1ids ==> i !in s1
    ensures !ok1 ==> !(Distinct([id] + (c1ids + rest)) && forall i :: i in [id] + (c1ids + rest) ==> i !in s)
    ensures rest == [] ==> (ok1 <==> Distinct([id] + (c1ids + rest)) && forall i :: i in [id] + (c1ids + rest) ==> i !in s)
  {
    var u := [id] + (c1ids + rest);
    DistinctConcat([id], c1ids + rest);
    DistinctConcat(c1ids, rest);
    assert forall i :: i in c1ids ==> i in u;
    assert id in u;
  }

  /**
   * Once the left subtree filled, the right one completes iff the whole
   * tree's ids are distinct and unset; `ok2` is the right fill's verdict.
   */
  lemma RightFillOk(id: NodeId, c1ids: seq<NodeId>, rest: seq<NodeId>, s: map<NodeId, nat>, s1: map<NodeId, nat>,
                    slots: map<NodeId, nat>, ok2: bool)
    requires id !in s && s1.Keys == s.Keys + {id}
    requires Distinct(c1ids) && forall i :: i in c1ids ==> i !in s1
    requires forall i :: i in c1ids ==> i in slots
    requires forall i :: i in s1 ==> i in slots
    requires forall i :: i in slots ==> i in s1 || i in c1ids
    requires ok2 <==> Distinct(rest) && forall i :: i in rest ==> i !in slots
    ensures ok2 <==> (Distinct([id] + (c1ids + rest)) && forall i :: i in [id] + (c1ids + rest) ==> i !in s)
  {
    var u := [id] + (c1ids + rest);
    DistinctConcat([id], c1ids + rest);
    DistinctConcat(c1ids, rest);
    assert forall i :: i in rest ==> (i !in slots <==> i !in s && i != id && i !in c1ids);
    assert forall i :: i in u <==> i == id || i in c1ids || i in rest;
  }

  /** A checker object shared by two trees cannot receive the same kind of callback from both. */
  lemma SharedNodeFilledOnce(t1: Tree, t2: Tree, cb1: nat, cb2: nat, s: map<NodeId, nat>, shared: NodeId)
    requires shared in Ids(t1) && shared in Ids(t2)
    requires Fill(t1, cb1, s).ok
    ensures !Fill(t2, cb2, Fill(t1, cb1, s).slots).ok
  {
    FillFrame(t1, cb1, s);
    FillOkIff(t2, cb2, Fill(t1, cb1, s).slots);
  }

  /** The `ok_cb` and `fail_cb` fields of every checker object, keyed by identity. */
  class CheckerCallbacks {
    var okCb: map<NodeId, nat>
    var failCb: map<NodeId, nat>

    constructor (okCb: map<NodeId, nat>, failCb: map<NodeId, nat>)
      ensures this.okCb == okCb && this.failCb == failCb
    {
      this.okCb := okCb;
      this.failCb := failCb;
    }

    /** `_fill_ok_cb`, raising BotCheckerError at the first node whose callback is already set. */
    method FillOkCb(t: Tree, cb: nat) returns (r: Result<()>)
      modifies this`okCb
      ensures okCb == Fill(t, cb, old(okCb)).slots
      ensures r.Ok? <==> Fill(t, cb, old(okCb)).ok
      ensures r.Err? ==> r.error == BotCheckerError
      decreases t
    {
      if t.id in okCb {
        return Err(BotCheckerError);
      }
      okCb := okCb[t.id := cb];
      if t.Wrapped? {
        r := FillOkCb(t.c1, cb);
        if r.Err? {
          return;
        }
        if t.c2.Some? {
          r := FillOkCb(t.c2.value, cb);
        }
      } else {
        r := Ok(());
      }
    }

    /** `_fill_fail_cb`, the same walk over the `fail_cb` fields. */
    method FillFailCb(t: Tree, cb: nat) returns (r: Result<()>)
      modifies this`failCb
      ensures failCb == Fill(t, cb, old(failCb)).slots
      ensures r.Ok? <==> Fill(t, cb, old(failCb)).ok
      ensures r.Err? ==> r.error == BotCheckerError
      decreases t
    {
      if t.id in failCb {
        return Err(BotCheckerError);
      }
      failCb := failCb[t.id := cb];
      if t.Wrapped? {
        r := FillFailCb(t.c1, cb);
        if r.Err? {
          return;
        }
        if t.c2.Some? {
          r := FillFailCb(t.c2.value, cb);
        }
      } else {
        r := Ok(());
      }
    }
  }
}

=== FILE: access.dfy ===
/**
 * The permission checkers of three generations: MsgAccessChecker of
 * melobot/utils/checker.py, and the MsgAuthChecker / NoticeAuthChecker
 * pairs of utils/authority.py (over raw event dicts) and
 * bot/utils/Access.py (over built events). A sender gets one level from
 * the owner, super-user, white and black lists; a check passes when the
 * level is positive and reaches the threshold.
 */
module Access {
  import opened Wrap
  import opened Json

  const SYS: int := 101
  const OWNER: int := 100
  const SU: int := 90
  const WHITE: int := 80
  const USER: int := 70
  const BLACK: int := -1

  /** The identity lists of a checker; ids are compared by equality, so any type of id will do. */
  datatype Lists<T> = Lists(owner: Option<T>, su: seq<T>, white: seq<T>, black: seq<T>)

  /**
   * `get_event_lvl`: black first, then (for the message checkers of the
   * older generations) an anonymous group sender, then owner, super-user,
   * white, else user.
   */
  function Level<T(==)>(l: Lists<T>, id: T, anonymous: bool): (r: int)
    ensures id in l.black || anonymous ==> r == BLACK
    ensures id !in l.black && !anonymous ==>
      r == (if l.owner == Some(id) then OWNER else if id in l.su then SU else if id in l.white then WHITE else USER)
  {
    if id in l.black then BLACK
    else if anonymous then BLACK
    else if l.owner == Some(id) then OWNER
    else if id in l.su then SU
    else if id in l.white then WHITE
    else USER
  }

  /** Every level is one of the five user levels, at most OWNER; it is negative only for BLACK. */
  lemma LevelRange<T>(l: Lists<T>, id: T, anonymous: bool)
    ensures Level(l, id, anonymous) in {OWNER, SU, WHITE, USER, BLACK}
    ensures Level(l, id, anonymous) <= OWNER < SYS
    ensures Level(l, id, anonymous) > 0 <==> Level(l, id, anonymous) != BLACK
  {
  }

  /** The level test every checker ends with: `0 < level and level >= threshold`. */
  predicate Passes(level: int, threshold: int) {
    0 < level && level >= threshold
  }

  /** A blacklisted or anonymous sender never passes, a SYS threshold is never met, and a higher threshold never admits more. */
  lemma PassesProperties<T>(l: Lists<T>, id: T, anonymous: bool, threshold: int, higher: int)
    requires threshold <= higher
    ensures id in l.black || anonymous ==> !Passes(Level(l, id, anonymous), threshold)
    ensures !Passes(Level(l, id, anonymous), SYS)
    ensures Passes(Level(l, id, anonymous), higher) ==> Passes(Level(l, id, anonymous), threshold)
  {
    LevelRange(l, id, anonymous);
  }

  /** `MsgAccessChecker` of melobot/utils/checker.py: None user lists become empty; a None or empty group list disables the group filter. */
  datatype AccessChecker = AccessChecker(level: int, lists: Lists<int>, whiteGroups: seq<int>)

  function NewAccessChecker(level: int, owner: Option<int>, su: Option<seq<int>>, white: Option<seq<int>>,
                            black: Option<seq<int>>, whiteGroups: Option<seq<int>>): (r: AccessChecker)
    ensures r.level == level && r.lists.owner == owner
    ensures r.lists.su == (if su.Some? then su.value else [])
    ensures r.lists.white == (if white.Some? then white.value else [])
    ensures r.lists.black == (if black.Some? then black.value else [])
    ensures r.whiteGroups == (if whiteGroups.Some? then whiteGroups.value else [])
  {
    AccessChecker(level, Lists(owner, if su.Some? then su.value else [], if white.Some? then white.value else [],
      if black.Some? then black.value else []), if whiteGroups.Some? then whiteGroups.value else [])
  }

  /** What the checker reads from a message event: sender id, whether it is a group message, and its group. */
  datatype MsgView = MsgView(senderId: int, isGroup: bool, groupId: int)

  /** `MsgAccessChecker.check`: a group outside a non-empty group list is rejected; otherwise the level test decides. */
  function AccessCheck(c: AccessChecker, e: MsgView): (r: bool)
    ensures c.whiteGroups != [] && e.isGroup && e.groupId !in c.whiteGroups ==> !r
    ensures !(c.whiteGroups != [] && e.isGroup && e.groupId !in c.whiteGroups) ==> (r <==> Passes(Level(c.lists, e.senderId, false), c.level))
  {
    var lvl := Level(c.lists, e.senderId, false);
    if c.whiteGroups != [] && e.isGroup && e.groupId !in c.whiteGroups then false
    else Passes(lvl, c.level)
  }

  /** With no group list every group is admitted as its sender's level allows; raising the level never admits more. */
  lemma AccessCheckProperties(c: AccessChecker, e: MsgView, higher: int)
    requires c.level <= higher
    ensures c.whiteGroups == [] ==> (AccessCheck(c, e) <==> Passes(Level(c.lists, e.senderId, false), c.level))
    ensures AccessCheck(c.(level := higher), e) ==> AccessCheck(c, e)
    ensures e.senderId in c.lists.black ==> !AccessCheck(c, e)
  {
    PassesProperties(c.lists, e.senderId, false, c.level, higher);
  }

  /** The report predicates of utils/authority.py: a response has "retcode"; the others compare `post_type`. */
  function IsResp(event: map<string, Value>): bool {
    "retcode" in event
  }

  function IsReport(event: map<string, Value>, postType: string): (r: Result<bool>)
    ensures "post_type" !in event ==> r == Err(KeyError)
    ensures "post_type" in event ==> r == Ok(event["post_type"] == Str(postType))
  {
    var pt :- Field(event, "post_type");
    Ok(pt == Str(postType))
  }

  /** At most one of the meta, request, notice and message reports holds for an event. */
  lemma ReportsExclusive(event: map<string, Value>, a: string, b: string)
    requires a in ["meta_event", "request", "notice", "message"] && b in ["meta_event", "request", "notice", "message"]
    requires IsReport(event, a) == Ok(true) && IsReport(event, b) == Ok(true)
    ensures a == b
  {
  }

  /** The message checker of utils/authority.py, over raw dicts. */
  datatype AuthChecker = AuthChecker(lists: Lists<Value>, groups: seq<Value>)

  /** `MsgAuthChecker.get_event_lvl`: reads `user_id` and `sub_type`; an "anonymous" sub-type ranks as BLACK. */
  function RawMsgLevel(c: AuthChecker, event: map<string, Value>): (r: Result<int>)
    ensures r.Ok? <==> "user_id" in event && "sub_type" in event
    ensures r.Ok? ==> r.value == Level(c.lists, event["user_id"], event["sub_type"] == Str("anonymous"))
  {
    var id :- Field(event, "user_id");
    var sub :- Field(event, "sub_type");
    Ok(Level(c.lists, id, sub == Str("anonymous")))
  }

  /** `MsgAuthChecker.check`: the level, then `message_type`; a group outside the group list is rejected, even an empty list. */
  function RawMsgCheck(c: AuthChecker, threshold: int, event: map<string, Value>): (r: Result<bool>)
    ensures r.Ok? <==> (RawMsgLevel(c, event).Ok? && "message_type" in event
      && (event["message_type"] == Str("group") ==> "group_id" in event))
    ensures r.Ok? && event["message_type"] == Str("group") && event["group_id"] !in c.groups ==> r.value == false
    ensures r.Ok? && !(event["message_type"] == Str("group") && event["group_id"] !in c.groups) ==>
      r.value == Passes(RawMsgLevel(c, event).value, threshold)
  {
    var lvl :- RawMsgLevel(c, event);
    var mt :- Field(event, "message_type");
    var inGroups :- if mt == Str("group") then (var g :- Field(event, "group_id"); Ok(g in c.groups)) else Ok(true);
    if !inGroups then Ok(false) else Ok(Passes(lvl, threshold))
  }

  /** With an empty group list every group message is rejected, whatever the sender's level. */
  lemma EmptyGroupsRejectGroups(l: Lists<Value>, threshold: int, event: map<string, Value>)
    requires "message_type" in event && event["message_type"] == Str("group") && "group_id" in event
    requires RawMsgLevel(AuthChecker(l, []), event).Ok?
    ensures RawMsgCheck(AuthChecker(l, []), threshold, event) == Ok(false)
  {
  }

  /** `NoticeAuthChecker.check((key, threshold), event)`: the level of `event[key]`, anonymity not considered. */
  function RawNoticeCheck(c: AuthChecker, condition: (string, int), event: map<string, Value>): (r: Result<bool>)
    ensures condition.0 !in event ==> r == Err(KeyError)
    ensures condition.0 in event ==> r == Ok(Passes(Level(c.lists, event[condition.0], false), condition.1))
  {
    var id :- Field(event, condition.0);
    Ok(Passes(Level(c.lists, id, false), condition.1))
  }

  /** The message checker of bot/utils/Access.py, over a built event. */
  datatype EventChecker = EventChecker(lists: Lists<int>, groups: seq<int>)

  /** What that checker reads from a built message event. */
  datatype BuiltMsg = BuiltMsg(senderId: int, isGroupAnonym: bool, isGroup: bool, groupId: int)

  /** `MsgAuthChecker.check` of bot/utils/Access.py: the group list always applies to group messages. */
  function BuiltMsgCheck(c: EventChecker, threshold: int, e: BuiltMsg): (r: bool)
    ensures e.isGroup && e.groupId !in c.groups ==> !r
    ensures !(e.isGroup && e.groupId !in c.groups) ==> (r <==> Passes(Level(c.lists, e.senderId, e.isGroupAnonym), threshold))
  {
    var lvl := Level(c.lists, e.senderId, e.isGroupAnonym);
    if e.isGroup && e.groupId !in c.groups then false else Passes(lvl, threshold)
  }

  /** The generations agree: a built event checks as its raw dict would under utils/authority.py. */
  lemma BuiltAgreesWithRaw(c: EventChecker, threshold: int, e: BuiltMsg, event: map<string, Value>)
    requires event == map["user_id" := Int(e.senderId), "sub_type" := Str(if e.isGroupAnonym then "anonymous" else "normal"),
      "message_type" := Str(if e.isGroup then "group" else "private"), "group_id" := Int(e.groupId)]
    ensures RawMsgCheck(AuthChecker(IntLists(c.lists), IntSeq(c.groups)), threshold, event) == Ok(BuiltMsgCheck(c, threshold, e))
  {
    IntListsLevel(c.lists, e.senderId, e.isGroupAnonym);
    IntSeqIn(c.groups, e.groupId);
  }

  function IntSeq(xs: seq<int>): (r: seq<Value>)
    ensures |r| == |xs| && forall i :: 0 <= i < |xs| ==> r[i] == Int(xs[i])
  {
    if xs == [] then [] else [Int(xs[0])] + IntSeq(xs[1..])
  }

  lemma IntSeqIn(xs: seq<int>, x: int)
    ensures Int(x) in IntSeq(xs) <==> x in xs
  {
    if x in xs {
      var i :| 0 <= i < |xs| && xs[i] == x;
      assert IntSeq(xs)[i] == Int(x);
    }
  }

  function IntLists(l: Lists<int>): Lists<Value> {
    Lists(if l.owner.Some? then Some(Int(l.owner.value)) else None, IntSeq(l.su), IntSeq(l.white), IntSeq(l.black))
  }

  lemma IntListsLevel(l: Lists<int>, id: int, anonymous: bool)
    ensures Level(IntLists(l), Int(id), anonymous) == Level(l, id, anonymous)
  {
    IntSeqIn(l.su, id);
    IntSeqIn(l.white, id);
    IntSeqIn(l.black, id);
  }

  /** `NoticeAuthChecker.check(threshold, id)` of bot/utils/Access.py. */
  function BuiltNoticeCheck(c: EventChecker, threshold: int, id: int): (r: bool)
    ensures id in c.lists.black ==> !r
    ensures r <==> Passes(Level(c.lists, id, false), threshold)
  {
    Passes(Level(c.lists, id, false), threshold)
  }

  /** `auth_str_map`: the name of each of the six levels. */
  function AuthStr(level: int): (r: Option<string>)
    ensures r.Some? <==> level in {SYS, OWNER, SU, WHITE, USER, BLACK}
  {
    if level == SYS then Some("sys")
    else if level == OWNER then Some("owner")
    else if level == SU then Some("superuser")
    else if level == WHITE then Some("white")
    else if level == USER then Some("user")
    else if level == BLACK then Some("black")
    else None
  }

  /** Distinct levels have distinct names. */
  lemma AuthStrDistinct(a: int, b: int)
    requires AuthStr(a).Some? && AuthStr(b).Some? && a != b
    ensures AuthStr(a) != AuthStr(b)
  {
  }
}

=== FILE: act_interface.dfy ===
/**
 * utils/actInterface.py, the generation of the action layer that works on
 * raw event dicts. Its escaping, its packers and its builder are the same
 * code as utils/botAction.py's and are modelled once, in BotActions and
 * CqCode; what differs is the `mode` switch of `text` and the routing of
 * `pack` on the raw frame.
 */
module ActInterface {
  import opened Wrap
  import opened Json
  import CqCode
  import CommonEncoder
  import BotActions

  /** `text` with `mode`: any mode other than "str" gives the dict segment. */
  function TextMode(text: string, fromEvent: bool, mode: string): (r: Value)
    ensures mode != "str" ==> r == CommonEncoder.TextSeg(text)
    ensures mode == "str" && fromEvent ==> r == Str(text)
    ensures mode == "str" && !fromEvent ==> r == Str(CqCode.EscapeKeepComma(text)) && '[' !in r.s && ']' !in r.s
  {
    CqCode.EscapeKeepCommaShape(text);
    BotActions.TextOut(text, fromEvent, mode != "str")
  }

  /**
   * The routing of `pack` as written. Its first test is the chained
   * comparison `post_type == 'message' in event.keys()`, which also asks
   * for a "message" key; the lookups raise KeyError in the order the
   * tests reach them.
   */
  function RouteAsWritten(event: map<string, Value>): Result<BotActions.Dest> {
    var pt :- Field(event, "post_type");
    var groupMsg :-
      if pt == Str("message") && "message" in event then
        var mt :- Field(event, "message_type"); Ok(mt == Str("group"))
      else Ok(false);
    if groupMsg then
      var g :- Field(event, "group_id"); Ok(BotActions.ToGroup(g))
    else RouteRest(event, pt)
  }

  /** The branches after the group-message test: private message, then poke, else unexpected. */
  function RouteRest(event: map<string, Value>, pt: Value): Result<BotActions.Dest> {
    var privateMsg :-
      if pt == Str("message") then
        var mt :- Field(event, "message_type"); Ok(mt == Str("private"))
      else Ok(false);
    if privateMsg then
      var u :- Field(event, "user_id"); Ok(BotActions.ToPrivate(u))
    else if pt == Str("notice") then
      var st :- Field(event, "sub_type");
      if st == Str("poke") then
        if "group_id" in event then Ok(BotActions.ToGroup(event["group_id"]))
        else var u :- Field(event, "user_id"); Ok(BotActions.ToPrivate(u))
      else Err(BotUnexpectedEvent)
    else Err(BotUnexpectedEvent)
  }

  /** A group message frame without its "message" key is rejected as unexpected. */
  lemma GroupFrameNeedsMessageKey(groupId: Value, userId: Value)
    ensures RouteAsWritten(map["post_type" := Str("message"), "message_type" := Str("group"),
      "group_id" := groupId, "user_id" := userId]) == Err(BotUnexpectedEvent)
  {
  }

  /** The routing with the group-message test reading `post_type == 'message' and message_type == 'group'`. */
  function Route(event: map<string, Value>): (r: Result<BotActions.Dest>)
    ensures "post_type" !in event ==> r == Err(KeyError)
  {
    var pt :- Field(event, "post_type");
    var groupMsg :-
      if pt == Str("message") then
        var mt :- Field(event, "message_type"); Ok(mt == Str("group"))
      else Ok(false);
    if groupMsg then
      var g :- Field(event, "group_id"); Ok(BotActions.ToGroup(g))
    else RouteRest(event, pt)
  }

  /** Every group message frame with a group id goes to its group, and every private one to its user. */
  lemma RouteMessages(event: map<string, Value>)
    requires "post_type" in event && event["post_type"] == Str("message") && "message_type" in event
    ensures event["message_type"] == Str("group") && "group_id" in event ==> Route(event) == Ok(BotActions.ToGroup(event["group_id"]))
    ensures event["message_type"] == Str("private") && "user_id" in event ==> Route(event) == Ok(BotActions.ToPrivate(event["user_id"]))
    ensures event["message_type"] != Str("group") && event["message_type"] != Str("private") ==> Route(event) == Err(BotUnexpectedEvent)
  {
  }

  /** A poke goes to its group when the frame has one, else to its user; other notices are unexpected. */
  lemma RoutePokes(event: map<string, Value>)
    requires "post_type" in event && event["post_type"] == Str("notice") && "sub_type" in event
    ensures event["sub_type"] == Str("poke") && "group_id" in event ==> Route(event) == Ok(BotActions.ToGroup(event["group_id"]))
    ensures event["sub_type"] == Str("poke") && "group_id" !in event && "user_id" in event ==> Route(event) == Ok(BotActions.ToPrivate(event["user_id"]))
    ensures event["sub_type"] != Str("poke") ==> Route(event) == Err(BotUnexpectedEvent)
  {
  }

  /** Both routings agree on every frame that carries a "message" key. */
  lemma RoutesAgreeWithMessageKey(event: map<string, Value>)
    requires "message" in event
    ensures RouteAsWritten(event) == Route(event)
  {
  }

  /** `MsgSendPacker.pack` on a raw frame: route, then write the shared params of the message packer. */
  method Pack(packer: BotActions.MsgSendPacker, event: map<string, Value>, msgs: seq<Value>, isPureText: bool)
    returns (r: Result<BotActions.Packed>)
    modifies packer.params
    ensures Route(event).Err? ==> r == Err(Route(event).error) && packer.params.entries == old(packer.params.entries)
    ensures Route(event).Ok? && BotActions.MessageOf(msgs).Ok? ==> (r.Ok? && r.value.params == packer.params
      && r.value.actionType == (if Route(event).value.ToGroup? then "send_group_msg" else "send_private_msg")
      && packer.params.entries == BotActions.SendParams(old(packer.params.entries), "message", BotActions.MessageOf(msgs).value,
           isPureText, if Route(event).value.ToGroup? then "group_id" else "user_id", Route(event).value.id))
  {
    var dest := Route(event);
    if dest.Err? {
      return Err(dest.error);
    }
    if dest.value.ToGroup? {
      r := packer.GroupPack(msgs, dest.value.id, isPureText);
    } else {
      r := packer.PrivatePack(msgs, dest.value.id, isPureText);
    }
  }
}

=== FILE: bot_action.dfy ===
/**
 * The action layer of utils/botAction.py: a CQ encoder that renders
 * segments either as dicts or as CQ strings, singleton packers that fill
 * one params dict shared by every pack they hand out, and the builder
 * that turns a pack into a detached action frame.
 */
module BotActions {
  import opened Wrap
  import opened Json
  import Text
  import CqCode
  import CommonEncoder

  // ---------------------------------------------------------------- CQ encoder

  /** `text`: a text segment in dict mode; in string mode the text itself when it came from an event, otherwise escaped without ','. */
  function TextOut(text: string, fromEvent: bool, isDictRet: bool): (r: Value)
    ensures isDictRet ==> r == CommonEncoder.TextSeg(text)
    ensures !isDictRet && fromEvent ==> r == Str(text)
    ensures !isDictRet && !fromEvent ==> r.Str? && '[' !in r.s && ']' !in r.s && (',' in r.s <==> ',' in text)
  {
    if !isDictRet then
      if fromEvent then Str(text)
      else CqCode.EscapeKeepCommaShape(text); Str(CqCode.EscapeKeepComma(text))
    else CommonEncoder.TextSeg(text)
  }

  /** The text of an internal string-mode `text` reads back unchanged when it has no '&'. */
  lemma TextStrReadsBack(text: string)
    requires '&' !in text && ',' !in text
    ensures CqCode.AntiEscape(TextOut(text, false, false).s) == text
  {
    CqCode.RoundTrip(text);
    var e := CqCode.EscapeKeepComma(text);
    CqCode.EscapeKeepCommaShape(text);
    forall i | 0 <= i < |e|
      ensures !Text.At(e, i, ",")
    {
      assert i + 1 <= |e| ==> e[i..i + 1][0] == e[i];
    }
    Text.ReplaceAbsent(e, ",", "&#44;");
  }

  /** The parts of `open + d + [close]` read back by slicing. */
  lemma Enclosed(open: string, d: string, close: char)
    ensures var s := open + d + [close];
      |s| == |open| + |d| + 1 && s[..|open|] == open && s[|open|..|s| - 1] == d && s[|s| - 1] == close
  {
    var s := open + d + [close];
    assert s[..|open|] == open;
    assert s[|open|..|s| - 1] == d;
  }

  /** `face` in string mode: the CQ code with the id in decimal. */
  function FaceStr(iconId: int): (r: string)
    ensures |CqCode.FACE_OPEN| < |r| && r[..|CqCode.FACE_OPEN|] == CqCode.FACE_OPEN && r[|r| - 1] == ']'
    ensures Text.IsIntLiteral(r[|CqCode.FACE_OPEN|..|r| - 1]) && Text.ParseInt(r[|CqCode.FACE_OPEN|..|r| - 1]) == iconId
    ensures iconId >= 0 ==> CqCode.CodeAt(r, CqCode.FACE_OPEN, ']') == Some(|r| - 1)
  {
    var d := Text.IntStr(iconId);
    Text.IntStrRoundTrip(iconId);
    var s := CqCode.FACE_OPEN + d + [']'];
    Enclosed(CqCode.FACE_OPEN, d, ']');
    if iconId >= 0 then
      assert Text.IsDigits(d);
      CqCode.CodeAtExact(CqCode.FACE_OPEN, d, ']');
      s
    else
      s
  }

  /** `record` in string mode: the escaped url, then magic and timeout only when truthy. */
  function RecordStr(url: string, timeout: Option<int>, magic: bool): (r: string)
    ensures |r| >= 12 && r[..11] == "[CQ:record," && r[|r| - 1] == ']'
    ensures Text.Split(r[11..|r| - 1], ",") == ["file=" + CqCode.Escape(url)]
      + (if magic then ["magic=1"] else [])
      + (if CommonEncoder.GivenInt(timeout) then ["timeout=" + Text.IntStr(timeout.value)] else [])
  {
    var given := CommonEncoder.GivenInt(timeout);
    var d := if given then Text.IntStr(timeout.value) else "";
    var e := CqCode.Escape(url);
    var m := if magic then ",magic=1" else "";
    var t := if given then ",timeout=" + d else "";
    FieldsFree(url, d);
    RecordSplit(e, magic, m, d, given, t);
    "[CQ:record,file=" + e + m + t + "]"
  }

  /** The record code's body split at its commas: the file field, then the optional magic and timeout fields. */
  lemma RecordSplit(e: string, magic: bool, m: string, d: string, given: bool, t: string)
    requires ',' !in "file=" + e && ',' !in "timeout=" + d
    requires m == (if magic then ",magic=1" else "") && t == (if given then ",timeout=" + d else "")
    ensures var r := "[CQ:record,file=" + e + m + t + "]";
      |r| >= 12 && r[..11] == "[CQ:record," && r[|r| - 1] == ']'
      && Text.Split(r[11..|r| - 1], ",") == ["file=" + e] + (if magic then ["magic=1"] else [])
           + (if given then ["timeout=" + d] else [])
  {
    assert "[CQ:record,file=" + e == "[CQ:record," + ("file=" + e);
    assert ",magic=1" == "," + "magic=1" && ",timeout=" + d == "," + ("timeout=" + d);
    CodeSplit("[CQ:record,", "file=" + e, "magic=1", magic, "timeout=" + d, given, "[CQ:record,file=" + e + m + t + "]");
  }

  /**
   * A CQ code whose fields after the head are a first field and two
   * optional ones, none holding a ',': splitting its body at the commas
   * gives those fields back.
   */
  lemma CodeSplit(head: string, f: string, x: string, useX: bool, y: string, useY: bool, r: string)
    requires ',' !in f && ',' !in x && ',' !in y
    requires r == head + f + (if useX then "," + x else "") + (if useY then "," + y else "") + "]"
    ensures |r| > |head| && r[..|head|] == head && r[|r| - 1] == ']'
    ensures Text.Split(r[|head|..|r| - 1], ",") == [f] + (if useX then [x] else []) + (if useY then [y] else [])
  {
    var fs := [f] + (if useX then [x] else []) + (if useY then [y] else []);
    var body := f + (if useX then "," + x else "") + (if useY then "," + y else "");
    assert r == head + body + "]";
    assert r[|head|..|r| - 1] == body;
    JoinOptionalFields(f, x, useX, y, useY);
    Text.SplitOfJoin(fs, ',');
  }

  /** Joining a first field and two optional ones with ','. */
  lemma JoinOptionalFields(head: string, x: string, useX: bool, y: string, useY: bool)
    ensures Text.JoinSep([head] + (if useX then [x] else []) + (if useY then [y] else []), ",")
      == head + (if useX then "," + x else "") + (if useY then "," + y else "")
  {
    var fs := [head] + (if useX then [x] else []) + (if useY then [y] else []);
    if useX && useY {
      assert fs[1..] == [x, y] && [x, y][1..] == [y];
    } else if useX {
      assert fs[1..] == [x];
    } else if useY {
      assert fs[1..] == [y];
    }
  }

  /** The fields of a record code hold no ',': the escaped url has none, nor has a decimal number. */
  lemma FieldsFree(url: string, d: string)
    requires d == "" || Text.IsIntLiteral(d)
    ensures ',' !in "file=" + CqCode.Escape(url) && ',' !in "timeout=" + d
  {
    CqCode.EscapeShape(url);
    var f := "file=" + CqCode.Escape(url);
    forall i | 0 <= i < |f|
      ensures f[i] != ','
    {
      if i >= 5 {
        assert f[i] == CqCode.Escape(url)[i - 5];
      }
    }
    var t := "timeout=" + d;
    forall i | 0 <= i < |t|
      ensures t[i] != ','
    {
      if i >= 8 {
        assert t[i] == d[i - 8];
        if !Text.IsDigits(d) {
          assert i - 8 == 0 || d[i - 8] == d[1..][i - 9];
        }
      }
    }
  }

  /**
   * A record code read back field by field, as a CQ parser splits it at
   * its commas: the url (exactly, when it has no '&'), the magic flag iff
   * it was set, and the timeout iff it was truthy, as its integer.
   */
  lemma RecordStrReadsBack(url: string, timeout: Option<int>, magic: bool)
    ensures var r := RecordStr(url, timeout, magic); var fs := Text.Split(r[11..|r| - 1], ",");
      Text.At(fs[0], 0, "file=") && ('&' !in url ==> CqCode.AntiEscape(fs[0][5..]) == url)
    ensures var r := RecordStr(url, timeout, magic); var fs := Text.Split(r[11..|r| - 1], ",");
      "magic=1" in fs <==> magic
    ensures var r := RecordStr(url, timeout, magic); var fs := Text.Split(r[11..|r| - 1], ",");
      CommonEncoder.GivenInt(timeout) <==> Text.At(fs[|fs| - 1], 0, "timeout=")
    ensures var r := RecordStr(url, timeout, magic); var fs := Text.Split(r[11..|r| - 1], ",");
      CommonEncoder.GivenInt(timeout) ==>
        Text.At(fs[|fs| - 1], 0, "timeout=") && Text.IsIntLiteral(fs[|fs| - 1][8..])
        && Text.ParseInt(fs[|fs| - 1][8..]) == timeout.value
  {
    var r := RecordStr(url, timeout, magic);
    var fs := Text.Split(r[11..|r| - 1], ",");
    var given := CommonEncoder.GivenInt(timeout);
    var d := if given then Text.IntStr(timeout.value) else "";
    RecordFieldsRead(CqCode.Escape(url), magic, d, given, fs);
    if '&' !in url {
      CqCode.RoundTrip(url);
    }
    if given {
      Text.IntStrRoundTrip(timeout.value);
    }
  }

  /** Reading the fields of a record code: each optional field is there exactly when it was written. */
  lemma RecordFieldsRead(e: string, magic: bool, d: string, given: bool, fs: seq<string>)
    requires fs == ["file=" + e] + (if magic then ["magic=1"] else []) + (if given then ["timeout=" + d] else [])
    ensures Text.At(fs[0], 0, "file=") && fs[0][5..] == e
    ensures "magic=1" in fs <==> magic
    ensures given <==> Text.At(fs[|fs| - 1], 0, "timeout=")
    ensures given ==> Text.At(fs[|fs| - 1], 0, "timeout=") && fs[|fs| - 1][8..] == d
  {
    var f := "file=" + e;
    assert f[..5] == "file=" && f[5..] == e;
    assert f != "magic=1" by { assert f[0] == 'f'; }
    if given {
      var t := "timeout=" + d;
      assert fs[|fs| - 1] == t && t[..8] == "timeout=" && t[8..] == d;
      assert t != "magic=1" by { assert t[0] == 't'; }
    } else if magic {
      assert fs[|fs| - 1] == "magic=1";
    } else {
      assert fs[|fs| - 1] == f && (|f| >= 8 ==> f[0..8][0] == 'f');
    }
  }

  /** The string form of the `qq` argument of `at`: a user id or "all". */
  datatype Target = User(id: int) | All

  function TargetStr(t: Target): string {
    if t.User? then Text.IntStr(t.id) else "all"
  }

  /** `at` in string mode as written: the name clause is a plain literal, so the name never reaches the code. */
  function AtStrAsWritten(qq: Target, notInName: string): string {
    var name := if notInName != "" then CqCode.Escape(notInName) else notInName;
    "[CQ:at,qq=" + TargetStr(qq) + (if name != "" then ",name={notInName}" else "") + "]"
  }

  /** Two different names give the same code. */
  lemma AtNameLost(qq: Target)
    ensures AtStrAsWritten(qq, "alice") == AtStrAsWritten(qq, "bob")
  {
    assert CqCode.Escape("alice") != "" by { CqCode.EscapePlain("alice"); }
    assert CqCode.Escape("bob") != "" by { CqCode.EscapePlain("bob"); }
  }

  /** `at` in string mode with the name interpolated, escaped. */
  function AtStr(qq: Target, notInName: string): (r: string)
    ensures notInName == "" ==> r == "[CQ:at,qq=" + TargetStr(qq) + "]"
    ensures notInName != "" ==> r == "[CQ:at,qq=" + TargetStr(qq) + ",name=" + CqCode.Escape(notInName) + "]"
  {
    "[CQ:at,qq=" + TargetStr(qq) + (if notInName != "" then ",name=" + CqCode.Escape(notInName) else "") + "]"
  }

  /** The length of the head before the name in a corrected `at` code. */
  function AtHead(qq: Target): nat { |"[CQ:at,qq=" + TargetStr(qq) + ",name="| }

  /** With the name interpolated, a name without '&' reads back from the code. */
  lemma AtNameKept(qq: Target, notInName: string)
    requires notInName != "" && '&' !in notInName
    ensures AtHead(qq) < |AtStr(qq, notInName)|
    ensures CqCode.AntiEscape(AtStr(qq, notInName)[AtHead(qq)..|AtStr(qq, notInName)| - 1]) == notInName
  {
    var head := "[CQ:at,qq=" + TargetStr(qq) + ",name=";
    var r := AtStr(qq, notInName);
    assert r == head + CqCode.Escape(notInName) + "]";
    assert r[|head|..|r| - 1] == CqCode.Escape(notInName);
    CqCode.RoundTrip(notInName);
  }

  /** `at` in dict mode: the name only when given. */
  function AtDict(qq: Target, notInName: string): (r: Value)
    ensures CommonEncoder.Data(r).Keys == {"qq"} + (if notInName != "" then {"name"} else {})
    ensures CommonEncoder.Data(r)["qq"] == (if qq.User? then Int(qq.id) else Str("all"))
    ensures notInName != "" ==> CommonEncoder.Data(r)["name"] == Str(notInName)
  {
    var qqv := if qq.User? then Int(qq.id) else Str("all");
    CommonEncoder.Seg("at", if notInName != "" then map["qq" := qqv, "name" := Str(notInName)] else map["qq" := qqv])
  }

  /** `tts` in string mode: the escaped text inside the code, which holds no ',' of its own. */
  function TtsStr(text: string): (r: string)
    ensures |r| >= 9 && r[..8] == "[CQ:tts," && r[|r| - 1] == ']'
    ensures Text.Split(r[8..|r| - 1], ",") == ["text=" + CqCode.Escape(text)]
  {
    var r := "[CQ:tts,text=" + CqCode.Escape(text) + "]";
    var f := "text=" + CqCode.Escape(text);
    assert r[8..|r| - 1] == Text.JoinSep([f], ",");
    CqCode.EscapeShape(text);
    assert ',' !in f by {
      forall i | 5 <= i < |f|
        ensures f[i] != ','
      {
        assert f[i] == CqCode.Escape(text)[i - 5];
      }
    }
    Text.SplitOfJoin([f], ',');
    r
  }

  /** The text of a tts code reads back from its one field whenever it has no '&'. */
  lemma TtsStrReadsBack(text: string)
    requires '&' !in text
    ensures var r := TtsStr(text); var fs := Text.Split(r[8..|r| - 1], ",");
      |fs| == 1 && Text.At(fs[0], 0, "text=") && CqCode.AntiEscape(fs[0][5..]) == text
  {
    var f := "text=" + CqCode.Escape(text);
    assert f[..5] == "text=" && f[5..] == CqCode.Escape(text);
    CqCode.RoundTrip(text);
  }

  /** `''.join` over a list that must hold only strings. */
  function JoinStrs(items: seq<Value>): (r: Result<string>)
    ensures r.Ok? <==> forall i :: 0 <= i < |items| ==> items[i].Str?
    ensures r.Err? ==> r.error == TypeError
  {
    if items == [] then Ok("")
    else if !items[0].Str? then Err(TypeError)
    else
      var rest :- JoinStrs(items[1..]);
      Ok(items[0].s + rest)
  }

  /** What one message of `forward` becomes: a dict wrapped in a list, a list of strings joined, anything else kept. */
  function NodeContent(content: Value): Result<Value> {
    if content.Dict? then Ok(List([content]))
    else if content.List? then
      if content.items == [] then Err(IndexError)
      else if content.items[0].Str? then
        var s :- JoinStrs(content.items);
        Ok(Str(s))
      else Ok(content)
    else Ok(content)
  }

  function Node(nickname: string, uin: string, content: Value): Value {
    CommonEncoder.Seg("node", map["name" := Str(nickname), "uin" := Str(uin), "content" := content])
  }

  /** The forward nodes, one per message in order, or the first error. */
  function ForwardNodes(nickname: string, uin: string, msgs: seq<Value>): Result<seq<Value>> {
    if msgs == [] then Ok([])
    else
      var c :- NodeContent(msgs[0]);
      var rest :- ForwardNodes(nickname, uin, msgs[1..]);
      Ok([Node(nickname, uin, c)] + rest)
  }

  /** Each successful forward yields one node per message, the message's content in its place. */
  lemma {:induction false} ForwardNodesShape(nickname: string, uin: string, msgs: seq<Value>)
    requires ForwardNodes(nickname, uin, msgs).Ok?
    ensures |ForwardNodes(nickname, uin, msgs).value| == |msgs|
    ensures forall i :: 0 <= i < |msgs| ==> (NodeContent(msgs[i]).Ok?
      && ForwardNodes(nickname, uin, msgs).value[i] == Node(nickname, uin, NodeContent(msgs[i]).value))
  {
    if msgs != [] {
      ForwardNodesShape(nickname, uin, msgs[1..]);
      forall i | 0 <= i < |msgs|
        ensures NodeContent(msgs[i]).Ok?
          && ForwardNodes(nickname, uin, msgs).value[i] == Node(nickname, uin, NodeContent(msgs[i]).value)
      {
        if i > 0 {
          assert msgs[1..][i - 1] == msgs[i];
        }
      }
    }
  }

  /** Forwarding a + b fails exactly when b fails, given that a succeeds; otherwise the nodes concatenate. */
  lemma {:induction false} ForwardNodesAppend(nickname: string, uin: string, a: seq<Value>, b: seq<Value>)
    requires ForwardNodes(nickname, uin, a).Ok?
    ensures ForwardNodes(nickname, uin, b).Err? ==> ForwardNodes(nickname, uin, a + b) == ForwardNodes(nickname, uin, b)
    ensures ForwardNodes(nickname, uin, b).Ok? ==>
      ForwardNodes(nickname, uin, a + b) == Ok(ForwardNodes(nickname, uin, a).value + ForwardNodes(nickname, uin, b).value)
    decreases |a|
  {
    if a == [] {
      assert a + b == b;
      assert ForwardNodes(nickname, uin, a).value == [];
      if ForwardNodes(nickname, uin, b).Ok? {
        assert [] + ForwardNodes(nickname, uin, b).value == ForwardNodes(nickname, uin, b).value;
      }
    } else {
      var c := NodeContent(a[0]);
      var fa1 := ForwardNodes(nickname, uin, a[1..]);
      var fab1 := ForwardNodes(nickname, uin, a[1..] + b);
      var head := [Node(nickname, uin, c.value)];
      assert c.Ok? && fa1.Ok? && ForwardNodes(nickname, uin, a) == Ok(head + fa1.value);
      assert (a + b)[0] == a[0] && (a + b)[1..] == a[1..] + b;
      assert ForwardNodes(nickname, uin, a + b) == if fab1.Err? then Err(fab1.error) else Ok(head + fab1.value);
      ForwardNodesAppend(nickname, uin, a[1..], b);
      if ForwardNodes(nickname, uin, b).Ok? {
        assert head + (fa1.value + ForwardNodes(nickname, uin, b).value) == (head + fa1.value) + ForwardNodes(nickname, uin, b).value;
      }
    }
  }

  /** `forward`: the loop that collects the nodes, with the id stringified once. */
  method Forward(nickname: string, qqId: int, msgs: seq<Value>) returns (r: Result<seq<Value>>)
    ensures r == ForwardNodes(nickname, Text.IntStr(qqId), msgs)
  {
    var uin := Text.IntStr(qqId);
    var res: seq<Value> := [];
    var i := 0;
    while i < |msgs|
      invariant 0 <= i <= |msgs|
      invariant ForwardNodes(nickname, uin, msgs[..i]) == Ok(res)
    {
      var c := NodeContent(msgs[i]);
      assert msgs[..i + 1] == msgs[..i] + [msgs[i]];
      ForwardNodesAppend(nickname, uin, msgs[..i], [msgs[i]]);
      ForwardNodesAppend(nickname, uin, msgs[..i], msgs[i..]);
      assert msgs[..i] + msgs[i..] == msgs;
      assert msgs[i..][0] == msgs[i];
      if c.Err? {
        assert ForwardNodes(nickname, uin, msgs[i..]) == Err(c.error);
        return Err(c.error);
      }
      assert [msgs[i]][0] == msgs[i] && [msgs[i]][1..] == [];
      assert ForwardNodes(nickname, uin, [msgs[i]]) == Ok([Node(nickname, uin, c.value)] + []);
      assert [Node(nickname, uin, c.value)] + [] == [Node(nickname, uin, c.value)];
      assert ForwardNodes(nickname, uin, msgs[..i] + [msgs[i]]) == Ok(res + [Node(nickname, uin, c.value)]);
      assert ForwardNodes(nickname, uin, msgs[..i + 1]) == Ok(res + [Node(nickname, uin, c.value)]);
      res := res + [Node(nickname, uin, c.value)];
      i := i + 1;
    }
    assert msgs[..i] == msgs;
    r := Ok(res);
  }

  // ---------------------------------------------------------------- packers

  /** A params dict; packs handed out by one packer all hold the same one. */
  class Params {
    var entries: map<string, Value>

    constructor()
      ensures entries == map[]
    {
      entries := map[];
    }
  }

  /** A shallow copy of a packer's package: its own action type, the packer's params dict. */
  datatype Packed = Packed(actionType: string, params: Params)

  /** The message of a send pack: the strings joined when the first item is a string, otherwise the list. */
  function MessageOf(msgs: seq<Value>): Result<Value> {
    if msgs == [] then Err(IndexError)
    else if msgs[0].Str? then
      var s :- JoinStrs(msgs);
      Ok(Str(s))
    else Ok(List(msgs))
  }

  /** The params after one send: the message, `auto_escape` when pure text, and the id, written over what was there. */
  function SendParams(before: map<string, Value>, msgKey: string, msg: Value, isPureText: bool, idKey: string, id: Value): (m: map<string, Value>)
    ensures before.Keys <= m.Keys
    ensures msgKey in m && idKey in m && m[idKey] == id
    ensures msgKey != idKey && msgKey != "auto_escape" ==> m[msgKey] == msg
    ensures forall k :: k in before && k != msgKey && k != idKey && k != "auto_escape" ==> m[k] == before[k]
  {
    var m := before[msgKey := msg];
    var m := if isPureText then m["auto_escape" := Bool(true)] else m;
    m[idKey := id]
  }

  /**
   * A private send after a group send on the same packer still carries
   * the group id and the earlier `auto_escape`: the shared dict keeps
   * every key an earlier pack wrote.
   */
  lemma StaleKeysPersist(m: map<string, Value>, msg1: Value, msg2: Value, groupId: Value, userId: Value)
    ensures var m1 := SendParams(m, "message", msg1, true, "group_id", groupId);
      var m2 := SendParams(m1, "message", msg2, false, "user_id", userId);
      m2["group_id"] == groupId && m2["auto_escape"] == Bool(true) && m2["user_id"] == userId
  {
  }

  /** MsgSendPacker: `send_private_msg` / `send_group_msg`, writing into its one params dict. */
  class MsgSendPacker {
    const params: Params

    constructor()
      ensures fresh(params) && params.entries == map[]
    {
      params := new Params();
    }

    method PrivatePack(msgs: seq<Value>, userId: Value, isPureText: bool) returns (r: Result<Packed>)
      modifies params
      ensures MessageOf(msgs).Err? ==> r == Err(MessageOf(msgs).error) && params.entries == old(params.entries)
      ensures MessageOf(msgs).Ok? ==> (r == Ok(Packed("send_private_msg", params))
        && params.entries == SendParams(old(params.entries), "message", MessageOf(msgs).value, isPureText, "user_id", userId))
    {
      var msg := MessageOf(msgs);
      if msg.Err? {
        return Err(msg.error);
      }
      params.entries := SendParams(params.entries, "message", msg.value, isPureText, "user_id", userId);
      r := Ok(Packed("send_private_msg", params));
    }

    method GroupPack(msgs: seq<Value>, groupId: Value, isPureText: bool) returns (r: Result<Packed>)
      modifies params
      ensures MessageOf(msgs).Err? ==> r == Err(MessageOf(msgs).error) && params.entries == old(params.entries)
      ensures MessageOf(msgs).Ok? ==> (r == Ok(Packed("send_group_msg", params))
        && params.entries == SendParams(old(params.entries), "message", MessageOf(msgs).value, isPureText, "group_id", groupId))
    {
      var msg := MessageOf(msgs);
      if msg.Err? {
        return Err(msg.error);
      }
      params.entries := SendParams(params.entries, "message", msg.value, isPureText, "group_id", groupId);
      r := Ok(Packed("send_group_msg", params));
    }

    /** `pack`: the target chosen by `Route` with the attribute the code tests, "group_id". */
    method Pack(ev: EventView, msgs: seq<Value>, isPureText: bool) returns (r: Result<Packed>)
      modifies params
      ensures Route(ev, "group_id").Err? ==> r == Err(Route(ev, "group_id").error) && params.entries == old(params.entries)
      ensures Route(ev, "group_id").Ok? && MessageOf(msgs).Ok? ==> (r.Ok? && r.value.params == params
        && r.value.actionType == (if Route(ev, "group_id").value.ToGroup? then "send_group_msg" else "send_private_msg")
        && params.entries == SendParams(old(params.entries), "message", MessageOf(msgs).value, isPureText,
             if Route(ev, "group_id").value.ToGroup? then "group_id" else "user_id", Route(ev, "group_id").value.id))
    {
      var dest := Route(ev, "group_id");
      if dest.Err? {
        return Err(dest.error);
      }
      if dest.value.ToGroup? {
        r := GroupPack(msgs, dest.value.id, isPureText);
      } else {
        r := PrivatePack(msgs, dest.value.id, isPureText);
      }
    }
  }

  /**
   * What the packers read of an event: the message predicates and ids,
   * and the notice's poke flag and attributes by name.
   */
  datatype EventView = EventView(
    msgIsGroup: bool, msgIsPrivate: bool, msgGroupId: Value, senderId: Value,
    noticeIsPoke: bool, noticeAttrs: map<string, Value>)

  datatype Dest = ToGroup(id: Value) | ToPrivate(id: Value)

  /**
   * The routing of `pack`: group message, private message, then a poke
   * to its group when the notice has the attribute `groupAttr`, else to
   * its user; any other event is unexpected.
   */
  function Route(ev: EventView, groupAttr: string): (r: Result<Dest>)
    ensures ev.msgIsGroup ==> r == Ok(ToGroup(ev.msgGroupId))
    ensures !ev.msgIsGroup && ev.msgIsPrivate ==> r == Ok(ToPrivate(ev.senderId))
    ensures !ev.msgIsGroup && !ev.msgIsPrivate && !ev.noticeIsPoke ==> r == Err(BotUnexpectedEvent)
    ensures r.Ok? && r.value.ToGroup? && !ev.msgIsGroup ==> ev.noticeIsPoke && groupAttr in ev.noticeAttrs
  {
    if ev.msgIsGroup then Ok(ToGroup(ev.msgGroupId))
    else if ev.msgIsPrivate then Ok(ToPrivate(ev.senderId))
    else if ev.noticeIsPoke then
      if groupAttr in ev.noticeAttrs then
        if "group_id" in ev.noticeAttrs then Ok(ToGroup(ev.noticeAttrs["group_id"])) else Err(AttributeError)
      else if "user_id" in ev.noticeAttrs then Ok(ToPrivate(ev.noticeAttrs["user_id"])) else Err(AttributeError)
    else Err(BotUnexpectedEvent)
  }

  /** A poke notice with a group id and a user id, and nothing else. */
  function GroupPoke(groupId: Value, userId: Value): EventView {
    EventView(false, false, Null, Null, true, map["group_id" := groupId, "user_id" := userId])
  }

  /** The forward packer tests the attribute "gruop_id", which no notice has: a group poke goes to its user. */
  lemma ForwardPokeGoesPrivate(groupId: Value, userId: Value)
    ensures Route(GroupPoke(groupId, userId), "gruop_id") == Ok(ToPrivate(userId))
  {
  }

  /** Testing "group_id", a group poke goes to its group, for the forward packer as for the message packer. */
  lemma PokeGoesToGroup(groupId: Value, userId: Value)
    ensures Route(GroupPoke(groupId, userId), "group_id") == Ok(ToGroup(groupId))
  {
  }

  /** ForwardSendPacker: the forward actions, writing into its one params dict. */
  class ForwardSendPacker {
    const params: Params

    constructor()
      ensures fresh(params) && params.entries == map[]
    {
      params := new Params();
    }

    method PrivatePack(nodes: seq<Value>, userId: Value, isPureText: bool) returns (p: Packed)
      modifies params
      ensures p == Packed("send_private_forward_msg", params)
      ensures params.entries == SendParams(old(params.entries), "messages", List(nodes), isPureText, "user_id", userId)
    {
      params.entries := SendParams(params.entries, "messages", List(nodes), isPureText, "user_id", userId);
      p := Packed("send_private_forward_msg", params);
    }

    method GroupPack(nodes: seq<Value>, groupId: Value, isPureText: bool) returns (p: Packed)
      modifies params
      ensures p == Packed("send_group_forward_msg", params)
      ensures params.entries == SendParams(old(params.entries), "messages", List(nodes), isPureText, "group_id", groupId)
    {
      params.entries := SendParams(params.entries, "messages", List(nodes), isPureText, "group_id", groupId);
      p := Packed("send_group_forward_msg", params);
    }

    /** `pack` as written: a poke is routed by the attribute "gruop_id". */
    method PackAsWritten(ev: EventView, nodes: seq<Value>, isPureText: bool) returns (r: Result<Packed>)
      modifies params
      ensures Route(ev, "gruop_id").Err? ==> r == Err(Route(ev, "gruop_id").error) && params.entries == old(params.entries)
      ensures Route(ev, "gruop_id").Ok? ==> (r.Ok? && r.value.params == params
        && r.value.actionType == (if Route(ev, "gruop_id").value.ToGroup? then "send_group_forward_msg" else "send_private_forward_msg")
        && params.entries == SendParams(old(params.entries), "messages", List(nodes), isPureText,
             if Route(ev, "gruop_id").value.ToGroup? then "group_id" else "user_id", Route(ev, "gruop_id").value.id))
    {
      r := PackBy(ev, "gruop_id", nodes, isPureText);
    }

    /** `pack` testing "group_id", as the message packer does. */
    method Pack(ev: EventView, nodes: seq<Value>, isPureText: bool) returns (r: Result<Packed>)
      modifies params
      ensures Route(ev, "group_id").Err? ==> r == Err(Route(ev, "group_id").error) && params.entries == old(params.entries)
      ensures Route(ev, "group_id").Ok? ==> (r.Ok? && r.value.params == params
        && r.value.actionType == (if Route(ev, "group_id").value.ToGroup? then "send_group_forward_msg" else "send_private_forward_msg")
        && params.entries == SendParams(old(params.entries), "messages", List(nodes), isPureText,
             if Route(ev, "group_id").value.ToGroup? then "group_id" else "user_id", Route(ev, "group_id").value.id))
    {
      r := PackBy(ev, "group_id", nodes, isPureText);
    }

    method PackBy(ev: EventView, groupAttr: string, nodes: seq<Value>, isPureText: bool) returns (r: Result<Packed>)
      modifies params
      ensures Route(ev, groupAttr).Err? ==> r == Err(Route(ev, groupAttr).error) && params.entries == old(params.entries)
      ensures Route(ev, groupAttr).Ok? ==> (r.Ok? && r.value.params == params
        && r.value.actionType == (if Route(ev, groupAttr).value.ToGroup? then "send_group_forward_msg" else "send_private_forward_msg")
        && params.entries == SendParams(old(params.entries), "messages", List(nodes), isPureText,
             if Route(ev, groupAttr).value.ToGroup? then "group_id" else "user_id", Route(ev, groupAttr).value.id))
    {
      var dest := Route(ev, groupAttr);
      if dest.Err? {
        return Err(dest.error);
      }
      var p;
      if dest.value.ToGroup? {
        p := GroupPack(nodes, dest.value.id, isPureText);
      } else {
        p := PrivatePack(nodes, dest.value.id, isPureText);
      }
      r := Ok(p);
    }
  }

  /** MsgDelPacker: `delete_msg` with the message id, in its one params dict. */
  class MsgDelPacker {
    const params: Params

    constructor()
      ensures fresh(params) && params.entries == map[]
    {
      params := new Params();
    }

    method Pack(msgId: Value) returns (p: Packed)
      modifies params
      ensures p == Packed("delete_msg", params)
      ensures params.entries == old(params.entries)["message_id" := msgId]
    {
      params.entries := params.entries["message_id" := msgId];
      p := Packed("delete_msg", params);
    }
  }

  /** GetBotInfoPacker: `get_login_info` with its params dict, which nothing writes. */
  class GetBotInfoPacker {
    const params: Params

    constructor()
      ensures fresh(params) && params.entries == map[]
    {
      params := new Params();
    }

    method Pack() returns (p: Packed)
      ensures p == Packed("get_login_info", params)
    {
      p := Packed("get_login_info", params);
    }
  }

  // ---------------------------------------------------------------- builder

  /**
   * `ActionBuilder.build`: the action type and a deep copy of the params
   * as they are now, with an echo from the clock reading `nowMicros` only
   * when asked for.
   */
  function Build(package: Packed, isEcho: bool, nowMicros: int): (r: Value)
    reads package.params
    ensures r.Dict? && r.fields.Keys == {"action", "params"} + (if isEcho then {"echo"} else {})
    ensures r.fields["action"] == Str(package.actionType) && r.fields["params"] == Dict(package.params.entries)
  {
    var resp := map["action" := Str(package.actionType), "params" := Dict(package.params.entries)];
    Dict(if isEcho then resp["echo" := Int(nowMicros)] else resp)
  }

  /**
   * A built action is detached from the packer: a later pack on the same
   * packer changes the earlier pack's params, but not the action built
   * from it.
   */
  method BuiltActionDetached(m1: seq<Value>, m2: seq<Value>, userId: Value, groupId: Value)
    returns (first: Packed, built: Value)
    requires MessageOf(m1).Ok? && MessageOf(m2).Ok?
    ensures "group_id" in first.params.entries && first.params.entries["group_id"] == groupId
    ensures built == Dict(map["action" := Str("send_private_msg"),
      "params" := Dict(map["message" := MessageOf(m1).value, "user_id" := userId])])
  {
    var packer := new MsgSendPacker();
    var r1 := packer.PrivatePack(m1, userId, false);
    first := r1.value;
    built := Build(first, false, 0);
    var r2 := packer.GroupPack(m2, groupId, false);
  }
}

=== FILE: bot_session.dfy ===
/**
 * Sessions, attribute reflection and the session lookup of
 * bot/common/Session.py.
 *
 * A session lives in a sessions space, a list shared by the sessions of
 * one command; it records the events attached to it with a count each, in
 * first-attachment order (an OrderedDict). Objects are identities (`Obj`)
 * and their attributes an explicit graph, so `getattr` is a lookup that
 * may fail with AttributeError and `setattr` an update of the graph.
 */
module BotSession {
  import opened Wrap

  type Obj = nat
  type Attrs = map<(Obj, string), Obj>

  /** Following a chain of attribute names from `o`; a missing attribute raises AttributeError. */
  function Walk(attrs: Attrs, o: Obj, path: seq<string>): Result<Obj>
    decreases |path|
  {
    if path == [] then Ok(o)
    else if (o, path[0]) in attrs then Walk(attrs, attrs[(o, path[0])], path[1..])
    else Err(AttributeError)
  }

  /** A chain is walked in pieces: the walk of `p + q` is the walk of `q` from where `p` ends. */
  lemma {:induction false} WalkAppend(attrs: Attrs, o: Obj, p: seq<string>, q: seq<string>)
    ensures Walk(attrs, o, p + q) == if Walk(attrs, o, p).Ok? then Walk(attrs, Walk(attrs, o, p).value, q) else Walk(attrs, o, p)
    decreases |p|
  {
    if p != [] {
      assert (p + q)[0] == p[0];
      assert (p + q)[1..] == p[1..] + q;
      if (o, p[0]) in attrs {
        WalkAppend(attrs, attrs[(o, p[0])], p[1..], q);
      }
    } else {
      assert p + q == q;
    }
  }

  /** The attribute edges a successful walk goes through, in order. */
  function Edges(attrs: Attrs, o: Obj, path: seq<string>): seq<(Obj, string)>
    decreases |path|
  {
    if path == [] || (o, path[0]) !in attrs then []
    else [(o, path[0])] + Edges(attrs, attrs[(o, path[0])], path[1..])
  }

  /** Changing an attribute that a walk does not go through leaves the walk as it was. */
  lemma {:induction false} WalkFrame(attrs: Attrs, o: Obj, path: seq<string>, edge: (Obj, string), v: Obj)
    requires edge !in Edges(attrs, o, path)
    requires Walk(attrs, o, path).Ok?
    ensures Walk(attrs[edge := v], o, path) == Walk(attrs, o, path)
    decreases |path|
  {
    if path != [] {
      assert (o, path[0]) != edge;
      WalkFrame(attrs, attrs[(o, path[0])], path[1..], edge, v);
    }
  }

  /** `Reflector`, over the attribute graph. */
  class Reflector {
    var attrs: Attrs

    constructor (attrs: Attrs)
      ensures this.attrs == attrs
    {
      this.attrs := attrs;
    }

    /** `Reflector.get`: the loop `val = getattr(val, attr)` over the chain. */
    method Get(obj: Obj, path: seq<string>) returns (r: Result<Obj>)
      ensures r == Walk(attrs, obj, path)
    {
      var val := obj;
      assert path[0..] == path;
      for i := 0 to |path|
        invariant Walk(attrs, obj, path) == Walk(attrs, val, path[i..])
      {
        assert path[i..][0] == path[i] && path[i..][1..] == path[i + 1..];
        if (val, path[i]) !in attrs {
          return Err(AttributeError);
        }
        val := attrs[(val, path[i])];
      }
      assert path[|path|..] == [];
      r := Ok(val);
    }

    /**
     * `Reflector.set`: walk all names but the last, then set the last one
     * there. An empty chain fails at `attrs[-1]` with IndexError.
     */
    method Set(obj: Obj, path: seq<string>, val: Obj) returns (r: Result<()>)
      modifies this
      ensures path == [] ==> r == Err(IndexError) && attrs == old(attrs)
      ensures path != [] && Walk(old(attrs), obj, path[..|path| - 1]).Err? ==> r == Err(AttributeError) && attrs == old(attrs)
      ensures path != [] && Walk(old(attrs), obj, path[..|path| - 1]).Ok? ==>
        r.Ok? && attrs == old(attrs)[(Walk(old(attrs), obj, path[..|path| - 1]).value, path[|path| - 1]) := val]
    {
      var field := obj;
      var prefix := if path == [] then [] else path[..|path| - 1];
      assert prefix[0..] == prefix;
      for i := 0 to |prefix|
        invariant attrs == old(attrs)
        invariant Walk(attrs, obj, prefix) == Walk(attrs, field, prefix[i..])
      {
        assert prefix[i..][0] == prefix[i] && prefix[i..][1..] == prefix[i + 1..];
        if (field, prefix[i]) !in attrs {
          return Err(AttributeError);
        }
        field := attrs[(field, prefix[i])];
      }
      assert prefix[|prefix|..] == [];
      if path == [] {
        return Err(IndexError);
      }
      attrs := attrs[(field, path[|path| - 1]) := val];
      r := Ok(());
    }
  }

  /**
   * What `Reflector.set` promises `Reflector.get`: after setting a chain
   * whose prefix walk does not go through the edge being set, getting the
   * chain gives the value set.
   */
  lemma {:induction false} SetThenGet(attrs: Attrs, obj: Obj, path: seq<string>, val: Obj)
    requires path != []
    requires Walk(attrs, obj, path[..|path| - 1]).Ok?
    requires (Walk(attrs, obj, path[..|path| - 1]).value, path[|path| - 1]) !in Edges(attrs, obj, path[..|path| - 1])
    ensures Walk(attrs[(Walk(attrs, obj, path[..|path| - 1]).value, path[|path| - 1]) := val], obj, path) == Ok(val)
  {
    var prefix := path[..|path| - 1];
    var field := Walk(attrs, obj, prefix).value;
    var edge := (field, path[|path| - 1]);
    var after := attrs[edge := val];
    WalkFrame(attrs, obj, prefix, edge, val);
    WalkAppend(after, obj, prefix, [path[|path| - 1]]);
    assert prefix + [path[|path| - 1]] == path;
  }

  predicate Distinct(s: seq<Obj>) {
    forall i, j :: 0 <= i < j < |s| ==> s[i] != s[j]
  }

  /** A sessions space: the list of sessions one command shares. */
  class SessionSpace {
    var sessions: seq<BotSession>

    constructor ()
      ensures sessions == []
    {
      sessions := [];
    }
  }

  /** The list after `list.remove(x)`: the first occurrence of `x` gone. */
  function RemoveFirst(s: seq<BotSession>, x: BotSession): (r: seq<BotSession>)
    ensures x in s ==> |r| == |s| - 1 && multiset(r) == multiset(s) - multiset{x}
    ensures x !in s ==> r == s
  {
    if s == [] then []
    else if s[0] == x then assert s == [s[0]] + s[1..]; s[1..]
    else assert s == [s[0]] + s[1..]; [s[0]] + RemoveFirst(s[1..], x)
  }

  class BotSession {
    var expires: bool
    const space: SessionSpace?
    /** The keys of `event_records`, in insertion order, and their counts. */
    var order: seq<Obj>
    var counts: map<Obj, nat>
    var activated: bool
    /** The session's own `store` dict. */
    var store: map<Obj, Obj>

    /** The event records are an ordered dictionary: distinct keys, each with a positive count. */
    ghost predicate RecordsOk()
      reads this
    {
      Distinct(order)
      && (forall e :: e in order <==> e in counts)
      && (forall e :: e in counts ==> counts[e] >= 1)
    }

    constructor (space: SessionSpace?)
      ensures this.space == space && !expires && !activated
      ensures order == [] && counts == map[] && RecordsOk() && store == map[]
    {
      this.space := space;
      store := map[];
      expires := false;
      order := [];
      counts := map[];
      activated := false;
    }

    /** `__add_event`: a known event's count goes up where it stands; a new one goes last with count 1. */
    method AddEvent(e: Obj)
      modifies this`order, this`counts
      ensures old(RecordsOk()) ==> RecordsOk()
      ensures e in old(counts) ==> order == old(order) && counts == old(counts)[e := old(counts)[e] + 1]
      ensures e !in old(counts) ==> order == old(order) + [e] && counts == old(counts)[e := 1]
    {
      if e in counts {
        counts := counts[e := counts[e] + 1];
      } else {
        order := order + [e];
        counts := counts[e := 1];
      }
    }

    /** `store_get`: a missing key raises KeyError. */
    method StoreGet(key: Obj) returns (r: Result<Obj>)
      ensures key in store <==> r.Ok?
      ensures key in store ==> r.value == store[key]
      ensures key !in store ==> r == Err(KeyError)
    {
      if key !in store {
        return Err(KeyError);
      }
      r := Ok(store[key]);
    }

    /** `store_add`: the key is bound to the value, replacing any earlier one. */
    method StoreAdd(key: Obj, val: Obj)
      modifies this`store
      ensures store == old(store)[key := val]
    {
      store := store[key := val];
    }

    /** `store_update`: the given entries win over the old ones. */
    method StoreUpdate(m: map<Obj, Obj>)
      modifies this`store
      ensures store.Keys == old(store).Keys + m.Keys
      ensures forall k :: k in m ==> store[k] == m[k]
      ensures forall k :: k in old(store) && k !in m ==> store[k] == old(store)[k]
    {
      store := store + m;
    }

    /** `store_remove`: `dict.pop` without a default raises KeyError on a missing key. */
    method StoreRemove(key: Obj) returns (r: Result<()>)
      modifies this`store
      ensures key in old(store) ==> r == Ok(()) && store == old(store) - {key}
      ensures key !in old(store) ==> r == Err(KeyError) && store == old(store)
    {
      if key !in store {
        return Err(KeyError);
      }
      store := store - {key};
      r := Ok(());
    }

    /**
     * The `event` property: the last key. On empty records `next` raises
     * StopIteration, which the `except IndexError` does not catch.
     */
    function Event(): (r: Result<Obj>)
      reads this
      ensures r.Err? <==> order == []
      ensures r.Err? ==> r.error == StopIteration
      ensures r.Ok? ==> r.value == order[|order| - 1]
    {
      if order == [] then Err(StopIteration) else Ok(order[|order| - 1])
    }

    /**
     * `destory`: the first call removes the session from its space (list
     * `remove`: ValueError if it is not there, AttributeError without a
     * space) and marks it expired; later calls do nothing.
     */
    method Destroy() returns (r: Result<()>)
      modifies this`expires, space
      ensures old(expires) ==> r.Ok? && expires && (space != null ==> space.sessions == old(space.sessions))
      ensures !old(expires) && space == null ==> r == Err(AttributeError) && !expires
      ensures !old(expires) && space != null && this !in old(space.sessions) ==>
        r == Err(ValueError) && !expires && space.sessions == old(space.sessions)
      ensures !old(expires) && space != null && this in old(space.sessions) ==>
        r.Ok? && expires && space.sessions == RemoveFirst(old(space.sessions), this)
    {
      if !expires {
        if space == null {
          return Err(AttributeError);
        }
        if this !in space.sessions {
          return Err(ValueError);
        }
        space.sessions := RemoveFirst(space.sessions, this);
        expires := true;
      }
      r := Ok(());
    }
  }

  /** The rule a lookup compares events by: a custom method, or an attribute chain. */
  datatype Test = Custom(m: (Obj, Obj) -> bool) | ByPath(path: seq<string>)

  /** `checkAttr`: one attribute name, a tuple of names, or anything else (a TypeError). */
  datatype CheckAttr = AttrName(name: string) | AttrTuple(names: seq<string>) | OtherAttr

  /** Whether a space entry whose `event` is `stored` matches the new event; errors propagate. */
  function Matches(t: Test, attrs: Attrs, event: Obj, stored: Result<Obj>): Result<bool> {
    if stored.Err? then Err(stored.error)
    else match t
      case Custom(m) => Ok(m(event, stored.value))
      case ByPath(path) =>
        var a := Walk(attrs, stored.value, path);
        if a.Err? then Err(a.error)
        else
          var b := Walk(attrs, event, path);
          if b.Err? then Err(b.error) else Ok(a.value == b.value)
  }

  /** Where the lookup stops: at an error, at the first matching entry, or at the end of the space. */
  datatype Found = Fail(error: Exc, index: nat) | At(index: nat) | Nowhere

  /** How far the scan got: the entries before this position were all compared and did not match. */
  function Reached(f: Found, n: nat): nat {
    if f.Nowhere? then n else f.index
  }

  /** The scan of the `event`s of a space from position `k`. */
  function Scan(t: Test, attrs: Attrs, event: Obj, stored: seq<Result<Obj>>, k: nat): (f: Found)
    requires k <= |stored|
    ensures f.At? ==> k <= f.index < |stored| && Matches(t, attrs, event, stored[f.index]) == Ok(true)
    ensures f.Fail? ==> k <= f.index < |stored| && Matches(t, attrs, event, stored[f.index]) == Err(f.error)
    ensures forall j :: k <= j < Reached(f, |stored|) ==> Matches(t, attrs, event, stored[j]) == Ok(false)
    decreases |stored| - k
  {
    if k == |stored| then Nowhere
    else
      var m := Matches(t, attrs, event, stored[k]);
      if m.Err? then Fail(m.error, k)
      else if m.value then At(k)
      else Scan(t, attrs, event, stored, k + 1)
  }

  /** The `event` of every session of a space, in list order. */
  function StoredEvents(ss: seq<BotSession>): (r: seq<Result<Obj>>)
    reads set s | s in ss
    ensures |r| == |ss| && forall i :: 0 <= i < |ss| ==> r[i] == ss[i].Event()
  {
    if ss == [] then [] else [ss[0].Event()] + StoredEvents(ss[1..])
  }

  /**
   * `__get_with_custom` and `__get_with_attr` once the rule is known: the
   * first session of the space, in list order, whose event matches; an
   * activated one is refused (None) and nothing changes; otherwise it gets
   * the event. With no match a new session holding the event goes at the
   * end of the space.
   */
  method GetInSpace(event: Obj, space: SessionSpace, t: Test, attrs: Attrs) returns (r: Result<Option<BotSession>>)
    modifies space, space.sessions
    ensures var f := Scan(t, attrs, event, old(StoredEvents(space.sessions)), 0);
      && (f.Fail? ==> r == Err(f.error) && space.sessions == old(space.sessions))
      && (f.At? && old(space.sessions[f.index].activated) ==> r == Ok(None) && space.sessions == old(space.sessions))
      && (f.At? && !old(space.sessions[f.index].activated) ==>
            var s := old(space.sessions[f.index]);
            r == Ok(Some(s)) && space.sessions == old(space.sessions)
            && (event in old(s.counts) ==> s.order == old(s.order) && s.counts == old(s.counts)[event := old(s.counts)[event] + 1])
            && (event !in old(s.counts) ==> s.order == old(s.order) + [event] && s.counts == old(s.counts)[event := 1]))
      && (f.Nowhere? ==>
            r.Ok? && r.value.Some? && fresh(r.value.value) && space.sessions == old(space.sessions) + [r.value.value]
            && r.value.value.order == [event] && r.value.value.counts == map[event := 1] && r.value.value.space == space)
    ensures forall s :: s in old(space.sessions) && (r.Err? || r == Ok(None) || r.value.value != s) ==> unchanged(s)
  {
    var ss := space.sessions;
    var f := ScanSpace(t, attrs, event, ss);
    assert f == Scan(t, attrs, event, old(StoredEvents(space.sessions)), 0);
    if f.Fail? {
      return Err(f.error);
    }
    if f.At? {
      var chosen := ss[f.index];
      if chosen.activated {
        return Ok(None);
      }
      chosen.AddEvent(event);
      assert forall x :: x in old(space.sessions) && x != chosen ==> unchanged(x);
      return Ok(Some(chosen));
    }
    var s := new BotSession(space);
    s.AddEvent(event);
    space.sessions := ss + [s];
    r := Ok(Some(s));
  }

  /** The loop of `__get_with_custom` and `__get_with_attr` over the space, up to the first match or error. */
  method ScanSpace(t: Test, attrs: Attrs, event: Obj, ss: seq<BotSession>) returns (f: Found)
    ensures f == Scan(t, attrs, event, StoredEvents(ss), 0)
  {
    ghost var stored := StoredEvents(ss);
    for i := 0 to |ss|
      invariant Scan(t, attrs, event, stored, 0) == Scan(t, attrs, event, stored, i)
    {
      var m := Matches(t, attrs, event, ss[i].Event());
      if m.Err? {
        return Fail(m.error, i);
      }
      if m.value {
        return At(i);
      }
    }
    f := Nowhere;
  }

  /**
   * `SessionManager.get_session`: a custom method wins over an attribute
   * rule; with neither, a one-shot session holding the event, in no list.
   * Every session it returns is activated. Iterating a missing space, or a
   * `checkAttr` that is neither a string nor a tuple, raises TypeError.
   */
  method GetSession(event: Obj, space: SessionSpace?, checkAttr: Option<CheckAttr>, checkMethod: Option<(Obj, Obj) -> bool>, attrs: Attrs)
    returns (r: Result<Option<BotSession>>)
    modifies space, if space != null then space.sessions else []
    ensures r.Ok? && r.value.Some? ==> r.value.value.activated
    ensures r.Ok? && r.value.Some? ==> fresh(r.value.value) || (space != null && r.value.value in old(space.sessions))
    ensures checkMethod.None? && checkAttr.None? ==>
      r.Ok? && r.value.Some? && fresh(r.value.value) && r.value.value.order == [event]
      && r.value.value.counts == map[event := 1] && r.value.value.space == space
      && (space != null ==> space.sessions == old(space.sessions))
    ensures checkMethod.None? && checkAttr == Some(OtherAttr) ==> r == Err(TypeError)
    ensures (checkMethod.Some? || checkAttr.Some?) && space == null ==> r == Err(TypeError)
    ensures checkMethod.Some? && space != null ==>
      var f := Scan(Custom(checkMethod.value), attrs, event, old(StoredEvents(space.sessions)), 0);
      (f.At? && old(space.sessions[f.index].activated) ==> r == Ok(None))
      && (f.At? && !old(space.sessions[f.index].activated) ==> r == Ok(Some(old(space.sessions[f.index]))))
      && (f.Nowhere? ==> r.Ok? && r.value.Some? && space.sessions == old(space.sessions) + [r.value.value])
      && (f.Fail? ==> r == Err(f.error))
    ensures checkMethod.None? && checkAttr.Some? && !checkAttr.value.OtherAttr? && space != null ==>
      var path := if checkAttr.value.AttrName? then [checkAttr.value.name] else checkAttr.value.names;
      var f := Scan(ByPath(path), attrs, event, old(StoredEvents(space.sessions)), 0);
      (f.At? && old(space.sessions[f.index].activated) ==> r == Ok(None))
      && (f.At? && !old(space.sessions[f.index].activated) ==> r == Ok(Some(old(space.sessions[f.index]))))
      && (f.Nowhere? ==> r.Ok? && r.value.Some? && space.sessions == old(space.sessions) + [r.value.value])
      && (f.Fail? ==> r == Err(f.error))
  {
    if checkMethod.Some? {
      if space == null {
        return Err(TypeError);
      }
      r := GetInSpace(event, space, Custom(checkMethod.value), attrs);
    } else if checkAttr.Some? {
      if checkAttr.value.OtherAttr? || space == null {
        return Err(TypeError);
      }
      var path := if checkAttr.value.AttrName? then [checkAttr.value.name] else checkAttr.value.names;
      r := GetInSpace(event, space, ByPath(path), attrs);
    } else {
      var s := new BotSession(space);
      s.AddEvent(event);
      r := Ok(Some(s));
    }
    if r.Ok? && r.value.Some? {
      r.value.value.activated := true;
    }
  }
}

=== FILE: cmd_interface.dfy ===
/**
 * The command interface of utils/cmdInterface.py, the generation that
 * works on raw event and action dicts: `call` tries command names before
 * aliases, `sys_call` flags the event it passes on, and `add_prefix`
 * edits an action dict's params in place.
 */
module CmdInterface {
  import opened Wrap
  import opened Json
  import CmdTable
  import BotActions

  /** A raw event dict, which `sys_call` writes into. */
  class EventDict {
    var fields: map<string, Value>

    constructor(fields: map<string, Value>)
      ensures this.fields == fields
    {
      this.fields := fields;
    }
  }

  class ExecInterface {
    /** Each command with its `__alias__` (None when the template gave none). */
    var cmdMap: map<string, Option<seq<string>>>
    var aliasMap: map<string, string>
    var sysCmds: set<string>

    constructor(cmdMap: map<string, Option<seq<string>>>, aliasMap: map<string, string>, sysCmds: set<string>)
      ensures this.cmdMap == cmdMap && this.aliasMap == aliasMap && this.sysCmds == sysCmds
    {
      this.cmdMap := cmdMap;
      this.aliasMap := aliasMap;
      this.sysCmds := sysCmds;
    }

    /** `call`: the command a name runs, a command name winning over an alias; None for an unknown name. */
    function CallTarget(name: string): (r: Option<string>)
      reads this
      ensures r.None? <==> name !in aliasMap && name !in cmdMap
      ensures name in cmdMap ==> r == Some(name)
      ensures name !in cmdMap && name in aliasMap ==> r == Some(aliasMap[name])
    {
      CmdTable.ResolveNameFirst(aliasMap, cmdMap.Keys, name)
    }

    /** `get_cmd_alias`: a new list of a command's aliases; it takes command names only, and a command without aliases raises AttributeError. */
    function GetCmdAlias(cmdName: string): (r: Result<seq<string>>)
      reads this
      ensures cmdName !in cmdMap ==> r == Err(KeyError)
      ensures cmdName in cmdMap && cmdMap[cmdName].None? ==> r == Err(AttributeError)
      ensures cmdName in cmdMap && cmdMap[cmdName].Some? ==> r == Ok(cmdMap[cmdName].value)
    {
      if cmdName !in cmdMap then Err(KeyError)
      else if cmdMap[cmdName].None? then Err(AttributeError)
      else Ok(cmdMap[cmdName].value)
    }

    /** `sys_call`: the event is flagged with `sys_pass = 1` first, so the flag stays even when the system command is unknown. */
    method SysCall(cmdName: string, event: EventDict) returns (r: Result<string>)
      modifies event
      ensures event.fields == old(event.fields)["sys_pass" := Int(1)]
      ensures r.Err? <==> cmdName !in sysCmds
      ensures r.Err? ==> r.error == KeyError
      ensures r.Ok? ==> r.value == cmdName
    {
      event.fields := event.fields["sys_pass" := Int(1)];
      if cmdName !in sysCmds {
        return Err(KeyError);
      }
      r := Ok(cmdName);
    }

    /** `add_prefix`: the action's params dict is edited in place, and left alone without a "message" param. */
    method AddPrefix(params: BotActions.Params, cmdSeq: seq<string>) returns (r: Result<()>)
      modifies params
      ensures CmdTable.PrefixParams(old(params.entries), cmdSeq).Err? ==>
        r == Err(CmdTable.PrefixParams(old(params.entries), cmdSeq).error) && params.entries == old(params.entries)
      ensures CmdTable.PrefixParams(old(params.entries), cmdSeq).Ok? ==>
        r.Ok? && params.entries == CmdTable.PrefixParams(old(params.entries), cmdSeq).value
    {
      var p := CmdTable.PrefixParams(params.entries, cmdSeq);
      if p.Err? {
        return Err(p.error);
      }
      params.entries := p.value;
      r := Ok(());
    }
  }
}

=== FILE: cmd_parser.dfy ===
/**
 * The command parser of src/melobot/utils/parser.py: a text is purified,
 * split into command groups at the start tokens and into pieces at the
 * separator tokens; the first piece of a group names the command and the
 * rest are its arguments.
 */
module CmdParser {
  import opened Wrap
  import Text
  import TokenSplit
  import Logic

  /** The character every token match is replaced by before splitting. */
  const NUL: char := '\0'

  /** The characters no start or separator token may contain. */
  predicate Banned(c: char) {
    c in "'\"\\()[]{}\r\n\t" || ('a' <= c <= 'z') || ('A' <= c <= 'Z') || ('0' <= c <= '9')
  }

  predicate HasBanned(s: string) {
    exists i :: 0 <= i < |s| && Banned(s[i])
  }

  /** A constructed parser; `formatters` records which positions have a formatter. */
  datatype Parser = Parser(start: seq<string>, sep: seq<string>, target: seq<string>, formatters: seq<bool>, needFormat: bool)

  /**
   * `CmdParser(cmd_start, cmd_sep, target, formatters)`: overlapping start
   * and separator tokens are refused first, then tokens with a banned
   * character; a None target matches no command name.
   */
  function New(cmdStart: TokenSplit.TokenArg, cmdSep: TokenSplit.TokenArg, target: Option<TokenSplit.TokenArg>, formatters: Option<seq<bool>>)
    : (r: Result<Parser>)
    ensures TokenSplit.Overlap(TokenSplit.TokenList(cmdStart), TokenSplit.TokenList(cmdSep)) ==> r == Err(ArgParseError)
    ensures HasBanned(TokenSplit.JoinArg(cmdStart) + TokenSplit.JoinArg(cmdSep)) ==> r == Err(ArgParseError)
    ensures r.Ok? <==> (!TokenSplit.Overlap(TokenSplit.TokenList(cmdStart), TokenSplit.TokenList(cmdSep))
      && !HasBanned(TokenSplit.JoinArg(cmdStart) + TokenSplit.JoinArg(cmdSep)))
    ensures r.Ok? ==> (r.value.needFormat <==> target.Some? && formatters.Some? && |formatters.value| > 0)
  {
    var start := TokenSplit.TokenList(cmdStart);
    var sep := TokenSplit.TokenList(cmdSep);
    var fs := if formatters.None? then [] else formatters.value;
    if TokenSplit.Overlap(start, sep) then Err(ArgParseError)
    else if HasBanned(TokenSplit.JoinArg(cmdStart) + TokenSplit.JoinArg(cmdSep)) then Err(ArgParseError)
    else Ok(Parser(start, sep, if target.None? then [] else TokenSplit.TokenList(target.value), fs, target.Some? && |fs| > 0))
  }

  /** `_purify`: spaces and line ends trimmed from both ends, spaces last. */
  function Purify(text: string): (r: string)
    ensures |r| <= |text|
    ensures r == [] || (r[0] != ' ' && r[|r| - 1] != ' ')
  {
    TokenSplit.Strip(TokenSplit.Strip(TokenSplit.Strip(TokenSplit.Strip(TokenSplit.Strip(text, " "), "\r\n"), "\n"), "\r"), " ")
  }

  /** `_parse`: the command groups of the purified text, None when there is none. */
  function ParseGroups(p: Parser, text: string): (r: Option<seq<seq<string>>>)
    ensures r.None? <==> TokenSplit.Groups(Purify(text), p.start, p.sep, NUL) == []
    ensures r.Some? ==> r.value == TokenSplit.Groups(Purify(text), p.start, p.sep, NUL)
  {
    var groups := TokenSplit.Groups(Purify(text), p.start, p.sep, NUL);
    if groups == [] then None else Some(groups)
  }

  /** Every group `_parse` finds is non-empty and its pieces are non-empty and hold no start or separator token. */
  lemma ParseGroupsClean(p: Parser, text: string)
    requires ParseGroups(p, text).Some?
    ensures forall j :: 0 <= j < |ParseGroups(p, text).value| ==>
      TokenSplit.CleanGroup(ParseGroups(p, text).value[j], p.start, p.sep, NUL)
  {
    TokenSplit.GroupsClean(Purify(text), p.start, p.sep, NUL);
  }

  /** A dict from command name to arguments, keys in insertion order. */
  datatype ArgsDict = ArgsDict(names: seq<string>, args: map<string, Logic.ParseArgs>)

  ghost predicate WellFormed(d: ArgsDict) {
    (forall i, j :: 0 <= i < j < |d.names| ==> d.names[i] != d.names[j])
    && (forall n :: n in d.args <==> n in d.names)
  }

  /** `d[k] = v`: a new key goes last, an existing key keeps its place and takes the new value. */
  function Put(d: ArgsDict, k: string, v: Logic.ParseArgs): (r: ArgsDict)
    requires WellFormed(d)
    ensures WellFormed(r) && r.args == d.args[k := v]
    ensures k in d.args ==> r.names == d.names
    ensures k !in d.args ==> r.names == d.names + [k]
  {
    if k in d.args then ArgsDict(d.names, d.args[k := v]) else ArgsDict(d.names + [k], d.args[k := v])
  }

  function ArgsOf(group: seq<string>): Logic.ParseArgs
    requires group != []
  {
    if |group| > 1 then Logic.NewParseArgs(Some(group[1..])) else Logic.NewParseArgs(None)
  }

  /** The dict comprehension of `parse`, inserting group after group. */
  function ToDict(groups: seq<seq<string>>): (r: ArgsDict)
    requires forall j :: 0 <= j < |groups| ==> groups[j] != []
    ensures WellFormed(r)
  {
    if groups == [] then ArgsDict([], map[])
    else Put(ToDict(groups[..|groups| - 1]), groups[|groups| - 1][0], ArgsOf(groups[|groups| - 1]))
  }

  /** The names of the dict are the command names of the groups. */
  lemma {:induction false} ToDictNames(groups: seq<seq<string>>)
    requires forall j :: 0 <= j < |groups| ==> groups[j] != []
    ensures forall n :: n in ToDict(groups).args <==> exists j :: 0 <= j < |groups| && groups[j][0] == n
  {
    if groups != [] {
      var init := groups[..|groups| - 1];
      ToDictNames(init);
      assert ToDict(groups).args == ToDict(init).args[groups[|groups| - 1][0] := ArgsOf(groups[|groups| - 1])];
      forall n
        ensures n in ToDict(groups).args <==> exists j :: 0 <= j < |groups| && groups[j][0] == n
      {
        if exists j :: 0 <= j < |init| && init[j][0] == n {
          var j :| 0 <= j < |init| && init[j][0] == n;
          assert groups[j][0] == n;
        }
        if exists j :: 0 <= j < |groups| && groups[j][0] == n {
          var j :| 0 <= j < |groups| && groups[j][0] == n;
          if j < |init| {
            assert init[j][0] == n;
          }
        }
      }
    }
  }

  /** Each name holds the arguments of the last group with that name: a later duplicate overwrites an earlier one. */
  lemma {:induction false} ToDictLastWins(groups: seq<seq<string>>, j: nat)
    requires forall j :: 0 <= j < |groups| ==> groups[j] != []
    requires j < |groups| && forall l :: j < l < |groups| ==> groups[l][0] != groups[j][0]
    ensures groups[j][0] in ToDict(groups).args && ToDict(groups).args[groups[j][0]] == ArgsOf(groups[j])
  {
    var init := groups[..|groups| - 1];
    assert ToDict(groups).args == ToDict(init).args[groups[|groups| - 1][0] := ArgsOf(groups[|groups| - 1])];
    if j < |init| {
      assert init[j] == groups[j];
      forall l | j < l < |init|
        ensures init[l][0] != init[j][0]
      {
        assert init[l] == groups[l];
      }
      ToDictLastWins(init, j);
    }
  }

  /** `parse`: the dict of command arguments, or None when the text holds no command. */
  function Parse(p: Parser, text: string): (r: Option<ArgsDict>)
    ensures r.None? <==> ParseGroups(p, text).None?
    ensures r.Some? ==> WellFormed(r.value) && r.value == ToDict(ParseGroups(p, text).value)
  {
    var groups := ParseGroups(p, text);
    if groups.None? then None
    else
      TokenSplit.GroupsClean(Purify(text), p.start, p.sep, NUL);
      Some(ToDict(groups.value))
  }

  /** The position of the first name that is a target, if any. */
  function FirstTarget(names: seq<string>, target: seq<string>): (r: Option<nat>)
    ensures r.Some? ==> r.value < |names| && names[r.value] in target
    ensures r.Some? ==> forall i :: 0 <= i < r.value ==> names[i] !in target
    ensures r.None? <==> forall i :: 0 <= i < |names| ==> names[i] !in target
  {
    if names == [] then None
    else if names[0] in target then Some(0)
    else
      var r := FirstTarget(names[1..], target);
      assert forall i :: 1 <= i < |names| ==> names[i] == names[1..][i - 1];
      if r.Some? then Some(r.value + 1) else None
  }

  /** `test`: the first command, in insertion order, that is one of the targets, with its arguments. */
  method Test(p: Parser, argsGroup: Option<ArgsDict>) returns (hit: bool, name: Option<string>, args: Option<Logic.ParseArgs>)
    requires argsGroup.Some? ==> WellFormed(argsGroup.value)
    ensures argsGroup.None? ==> !hit && name.None? && args.None?
    ensures argsGroup.Some? ==> (hit <==> FirstTarget(argsGroup.value.names, p.target).Some?)
    ensures hit ==> (var d := argsGroup.value; var k := FirstTarget(d.names, p.target).value;
      name == Some(d.names[k]) && args == Some(d.args[d.names[k]]))
    ensures !hit ==> name.None? && args.None?
  {
    if argsGroup.None? {
      return false, None, None;
    }
    var d := argsGroup.value;
    var i := 0;
    while i < |d.names|
      invariant 0 <= i <= |d.names|
      invariant forall l :: 0 <= l < i ==> d.names[l] !in p.target
    {
      if d.names[i] in p.target {
        assert FirstTarget(d.names, p.target) == Some(i);
        return true, Some(d.names[i]), Some(d.args[d.names[i]]);
      }
      i := i + 1;
    }
    return false, None, None;
  }

  /** Every present formatter reports success. */
  predicate AllPass(formatters: seq<bool>, statuses: seq<bool>)
    requires |statuses| == |formatters|
  {
    forall i :: 0 <= i < |formatters| && formatters[i] ==> statuses[i]
  }

  /**
   * `format`: already formatted arguments pass at once; otherwise each
   * present formatter runs in order, with `statuses` the answers it gives,
   * and the first failure stops with False. After all pass the values are
   * cut to one per formatter and marked formatted; cutting absent values
   * raises TypeError.
   */
  method Format(p: Parser, args: Logic.ParseArgs, statuses: seq<bool>) returns (r: Result<bool>, after: Logic.ParseArgs)
    requires |statuses| == |p.formatters|
    ensures args.formatted ==> r == Ok(true) && after == args
    ensures !args.formatted && !AllPass(p.formatters, statuses) ==> r == Ok(false) && after == args
    ensures !args.formatted && AllPass(p.formatters, statuses) && args.vals.None? ==> r == Err(TypeError)
    ensures !args.formatted && AllPass(p.formatters, statuses) && args.vals.Some? ==>
      r == Ok(true) && after.formatted
      && after.vals == Some(args.vals.value[..if |args.vals.value| < |p.formatters| then |args.vals.value| else |p.formatters|])
  {
    if args.formatted {
      return Ok(true), args;
    }
    var idx := 0;
    while idx < |p.formatters|
      invariant 0 <= idx <= |p.formatters|
      invariant forall i :: 0 <= i < idx && p.formatters[i] ==> statuses[i]
    {
      if p.formatters[idx] && !statuses[idx] {
        return Ok(false), args;
      }
      idx := idx + 1;
    }
    if args.vals.None? {
      return Err(TypeError), args;
    }
    var n := if |args.vals.value| < |p.formatters| then |args.vals.value| else |p.formatters|;
    r, after := Ok(true), Logic.ParseArgs(Some(args.vals.value[..n]), true);
  }
}

=== FILE: cmd_table.dfy ===
/**
 * The command tables shared by bot/core/Executor.py, utils/Interface.py
 * and utils/cmdInterface.py: the alias map `CmdMapper.build_alias_map`
 * derives from the loaded commands, the resolution of a name or alias
 * to a command, and the "[cmd]: … [args]: …" prefix put in front of a
 * command's reply. The three files carry the same loop and the same
 * prefix code; they differ in the order resolution tries names.
 */
module CmdTable {
  import opened Wrap
  import opened Json
  import Text
  import CommonEncoder

  /** One loaded command in load order: its name and its aliases (None when the template gave none). */
  datatype Entry = Entry(name: string, aliases: Option<seq<string>>)

  /** The aliases the map takes from an entry; None and the empty list are both skipped. */
  function AliasesOf(e: Entry): seq<string> {
    if e.aliases.Some? then e.aliases.value else []
  }

  /** Every alias of `aliases` mapped to `name`, on top of `m`. */
  function Bind(m: map<string, string>, aliases: seq<string>, name: string): (r: map<string, string>)
    ensures r.Keys == m.Keys + set a | a in aliases
    ensures forall a :: a in aliases ==> r[a] == name
    ensures forall a :: a in m && a !in aliases ==> r[a] == m[a]
  {
    m + map a | a in aliases :: name
  }

  /** The alias map after the entries, in load order. */
  function AliasSpec(entries: seq<Entry>): map<string, string> {
    if entries == [] then map[]
    else Bind(AliasSpec(entries[..|entries| - 1]), AliasesOf(entries[|entries| - 1]), entries[|entries| - 1].name)
  }

  /** Binding one more alias is one more map update. */
  lemma BindSnoc(m: map<string, string>, aliases: seq<string>, a: string, name: string)
    ensures Bind(m, aliases + [a], name) == Bind(m, aliases, name)[a := name]
  {
    var l := Bind(m, aliases + [a], name);
    var r := Bind(m, aliases, name)[a := name];
    assert l.Keys == r.Keys;
    forall k | k in l
      ensures l[k] == r[k]
    {
    }
  }

  lemma BindNone(m: map<string, string>, name: string)
    ensures Bind(m, [], name) == m
  {
    assert Bind(m, [], name).Keys == m.Keys;
  }

  lemma AliasSpecSnoc(entries: seq<Entry>, i: nat)
    requires i < |entries|
    ensures AliasSpec(entries[..i + 1]) == Bind(AliasSpec(entries[..i]), AliasesOf(entries[i]), entries[i].name)
  {
    assert entries[..i + 1][..i] == entries[..i];
  }

  /** `build_alias_map`: every alias of every command, in load order, written into the map. */
  method BuildAliasMap(entries: seq<Entry>) returns (aliasMap: map<string, string>)
    ensures aliasMap == AliasSpec(entries)
  {
    aliasMap := map[];
    var i := 0;
    while i < |entries|
      invariant 0 <= i <= |entries|
      invariant aliasMap == AliasSpec(entries[..i])
    {
      var aliases := AliasesOf(entries[i]);
      BindNone(aliasMap, entries[i].name);
      var j := 0;
      while j < |aliases|
        invariant 0 <= j <= |aliases|
        invariant aliasMap == Bind(AliasSpec(entries[..i]), aliases[..j], entries[i].name)
      {
        BindSnoc(AliasSpec(entries[..i]), aliases[..j], aliases[j], entries[i].name);
        aliasMap := aliasMap[aliases[j] := entries[i].name];
        assert aliases[..j + 1] == aliases[..j] + [aliases[j]];
        j := j + 1;
      }
      assert aliases[..j] == aliases;
      AliasSpecSnoc(entries, i);
      i := i + 1;
    }
    assert entries[..i] == entries;
  }

  /** The map's keys are exactly the aliases of the entries, and each maps to a command that lists it. */
  lemma {:induction false} AliasKeys(entries: seq<Entry>)
    ensures forall a :: a in AliasSpec(entries) <==> exists j :: 0 <= j < |entries| && a in AliasesOf(entries[j])
    ensures forall a :: a in AliasSpec(entries) ==> exists j :: 0 <= j < |entries| && a in AliasesOf(entries[j]) && AliasSpec(entries)[a] == entries[j].name
  {
    if entries != [] {
      var init := entries[..|entries| - 1];
      AliasKeys(init);
      forall a
        ensures a in AliasSpec(entries) <==> exists j :: 0 <= j < |entries| && a in AliasesOf(entries[j])
        ensures a in AliasSpec(entries) ==> exists j :: 0 <= j < |entries| && a in AliasesOf(entries[j]) && AliasSpec(entries)[a] == entries[j].name
      {
        if a in AliasesOf(entries[|entries| - 1]) {
        } else if a in AliasSpec(init) {
          var j :| 0 <= j < |init| && a in AliasesOf(init[j]) && AliasSpec(init)[a] == init[j].name;
          assert entries[j] == init[j];
        } else {
          forall j | 0 <= j < |entries|
            ensures a !in AliasesOf(entries[j])
          {
            if j < |init| {
              assert entries[j] == init[j];
            }
          }
        }
      }
    }
  }

  /** When commands share an alias the later command wins: an alias maps to the last command that lists it. */
  lemma {:induction false} AliasLastWins(entries: seq<Entry>, j: nat, a: string)
    requires j < |entries| && a in AliasesOf(entries[j])
    requires forall k :: j < k < |entries| ==> a !in AliasesOf(entries[k])
    ensures a in AliasSpec(entries) && AliasSpec(entries)[a] == entries[j].name
  {
    var init := entries[..|entries| - 1];
    if j < |init| {
      assert init[j] == entries[j];
      forall k | j < k < |init|
        ensures a !in AliasesOf(init[k])
      {
        assert init[k] == entries[k];
      }
      AliasLastWins(init, j, a);
    }
  }

  /** `get_cmd_name` of bot/core/Executor.py and utils/Interface.py: an alias first, then a command name, else BotUnknownCmdName. */
  function ResolveAliasFirst(aliasMap: map<string, string>, names: set<string>, name: string): (r: Result<string>)
    ensures r.Err? <==> name !in aliasMap && name !in names
    ensures r.Err? ==> r.error == BotUnknownCmdName
    ensures name in aliasMap ==> r == Ok(aliasMap[name])
  {
    if name in aliasMap then Ok(aliasMap[name])
    else if name in names then Ok(name)
    else Err(BotUnknownCmdName)
  }

  /** The lookup of utils/cmdInterface.py's `call`: a command name first, then an alias, else None. */
  function ResolveNameFirst(aliasMap: map<string, string>, names: set<string>, name: string): (r: Option<string>)
    ensures r.None? <==> name !in aliasMap && name !in names
    ensures name in names ==> r == Some(name)
  {
    if name in names then Some(name)
    else if name in aliasMap then Some(aliasMap[name])
    else None
  }

  /** Names of loaded commands. */
  function Names(entries: seq<Entry>): set<string> {
    set e | e in entries :: e.name
  }

  /** With the alias map built from the loaded commands, both orders resolve to a loaded command, and they differ only on a name that is also another command's alias. */
  lemma ResolveOrders(entries: seq<Entry>, name: string)
    ensures ResolveAliasFirst(AliasSpec(entries), Names(entries), name).Ok? ==>
      ResolveAliasFirst(AliasSpec(entries), Names(entries), name).value in Names(entries)
    ensures ResolveNameFirst(AliasSpec(entries), Names(entries), name).Some? ==>
      ResolveNameFirst(AliasSpec(entries), Names(entries), name).value in Names(entries)
    ensures ResolveAliasFirst(AliasSpec(entries), Names(entries), name).Ok? <==> ResolveNameFirst(AliasSpec(entries), Names(entries), name).Some?
    ensures name !in AliasSpec(entries) || name !in Names(entries) || AliasSpec(entries)[name] == name ==>
      (ResolveAliasFirst(AliasSpec(entries), Names(entries), name).Ok? ==>
        Some(ResolveAliasFirst(AliasSpec(entries), Names(entries), name).value) == ResolveNameFirst(AliasSpec(entries), Names(entries), name))
  {
    AliasKeys(entries);
    if name in AliasSpec(entries) {
      var j :| 0 <= j < |entries| && name in AliasesOf(entries[j]) && AliasSpec(entries)[name] == entries[j].name;
      assert entries[j] in entries;
    }
  }

  /** The prefix naming the command and its arguments; an empty command sequence raises IndexError. */
  function Prefix(cmdSeq: seq<string>): (r: Result<string>)
    ensures cmdSeq == [] <==> r.Err?
    ensures r.Err? ==> r.error == IndexError
  {
    if cmdSeq == [] then Err(IndexError)
    else Ok("[cmd]: " + cmdSeq[0] + "\n[args]: [" + Text.JoinSep(cmdSeq[1..], "] [") + "]\n\n")
  }

  /** A command without arguments shows an empty bracket pair; its name follows the head. */
  lemma PrefixShape(cmd: string, args: seq<string>)
    ensures Prefix([cmd] + args).Ok?
    ensures Prefix([cmd] + args).value[..|"[cmd]: "| + |cmd|] == "[cmd]: " + cmd
    ensures args == [] ==> Prefix([cmd] + args).value == "[cmd]: " + cmd + "\n[args]: []\n\n"
    ensures |args| == 1 ==> Prefix([cmd] + args).value == "[cmd]: " + cmd + "\n[args]: [" + args[0] + "]\n\n"
  {
    assert ([cmd] + args)[0] == cmd && ([cmd] + args)[1..] == args;
  }

  /**
   * The new reply with the prefix in front: a string is prefixed, a
   * single segment dict becomes [prefix segment, dict], and a list gets
   * the prefix segment inserted first; inserting into any other value
   * raises AttributeError.
   */
  function Prefixed(prefix: string, msg: Value): (r: Result<Value>)
    ensures msg.Str? ==> r == Ok(Str(prefix + msg.s))
    ensures msg.Dict? ==> r == Ok(List([CommonEncoder.TextSeg(prefix), msg]))
    ensures msg.List? ==> r == Ok(List([CommonEncoder.TextSeg(prefix)] + msg.items))
    ensures !msg.Str? && !msg.Dict? && !msg.List? ==> r == Err(AttributeError)
  {
    match msg
    case Str(s) => Ok(Str(prefix + s))
    case Dict(_) => Ok(List([CommonEncoder.TextSeg(prefix), msg]))
    case List(items) => Ok(List([CommonEncoder.TextSeg(prefix)] + items))
    case _ => Err(AttributeError)
  }

  /** The reply without its prefix, for each shape a prefixed reply can have. */
  function Unprefixed(prefix: string, v: Value): Value {
    match v
    case Str(s) => if |prefix| <= |s| then Str(s[|prefix|..]) else v
    case List(items) => if items != [] then List(items[1..]) else v
    case _ => v
  }

  /** The original reply is kept behind the prefix: a string or list comes back whole, a dict as the one-item list. */
  lemma PrefixKeepsReply(prefix: string, msg: Value)
    requires Prefixed(prefix, msg).Ok?
    ensures msg.Str? || msg.List? ==> Unprefixed(prefix, Prefixed(prefix, msg).value) == msg
    ensures msg.Dict? ==> Unprefixed(prefix, Prefixed(prefix, msg).value) == List([msg])
  {
    if msg.Str? {
      assert (prefix + msg.s)[|prefix|..] == msg.s;
    } else if msg.List? {
      assert ([CommonEncoder.TextSeg(prefix)] + msg.items)[1..] == msg.items;
    }
  }

  /**
   * The params of a message action after prefixing: unchanged without a
   * "message" param, otherwise the message replaced by its prefixed form.
   */
  function PrefixParams(params: map<string, Value>, cmdSeq: seq<string>): (r: Result<map<string, Value>>)
    ensures "message" !in params ==> r == Ok(params)
    ensures "message" in params && cmdSeq == [] ==> r == Err(IndexError)
    ensures "message" in params && cmdSeq != [] ==>
      (Prefixed(Prefix(cmdSeq).value, params["message"]).Err? ==> r == Err(AttributeError))
      && (Prefixed(Prefix(cmdSeq).value, params["message"]).Ok? ==>
        r == Ok(params["message" := Prefixed(Prefix(cmdSeq).value, params["message"]).value]))
  {
    if "message" !in params then Ok(params)
    else
      var prefix :- Prefix(cmdSeq);
      var m :- Prefixed(prefix, params["message"]);
      Ok(params["message" := m])
  }

  /** Prefixing touches only the message param. */
  lemma PrefixOnlyMessage(params: map<string, Value>, cmdSeq: seq<string>)
    requires PrefixParams(params, cmdSeq).Ok?
    ensures PrefixParams(params, cmdSeq).value.Keys == params.Keys
    ensures forall k :: k in params && k != "message" ==> PrefixParams(params, cmdSeq).value[k] == params[k]
  {
  }

  /** A command lock; `threaded` tells a thread lock from an asyncio lock. */
  class Lock {
    const threaded: bool

    constructor(threaded: bool)
      ensures this.threaded == threaded
    {
      this.threaded := threaded;
    }
  }
}

=== FILE: common_action.dfy ===
/**
 * The actions of common/Action.py. An action pack pairs a OneBot action
 * name with its params; a BotAction adds a response id, drawn from the id
 * worker only when the response is to be waited for. Message content is
 * normalised to a list of segments before it is packed.
 */
module CommonAction {
  import opened Wrap
  import opened Json
  import Text
  import CommonEncoder

  datatype Pack = Pack(kind: string, params: map<string, Value>)

  /** A BotAction; `trigger` is the raw frame of the event that caused it, if any. */
  datatype BotAction = BotAction(respId: Option<string>, kind: string, params: map<string, Value>, trigger: Option<Value>)

  /** `BotAction(package, respWaited, triggerEvent)`, with `nextId` the id the id worker would hand out. */
  function MakeAction(pack: Pack, respWaited: bool, trigger: Option<Value>, nextId: int): (a: BotAction)
    ensures a.respId.Some? <==> respWaited
    ensures a.kind == pack.kind && a.params == pack.params
  {
    BotAction(if respWaited then Some(Text.IntStr(nextId)) else None, pack.kind, pack.params, trigger)
  }

  /** `extract`: action and params, and the echo only for a non-empty response id. */
  function Extract(a: BotAction): (r: Value)
    ensures r.Dict? && r.fields.Keys == {"action", "params"} + (if a.respId.Some? && a.respId.value != "" then {"echo"} else {})
    ensures r.fields["action"] == Str(a.kind) && r.fields["params"] == Dict(a.params)
  {
    var obj := map["action" := Str(a.kind), "params" := Dict(a.params)];
    Dict(if a.respId.Some? && a.respId.value != "" then obj["echo" := Str(a.respId.value)] else obj)
  }

  /** The frame of an action carries an echo exactly when its response is waited for. */
  lemma EchoIffWaited(pack: Pack, respWaited: bool, trigger: Option<Value>, nextId: int)
    ensures "echo" in Extract(MakeAction(pack, respWaited, trigger, nextId)).fields <==> respWaited
  {
    if respWaited {
      var s := Text.IntStr(nextId);
      assert Text.IsIntLiteral(s);
    }
  }

  // ---------------------------------------------------------------- message content

  /** One level of list flattening: list items are spliced in, anything else kept, order preserved. */
  function FlatOne(items: seq<Value>): seq<Value> {
    if items == [] then []
    else (if items[0].List? then items[0].items else [items[0]]) + FlatOne(items[1..])
  }

  lemma {:induction false} FlatOneAppend(a: seq<Value>, b: seq<Value>)
    ensures FlatOne(a + b) == FlatOne(a) + FlatOne(b)
  {
    if a == [] {
      assert a + b == b;
    } else {
      assert (a + b)[0] == a[0] && (a + b)[1..] == a[1..] + b;
      FlatOneAppend(a[1..], b);
    }
  }

  /** Content with no list in it is already flat. */
  lemma {:induction false} FlatOneNoLists(items: seq<Value>)
    requires forall i :: 0 <= i < |items| ==> !items[i].List?
    ensures FlatOne(items) == items
  {
    if items != [] {
      FlatOneNoLists(items[1..]);
    }
  }

  /** The loop of `msg_action` and `custom_msg_node` over a list of content. */
  method Flatten(content: seq<Value>) returns (temp: seq<Value>)
    ensures temp == FlatOne(content)
  {
    temp := [];
    var i := 0;
    while i < |content|
      invariant 0 <= i <= |content|
      invariant temp == FlatOne(content[..i])
    {
      assert content[..i + 1] == content[..i] + [content[i]];
      FlatOneAppend(content[..i], [content[i]]);
      if content[i].List? {
        temp := temp + content[i].items;
      } else {
        temp := temp + [content[i]];
      }
      i := i + 1;
    }
    assert content[..i] == content;
  }

  /** What the content turns into: `text` of a string as a list, a dict in a list, a list flattened once. */
  function Segments(content: Value): Option<seq<Value>> {
    if content.Str? then
      var t := CommonEncoder.TextMsg(content.s);
      Some(if t.List? then t.items else [t])
    else if content.Dict? then Some([content])
    else if content.List? then Some(FlatOne(content.items))
    else None
  }

  method Normalise(content: Value) returns (msgs: Option<seq<Value>>)
    ensures msgs == Segments(content)
  {
    if content.Str? {
      var t := CommonEncoder.TextMsg(content.s);
      return Some(if t.List? then t.items else [t]);
    } else if content.Dict? {
      return Some([content]);
    } else if content.List? {
      var temp := Flatten(content.items);
      return Some(temp);
    }
    return None;
  }

  /** `MsgPack`: a private message has no group id, a group message has one. */
  function MsgPack(msgs: seq<Value>, isPrivate: bool, userId: Value, groupId: Value): (p: Pack)
    ensures p.params.Keys == {"message_type", "user_id", "message"} + (if isPrivate then {} else {"group_id"})
    ensures p.kind == "send_msg" && p.params["message"] == List(msgs) && p.params["user_id"] == userId
    ensures p.params["message_type"] == Str(if isPrivate then "private" else "group")
    ensures !isPrivate ==> p.params["group_id"] == groupId
  {
    if isPrivate then
      Pack("send_msg", map["message_type" := Str("private"), "user_id" := userId, "message" := List(msgs)])
    else
      Pack("send_msg", map["message_type" := Str("group"), "user_id" := userId, "group_id" := groupId, "message" := List(msgs)])
  }

  /** `msg_action`: the content normalised and packed; BotUnexpectFormat for content of any other type. */
  method MsgAction(content: Value, isPrivate: bool, userId: Value, groupId: Value, respWaited: bool, trigger: Option<Value>, nextId: int)
    returns (r: Result<BotAction>)
    ensures Segments(content).None? <==> r.Err?
    ensures r.Err? ==> r.error == BotUnexpectFormat
    ensures r.Ok? ==> r.value == MakeAction(MsgPack(Segments(content).value, isPrivate, userId, groupId), respWaited, trigger, nextId)
  {
    var msgs := Normalise(content);
    if msgs.None? {
      return Err(BotUnexpectFormat);
    }
    r := Ok(MakeAction(MsgPack(msgs.value, isPrivate, userId, groupId), respWaited, trigger, nextId));
  }

  /** Segments given as a list of lists come out in the same order, one level down. */
  lemma ListContentOrder(a: seq<Value>, b: seq<Value>)
    requires forall i :: 0 <= i < |a| ==> !a[i].List?
    requires forall i :: 0 <= i < |b| ==> !b[i].List?
    ensures Segments(List([List(a), List(b)])) == Some(a + b)
  {
    assert [List(a), List(b)][1..] == [List(b)];
    assert FlatOne([List(b)]) == b + FlatOne([]) == b;
    assert FlatOne([List(a), List(b)]) == a + FlatOne([List(b)]);
  }

  // ---------------------------------------------------------------- forward nodes

  /** `ForwardMsgPack`: the private or the group forward action, addressed accordingly. */
  function ForwardMsgPack(nodes: seq<Value>, isPrivate: bool, userId: Value, groupId: Value): (p: Pack)
    ensures p.kind == (if isPrivate then "send_private_forward_msg" else "send_group_forward_msg")
    ensures p.params.Keys == {if isPrivate then "user_id" else "group_id", "messages"}
    ensures p.params[if isPrivate then "user_id" else "group_id"] == (if isPrivate then userId else groupId)
  {
    if isPrivate then Pack("send_private_forward_msg", map["user_id" := userId, "messages" := List(nodes)])
    else Pack("send_group_forward_msg", map["group_id" := groupId, "messages" := List(nodes)])
  }

  /**
   * `custom_msg_node`: a node with the sender's name, the sender id as a
   * string and the normalised content, and "seq" only when given; content
   * of any other type leaves `msgs` unbound.
   */
  method CustomMsgNode(content: Value, sendName: string, sendId: int, seqNo: Option<string>) returns (r: Result<Value>)
    ensures Segments(content).None? <==> r.Err?
    ensures r.Err? ==> r.error == UnboundLocalError
    ensures r.Ok? ==> r.value == CommonEncoder.Seg("node",
      var d := map["name" := Str(sendName), "uin" := Str(Text.IntStr(sendId)), "content" := List(Segments(content).value)];
      if CommonEncoder.GivenStr(seqNo) then d["seq" := Str(seqNo.value)] else d)
  {
    var msgs := Normalise(content);
    if msgs.None? {
      return Err(UnboundLocalError);
    }
    var d := map["name" := Str(sendName), "uin" := Str(Text.IntStr(sendId)), "content" := List(msgs.value)];
    if CommonEncoder.GivenStr(seqNo) {
      d := d["seq" := Str(seqNo.value)];
    }
    r := Ok(CommonEncoder.Seg("node", d));
  }

  /** The node's "uin" reads back as the sender id. */
  lemma UinReadsBack(sendId: int)
    ensures Text.ParseInt(Text.IntStr(sendId)) == sendId
  {
    Text.IntStrRoundTrip(sendId);
  }

  /** `refer_msg_node`: a node that refers to a message by its id, as a string. */
  function ReferMsgNode(msgId: int): (r: Value)
    ensures CommonEncoder.Data(r) == map["id" := Str(Text.IntStr(msgId))]
  {
    CommonEncoder.Seg("node", map["id" := Str(Text.IntStr(msgId))])
  }

  // ---------------------------------------------------------------- other packs

  /** `UploadFilePack`: the private or group upload, the group one with its folder. */
  function UploadFilePack(isPrivate: bool, file: string, name: string, userId: Value, groupId: Value, folder: Value): (p: Pack)
    ensures p.kind == (if isPrivate then "upload_private_file" else "upload_group_file")
    ensures p.params.Keys == (if isPrivate then {"user_id", "file", "name"} else {"group_id", "file", "name", "folder"})
  {
    if isPrivate then Pack("upload_private_file", map["user_id" := userId, "file" := Str(file), "name" := Str(name)])
    else Pack("upload_group_file", map["group_id" := groupId, "file" := Str(file), "name" := Str(name), "folder" := folder])
  }

  /** `SetGroupAddPack`: the reason only when one is given. */
  function SetGroupAddPack(addFlag: string, addType: string, approve: bool, reason: Option<string>): (p: Pack)
    ensures p.kind == "set_group_add_request"
    ensures p.params.Keys == {"flag", "sub_type", "approve"} + (if CommonEncoder.GivenStr(reason) then {"reason"} else {})
  {
    var params := map["flag" := Str(addFlag), "sub_type" := Str(addType), "approve" := Bool(approve)];
    Pack("set_group_add_request", if CommonEncoder.GivenStr(reason) then params["reason" := Str(reason.value)] else params)
  }

  /** `SetGroupNoticePack`: the image only when one is given. */
  function SetGroupNoticePack(groupId: Value, content: string, imageUrl: Option<string>): (p: Pack)
    ensures p.kind == "_send_group_notice"
    ensures p.params.Keys == {"group_id", "content"} + (if CommonEncoder.GivenStr(imageUrl) then {"image"} else {})
  {
    var params := map["group_id" := groupId, "content" := Str(content)];
    Pack("_send_group_notice", if CommonEncoder.GivenStr(imageUrl) then params["image" := Str(imageUrl.value)] else params)
  }

  /** `SetGroupEssencePack`: "add" sets an essence message, anything else deletes one. */
  function SetGroupEssencePack(msgId: Value, kind: string): (p: Pack)
    ensures p.kind == (if kind == "add" then "set_essence_msg" else "delete_essence_msg")
    ensures p.params == map["message_id" := msgId]
  {
    Pack(if kind == "add" then "set_essence_msg" else "delete_essence_msg", map["message_id" := msgId])
  }

  function CheckSendImagePack(): Pack { Pack("can_send_image", map[]) }

  /** `CheckSendRecordPack` as written: it asks the image question. */
  function CheckSendRecordPackAsWritten(): Pack { Pack("can_send_image", map[]) }

  /** Asking whether a record can be sent asks whether an image can. */
  lemma RecordCheckAsksImage()
    ensures CheckSendRecordPackAsWritten() == CheckSendImagePack()
  {
  }

  /** The record check with the OneBot action `can_send_record`. */
  function CheckSendRecordPack(): (p: Pack)
    ensures p.kind == "can_send_record" && p.params == map[]
  {
    Pack("can_send_record", map[])
  }

  /** The corrected record check is a different action from the image check. */
  lemma RecordCheckDistinct()
    ensures CheckSendRecordPack().kind != CheckSendImagePack().kind
  {
    assert CheckSendRecordPack().kind[9] != CheckSendImagePack().kind[9];
  }
}

=== FILE: common_encoder.dfy ===
/**
 * The message-segment builders of common/Encoder.py. A segment is a dict
 * with a "type" and a "data" dict; optional data keys are added only when
 * their argument is truthy. `text` splits face codes out of a text into
 * face segments between text segments.
 */
module CommonEncoder {
  import opened Wrap
  import opened Json
  import Text
  import CqCode

  function Seg(kind: string, data: map<string, Value>): Value {
    Dict(map["type" := Str(kind), "data" := Dict(data)])
  }

  /** The data dict of a segment. */
  function Data(seg: Value): map<string, Value> {
    if seg.Dict? && "data" in seg.fields && seg.fields["data"].Dict? then seg.fields["data"].fields else map[]
  }

  function TextSeg(t: string): Value { Seg("text", map["text" := Str(t)]) }

  function FaceIdSeg(id: string): Value { Seg("face", map["id" := Str(id)]) }

  /** Python truthiness of an optional string or integer argument. */
  predicate GivenStr(o: Option<string>) { o.Some? && o.value != "" }
  predicate GivenInt(o: Option<int>) { o.Some? && o.value != 0 }

  // ---------------------------------------------------------------- text

  /** The mark `save_and_remark` leaves where a face code was. */
  const POS: string := "&pos;"

  /** `pat in s`. */
  predicate Contains(s: string, pat: string) {
    exists i :: 0 <= i <= |s| && Text.At(s, i, pat)
  }

  /** `re.sub(r'\[CQ:face,id=(\d+?)\]', save_and_remark, text)`: each face code marked, its id collected. */
  function SubFaces(s: string): (r: (string, seq<string>))
    decreases |s|
  {
    if s == [] then ("", [])
    else match CqCode.CodeAt(s, CqCode.FACE_OPEN, ']')
      case Some(e) =>
        var r := SubFaces(s[e + 1..]);
        (POS + r.0, [s[|CqCode.FACE_OPEN|..e]] + r.1)
      case None =>
        var r := SubFaces(s[1..]);
        ([s[0]] + r.0, r.1)
  }

  function Pick(a: seq<Value>, i: nat, fill: Value): Value {
    if i < |a| then a[i] else fill
  }

  function Longest(a: seq<Value>, b: seq<Value>): nat {
    if |a| >= |b| then |a| else |b|
  }

  /** `chain.from_iterable(zip_longest(a, b, fillvalue=fill))`: pairs up to the longer input, flattened. */
  function ZipFlat(a: seq<Value>, b: seq<Value>, fill: Value): (r: seq<Value>)
    ensures |r| == 2 * Longest(a, b)
  {
    seq(2 * Longest(a, b), k requires 0 <= k < 2 * Longest(a, b) => if k % 2 == 0 then Pick(a, k / 2, fill) else Pick(b, k / 2, fill))
  }

  lemma ZipFlatAt(a: seq<Value>, b: seq<Value>, fill: Value, i: nat)
    requires i < Longest(a, b)
    ensures ZipFlat(a, b, fill)[2 * i] == Pick(a, i, fill)
    ensures ZipFlat(a, b, fill)[2 * i + 1] == Pick(b, i, fill)
  {
    assert (2 * i) % 2 == 0 && (2 * i) / 2 == i;
    assert (2 * i + 1) % 2 == 1 && (2 * i + 1) / 2 == i;
  }

  function TextSegs(parts: seq<string>): (r: seq<Value>)
    ensures |r| == |parts| && forall i :: 0 <= i < |parts| ==> r[i] == TextSeg(parts[i])
  {
    seq(|parts|, i requires 0 <= i < |parts| => TextSeg(parts[i]))
  }

  function FaceSegs(ids: seq<string>): (r: seq<Value>)
    ensures |r| == |ids| && forall i :: 0 <= i < |ids| ==> r[i] == FaceIdSeg(ids[i])
  {
    seq(|ids|, i requires 0 <= i < |ids| => FaceIdSeg(ids[i]))
  }

  /**
   * `text`: a text without "[CQ:face" is one text segment; otherwise the
   * face codes are marked, the text split at the marks, and the pieces
   * interleaved with the face segments, padded with empty text segments.
   */
  function TextMsg(s: string): (r: Value)
    ensures !Contains(s, "[CQ:face") ==> r == TextSeg(s)
    ensures Contains(s, "[CQ:face") ==> r.List? && |r.items| >= 2 && |r.items| % 2 == 0
  {
    if !Contains(s, "[CQ:face") then TextSeg(s)
    else
      var sub := SubFaces(s);
      List(ZipFlat(TextSegs(Text.Split(sub.0, POS)), FaceSegs(sub.1), TextSeg("")))
  }

  /** The text pieces between the face codes of `s`, and the ids of those codes, in order. */
  function ScanFaces(s: string): (r: (seq<string>, seq<string>))
    ensures |r.0| == |r.1| + 1
    ensures forall i :: 0 <= i < |r.1| ==> Text.IsDigits(r.1[i])
    decreases |s|
  {
    if s == [] then ([""], [])
    else match CqCode.CodeAt(s, CqCode.FACE_OPEN, ']')
      case Some(e) =>
        var r := ScanFaces(s[e + 1..]);
        ([""] + r.0, [s[|CqCode.FACE_OPEN|..e]] + r.1)
      case None =>
        var r := ScanFaces(s[1..]);
        ([[s[0]] + r.0[0]] + r.0[1..], r.1)
  }

  /** The text with every face code deleted. */
  function StripFaces(s: string): (r: string)
    ensures |r| <= |s|
    decreases |s|
  {
    if s == [] then ""
    else match CqCode.CodeAt(s, CqCode.FACE_OPEN, ']')
      case Some(e) => StripFaces(s[e + 1..])
      case None => [s[0]] + StripFaces(s[1..])
  }

  /** Without a '&' in the text, the only marks are those of the faces, so splitting finds the pieces between faces. */
  lemma {:induction false} SplitAtMarks(s: string)
    requires '&' !in s
    ensures Text.Split(SubFaces(s).0, POS) == ScanFaces(s).0
    ensures SubFaces(s).1 == ScanFaces(s).1
    decreases |s|
  {
    if s != [] {
      assert forall c :: c in s[1..] ==> c in s;
      match CqCode.CodeAt(s, CqCode.FACE_OPEN, ']')
      case Some(e) =>
        assert forall c :: c in s[e + 1..] ==> c in s;
        SplitAtMarks(s[e + 1..]);
        var t := SubFaces(s[e + 1..]).0;
        assert (POS + t)[..|POS|] == POS;
        assert (POS + t)[|POS|..] == t;
      case None =>
        SplitAtMarks(s[1..]);
        var t := SubFaces(s[1..]).0;
        assert s[0] in s;
        assert !Text.At([s[0]] + t, 0, POS) by {
          if |[s[0]] + t| >= |POS| {
            assert ([s[0]] + t)[..|POS|][0] == s[0];
          }
        }
        assert ([s[0]] + t)[1..] == t;
    }
  }

  lemma {:induction false} JoinPieces(s: string)
    ensures Text.Join(ScanFaces(s).0) == StripFaces(s)
    decreases |s|
  {
    if s != [] {
      match CqCode.CodeAt(s, CqCode.FACE_OPEN, ']')
      case Some(e) =>
        JoinPieces(s[e + 1..]);
        var r := ScanFaces(s[e + 1..]).0;
        assert ([""] + r)[1..] == r;
      case None =>
        JoinPieces(s[1..]);
        var r := ScanFaces(s[1..]).0;
        var t := [[s[0]] + r[0]] + r[1..];
        assert t[1..] == r[1..];
        assert r == [r[0]] + r[1..];
    }
  }

  /**
   * For a text with face codes and no '&': 2n+2 segments for n faces,
   * alternating text and face, the faces in the order they were written,
   * the last one an empty text; the texts, joined, are the input with its
   * face codes deleted.
   */
  lemma FaceTextShape(s: string)
    requires '&' !in s && Contains(s, "[CQ:face")
    ensures var texts, ids, r := ScanFaces(s).0, ScanFaces(s).1, TextMsg(s);
      r.List? && |r.items| == 2 * |ids| + 2
      && (forall i :: 0 <= i < |texts| ==> r.items[2 * i] == TextSeg(texts[i]))
      && (forall i :: 0 <= i < |ids| ==> r.items[2 * i + 1] == FaceIdSeg(ids[i]))
      && r.items[2 * |ids| + 1] == TextSeg("")
    ensures Text.Join(ScanFaces(s).0) == StripFaces(s)
  {
    SplitAtMarks(s);
    JoinPieces(s);
    var texts, ids := ScanFaces(s).0, ScanFaces(s).1;
    var a, b := TextSegs(texts), FaceSegs(ids);
    assert TextMsg(s).items == ZipFlat(a, b, TextSeg(""));
    forall i | 0 <= i < |texts|
      ensures TextMsg(s).items[2 * i] == TextSeg(texts[i])
    {
      ZipFlatAt(a, b, TextSeg(""), i);
    }
    forall i | 0 <= i < |ids|
      ensures TextMsg(s).items[2 * i + 1] == FaceIdSeg(ids[i])
    {
      ZipFlatAt(a, b, TextSeg(""), i);
    }
    ZipFlatAt(a, b, TextSeg(""), |ids|);
  }

  // ---------------------------------------------------------------- segment builders

  /** `face`: the id stored as its decimal string. */
  function Face(iconId: int): (r: Value)
    ensures r == FaceIdSeg(Text.IntStr(iconId))
    ensures Text.ParseInt(Data(r)["id"].s) == iconId
  {
    Text.IntStrRoundTrip(iconId);
    FaceIdSeg(Text.IntStr(iconId))
  }

  /** `record`: "magic" only when asked for, "timeout" only for a non-zero timeout, as a string. */
  function Record(url: Value, timeout: Option<int>, magic: bool): (r: Value)
    ensures Data(r).Keys == {"file"} + (if magic then {"magic"} else {}) + (if GivenInt(timeout) then {"timeout"} else {})
    ensures Data(r)["file"] == url
    ensures GivenInt(timeout) ==> Data(r)["timeout"] == Str(Text.IntStr(timeout.value))
  {
    var d := map["file" := url];
    var d := if magic then d["magic" := Int(1)] else d;
    var d := if GivenInt(timeout) then d["timeout" := Str(Text.IntStr(timeout.value))] else d;
    Seg("record", d)
  }

  /** `at`: the name only when one is given. */
  function At(qq: Value, notInName: Option<string>): (r: Value)
    ensures Data(r).Keys == {"qq"} + (if GivenStr(notInName) then {"name"} else {})
    ensures Data(r)["qq"] == qq
  {
    var d := map["qq" := qq];
    Seg("at", if GivenStr(notInName) then d["name" := Str(notInName.value)] else d)
  }

  /** The optional "content" and "image" of the share and music cards. */
  function WithCard(d: map<string, Value>, content: Option<string>, image: Option<string>): (r: map<string, Value>)
    requires "content" !in d && "image" !in d
    ensures r.Keys == d.Keys + (if GivenStr(content) then {"content"} else {}) + (if GivenStr(image) then {"image"} else {})
    ensures forall k :: k in d ==> r[k] == d[k]
  {
    var d := if GivenStr(content) then d["content" := Str(content.value)] else d;
    if GivenStr(image) then d["image" := Str(image.value)] else d
  }

  /** `share`. */
  function Share(url: string, title: string, content: Option<string>, image: Option<string>): (r: Value)
    ensures Data(r).Keys == {"url", "title"} + (if GivenStr(content) then {"content"} else {}) + (if GivenStr(image) then {"image"} else {})
  {
    Seg("share", WithCard(map["url" := Str(url), "title" := Str(title)], content, image))
  }

  function Music(platType: string, songId: string): (r: Value)
    ensures Data(r) == map["type" := Str(platType), "id" := Str(songId)]
  {
    Seg("music", map["type" := Str(platType), "id" := Str(songId)])
  }

  /** `custom_music`: a music card of type "custom". */
  function CustomMusic(url: string, audio: string, title: string, content: Option<string>, image: Option<string>): (r: Value)
    ensures Data(r).Keys == {"type", "url", "audio", "title"} + (if GivenStr(content) then {"content"} else {}) + (if GivenStr(image) then {"image"} else {})
    ensures Data(r)["type"] == Str("custom")
  {
    Seg("music", WithCard(map["type" := Str("custom"), "url" := Str(url), "audio" := Str(audio), "title" := Str(title)], content, image))
  }

  /** `image`: the cache flag defaults to 1, so it is present unless 0 is passed. */
  function Image(url: string, picType: Option<string>, subType: Option<int>, useCache: int): (r: Value)
    ensures Data(r).Keys == {"file"} + (if GivenStr(picType) then {"type"} else {})
      + (if GivenInt(subType) then {"subType"} else {}) + (if useCache != 0 then {"cache"} else {})
    ensures useCache != 0 ==> Data(r)["cache"] == Int(useCache)
  {
    var d := map["file" := Str(url)];
    var d := if GivenStr(picType) then d["type" := Str(picType.value)] else d;
    var d := if GivenInt(subType) then d["subType" := Int(subType.value)] else d;
    var d := if useCache != 0 then d["cache" := Int(useCache)] else d;
    Seg("image", d)
  }

  /** With the default arguments an image segment asks for the cache. */
  lemma ImageCachedByDefault(url: string)
    ensures Data(Image(url, None, None, 1)) == map["file" := Str(url), "cache" := Int(1)]
  {
  }

  function Reply(messageId: Value): Value { Seg("reply", map["id" := messageId]) }
  function Poke(qq: Value): Value { Seg("poke", map["qq" := qq]) }
  function Tts(text: string): Value { Seg("tts", map["text" := Str(text)]) }
}

=== FILE: common_event.dfy ===
/**
 * The events of common/Event.py. A BotEvent reads its type from the raw
 * frame (a `retcode` key makes it a response whatever else it says), then
 * builds exactly one of its six info objects; the other five stay
 * unbuilt and answer False to their predicates (None for the response
 * predicates). A kernel event carries the event that caused it, built in
 * turn from its raw frame.
 */
module CommonEvent {
  import opened Wrap
  import opened Json
  import Text
  import SrcEvent
  import MelobotEvent
  import CqCode

  datatype EKind = Message | Request | Notice | Meta | Kernel | Response

  /**
   * `self.type` after `BotEvent.__init__`: None where it is never assigned.
   * A frame with `post_type` must also have `time`.
   */
  function TypeOf(raw: Value): (r: Result<Option<Value>>)
    requires raw.Dict?
    ensures r.Err? <==> Has(raw, "post_type") && !Has(raw, "time")
    ensures r.Ok? && Has(raw, "retcode") ==> r.value == Some(Str("response"))
    ensures r.Ok? && !Has(raw, "retcode") ==> (r.value.Some? <==> Has(raw, "post_type"))
    ensures r.Ok? && r.value.Some? && !Has(raw, "retcode") ==>
      r.value.value == (if raw.fields["post_type"] == Str("message_sent") then Str("message") else raw.fields["post_type"])
  {
    var t: Option<Value> :- if "post_type" in raw.fields then
        (var _ :- Index(raw, "time");
         var pt := raw.fields["post_type"];
         Ok(Some(if pt == Str("message_sent") then Str("message") else pt)))
      else Ok(None);
    if "retcode" in raw.fields then Ok(Some(Str("response"))) else Ok(t)
  }

  /** The branch `__build` takes: ValueError for an unknown type, AttributeError when the type was never set. */
  function KindOfType(t: Option<Value>): (r: Result<EKind>)
    ensures r.Err? <==> t.None? || t.value !in {Str("message"), Str("request"), Str("notice"), Str("meta_event"), Str("kernel_event"), Str("response")}
    ensures r.Err? ==> r.error == (if t.None? then AttributeError else ValueError)
    ensures r == Ok(Response) <==> t == Some(Str("response"))
    ensures r == Ok(Message) <==> t == Some(Str("message"))
  {
    if t.None? then Err(AttributeError)
    else if t.value == Str("message") then Ok(Message)
    else if t.value == Str("request") then Ok(Request)
    else if t.value == Str("notice") then Ok(Notice)
    else if t.value == Str("meta_event") then Ok(Meta)
    else if t.value == Str("kernel_event") then Ok(Kernel)
    else if t.value == Str("response") then Ok(Response)
    else Err(ValueError)
  }

  /** A frame that says it is a response is one, whatever its post_type, provided a post_type comes with a time. */
  lemma RetcodeForcesResponse(raw: map<string, Value>)
    requires "retcode" in raw && ("post_type" in raw ==> "time" in raw)
    ensures TypeOf(Dict(raw)).Ok? && KindOfType(TypeOf(Dict(raw)).value) == Ok(Response)
  {
  }

  // ---------------------------------------------------------------- message text

  const FACE_MARK: string := "&faceid="

  /** `face_encode` over the text: each `[CQ:face,id=N]` becomes `&faceid=N;` with N read as an int. */
  function FaceEncode(s: string): (r: string)
    decreases |s|
  {
    if s == [] then []
    else match CqCode.CodeAt(s, CqCode.FACE_OPEN, ']')
      case Some(e) => FACE_MARK + Text.DecStr(Text.DigitsValue(s[|CqCode.FACE_OPEN|..e])) + ";" + FaceEncode(s[e + 1..])
      case None => [s[0]] + FaceEncode(s[1..])
  }

  /** `face_decode` over the text: each `&faceid=N;` becomes `[CQ:face,id=N]`. */
  function FaceDecode(s: string): (r: string)
    decreases |s|
  {
    if s == [] then []
    else match CqCode.CodeAt(s, FACE_MARK, ';')
      case Some(e) => CqCode.FACE_OPEN + s[|FACE_MARK|..e] + "]" + FaceDecode(s[e + 1..])
      case None => [s[0]] + FaceDecode(s[1..])
  }

  /** A text without '[' has no face code in it and is left as it is; likewise a text without '&' and the marks. */
  lemma {:induction false} FaceEncodePlain(s: string)
    requires '[' !in s
    ensures FaceEncode(s) == s
    decreases |s|
  {
    if s != [] {
      assert s[0] != '[';
      assert |s| > |CqCode.FACE_OPEN| ==> s[..|CqCode.FACE_OPEN|][0] == s[0];
      FaceEncodePlain(s[1..]);
      assert s == [s[0]] + s[1..];
    }
  }

  lemma {:induction false} FaceDecodePlain(s: string)
    requires '&' !in s
    ensures FaceDecode(s) == s
    decreases |s|
  {
    if s != [] {
      assert s[0] != '&';
      assert |s| > |FACE_MARK| ==> s[..|FACE_MARK|][0] == s[0];
      FaceDecodePlain(s[1..]);
      assert s == [s[0]] + s[1..];
    }
  }

  /**
   * `__get_text` on a CQ string: face codes are hidden as `&faceid=N;`,
   * every other code is removed, the entities are turned back, and the
   * hidden faces are written back as face codes.
   */
  function StrText(s: string): string {
    FaceDecode(CqCode.AntiEscape(MelobotEvent.StripCq(FaceEncode(s))))
  }

  /** Plain text, with neither '[' nor '&', comes out of `__get_text` unchanged. */
  lemma StrTextPlain(s: string)
    requires '[' !in s && '&' !in s
    ensures StrText(s) == s
  {
    FaceEncodePlain(s);
    forall i | 0 <= i < |s|
      ensures !Text.At(s, i, "[CQ:")
    {
      assert i + 4 <= |s| ==> s[i..i + 4][0] == s[i];
    }
    MelobotEvent.StripCqNoCode(s);
    CqCode.AntiEscapeNoAmp(s);
    FaceDecodePlain(s);
  }

  lemma EncodeFace(d: string)
    requires Text.IsDigits(d) && Text.DecStr(Text.DigitsValue(d)) == d
    ensures FaceEncode(CqCode.FACE_OPEN + d + "]") == FACE_MARK + d + ";"
  {
    var s := CqCode.FACE_OPEN + d + "]";
    CqCode.CodeAtExact(CqCode.FACE_OPEN, d, ']');
    assert s[|CqCode.FACE_OPEN| + |d| + 1..] == [];
  }

  lemma DecodeMark(d: string)
    requires Text.IsDigits(d)
    ensures FaceDecode(FACE_MARK + d + ";") == CqCode.FACE_OPEN + d + "]"
  {
    var m := FACE_MARK + d + ";";
    CqCode.CodeAtExact(FACE_MARK, d, ';');
    assert m[|FACE_MARK| + |d| + 1..] == [];
  }

  /** The hidden face mark holds no CQ code and no entity, so stripping and unescaping leave it alone. */
  lemma MarkUntouched(d: string)
    requires Text.IsDigits(d)
    ensures CqCode.AntiEscape(MelobotEvent.StripCq(FACE_MARK + d + ";")) == FACE_MARK + d + ";"
  {
    var m := FACE_MARK + d + ";";
    assert forall i :: 1 <= i < |m| ==> m[i] != '&' && m[i] != '[';
    assert m[0] == '&' && m[1] == 'f';
    forall i | 0 <= i < |m|
      ensures !Text.At(m, i, "[CQ:")
    {
      assert i + 4 <= |m| ==> m[i..i + 4][0] == m[i];
    }
    MelobotEvent.StripCqNoCode(m);
    NoEntity(m, "&amp;", "&");
    NoEntity(m, "&#91;", "[");
    NoEntity(m, "&#93;", "]");
    NoEntity(m, "&#44;", ",");
  }

  lemma NoEntity(m: string, pat: string, rep: string)
    requires |m| >= 2 && m[1] == 'f' && forall i :: 1 <= i < |m| ==> m[i] != '&'
    requires |pat| >= 2 && pat[0] == '&' && pat[1] != 'f'
    ensures Text.Replace(m, pat, rep) == m
  {
    forall i | 0 <= i < |m|
      ensures !Text.At(m, i, pat)
    {
      if i + |pat| <= |m| {
        assert m[i..i + |pat|][0] == m[i] && m[i..i + |pat|][1] == m[i + 1];
      }
    }
    Text.ReplaceAbsent(m, pat, rep);
  }

  /** A face code survives `__get_text` on a CQ string as it was written. */
  lemma FaceCodeKept(n: nat)
    ensures StrText(CqCode.FACE_OPEN + Text.DecStr(n) + "]") == CqCode.FACE_OPEN + Text.DecStr(n) + "]"
  {
    var d := Text.DecStr(n);
    Text.DecStrValue(n);
    EncodeFace(d);
    MarkUntouched(d);
    DecodeMark(d);
  }

  /** `str(v)` in an f-string; `repr` stands for Python's rendering of a list or dict. */
  function Show(v: Value, repr: Value -> string): string {
    match v
    case Null => "None"
    case Bool(b) => if b then "True" else "False"
    case Int(i) => Text.IntStr(i)
    case Str(s) => s
    case _ => repr(v)
  }

  /** The parts `__get_text` collects: the text of text segments and a face code per face segment, in order. */
  function FaceParts(items: seq<Value>, repr: Value -> string): Result<seq<Value>> {
    if items == [] then Ok([])
    else
      var t :- Index(items[0], "type");
      if t == Str("text") then
        var data :- Index(items[0], "data");
        var text :- Index(data, "text");
        var rest :- FaceParts(items[1..], repr);
        Ok([text] + rest)
      else if t == Str("face") then
        var data :- Index(items[0], "data");
        var id :- Index(data, "id");
        var rest :- FaceParts(items[1..], repr);
        Ok([Str(CqCode.FACE_OPEN + Show(id, repr) + "]")] + rest)
      else FaceParts(items[1..], repr)
  }

  predicate HasType(item: Value, t: string) {
    Get(item, "type") == Str(t)
  }

  /** Without face segments the text is that of the later generations: only the text segments count. */
  lemma {:induction false} NoFaceSameText(items: seq<Value>, repr: Value -> string)
    requires forall i :: 0 <= i < |items| ==> !HasType(items[i], "face")
    ensures FaceParts(items, repr) == SrcEvent.TextParts(items)
  {
    if items != [] {
      assert !HasType(items[0], "face");
      NoFaceSameText(items[1..], repr);
    }
  }

  function ListText(items: seq<Value>, repr: Value -> string): Result<string> {
    var parts :- FaceParts(items, repr);
    SrcEvent.JoinValues(parts)
  }

  /** What `Msg.__get_text` gives for each kind of content. */
  function ContentText(content: Value, repr: Value -> string): Result<string> {
    if content.Str? then Ok(StrText(content.s))
    else if content.List? then ListText(content.items, repr)
    else if content == Dict(map[]) then Ok("")
    else Err(TypeError)
  }

  /** `Msg.__get_text`: the string pipeline for a CQ string, the collecting loop for a list of segments. */
  method GetText(content: Value, repr: Value -> string) returns (r: Result<string>)
    ensures r == ContentText(content, repr)
    ensures content.Str? ==> r == Ok(StrText(content.s))
    ensures content.List? ==> r == ListText(content.items, repr)
    ensures !content.Str? && !content.List? ==> r == (if content == Dict(map[]) then Ok("") else Err(TypeError))
  {
    if content.Str? {
      return Ok(StrText(content.s));
    }
    if !content.List? {
      return if content == Dict(map[]) then Ok("") else Err(TypeError);
    }
    var items := content.items;
    var parts: seq<Value> := [];
    var i := 0;
    assert items[0..] == items;
    SrcEvent.PrependAssoc([], [], FaceParts(items, repr));
    while i < |items|
      invariant 0 <= i <= |items|
      invariant FaceParts(items, repr) == SrcEvent.Prepend(parts, FaceParts(items[i..], repr))
    {
      assert items[i..][0] == items[i] && items[i..][1..] == items[i + 1..];
      var t := Index(items[i], "type");
      if t.Err? {
        assert FaceParts(items[i..], repr) == Err(t.error);
        return Err(t.error);
      }
      if t.value == Str("text") || t.value == Str("face") {
        var data := Index(items[i], "data");
        if data.Err? {
          assert FaceParts(items[i..], repr) == Err(data.error);
          return Err(data.error);
        }
        var x := Index(data.value, if t.value == Str("text") then "text" else "id");
        if x.Err? {
          assert FaceParts(items[i..], repr) == Err(x.error);
          return Err(x.error);
        }
        var part := if t.value == Str("text") then x.value else Str(CqCode.FACE_OPEN + Show(x.value, repr) + "]");
        assert FaceParts(items[i..], repr) == SrcEvent.Prepend([part], FaceParts(items[i + 1..], repr));
        SrcEvent.PrependAssoc(parts, [part], FaceParts(items[i + 1..], repr));
        parts := parts + [part];
      } else {
        assert FaceParts(items[i..], repr) == FaceParts(items[i + 1..], repr);
      }
      i := i + 1;
    }
    assert items[i..] == [] && parts + [] == parts;
    r := SrcEvent.JoinValues(parts);
  }

  // ---------------------------------------------------------------- info objects

  /**
   * `temp_src`: looked up whenever the key is present, so source 0 is
   * found. A list or dict, even an empty one, cannot be a key at all
   * (TypeError); any other code the map lacks is a KeyError.
   */
  function TempSrc(raw: Value): (r: Result<Option<string>>)
    requires raw.Dict?
    ensures !Has(raw, "temp_source") ==> r == Ok(None)
    ensures r.Ok? && r.value.Some? ==> Has(raw, "temp_source")
    ensures Has(raw, "temp_source") && raw.fields["temp_source"].Int? ==>
      (r.Ok? <==> raw.fields["temp_source"].i in SrcEvent.TEMP_SRC_MAP)
    ensures Has(raw, "temp_source") && (raw.fields["temp_source"].List? || raw.fields["temp_source"].Dict?) ==>
      r == Err(TypeError)
    ensures var t := Get(raw, "temp_source");
      Has(raw, "temp_source") && (t.Null? || t.Str? || (t.Int? && t.i !in SrcEvent.TEMP_SRC_MAP)) ==> r == Err(KeyError)
  {
    if "temp_source" !in raw.fields then Ok(None)
    else
      var t := raw.fields["temp_source"];
      if t.Int? && t.i in SrcEvent.TEMP_SRC_MAP then Ok(Some(SrcEvent.TEMP_SRC_MAP[t.i]))
      else if t.Bool? then Ok(Some(SrcEvent.TEMP_SRC_MAP[if t.b then 1 else 0]))
      else if t.List? || t.Dict? then Err(TypeError)
      else Err(KeyError)
  }

  /** Unlike the truthiness test of the later generations, source 0 names the group chat. */
  lemma TempSourceZero(raw: map<string, Value>)
    ensures TempSrc(Dict(raw["temp_source" := Int(0)])) == Ok(Some(SrcEvent.TEMP_SRC_MAP[0]))
    ensures SrcEvent.TempSrc(Dict(raw["temp_source" := Int(0)])) == Ok(None)
  {
  }

  datatype Msg = Msg(
    id: Value,
    rawContent: Value,
    content: Value,
    font: Value,
    text: string,
    tempSrc: Option<string>,
    sender: SrcEvent.Sender,
    groupId: Option<Value>)

  /**
   * The info object `Msg.__build` makes of `raw`: the steps in source
   * order, the first one that fails raising its error.
   */
  function MsgOf(raw: Value, repr: Value -> string): (r: Result<Msg>)
    requires raw.Dict?
    ensures var m := raw.fields;
      "message_id" in m && "raw_message" in m && "message" in m && "font" in m && ContentText(m["message"], repr).Ok?
      && TempSrc(raw).Err? ==>
        r == Err(TempSrc(raw).error)
  {
    var id :- Index(raw, "message_id");
    var rawContent :- Index(raw, "raw_message");
    var content :- Index(raw, "message");
    var font :- Index(raw, "font");
    var text :- ContentText(content, repr);
    var tempSrc :- TempSrc(raw);
    var isGroup :- SrcEvent.IsGroup(raw);
    var isAnonym :- SrcEvent.IsGroupAnonym(raw);
    var sender :- MelobotEvent.SenderOf(raw, isGroup, isAnonym);
    var groupId :- if isGroup then (var g :- Index(raw, "group_id"); Ok(Some(g))) else Ok(None);
    Ok(Msg(id, rawContent, content, font, text, tempSrc, sender, groupId))
  }

  /** `Msg.__build`: the fields in source order; the group id for group messages only. */
  method MsgBuild(raw: Value, repr: Value -> string) returns (r: Result<Msg>)
    requires raw.Dict?
    ensures r == MsgOf(raw, repr)
    ensures r.Ok? ==> Has(raw, "message_id") && Has(raw, "raw_message") && Has(raw, "message") && Has(raw, "font")
    ensures r.Ok? ==> r.value.content == raw.fields["message"] && r.value.id == raw.fields["message_id"]
    ensures r.Ok? && raw.fields["message"].List? ==> Ok(r.value.text) == ListText(raw.fields["message"].items, repr)
    ensures r.Ok? && raw.fields["message"].Str? ==> r.value.text == StrText(raw.fields["message"].s)
    ensures r.Ok? ==> Ok(r.value.tempSrc) == TempSrc(raw)
    ensures r.Ok? ==> (r.value.groupId.Some? <==> SrcEvent.IsGroup(raw) == Ok(true))
    ensures r.Ok? && r.value.groupId.Some? ==> Has(raw, "group_id") && r.value.groupId.value == raw.fields["group_id"]
    ensures r.Ok? ==> (SrcEvent.IsGroupAnonym(raw).Ok?
      && Ok(r.value.sender) == MelobotEvent.SenderOf(raw, SrcEvent.IsGroup(raw) == Ok(true), SrcEvent.IsGroupAnonym(raw).value))
  {
    var id := Index(raw, "message_id");
    if id.Err? {
      return Err(id.error);
    }
    var rawContent := Index(raw, "raw_message");
    if rawContent.Err? {
      return Err(rawContent.error);
    }
    var content := Index(raw, "message");
    if content.Err? {
      return Err(content.error);
    }
    var font := Index(raw, "font");
    if font.Err? {
      return Err(font.error);
    }
    var text := GetText(content.value, repr);
    if text.Err? {
      return Err(text.error);
    }
    var tempSrc := TempSrc(raw);
    if tempSrc.Err? {
      return Err(tempSrc.error);
    }
    var isGroup := SrcEvent.IsGroup(raw);
    if isGroup.Err? {
      return Err(isGroup.error);
    }
    var isAnonym := SrcEvent.IsGroupAnonym(raw);
    if isAnonym.Err? {
      return Err(isAnonym.error);
    }
    var sender := MelobotEvent.SenderOf(raw, isGroup.value, isAnonym.value);
    if sender.Err? {
      return Err(sender.error);
    }
    var groupId: Option<Value> := None;
    if isGroup.value {
      var g := Index(raw, "group_id");
      if g.Err? {
        return Err(g.error);
      }
      groupId := Some(g.value);
    }
    r := Ok(Msg(id.value, rawContent.value, content.value, font.value, text.value, tempSrc.value, sender.value, groupId));
  }

  /** The response info: the status the retcode stands for, and the error fields only on failure. */
  datatype Resp = Resp(id: Option<Value>, status: int, err: Option<Value>, errPrompt: Option<Value>, data: Option<Value>)

  /** `Resp.__build`. */
  function RespBuild(raw: Value): (r: Result<Resp>)
    requires raw.Dict?
    ensures r.Ok? <==> Has(raw, "retcode") && (MelobotEvent.Status(raw.fields["retcode"]) == 500 ==> Has(raw, "msg") && Has(raw, "wording"))
    ensures r.Ok? ==> r.value.status == MelobotEvent.Status(raw.fields["retcode"])
    ensures r.Ok? ==> (r.value.err.Some? <==> r.value.status == 500) && (r.value.errPrompt.Some? <==> r.value.status == 500)
    ensures r.Ok? ==> (r.value.id.Some? <==> Has(raw, "echo")) && (r.value.data.Some? <==> Has(raw, "data"))
  {
    var retcode :- Index(raw, "retcode");
    var status := MelobotEvent.Status(retcode);
    var err: (Option<Value>, Option<Value>) :- if status != 500 then Ok((None, None))
      else
        (var msg :- Index(raw, "msg");
         var wording :- Index(raw, "wording");
         Ok((Some(msg), Some(wording))));
    Ok(Resp(if "echo" in raw.fields then Some(raw.fields["echo"]) else None, status, err.0, err.1,
      if "data" in raw.fields then Some(raw.fields["data"]) else None))
  }

  /** A built event: its type and the one info object that was built; the kernel info holds the origin event. */
  datatype BotEvent = BotEvent(
    raw: Value,
    kind: EKind,
    msg: Option<Msg>,
    req: Option<SrcEvent.RequestEvent>,
    notice: Option<Value>,
    meta: Option<Value>,
    kernel: Option<Option<BotEvent>>,
    resp: Option<Resp>)

  predicate OnlyInfo(e: BotEvent) {
    (e.msg.Some? <==> e.kind == Message)
    && (e.req.Some? <==> e.kind == Request)
    && (e.notice.Some? <==> e.kind == Notice)
    && (e.meta.Some? <==> e.kind == Meta)
    && (e.kernel.Some? <==> e.kind == Kernel)
    && (e.resp.Some? <==> e.kind == Response)
  }

  /**
   * How deep origin events nest inside a value: one per kernel frame, and
   * a text origin counted by its length, which bounds what its parse can
   * hold.
   */
  function OriginDepth(v: Value): nat {
    match v
    case Str(s) => |s| + 1
    case Dict(fields) => if "origin_event" in fields then OriginDepth(fields["origin_event"]) + 1 else 0
    case _ => 0
  }

  /**
   * What the model asks of `json.loads`: the text of an object is longer
   * than the chain of origin events nested in it.
   */
  ghost predicate JsonLoads(parse: string -> Result<Value>) {
    forall s {:trigger ParsedDepth(parse, s)} :: ParsedDepth(parse, s) <= |s|
  }

  /** How deep origin events nest in what `parse` makes of `s`. */
  ghost function ParsedDepth(parse: string -> Result<Value>, s: string): nat {
    if parse(s).Ok? then OriginDepth(parse(s).value) else 0
  }

  /**
   * The frame `BotEvent.__init__` works on: a dict as it is, a text parsed
   * by `json.loads`; `json.loads` raises TypeError on anything else, and a
   * parsed value that is not an object fails at `.keys()`.
   */
  function Frame(raw: Value, parse: string -> Result<Value>): (r: Result<Value>)
    requires JsonLoads(parse)
    ensures r.Ok? ==> r.value.Dict? && OriginDepth(r.value) <= OriginDepth(raw)
    ensures raw.Dict? ==> r == Ok(raw)
    ensures !raw.Dict? && !raw.Str? ==> r == Err(TypeError)
  {
    if raw.Dict? then Ok(raw)
    else if raw.Str? then
      assert ParsedDepth(parse, raw.s) <= |raw.s|;
      var v :- parse(raw.s);
      if v.Dict? then Ok(v) else Err(AttributeError)
    else Err(TypeError)
  }

  /**
   * `BotEvent(rawEvent)`: the frame, then the event built on it.
   */
  method Build(raw: Value, repr: Value -> string, parse: string -> Result<Value>) returns (r: Result<BotEvent>)
    requires JsonLoads(parse)
    ensures Frame(raw, parse).Err? ==> r == Err(Frame(raw, parse).error)
    ensures r.Ok? ==> Frame(raw, parse).Ok? && r.value.raw == Frame(raw, parse).value
    ensures r.Ok? ==> TypeOf(r.value.raw).Ok? && Ok(r.value.kind) == KindOfType(TypeOf(r.value.raw).value) && OnlyInfo(r.value)
    decreases OriginDepth(raw), 1
  {
    var fr := Frame(raw, parse);
    if fr.Err? {
      return Err(fr.error);
    }
    r := BuildFrame(fr.value, repr, parse);
  }

  /**
   * The body of `BotEvent.__init__` on a frame: the type, then the info
   * object of that type. A kernel event's origin is None, or is itself
   * passed to `BotEvent`.
   */
  method BuildFrame(raw: Value, repr: Value -> string, parse: string -> Result<Value>) returns (r: Result<BotEvent>)
    requires raw.Dict? && JsonLoads(parse)
    ensures TypeOf(raw).Err? ==> r == Err(KeyError)
    ensures TypeOf(raw).Ok? && KindOfType(TypeOf(raw).value).Err? ==> r == Err(KindOfType(TypeOf(raw).value).error)
    ensures r.Ok? ==> r.value.raw == raw
    ensures r.Ok? ==> TypeOf(raw).Ok? && Ok(r.value.kind) == KindOfType(TypeOf(raw).value) && OnlyInfo(r.value)
    ensures r.Ok? && r.value.kind == Message ==> Ok(r.value.msg.value) == MsgOf(raw, repr)
    ensures r.Ok? && r.value.kind == Response ==> Ok(r.value.resp.value) == RespBuild(raw)
    ensures r.Ok? && r.value.kind == Request ==> Ok(r.value.req.value) == SrcEvent.RequestInit(raw)
    ensures r.Ok? && r.value.kind == Kernel ==>
      Has(raw, "origin_event") && (r.value.kernel.value.None? <==> raw.fields["origin_event"] == Null)
    ensures r.Ok? && r.value.kind == Kernel && r.value.kernel.value.Some? ==>
      var o := r.value.kernel.value.value;
      Frame(raw.fields["origin_event"], parse) == Ok(o.raw)
      && TypeOf(o.raw).Ok? && Ok(o.kind) == KindOfType(TypeOf(o.raw).value) && OnlyInfo(o)
    ensures TypeOf(raw) == Ok(Some(Str("kernel_event"))) && Has(raw, "origin_event") ==>
      var origin := raw.fields["origin_event"];
      (origin == Null ==> r.Ok?) && (origin != Null && Frame(origin, parse).Err? ==> r == Err(Frame(origin, parse).error))
    decreases OriginDepth(raw), 0
  {
    var t := TypeOf(raw);
    if t.Err? {
      return Err(t.error);
    }
    var k := KindOfType(t.value);
    if k.Err? {
      return Err(k.error);
    }
    var e := BotEvent(raw, k.value, None, None, None, None, None, None);
    match k.value {
      case Message =>
        var m := MsgBuild(raw, repr);
        if m.Err? {
          return Err(m.error);
        }
        e := e.(msg := Some(m.value));
      case Request =>
        var q := SrcEvent.RequestInit(raw);
        if q.Err? {
          return Err(q.error);
        }
        e := e.(req := Some(q.value));
      case Notice =>
        e := e.(notice := Some(raw));
      case Meta =>
        e := e.(meta := Some(raw));
      case Kernel =>
        var o := Index(raw, "origin_event");
        if o.Err? {
          return Err(o.error);
        }
        if o.value == Null {
          e := e.(kernel := Some(None));
        } else {
          var origin := Build(o.value, repr, parse);
          if origin.Err? {
            return Err(origin.error);
          }
          e := e.(kernel := Some(Some(origin.value)));
        }
      case Response =>
        var s := RespBuild(raw);
        if s.Err? {
          return Err(s.error);
        }
        e := e.(resp := Some(s.value));
    }
    r := Ok(e);
  }

  /** The origin `KernelEvent` stores: a text is parsed by `json.loads` first, anything else kept as given. */
  function KernelOrigin(origin: Value, parse: string -> Result<Value>): Result<Value> {
    if origin.Str? then parse(origin.s) else Ok(origin)
  }

  /** `KernelEvent(eventType, originEvent)` at clock reading `now`. */
  method KernelEvent(eventType: Value, origin: Value, now: int, repr: Value -> string, parse: string -> Result<Value>)
    returns (r: Result<BotEvent>)
    requires JsonLoads(parse)
    ensures KernelOrigin(origin, parse).Err? ==> r == Err(KernelOrigin(origin, parse).error)
    ensures r.Ok? ==>
      KernelOrigin(origin, parse).Ok? && r.value.kind == Kernel && r.value.kernel.Some?
      && (r.value.kernel.value.None? <==> KernelOrigin(origin, parse).value == Null)
    ensures r.Ok? && r.value.kernel.value.Some? ==>
      var o := r.value.kernel.value.value;
      Frame(KernelOrigin(origin, parse).value, parse) == Ok(o.raw)
      && TypeOf(o.raw).Ok? && Ok(o.kind) == KindOfType(TypeOf(o.raw).value) && OnlyInfo(o)
    ensures KernelOrigin(origin, parse) == Ok(Null) ==> r.Ok?
    ensures var o := KernelOrigin(origin, parse);
      o.Ok? && o.value != Null && Frame(o.value, parse).Err? ==> r == Err(Frame(o.value, parse).error)
  {
    var o := KernelOrigin(origin, parse);
    if o.Err? {
      return Err(o.error);
    }
    var raw := Dict(map["origin_event" := o.value, "time" := Int(now), "post_type" := Str("kernel_event"), "sub_type" := eventType]);
    assert TypeOf(raw) == Ok(Some(Str("kernel_event")));
    r := BuildFrame(raw, repr, parse);
  }

  // ---------------------------------------------------------------- predicates

  function IsMsg(e: BotEvent): bool { e.kind == Message }
  function IsReq(e: BotEvent): bool { e.kind == Request }
  function IsNotice(e: BotEvent): bool { e.kind == Notice }
  function IsMeta(e: BotEvent): bool { e.kind == Meta }
  function IsKernel(e: BotEvent): bool { e.kind == Kernel }
  function IsResp(e: BotEvent): bool { e.kind == Response }

  /** A message predicate: False on an unbuilt message info, else the test on the raw frame. */
  function MsgIs(e: BotEvent, test: Result<bool>): Result<bool> {
    if e.msg.None? then Ok(false) else test
  }

  function IsPrivate(e: BotEvent): Result<bool> { MsgIs(e, SrcEvent.IsPrivate(e.raw)) }
  function IsGroup(e: BotEvent): Result<bool> { MsgIs(e, SrcEvent.IsGroup(e.raw)) }
  function IsTemp(e: BotEvent): Result<bool> { MsgIs(e, Ok(Has(e.raw, "temp_source"))) }

  function IsFriendReq(e: BotEvent): Result<bool> {
    if e.req.None? then Ok(false) else var t :- Index(e.raw, "request_type"); Ok(t == Str("friend"))
  }

  function IsLifecycle(e: BotEvent): Result<bool> {
    if e.meta.None? then Ok(false) else var t :- Index(e.raw, "meta_event_type"); Ok(t == Str("lifecycle"))
  }

  function IsQueueFull(e: BotEvent): Result<bool> {
    if e.kernel.None? then Ok(false) else var t :- Index(e.raw, "sub_type"); Ok(t == Str("eq_full"))
  }

  /** The response predicates answer None, not False, on an event that is no response. */
  function RespIs(e: BotEvent, status: int): Option<bool> {
    if e.resp.None? then None else Some(e.resp.value.status == status)
  }

  function IsOk(e: BotEvent): Option<bool> { RespIs(e, 200) }
  function IsProcessing(e: BotEvent): Option<bool> { RespIs(e, 202) }
  function IsFailed(e: BotEvent): Option<bool> { RespIs(e, 500) }

  /**
   * A built event has exactly one type; the info objects of the other
   * types answer False, and the response predicates None.
   */
  lemma OtherInfoAnswersFalse(e: BotEvent)
    requires OnlyInfo(e)
    ensures (if IsMsg(e) then 1 else 0) + (if IsReq(e) then 1 else 0) + (if IsNotice(e) then 1 else 0)
      + (if IsMeta(e) then 1 else 0) + (if IsKernel(e) then 1 else 0) + (if IsResp(e) then 1 else 0) == 1
    ensures !IsMsg(e) ==> IsPrivate(e) == Ok(false) && IsGroup(e) == Ok(false) && IsTemp(e) == Ok(false)
    ensures !IsReq(e) ==> IsFriendReq(e) == Ok(false)
    ensures !IsMeta(e) ==> IsLifecycle(e) == Ok(false)
    ensures !IsKernel(e) ==> IsQueueFull(e) == Ok(false)
    ensures !IsResp(e) ==> IsOk(e).None? && IsProcessing(e).None? && IsFailed(e).None?
  {
  }

  /** A response is exactly one of ok, processing and failed, according to its retcode. */
  lemma RespExclusive(raw: Value)
    requires raw.Dict? && RespBuild(raw).Ok?
    ensures var s := RespBuild(raw).value;
      (if s.status == 200 then 1 else 0) + (if s.status == 202 then 1 else 0) + (if s.status == 500 then 1 else 0) == 1
    ensures RespBuild(raw).value.status == 200 <==> EqualsInt(raw.fields["retcode"], 0)
    ensures RespBuild(raw).value.status == 202 <==> EqualsInt(raw.fields["retcode"], 1)
  {
  }
}

=== FILE: config.dfy ===
/**
 * The configuration manager of common/Config.py (and its earlier copy in
 * utils/config.py): a loaded TOML table of sections, topped up from the
 * default table, and the post-processing of the working time. Reading
 * and writing the file on disk is outside the model; the loaded table is
 * the manager's state.
 */
module Config {
  import opened Wrap
  import opened Json

  /** A config section: item names to values. */
  type Section<V> = map<string, V>

  /** A config table: section names to sections. */
  type Table<V> = map<string, Section<V>>

  /**
   * The table `fill_defaults` leaves: every default section and item is
   * present, a value the user gave is kept, and sections and items the
   * defaults do not know survive.
   */
  function Fill<V>(config: Table<V>, defaults: Table<V>): (r: Table<V>)
    ensures r.Keys == config.Keys + defaults.Keys
    ensures forall s :: s in defaults ==> defaults[s].Keys <= r[s].Keys
    ensures forall s :: s in config ==> config[s].Keys <= r[s].Keys
    ensures forall s, k :: s in config && k in config[s] ==> r[s][k] == config[s][k]
    ensures forall s, k :: s in defaults && k in defaults[s] && !(s in config && k in config[s]) ==> r[s][k] == defaults[s][k]
    ensures forall s :: s in r && s !in defaults ==> r[s] == config[s]
  {
    map s | s in config.Keys + defaults.Keys ::
      if s in defaults then defaults[s] + (if s in config then config[s] else map[]) else config[s]
  }

  /** Filling a filled table changes nothing. */
  lemma {:induction false} FillIdempotent<V>(config: Table<V>, defaults: Table<V>)
    ensures Fill(Fill(config, defaults), defaults) == Fill(config, defaults)
  {
    var once := Fill(config, defaults);
    var twice := Fill(once, defaults);
    assert twice.Keys == once.Keys;
    forall s | s in once
      ensures twice[s] == once[s]
    {
      if s in defaults {
        assert twice[s].Keys == once[s].Keys;
      }
    }
  }

  /** The items of `defs` named in `done`, under the user's section. */
  ghost function SectionSome<V>(base: Section<V>, defs: Section<V>, done: set<string>): Section
    requires done <= defs.Keys
  {
    (map i | i in done :: defs[i]) + base
  }

  /** The table after the default sections named in `done` have been filled. */
  ghost function FillSome<V>(config: Table<V>, defaults: Table<V>, done: set<string>): Table
    requires done <= defaults.Keys
  {
    map s | s in config.Keys + done ::
      if s in done then defaults[s] + (if s in config then config[s] else map[]) else config[s]
  }

  /** One item step of the inner loop. */
  lemma SectionStep<V>(base: Section<V>, defs: Section<V>, done: set<string>, it: string, cur: Section<V>)
    requires done <= defs.Keys && it in defs && it !in done
    requires cur == SectionSome(base, defs, done)
    ensures it in cur ==> cur == SectionSome(base, defs, done + {it})
    ensures it !in cur ==> cur[it := defs[it]] == SectionSome(base, defs, done + {it})
  {
    var next := SectionSome(base, defs, done + {it});
    assert next.Keys == cur.Keys + {it};
  }

  /** One section step of the outer loop: the section, created empty if missing, is topped up from its defaults. */
  lemma FillStep<V>(config: Table<V>, defaults: Table<V>, done: set<string>, s: string, cur: Table<V>, sec: Section<V>)
    requires done <= defaults.Keys && s in defaults && s !in done
    requires cur == FillSome(config, defaults, done)
    requires sec == defaults[s] + (if s in cur then cur[s] else map[])
    ensures cur[s := sec] == FillSome(config, defaults, done + {s})
  {
  }

  lemma FillNone<V>(config: Table<V>, defaults: Table<V>)
    ensures FillSome(config, defaults, {}) == config
  {
  }

  lemma FillAll<V>(config: Table<V>, defaults: Table<V>)
    ensures FillSome(config, defaults, defaults.Keys) == Fill(config, defaults)
  {
  }

  /** The inner loop of `fill_defaults`: every default item missing from the section is copied in, so the user's items win. */
  method FillItems<V>(sec: Section<V>, defs: Section<V>) returns (out: Section<V>)
    ensures out == defs + sec
  {
    out := sec;
    var items := defs.Keys;
    ghost var done: set<string> := {};
    while items != {}
      invariant items + done == defs.Keys && items !! done
      invariant out == SectionSome(sec, defs, done)
      decreases items
    {
      var it :| it in items;
      SectionStep(sec, defs, done, it, out);
      if it !in out {
        out := out[it := defs[it]];
      }
      items := items - {it};
      done := done + {it};
    }
    assert done == defs.Keys;
    SectionAll(sec, defs);
  }

  lemma SectionAll<V>(sec: Section<V>, defs: Section<V>)
    ensures SectionSome(sec, defs, defs.Keys) == defs + sec
  {
  }

  /** One section of `fill_defaults`: created empty when missing, then topped up. */
  method FillSection<V>(cfg: Table<V>, defs: Section<V>, s: string) returns (sec: Section<V>)
    ensures sec == defs + (if s in cfg then cfg[s] else map[])
  {
    sec := if s in cfg then cfg[s] else map[];
    sec := FillItems(sec, defs);
  }

  /** The outer loop of `fill_defaults`, over the default sections. */
  method FillSections<V>(config: Table<V>, defaults: Table<V>) returns (cfg: Table<V>)
    ensures cfg == FillSome(config, defaults, defaults.Keys)
  {
    cfg := config;
    var todo := defaults.Keys;
    ghost var done: set<string> := {};
    FillNone(config, defaults);
    while todo != {}
      invariant todo + done == defaults.Keys && todo !! done
      invariant cfg == FillSome(config, defaults, done)
      decreases todo
    {
      var s :| s in todo;
      var sec := FillSection(cfg, defaults[s], s);
      FillStep(config, defaults, done, s, cfg, sec);
      cfg := cfg[s := sec];
      todo := todo - {s};
      done := done + {s};
    }
    assert done == defaults.Keys;
  }

  class ConfigManager {
    var config: Table<Value>
    const defaultConfig: Table<Value>

    constructor(config: Table<Value>, defaultConfig: Table<Value>)
      ensures this.config == config && this.defaultConfig == defaultConfig
    {
      this.config := config;
      this.defaultConfig := defaultConfig;
    }

    /** `fill_defaults`: each default section is created if missing, then each missing item is copied in. */
    method FillDefaults()
      modifies this
      ensures config == Fill(old(config), defaultConfig)
    {
      config := FillSections(config, defaultConfig);
      FillAll(old(config), defaultConfig);
    }

    /**
     * `process_config`: a working time of at most 0 becomes None. A
     * missing section or item raises KeyError; a value Python cannot
     * compare with 0 (None, a string, a list or a table) raises TypeError.
     * A boolean compares as 0 or 1.
     */
    method ProcessConfig() returns (r: Result<()>)
      modifies this
      ensures r.Err? ==> config == old(config)
      ensures !("operation" in old(config) && "WORKING_TIME" in old(config)["operation"]) ==> r == Err(KeyError)
      ensures "operation" in old(config) && "WORKING_TIME" in old(config)["operation"] ==>
        var v := old(config)["operation"]["WORKING_TIME"];
        (!(v.Int? || v.Bool?) ==> r == Err(TypeError))
        && ((v.Int? && v.i <= 0) || (v.Bool? && !v.b) ==>
              r.Ok? && config == old(config)["operation" := old(config)["operation"]["WORKING_TIME" := Null]])
        && ((v.Int? && v.i > 0) || (v.Bool? && v.b) ==> r.Ok? && config == old(config))
    {
      if "operation" !in config || "WORKING_TIME" !in config["operation"] {
        return Err(KeyError);
      }
      var v := config["operation"]["WORKING_TIME"];
      var nonPositive: bool;
      match v {
        case Int(i) => nonPositive := i <= 0;
        case Bool(b) => nonPositive := !b;
        case _ => return Err(TypeError);
      }
      if nonPositive {
        config := config["operation" := config["operation"]["WORKING_TIME" := Null]];
      }
      r := Ok(());
    }

    /** Processing twice fails on a working time the first call cleared. */
    method ProcessTwice() returns (a: Result<()>, b: Result<()>)
      requires "operation" in config && "WORKING_TIME" in config["operation"]
      requires config["operation"]["WORKING_TIME"] == Int(0)
      modifies this
      ensures a.Ok? && b == Err(TypeError)
    {
      a := ProcessConfig();
      b := ProcessConfig();
    }
  }
}

=== FILE: core_plugin.dfy ===
/**
 * Event handlers, plugin construction and template checks of
 * melobot/core/plugin.py.
 *
 * Checkers, matchers and parsers are oracles: their answers for the event
 * at hand are inputs. Scheduling `_run` as a task is recorded as an output
 * flag, and `_run` itself is the sequence of steps it takes once the
 * session lookup (an await) has answered.
 */
module CorePlugin {
  import opened Wrap
  import opened Logic

  datatype HandlerClass = MsgClass | ReqClass | NoticeClass

  /** A callback argument: absent, an async function, or some other object. */
  datatype Callback = NoCallback | CoroutineFn | NotCoroutine

  /** The constructor arguments of a handler that its behaviour depends on. */
  datatype HandlerConfig = HandlerConfig(
    cls: HandlerClass,
    hasMatcher: bool,
    hasParser: bool,
    hasChecker: bool,
    priority: int,
    setBlock: bool,
    temp: bool,
    conflictCb: Callback,
    overtimeCb: Callback)

  /** The handler constructors: a message handler needs exactly one of matcher and parser. */
  function CheckConfig(c: HandlerConfig): (r: Result<()>)
    ensures r.Ok? <==> (c.cls == MsgClass ==> c.hasMatcher != c.hasParser)
    ensures r.Err? ==> r.error == BotValueError
  {
    if c.cls == MsgClass && ((!c.hasMatcher && !c.hasParser) || (c.hasMatcher && c.hasParser)) then Err(BotValueError)
    else Ok(())
  }

  /** What the handler's checker, matcher and parser answer for the event at hand. */
  datatype Answers = Answers(check: bool, matched: bool, parsed: Option<map<string, ParseArgs>>)

  /** The calls `_verify` makes, in order; `SetArgs` is the write onto the event. */
  datatype Call = CheckCall | MatchCall | ParseCall | SetArgs(args: Option<map<string, ParseArgs>>)

  datatype Verdict = Verdict(ok: bool, calls: seq<Call>)

  /** `_verify` of the three handler classes. */
  function Verify(c: HandlerConfig, a: Answers): Verdict {
    var checked := if c.hasChecker then [CheckCall] else [];
    if c.hasChecker && !a.check then Verdict(false, checked)
    else if c.cls != MsgClass then Verdict(true, checked)
    else if c.hasMatcher then Verdict(a.matched, checked + [MatchCall])
    else if c.hasParser then Verdict(a.parsed.Some?, checked + [ParseCall, SetArgs(a.parsed)])
    else Verdict(false, checked)
  }

  /**
   * A rejecting checker decides alone; otherwise a message handler answers
   * with its matcher, or with "the parse gave a result" after writing that
   * result onto the event; request and notice handlers pass without a checker.
   */
  lemma VerifyFacts(c: HandlerConfig, a: Answers)
    requires CheckConfig(c).Ok?
    ensures c.hasChecker && !a.check ==> !Verify(c, a).ok && Verify(c, a).calls == [CheckCall]
    ensures c.cls != MsgClass ==> (Verify(c, a).ok <==> !c.hasChecker || a.check)
    ensures c.cls == MsgClass && (!c.hasChecker || a.check) && c.hasMatcher ==> Verify(c, a).ok == a.matched
    ensures c.cls == MsgClass && (!c.hasChecker || a.check) && c.hasParser ==>
      Verify(c, a).ok == a.parsed.Some? && SetArgs(a.parsed) in Verify(c, a).calls
    ensures MatchCall in Verify(c, a).calls || ParseCall in Verify(c, a).calls ==> !c.hasChecker || a.check
  {
  }

  /** One `evoke`: whether the event is accepted (and `_run` scheduled), and the new `is_valid`. */
  datatype Evoked = Evoked(accepted: bool, isValid: bool)

  function EvokeStep(temp: bool, isValid: bool, verified: bool): Evoked {
    if !isValid || !verified then Evoked(false, isValid)
    else if !temp then Evoked(true, isValid)
    else Evoked(true, false)
  }

  /** The answers of a handler to a run of events whose verifications gave `verdicts`. */
  function Replay(temp: bool, isValid: bool, verdicts: seq<bool>): seq<bool>
    decreases |verdicts|
  {
    if verdicts == [] then []
    else
      var e := EvokeStep(temp, isValid, verdicts[0]);
      [e.accepted] + Replay(temp, e.isValid, verdicts[1..])
  }

  function CountTrue(s: seq<bool>): nat {
    if s == [] then 0 else (if s[0] then 1 else 0) + CountTrue(s[1..])
  }

  /** A temporary handler accepts at most one event, and none once it is invalid. */
  lemma {:induction false} TempFiresAtMostOnce(isValid: bool, verdicts: seq<bool>)
    ensures CountTrue(Replay(true, isValid, verdicts)) <= 1
    ensures !isValid ==> CountTrue(Replay(true, isValid, verdicts)) == 0
    decreases |verdicts|
  {
    if verdicts != [] {
      TempFiresAtMostOnce(EvokeStep(true, isValid, verdicts[0]).isValid, verdicts[1..]);
    }
  }

  /** A handler that is not temporary accepts exactly the verified events while valid, and its validity never changes. */
  lemma {:induction false} NonTempAcceptsVerified(isValid: bool, verdicts: seq<bool>)
    ensures |Replay(false, isValid, verdicts)| == |verdicts|
    ensures forall i :: 0 <= i < |verdicts| ==> Replay(false, isValid, verdicts)[i] == (isValid && verdicts[i])
    decreases |verdicts|
  {
    if verdicts != [] {
      NonTempAcceptsVerified(isValid, verdicts[1..]);
      assert forall i :: 1 <= i < |verdicts| ==> Replay(false, isValid, verdicts)[i] == Replay(false, isValid, verdicts[1..])[i - 1];
    }
  }

  /** How the executor's task ended. */
  datatype ExecOutcome = Completed | TimedOut | Raised

  /** The side effects `_run` performs, in order. */
  datatype Step = ConflictCallback(session: nat) | Execute(session: nat) | Overtime(session: nat) | Recycle(session: nat)

  predicate Truthy(cb: Callback) { cb != NoCallback }

  class EventHandler {
    const config: HandlerConfig
    var isValid: bool

    constructor (config: HandlerConfig)
      requires CheckConfig(config).Ok?
      ensures this.config == config && isValid
    {
      this.config := config;
      isValid := true;
    }

    /**
     * `evoke`: an invalid handler answers False without verifying; a
     * verified event is accepted and `_run` is scheduled; a temporary
     * handler flips `is_valid` when it accepts.
     */
    method Evoke(a: Answers) returns (accepted: bool, calls: seq<Call>)
      modifies this`isValid
      ensures old(isValid) ==> calls == Verify(config, a).calls
      ensures !old(isValid) ==> calls == []
      ensures Evoked(accepted, isValid) == EvokeStep(config.temp, old(isValid), Verify(config, a).ok)
    {
      calls := [];
      if !isValid {
        return false, calls;
      }
      var v := Verify(config, a);
      calls := v.calls;
      if !v.ok {
        return false, calls;
      }
      if !config.temp {
        return true, calls;
      }
      if isValid {
        isValid := false;
        return true, calls;
      } else {
        return false, calls;
      }
    }

    /**
     * `_run`, once `BotSessionManager.get` has answered `session` (and, for
     * the conflict callback, the temporary session `temp`). An exception
     * from the executor or from the overtime callback propagates, so the
     * session is then not recycled.
     */
    method Run(session: Option<nat>, temp: nat, outcome: ExecOutcome, overtimeRaised: bool) returns (steps: seq<Step>)
      ensures session.None? ==> steps == if Truthy(config.conflictCb) then [ConflictCallback(temp)] else []
      ensures session.Some? ==> |steps| >= 1 && steps[0] == Execute(session.value)
      ensures session.Some? ==>
        (Recycle(session.value) in steps <==>
          outcome == Completed || (outcome == TimedOut && !(Truthy(config.overtimeCb) && overtimeRaised)))
      ensures forall i :: 0 <= i < |steps| && steps[i].Recycle? ==> i == |steps| - 1
      ensures session.Some? ==> (Overtime(session.value) in steps <==> outcome == TimedOut && Truthy(config.overtimeCb))
    {
      if session.None? {
        steps := [];
        if Truthy(config.conflictCb) {
          steps := [ConflictCallback(temp)];
        }
        return;
      }
      var s := session.value;
      steps := [Execute(s)];
      if outcome == Raised {
        return;
      }
      if outcome == TimedOut && Truthy(config.overtimeCb) {
        steps := steps + [Overtime(s)];
        if overtimeRaised {
          return;
        }
      }
      steps := steps + [Recycle(s)];
    }
  }

  /** An entry of a template's `executors`: the executor and the handler's constructor arguments. */
  datatype ExecutorWrapper = ExecutorWrapper(executorIsCoroutine: bool, config: HandlerConfig)

  datatype Template = Template(name: Option<string>, executors: Option<seq<ExecutorWrapper>>, callers: Option<seq<bool>>)

  /** A callback argument `_template_verify` accepts: None or an async function. */
  predicate CallbackOk(cb: Callback) { cb != NotCoroutine }

  predicate WrapperOk(w: ExecutorWrapper) {
    w.executorIsCoroutine && CallbackOk(w.config.overtimeCb) && CallbackOk(w.config.conflictCb)
  }

  predicate TemplateOk(t: Template) {
    t.name.Some?
    && (t.executors.Some? ==> forall i :: 0 <= i < |t.executors.value| ==> WrapperOk(t.executors.value[i]))
    && (t.callers.Some? ==> forall i :: 0 <= i < |t.callers.value| ==> t.callers.value[i])
  }

  /** `PluginLoader._template_verify`: a name, async executors, async-or-None callbacks and async callers. */
  method TemplateVerify(t: Template) returns (r: Result<()>)
    ensures r.Ok? <==> TemplateOk(t)
    ensures r.Err? ==> r.error == BotException
  {
    if t.name.None? {
      return Err(BotException);
    }
    if t.executors.Some? {
      var ws := t.executors.value;
      for i := 0 to |ws|
        invariant forall j :: 0 <= j < i ==> WrapperOk(ws[j])
      {
        if !ws[i].executorIsCoroutine {
          return Err(BotException);
        }
        var ot := ws[i].config.overtimeCb;
        var cw := ws[i].config.conflictCb;
        if ot != NoCallback && ot != CoroutineFn {
          return Err(BotException);
        }
        if cw != NoCallback && cw != CoroutineFn {
          return Err(BotException);
        }
      }
    }
    if t.callers.Some? {
      var cs := t.callers.value;
      for i := 0 to |cs|
        invariant forall j :: 0 <= j < i ==> cs[j]
      {
        if !cs[i] {
          return Err(BotException);
        }
      }
    }
    r := Ok(());
  }

  /** The index of the first wrapper whose handler cannot be built, or the length when all can. */
  function FirstBad(ws: seq<ExecutorWrapper>): (k: nat)
    ensures k <= |ws|
    ensures forall j :: 0 <= j < k ==> CheckConfig(ws[j].config).Ok?
    ensures k < |ws| ==> CheckConfig(ws[k].config).Err?
  {
    if ws == [] then 0
    else if CheckConfig(ws[0].config).Err? then 0
    else 1 + FirstBad(ws[1..])
  }

  class BotPlugin {
    var handlers: Option<seq<EventHandler>>

    constructor ()
      ensures handlers == None
    {
      handlers := None;
    }

    /**
     * `_init_handlers`: no wrappers leaves `handlers` alone; otherwise one
     * handler per wrapper, in order, until a constructor raises, which
     * propagates and leaves the handlers built so far in place.
     */
    method InitHandlers(wrappers: Option<seq<ExecutorWrapper>>) returns (r: Result<()>)
      modifies this`handlers
      ensures wrappers.None? ==> handlers == old(handlers) && r == Ok(())
      ensures wrappers.Some? ==>
        var k := FirstBad(wrappers.value);
        handlers.Some? && |handlers.value| == k
        && (forall i :: 0 <= i < k ==> handlers.value[i].config == wrappers.value[i].config && handlers.value[i].isValid)
        && (r.Ok? <==> k == |wrappers.value|)
        && (r.Err? ==> r.error == BotValueError)
    {
      if wrappers.None? {
        return Ok(());
      }
      var ws := wrappers.value;
      var built: seq<EventHandler> := [];
      handlers := Some(built);
      for i := 0 to |ws|
        invariant i <= FirstBad(ws)
        invariant handlers == Some(built) && |built| == i
        invariant forall j :: 0 <= j < i ==> built[j].config == ws[j].config && built[j].isValid
        invariant forall j :: 0 <= j < i ==> fresh(built[j])
      {
        if CheckConfig(ws[i].config).Err? {
          return Err(BotValueError);
        }
        var h := new EventHandler(ws[i].config);
        built := built + [h];
        handlers := Some(built);
      }
      r := Ok(());
    }
  }
}

=== FILE: cq_code.dfy ===
/**
 * The CQ-code escaping shared by common/Encoder.py, utils/botAction.py and
 * utils/actInterface.py (and undone by the event text of the message
 * events): '&', '[', ']' and ',' are written as the entities "&amp;",
 * "&#91;", "&#93;" and "&#44;", each with one `str.replace` over the
 * whole text, '&' first; un-escaping replaces the entities back in the
 * same order.
 */
module CqCode {
  import Text
  import opened Wrap

  /** `escape`. */
  function Escape(s: string): string {
    Text.Replace(Text.Replace(Text.Replace(Text.Replace(s, "&", "&amp;"), "[", "&#91;"), "]", "&#93;"), ",", "&#44;")
  }

  /** The escaping of the string-mode `text` builders: the same, without ','. */
  function EscapeKeepComma(s: string): string {
    Text.Replace(Text.Replace(Text.Replace(s, "&", "&amp;"), "[", "&#91;"), "]", "&#93;")
  }

  const ENTITIES: seq<string> := ["&amp;", "&#91;", "&#93;", "&#44;"]
  const SPECIALS: string := "&[],"

  /** The `k`-th replacement of `anti_escape`. */
  function Un(s: string, k: nat): string
    requires k < 4
  {
    Text.Replace(s, ENTITIES[k], [SPECIALS[k]])
  }

  /** `anti_escape`. */
  function AntiEscape(s: string): string {
    Un(Un(Un(Un(s, 0), 1), 2), 3)
  }

  /** How `escape` writes one character. */
  function EscChar(c: char): (e: string)
    ensures |e| == 1 || |e| == 5
  {
    if c == '&' then "&amp;"
    else if c == '[' then "&#91;"
    else if c == ']' then "&#93;"
    else if c == ',' then "&#44;"
    else [c]
  }

  /** Every character written as `escape` writes it, left to right. */
  function EscAll(s: string): string {
    if s == [] then "" else EscChar(s[0]) + EscAll(s[1..])
  }

  lemma ReplaceNoChar(s: string, c: char, rep: string)
    requires c !in s
    ensures Text.Replace(s, [c], rep) == s
  {
    forall i | 0 <= i < |s|
      ensures !Text.At(s, i, [c])
    {
      assert i + 1 <= |s| ==> s[i..i + 1][0] == s[i];
    }
    Text.ReplaceAbsent(s, [c], rep);
  }

  lemma EscapeConcat(a: string, b: string)
    ensures Escape(a + b) == Escape(a) + Escape(b)
  {
    var a1, b1 := Text.Replace(a, "&", "&amp;"), Text.Replace(b, "&", "&amp;");
    Text.ReplaceConcat(a, b, "&", "&amp;");
    var a2, b2 := Text.Replace(a1, "[", "&#91;"), Text.Replace(b1, "[", "&#91;");
    Text.ReplaceConcat(a1, b1, "[", "&#91;");
    var a3, b3 := Text.Replace(a2, "]", "&#93;"), Text.Replace(b2, "]", "&#93;");
    Text.ReplaceConcat(a2, b2, "]", "&#93;");
    Text.ReplaceConcat(a3, b3, ",", "&#44;");
  }

  lemma ReplaceOne(c: char, d: char, rep: string)
    ensures Text.Replace([d], [c], rep) == if c == d then rep else [d]
  {
    assert [d][..1] == [d] && [d][1..] == [];
  }

  /** A text without any of the four specials is its own escape. */
  lemma EscapePlain(s: string)
    requires '&' !in s && '[' !in s && ']' !in s && ',' !in s
    ensures Escape(s) == s
  {
    ReplaceNoChar(s, '&', "&amp;");
    ReplaceNoChar(s, '[', "&#91;");
    ReplaceNoChar(s, ']', "&#93;");
    ReplaceNoChar(s, ',', "&#44;");
  }

  lemma EscapeOne(c: char)
    ensures Escape([c]) == EscChar(c)
  {
    var s1 := Text.Replace([c], "&", "&amp;");
    ReplaceOne('&', c, "&amp;");
    if c == '&' {
      assert s1 == "&amp;";
      EscapePlainTail("&amp;");
    } else {
      assert s1 == [c];
      var s2 := Text.Replace(s1, "[", "&#91;");
      ReplaceOne('[', c, "&#91;");
      if c == '[' {
        assert s2 == "&#91;";
        ReplaceNoChar(s2, ']', "&#93;");
        ReplaceNoChar(s2, ',', "&#44;");
      } else {
        var s3 := Text.Replace(s2, "]", "&#93;");
        ReplaceOne(']', c, "&#93;");
        if c == ']' {
          assert s3 == "&#93;";
          ReplaceNoChar(s3, ',', "&#44;");
        } else {
          ReplaceOne(',', c, "&#44;");
        }
      }
    }
  }

  lemma EscapePlainTail(e: string)
    requires '[' !in e && ']' !in e && ',' !in e
    ensures Text.Replace(Text.Replace(Text.Replace(e, "[", "&#91;"), "]", "&#93;"), ",", "&#44;") == e
  {
    ReplaceNoChar(e, '[', "&#91;");
    ReplaceNoChar(e, ']', "&#93;");
    ReplaceNoChar(e, ',', "&#44;");
  }

  /** `escape` rewrites each character on its own. */
  lemma {:induction false} EscapeIsEscAll(s: string)
    ensures Escape(s) == EscAll(s)
  {
    if s != [] {
      EscapeConcat([s[0]], s[1..]);
      assert [s[0]] + s[1..] == s;
      EscapeOne(s[0]);
      EscapeIsEscAll(s[1..]);
    }
  }

  /** Whether an entity starts at position `i`. */
  predicate EntityAt(s: string, i: nat) {
    Text.At(s, i, "&amp;") || Text.At(s, i, "&#91;") || Text.At(s, i, "&#93;") || Text.At(s, i, "&#44;")
  }

  lemma AtShift(e: string, r: string, j: nat, pat: string)
    requires Text.At(r, j, pat)
    ensures Text.At(e + r, |e| + j, pat)
  {
    assert (e + r)[|e| + j..|e| + j + |pat|] == r[j..j + |pat|];
  }

  lemma {:induction false} EscAllNoSpecial(s: string)
    ensures forall i :: 0 <= i < |EscAll(s)| ==> EscAll(s)[i] !in "[],"
  {
    if s != [] {
      EscAllNoSpecial(s[1..]);
      var e, r := EscChar(s[0]), EscAll(s[1..]);
      assert forall i :: 0 <= i < |e| ==> e[i] !in "[],";
      assert forall i :: |e| <= i < |e + r| ==> (e + r)[i] == r[i - |e|];
    }
  }

  lemma {:induction false} EscAllAmp(s: string)
    ensures forall i :: 0 <= i < |EscAll(s)| && EscAll(s)[i] == '&' ==> EntityAt(EscAll(s), i)
  {
    if s != [] {
      EscAllAmp(s[1..]);
      var e, r := EscChar(s[0]), EscAll(s[1..]);
      assert EscAll(s) == e + r;
      forall i | 0 <= i < |e + r| && (e + r)[i] == '&'
        ensures EntityAt(e + r, i)
      {
        if i < |e| {
          assert (e + r)[i] == e[i];
          assert i == 0 && |e| == 5;
          assert (e + r)[0..5] == e;
        } else {
          var j := i - |e|;
          assert (e + r)[i] == r[j];
          if Text.At(r, j, "&amp;") {
            AtShift(e, r, j, "&amp;");
          } else if Text.At(r, j, "&#91;") {
            AtShift(e, r, j, "&#91;");
          } else if Text.At(r, j, "&#93;") {
            AtShift(e, r, j, "&#93;");
          } else {
            AtShift(e, r, j, "&#44;");
          }
        }
      }
    }
  }

  /**
   * `escape` leaves no '[', ']' or ',' in the text, and every '&' it leaves
   * starts one of the four entities.
   */
  lemma EscapeShape(s: string)
    ensures forall i :: 0 <= i < |Escape(s)| ==> Escape(s)[i] !in "[],"
    ensures forall i :: 0 <= i < |Escape(s)| && Escape(s)[i] == '&' ==> EntityAt(Escape(s), i)
  {
    EscapeIsEscAll(s);
    EscAllNoSpecial(s);
    EscAllAmp(s);
  }

  /** The string-mode escaping keeps the commas and removes '[' and ']'. */
  lemma EscapeKeepCommaShape(s: string)
    ensures '[' !in EscapeKeepComma(s) && ']' !in EscapeKeepComma(s)
    ensures ',' in EscapeKeepComma(s) <==> ',' in s
  {
    var s1 := Text.Replace(s, "&", "&amp;");
    Text.ReplaceCharRemoves(s, '&', "&amp;", '[');
    Text.ReplaceCharRemoves(s, '&', "&amp;", ',');
    var s2 := Text.Replace(s1, "[", "&#91;");
    Text.ReplaceCharRemoves(s1, '[', "&#91;", ',');
    Text.ReplaceCharRemoves(s1, '[', "&#91;", ']');
    Text.ReplaceCharRemoves(s2, ']', "&#93;", '[');
    Text.ReplaceCharRemoves(s2, ']', "&#93;", ',');
  }

  /** A written character or entity, other than "&amp;": its only '&' is a leading one. */
  predicate Piece(e: string) {
    (|e| == 1 && e[0] != '&') || (|e| == 5 && e[0] == '&' && e != "&amp;" && forall i :: 1 <= i < 5 ==> e[i] != '&')
  }

  /** No entity straddles the end of a piece, so each replacement works on the piece and the rest apart. */
  lemma UnConcat(e: string, x: string, k: nat)
    requires k < 4 && Piece(e)
    ensures Un(e + x, k) == Un(e, k) + Un(x, k)
    ensures Piece(Un(e, k)) && (Un(e, k) == e || Un(e, k) == [SPECIALS[k]])
    ensures Un(e, k) == (if e == ENTITIES[k] then [SPECIALS[k]] else e)
  {
    var pat := ENTITIES[k];
    forall i | 0 <= i < |e| && |e| < i + |pat|
      ensures !Text.At(e + x, i, pat)
    {
      assert (e + x)[i] == e[i];
      assert i + |pat| <= |e + x| ==> (e + x)[i..i + |pat|][0] == (e + x)[i];
    }
    Text.ReplaceConcat(e, x, pat, [SPECIALS[k]]);
    if |e| == 5 {
      assert e[..5] == e;
      Text.ReplaceShort(e[1..], pat, [SPECIALS[k]]);
    }
  }

  lemma UnPiece(c: char, x: string)
    requires c != '&'
    ensures AntiEscape(EscChar(c) + x) == [c] + AntiEscape(x)
  {
    var e0 := EscChar(c);
    UnConcat(e0, x, 0);
    var e1, x1 := Un(e0, 0), Un(x, 0);
    UnConcat(e1, x1, 1);
    var e2, x2 := Un(e1, 1), Un(x1, 1);
    UnConcat(e2, x2, 2);
    var e3, x3 := Un(e2, 2), Un(x2, 2);
    UnConcat(e3, x3, 3);
  }

  /** `anti_escape(escape(s)) == s` for every text without '&'. */
  lemma {:induction false} RoundTrip(s: string)
    requires '&' !in s
    ensures AntiEscape(Escape(s)) == s
  {
    EscapeIsEscAll(s);
    RoundTripAll(s);
  }

  lemma {:induction false} RoundTripAll(s: string)
    requires '&' !in s
    ensures AntiEscape(EscAll(s)) == s
  {
    if s != [] {
      assert s[0] in s;
      assert forall c :: c in s[1..] ==> c in s;
      RoundTripAll(s[1..]);
      UnPiece(s[0], EscAll(s[1..]));
      assert [s[0]] + s[1..] == s;
    }
  }

  /**
   * With a '&' the round trip can fail: the text "&#91;" is escaped to
   * "&amp;#91;", which un-escapes first to "&#91;" and then to "[".
   */
  lemma EntityTextCollapses()
    ensures AntiEscape(Escape("&#91;")) == "["
  {
    assert "&#91;" == "&" + "#91;";
    EscapeConcat("&", "#91;");
    EscapeOne('&');
    EscapePlain("#91;");
    var t := "&amp;" + "#91;";
    assert Escape("&#91;") == t;
    assert t[..5] == "&amp;" && t[5..] == "#91;";
    Text.ReplaceShort("#91;", "&amp;", "&");
    assert Un(t, 0) == "&#91;";
    assert "&#91;"[..5] == "&#91;" && "&#91;"[5..] == [];
    assert Un("&#91;", 1) == "[";
    Text.ReplaceShort("[", "&#93;", "]");
    Text.ReplaceShort("[", "&#44;", ",");
  }

  /** A text without '&' has no entity in it, so un-escaping leaves it as it is. */
  lemma AntiEscapeNoAmp(s: string)
    requires '&' !in s
    ensures AntiEscape(s) == s
  {
    forall pat: string, i | |pat| > 0 && pat[0] == '&' && 0 <= i < |s|
      ensures !Text.At(s, i, pat)
    {
      assert i + |pat| <= |s| ==> s[i..i + |pat|][0] == s[i];
    }
    Text.ReplaceAbsent(s, "&amp;", "&");
    Text.ReplaceAbsent(s, "&#91;", "[");
    Text.ReplaceAbsent(s, "&#93;", "]");
    Text.ReplaceAbsent(s, "&#44;", ",");
  }

  /** How a face code opens. */
  const FACE_OPEN: string := "[CQ:face,id="

  /** The length of the run of ASCII digits starting at `i`. */
  function DigitRun(s: string, i: nat): (n: nat)
    requires i <= |s|
    ensures i + n <= |s| && (i + n < |s| ==> !Text.IsDigit(s[i + n]))
    ensures forall k :: i <= k < i + n ==> Text.IsDigit(s[k])
    decreases |s| - i
  {
    if i < |s| && Text.IsDigit(s[i]) then 1 + DigitRun(s, i + 1) else 0
  }

  /**
   * Whether `s` starts with `open`, a non-empty run of digits and then
   * `close`; the end of the digit run if so. This is what both face
   * regexes match: digits cannot be `close`, so the lazy and the greedy
   * digit group end at the same place.
   */
  function CodeAt(s: string, open: string, close: char): (r: Option<nat>)
    ensures r.Some? ==> |open| < r.value < |s| && s[..|open|] == open && s[r.value] == close
    ensures r.Some? ==> Text.IsDigits(s[|open|..r.value])
  {
    if |s| > |open| && s[..|open|] == open && DigitRun(s, |open|) > 0
      && |open| + DigitRun(s, |open|) < |s| && s[|open| + DigitRun(s, |open|)] == close
    then
      var e := |open| + DigitRun(s, |open|);
      assert forall k :: 0 <= k < |s[|open|..e]| ==> s[|open|..e][k] == s[|open| + k];
      Some(e)
    else None
  }

  lemma {:induction false} DigitRunExact(s: string, i: nat, j: nat)
    requires i <= j <= |s|
    requires forall k :: i <= k < j ==> Text.IsDigit(s[k])
    requires j < |s| ==> !Text.IsDigit(s[j])
    ensures DigitRun(s, i) == j - i
    decreases j - i
  {
    if i < j {
      DigitRunExact(s, i + 1, j);
    }
  }

  lemma CodeAtExact(open: string, d: string, close: char)
    requires Text.IsDigits(d) && !Text.IsDigit(close)
    ensures CodeAt(open + d + [close], open, close) == Some(|open| + |d|)
    ensures (open + d + [close])[|open|..|open| + |d|] == d
  {
    var s := open + d + [close];
    assert s[..|open|] == open;
    assert forall k :: |open| <= k < |open| + |d| ==> s[k] == d[k - |open|];
    DigitRunExact(s, |open|, |open| + |d|);
    assert s[|open|..|open| + |d|] == d;
  }
}

=== FILE: definition.dfy ===
/**
 * The framework exception of utils/Definition.py: each exception carries
 * its message, and its text names the exception class in brackets before
 * it. The module's IdWorker is the one of bot/common/Store.py and is
 * modelled there.
 */
module Definition {

  /** A raised bot exception: the name of its class and the message it was given. */
  datatype BotError = BotError(className: string, originErr: string)

  /** `err`, the exception's text: the class name in brackets, a space, then the message. */
  function ErrText(e: BotError): (s: string)
    ensures |s| == |e.className| + |e.originErr| + 3
    ensures s[0] == '[' && s[1..|e.className| + 1] == e.className
    ensures s[|e.className| + 1..|e.className| + 3] == "] "
    ensures s[|e.className| + 3..] == e.originErr
  {
    "[" + e.className + "] " + e.originErr
  }

  /** For one exception class the text gives the message back: different messages give different texts. */
  lemma ErrTextInjective(a: BotError, b: BotError)
    requires a.className == b.className
    ensures ErrText(a) == ErrText(b) ==> a.originErr == b.originErr
  {
    if ErrText(a) == ErrText(b) {
      assert ErrText(a)[|a.className| + 3..] == ErrText(b)[|b.className| + 3..];
    }
  }
}

=== FILE: dispatcher.dfy ===
/**
 * The priority dispatcher (melobot/core/dispatcher.py).
 *
 * Handlers are grouped by event family and stably sorted by descending
 * priority once; a dispatch pass then walks one family's list with a
 * priority floor that only a blocking handler which accepted the event can
 * raise, and only strictly. A handler's `evoke` is an oracle here: the
 * answer the k-th handler of the list gives is `answer(k)`.
 */
module Dispatcher {
  import opened Wrap

  /** The handler classes `bind_handlers` tells apart. */
  datatype HandlerKind = MsgHandler | ReqHandler | NoticeHandler | OtherHandler

  /** What the dispatcher reads of a handler; `id` keeps apart handlers whose other fields agree. */
  datatype Handler = Handler(id: nat, kind: HandlerKind, priority: int, setBlock: bool)

  /** `PriorityLevel.MIN.value`, the floor every dispatch pass starts from. */
  const MIN_PRIORITY: int := 0

  /** The family a handler class is bound to, or None for a class that is dropped. */
  function FamilyOf(k: HandlerKind): Option<string> {
    match k
    case MsgHandler => Some("message")
    case ReqHandler => Some("request")
    case NoticeHandler => Some("notice")
    case OtherHandler => None
  }

  /** The handlers of `hs` bound to family `f`, in registration order. */
  function Route(hs: seq<Handler>, f: string): seq<Handler> {
    if hs == [] then []
    else (if FamilyOf(hs[0].kind) == Some(f) then [hs[0]] else []) + Route(hs[1..], f)
  }

  /** Non-increasing priority along the list. */
  predicate SortedDesc(s: seq<Handler>) {
    forall i, j :: 0 <= i < j < |s| ==> s[i].priority >= s[j].priority
  }

  /** The handlers of `s` with priority `p`, in their order in `s`. */
  function WithPriority(s: seq<Handler>, p: int): seq<Handler> {
    if s == [] then []
    else (if s[0].priority == p then [s[0]] else []) + WithPriority(s[1..], p)
  }

  /** Puts `x` in front of the first handler of `s` whose priority does not exceed its own. */
  function Insert(x: Handler, s: seq<Handler>): seq<Handler> {
    if s == [] then [x]
    else if s[0].priority <= x.priority then [x] + s
    else [s[0]] + Insert(x, s[1..])
  }

  /** `sorted(hs, key=priority, reverse=True)`: Python's sort is stable, also in reverse mode. */
  function SortByPriority(hs: seq<Handler>): seq<Handler> {
    if hs == [] then [] else Insert(hs[0], SortByPriority(hs[1..]))
  }

  lemma {:induction false} InsertPerm(x: Handler, s: seq<Handler>)
    ensures multiset(Insert(x, s)) == multiset(s) + multiset{x}
  {
    if s != [] && s[0].priority > x.priority {
      InsertPerm(x, s[1..]);
      assert s == [s[0]] + s[1..];
    }
  }

  /** A handler whose priority is at least every priority of a sorted list can go in front of it. */
  lemma ConsSorted(a: Handler, t: seq<Handler>)
    requires SortedDesc(t)
    requires forall k :: 0 <= k < |t| ==> a.priority >= t[k].priority
    ensures SortedDesc([a] + t)
  {
    forall i, j | 0 <= i < j < |[a] + t| ensures ([a] + t)[i].priority >= ([a] + t)[j].priority {
      assert ([a] + t)[j] == t[j - 1];
      if i > 0 {
        assert ([a] + t)[i] == t[i - 1];
      }
    }
  }

  lemma {:induction false} InsertSorted(x: Handler, s: seq<Handler>)
    requires SortedDesc(s)
    ensures SortedDesc(Insert(x, s))
    ensures multiset(Insert(x, s)) == multiset(s) + multiset{x}
  {
    InsertPerm(x, s);
    if s == [] {
    } else if s[0].priority <= x.priority {
      ConsSorted(x, s);
    } else {
      InsertSorted(x, s[1..]);
      var t := Insert(x, s[1..]);
      forall k | 0 <= k < |t| ensures s[0].priority >= t[k].priority {
        assert t[k] in multiset(t);
        if t[k] != x {
          assert t[k] in multiset(s[1..]);
          var m :| 0 <= m < |s[1..]| && s[1..][m] == t[k];
          assert s[m + 1] == t[k];
        }
      }
      ConsSorted(s[0], t);
    }
  }

  lemma {:induction false} InsertWithPriority(x: Handler, s: seq<Handler>, p: int)
    ensures WithPriority(Insert(x, s), p) == if x.priority == p then [x] + WithPriority(s, p) else WithPriority(s, p)
  {
    if s == [] {
      assert WithPriority([x], p) == (if x.priority == p then [x] else []) + WithPriority([], p);
    } else if s[0].priority <= x.priority {
      assert ([x] + s)[1..] == s;
    } else {
      InsertWithPriority(x, s[1..], p);
      assert ([s[0]] + Insert(x, s[1..]))[1..] == Insert(x, s[1..]);
    }
  }

  /** The result of sorting is ordered by priority and is a permutation of the input. */
  lemma {:induction false} SortByPriorityOrdered(hs: seq<Handler>)
    ensures SortedDesc(SortByPriority(hs))
    ensures multiset(SortByPriority(hs)) == multiset(hs)
  {
    if hs != [] {
      SortByPriorityOrdered(hs[1..]);
      InsertSorted(hs[0], SortByPriority(hs[1..]));
      assert hs == [hs[0]] + hs[1..];
    }
  }

  /** Stability: handlers of equal priority keep their registration order. */
  lemma {:induction false} SortByPriorityStable(hs: seq<Handler>, p: int)
    ensures WithPriority(SortByPriority(hs), p) == WithPriority(hs, p)
  {
    if hs != [] {
      SortByPriorityStable(hs[1..], p);
      InsertWithPriority(hs[0], SortByPriority(hs[1..]), p);
    }
  }

  /** A family list holds exactly the handlers of the matching class; any other handler is in no list. */
  lemma {:induction false} RouteExact(hs: seq<Handler>, f: string, h: Handler)
    ensures h in Route(hs, f) <==> h in hs && FamilyOf(h.kind) == Some(f)
    ensures h.kind == OtherHandler ==> h !in Route(hs, f)
  {
    if hs != [] {
      RouteExact(hs[1..], f, h);
      assert hs == [hs[0]] + hs[1..];
    }
  }

  lemma {:induction false} RouteAppend(a: seq<Handler>, b: seq<Handler>, f: string)
    ensures Route(a + b, f) == Route(a, f) + Route(b, f)
  {
    if a == [] {
      assert a + b == b;
    } else {
      assert (a + b)[0] == a[0];
      assert (a + b)[1..] == a[1..] + b;
      RouteAppend(a[1..], b, f);
      var x := if FamilyOf(a[0].kind) == Some(f) then [a[0]] else [];
      assert Route(a + b, f) == x + Route(a[1..] + b, f);
      assert Route(a, f) == x + Route(a[1..], f);
    }
  }

  lemma RouteSnoc(hs: seq<Handler>, h: Handler, f: string)
    ensures Route(hs + [h], f) == Route(hs, f) + if FamilyOf(h.kind) == Some(f) then [h] else []
  {
    RouteAppend(hs, [h], f);
    assert [h][1..] == [];
  }

  /** The floor after handler `h` has been considered, given whether its `evoke` accepted the event. */
  function Raise(h: Handler, accepted: bool, floor: int): int {
    if h.priority < floor then floor
    else if accepted && h.setBlock && h.priority > floor then h.priority
    else floor
  }

  /** The floor in force when the walk reaches position `k` of `hs`. */
  function FloorBefore(hs: seq<Handler>, answer: nat -> bool, k: nat): int
    requires k <= |hs|
  {
    if k == 0 then MIN_PRIORITY else Raise(hs[k - 1], answer(k - 1), FloorBefore(hs, answer, k - 1))
  }

  /** Whether the walk calls `evoke` on the handler at position `k`. */
  predicate Evoked(hs: seq<Handler>, answer: nat -> bool, k: nat)
    requires k < |hs|
  {
    hs[k].priority >= FloorBefore(hs, answer, k)
  }

  /** The positions among the first `n` whose handler is evoked, in walk order. */
  function EvokedUpTo(hs: seq<Handler>, answer: nat -> bool, n: nat): seq<nat>
    requires n <= |hs|
  {
    if n == 0 then []
    else EvokedUpTo(hs, answer, n - 1) + (if Evoked(hs, answer, n - 1) then [n - 1] else [])
  }

  /** The walk evokes exactly the handlers whose priority reaches the current floor, one at a time in list order. */
  lemma {:induction false} EvokedUpToExact(hs: seq<Handler>, answer: nat -> bool, n: nat)
    requires n <= |hs|
    ensures forall k: nat :: k in EvokedUpTo(hs, answer, n) <==> k < n && Evoked(hs, answer, k)
    ensures forall i, j :: 0 <= i < j < |EvokedUpTo(hs, answer, n)| ==> EvokedUpTo(hs, answer, n)[i] < EvokedUpTo(hs, answer, n)[j]
  {
    if n > 0 {
      EvokedUpToExact(hs, answer, n - 1);
      var prev := EvokedUpTo(hs, answer, n - 1);
      forall i | 0 <= i < |prev| ensures prev[i] < n - 1 {
        assert prev[i] in prev;
      }
    }
  }

  /** The floor starts at the minimum priority and never decreases. */
  lemma {:induction false} FloorMonotone(hs: seq<Handler>, answer: nat -> bool, j: nat, k: nat)
    requires j <= k <= |hs|
    ensures FloorBefore(hs, answer, 0) == MIN_PRIORITY
    ensures FloorBefore(hs, answer, j) <= FloorBefore(hs, answer, k)
  {
    if j < k {
      FloorMonotone(hs, answer, j, k - 1);
    }
  }

  /** A skipped handler leaves the floor alone; an evoked one raises it only when it accepted, blocks and outranks the floor. */
  lemma FloorStep(hs: seq<Handler>, answer: nat -> bool, k: nat)
    requires k < |hs|
    ensures !Evoked(hs, answer, k) ==> FloorBefore(hs, answer, k + 1) == FloorBefore(hs, answer, k)
    ensures FloorBefore(hs, answer, k + 1) != FloorBefore(hs, answer, k) <==>
      Evoked(hs, answer, k) && answer(k) && hs[k].setBlock && hs[k].priority > FloorBefore(hs, answer, k)
    ensures FloorBefore(hs, answer, k + 1) != FloorBefore(hs, answer, k) ==> FloorBefore(hs, answer, k + 1) == hs[k].priority
  {
  }

  /**
   * In a sorted list, a blocking handler that accepted the event still lets
   * every later handler of the same priority be evoked, and shuts out every
   * later handler of lower priority.
   */
  lemma {:induction false} BlockingHandlerEffect(hs: seq<Handler>, answer: nat -> bool, i: nat, j: nat)
    requires SortedDesc(hs)
    requires i < j < |hs|
    requires Evoked(hs, answer, i) && answer(i) && hs[i].setBlock
    ensures hs[j].priority == hs[i].priority ==> Evoked(hs, answer, j)
    ensures hs[j].priority < hs[i].priority ==> !Evoked(hs, answer, j)
  {
    FloorAfterBlocking(hs, answer, i, j);
  }

  lemma {:induction false} FloorAfterBlocking(hs: seq<Handler>, answer: nat -> bool, i: nat, j: nat)
    requires SortedDesc(hs)
    requires i < j <= |hs|
    requires Evoked(hs, answer, i) && answer(i) && hs[i].setBlock
    ensures FloorBefore(hs, answer, j) == hs[i].priority
  {
    if j > i + 1 {
      FloorAfterBlocking(hs, answer, i, j - 1);
    }
  }

  /** One handler bound: the table still holds, per family, the base list followed by the routed handlers. */
  lemma RouteTableStep(base: map<string, seq<Handler>>, before: map<string, seq<Handler>>, after: map<string, seq<Handler>>,
                       done: seq<Handler>, h: Handler)
    requires before.Keys == base.Keys
    requires forall f :: f in before ==> before[f] == base[f] + Route(done, f)
    requires FamilyOf(h.kind).Some? ==>
      FamilyOf(h.kind).value in before && after == before[FamilyOf(h.kind).value := before[FamilyOf(h.kind).value] + [h]]
    requires FamilyOf(h.kind).None? ==> after == before
    ensures after.Keys == base.Keys
    ensures forall f :: f in after ==> after[f] == base[f] + Route(done + [h], f)
  {
    forall f | f in after ensures after[f] == base[f] + Route(done + [h], f) {
      RouteSnoc(done, h, f);
    }
  }

  /** The appending loop of `bind_handlers`: each handler goes to the end of its family's list. */
  method AppendRouted(base: map<string, seq<Handler>>, all: seq<Handler>) returns (table: map<string, seq<Handler>>)
    requires forall f :: f in {"message", "request", "notice"} ==> f in base
    ensures table.Keys == base.Keys
    ensures forall f :: f in table ==> table[f] == base[f] + Route(all, f)
  {
    table := base;
    for i := 0 to |all|
      invariant table.Keys == base.Keys
      invariant forall f :: f in table ==> table[f] == base[f] + Route(all[..i], f)
    {
      var h := all[i];
      ghost var before := table;
      var fam := FamilyOf(h.kind);
      if fam.Some? {
        table := table[fam.value := table[fam.value] + [h]];
      }
      assert all[..i + 1] == all[..i] + [h];
      RouteTableStep(base, before, table, all[..i], h);
    }
    assert all[..|all|] == all;
  }

  /** The sorting loop of `bind_handlers`: every list sorted by descending priority, in some order of the families. */
  method SortEach(bound: map<string, seq<Handler>>) returns (table: map<string, seq<Handler>>)
    ensures table.Keys == bound.Keys
    ensures forall f :: f in table ==> table[f] == SortByPriority(bound[f])
  {
    table := bound;
    var keys := table.Keys;
    while keys != {}
      invariant keys <= table.Keys == bound.Keys
      invariant forall f :: f in table ==> table[f] == if f in keys then bound[f] else SortByPriority(bound[f])
      decreases keys
    {
      var k :| k in keys;
      table := table[k := SortByPriority(table[k])];
      keys := keys - {k};
    }
  }

  class BotDispatcher {
    /** `self.handlers`: one priority-sorted list per event family. */
    var handlers: map<string, seq<Handler>>
    /** `_ready_signal`: set once the handlers are bound. */
    var ready: bool

    ghost predicate Valid()
      reads this
    {
      handlers.Keys == {"message", "request", "notice"}
    }

    constructor ()
      ensures Valid() && !ready
      ensures handlers == map["message" := [], "request" := [], "notice" := []]
    {
      handlers := map["message" := [], "request" := [], "notice" := []];
      ready := false;
    }

    /** Appends each handler to its family's list, drops the others, then sorts every list by descending priority. */
    method BindHandlers(all: seq<Handler>)
      requires Valid()
      modifies this
      ensures Valid() && ready
      ensures forall f :: f in handlers ==> handlers[f] == SortByPriority(old(handlers[f]) + Route(all, f))
    {
      var table := AppendRouted(handlers, all);
      table := SortEach(table);
      handlers := table;
      ready := true;
    }

    /**
     * One dispatch pass over the list of `eventType`: the positions whose
     * handler was evoked, in order, and the final floor. An event type with
     * no list raises KeyError.
     */
    method Dispatch(eventType: string, answer: nat -> bool) returns (r: Result<seq<nat>>, floor: int)
      requires Valid() && ready
      ensures eventType !in handlers <==> r == Err(KeyError)
      ensures eventType in handlers ==>
        r == Ok(EvokedUpTo(handlers[eventType], answer, |handlers[eventType]|)) &&
        floor == FloorBefore(handlers[eventType], answer, |handlers[eventType]|)
    {
      floor := MIN_PRIORITY;
      if eventType !in handlers {
        return Err(KeyError), floor;
      }
      var hs := handlers[eventType];
      var evoked: seq<nat> := [];
      for i := 0 to |hs|
        invariant floor == FloorBefore(hs, answer, i)
        invariant evoked == EvokedUpTo(hs, answer, i)
      {
        var h := hs[i];
        if h.priority < floor {
          continue;
        }
        evoked := evoked + [i];
        if !answer(i) {
          continue;
        }
        if h.setBlock && h.priority > floor {
          floor := h.priority;
        }
      }
      r := Ok(evoked);
    }
  }
}

=== FILE: exact_cmd_parser.dfy ===
/**
 * The command parsers of utils/cmdParser.py. The exact parser splits like
 * the later generations but marks token matches with '"', which its
 * string filter has already removed from the text; when start and
 * separator tokens overlap it falls back to a single-group parse over
 * their union. The fuzzy parser works on the matches of a regex, which
 * are given to it here.
 */
module ExactCmdParser {
  import opened Wrap
  import Text
  import TokenSplit

  /** The character the exact parser marks token matches with. */
  const MARK: char := '"'

  /** The characters the default string filter deletes. */
  const FILTERED: string := "'\"\\\r\n\t"

  /** `filter_regex.sub('', text)`. */
  function Remove(s: string, chars: string): (r: string)
    ensures forall i :: 0 <= i < |r| ==> r[i] !in chars
    ensures |r| <= |s|
  {
    if s == [] then []
    else (if s[0] in chars then [] else [s[0]]) + Remove(s[1..], chars)
  }

  /** `StringFilter.purify`: quotes, backslashes and line ends deleted, then spaces trimmed from both ends. */
  function Purify(text: string): (r: string)
    ensures forall i :: 0 <= i < |r| ==> r[i] !in FILTERED
    ensures r == [] || (r[0] != ' ' && r[|r| - 1] != ' ')
  {
    var t := Remove(text, FILTERED);
    StripAvoids(t, " ", FILTERED);
    TokenSplit.Strip(t, " ")
  }

  /** `strip` keeps a piece of its input: a character none of the input holds is in none of the output either. */
  lemma StripAvoids(s: string, chars: string, bad: string)
    requires forall i :: 0 <= i < |s| ==> s[i] !in bad
    ensures forall i :: 0 <= i < |TokenSplit.Strip(s, chars)| ==> TokenSplit.Strip(s, chars)[i] !in bad
  {
    var t := TokenSplit.StripLeft(s, chars);
    var r := TokenSplit.StripRight(t, chars);
    assert TokenSplit.Strip(s, chars) == r;
    forall i | 0 <= i < |r|
      ensures r[i] !in bad
    {
      assert r[i] == t[i] == s[|s| - |t| + i];
    }
  }

  /** The characters no exact-parser token may contain. */
  predicate Banned(c: char) {
    c in "'\"\\ ,()[]{}" || ('a' <= c <= 'z') || ('A' <= c <= 'Z') || ('0' <= c <= '9')
  }

  predicate HasBanned(s: string) {
    exists i :: 0 <= i < |s| && Banned(s[i])
  }

  /** An exact parser; `united` is the union of the tokens, in the order Python's set iteration gave them. */
  datatype Parser = Parser(start: seq<string>, sep: seq<string>, single: bool, united: seq<string>)

  /** The entry `BOT_STORE['kernel']['CMD_MODE']` of the bot-wide store. */
  class KernelStore {
    var cmdMode: string

    constructor()
      ensures cmdMode == ""
    {
      cmdMode := "";
    }
  }

  /**
   * `ExactCmdParser(cmd_start, cmd_sep)`: overlapping tokens select the
   * single-group parse and the store records the mode, before the banned
   * characters are refused with BotUnsupportCmdFlag; `unitedOrder` is
   * the iteration order of the token union.
   */
  method New(store: KernelStore, start: seq<string>, sep: seq<string>, unitedOrder: seq<string>) returns (r: Result<Parser>)
    requires forall t :: t in unitedOrder <==> t in start || t in sep
    modifies store
    ensures store.cmdMode == (if TokenSplit.Overlap(start, sep) then "single" else "multiple")
    ensures r.Err? <==> HasBanned(Text.Join(sep + start))
    ensures r.Err? ==> r.error == BotUnsupportCmdFlag
    ensures r.Ok? ==> r.value == Parser(start, sep, TokenSplit.Overlap(start, sep), unitedOrder)
  {
    var single := TokenSplit.Overlap(start, sep);
    store.cmdMode := if single then "single" else "multiple";
    if HasBanned(Text.Join(sep + start)) {
      return Err(BotUnsupportCmdFlag);
    }
    r := Ok(Parser(start, sep, single, unitedOrder));
  }

  /** `single_parse`: one group of the pieces after the first token of the union, or `[[]]`. */
  function SingleParse(p: Parser, text: string): (r: seq<seq<string>>)
    ensures |r| == 1
  {
    var cmds := TokenSplit.SplitString(Purify(text), p.united, MARK, true);
    if cmds != [] then [cmds] else [[]]
  }

  /** `multi_parse`: the non-empty groups in text order, or `[[]]` when there is none. */
  function MultiParse(p: Parser, text: string): (r: seq<seq<string>>)
    ensures r != []
  {
    var groups := TokenSplit.Groups(Purify(text), p.start, p.sep, MARK);
    if groups != [] then groups else [[]]
  }

  /** `parse`, bound to the single or the multi parse when the parser was built. */
  function Parse(p: Parser, text: string): (r: seq<seq<string>>)
    ensures r != []
  {
    if p.single then SingleParse(p, text) else MultiParse(p, text)
  }

  /** A parse is never empty, "no command" is `[[]]`, and only the first group can be empty. */
  lemma ParseShape(p: Parser, text: string)
    ensures Parse(p, text) != []
    ensures forall j :: 0 < j < |Parse(p, text)| ==> Parse(p, text)[j] != []
    ensures Parse(p, text)[0] == [] ==> Parse(p, text) == [[]]
  {
    TokenSplit.GroupsClean(Purify(text), p.start, p.sep, MARK);
    var groups := TokenSplit.Groups(Purify(text), p.start, p.sep, MARK);
    assert groups != [] ==> TokenSplit.CleanGroup(groups[0], p.start, p.sep, MARK);
  }

  /** The pieces of a multi parse are free of start and separator tokens. */
  lemma MultiParseClean(p: Parser, text: string)
    requires MultiParse(p, text) != [[]]
    ensures forall j :: 0 <= j < |MultiParse(p, text)| ==> TokenSplit.CleanGroup(MultiParse(p, text)[j], p.start, p.sep, MARK)
  {
    TokenSplit.GroupsClean(Purify(text), p.start, p.sep, MARK);
  }

  /**
   * `prior_check` on a parse result: False when the first group is
   * empty; otherwise every group's first piece is read, and the answer is
   * whether one of them is "prior".
   */
  function PriorOf(cmdList: seq<seq<string>>): Result<bool>
    requires cmdList != []
  {
    if cmdList[0] == [] then Ok(false)
    else if exists j :: 0 <= j < |cmdList| && cmdList[j] == [] then Err(IndexError)
    else Ok(exists j :: 0 <= j < |cmdList| && cmdList[j][0] == "prior")
  }

  function PriorCheck(p: Parser, text: string): Result<bool> {
    PriorOf(Parse(p, text))
  }

  /** `prior_check` never fails, and holds iff the first group is non-empty and some group starts with "prior". */
  lemma PriorCheckMeaning(p: Parser, text: string)
    ensures PriorCheck(p, text).Ok?
    ensures PriorCheck(p, text).value <==>
      Parse(p, text)[0] != [] && exists j :: 0 <= j < |Parse(p, text)| && Parse(p, text)[j] != [] && Parse(p, text)[j][0] == "prior"
  {
    ParseShape(p, text);
  }

  /**
   * `FuzzyCmdParser.parse` over the spans of the condition's matches:
   * too few matches give False, "any" True, "begin" and "end" test the
   * first and last span, any other position is a ValueError.
   */
  function FuzzyParse(textLen: nat, spans: seq<(nat, nat)>, lowerFreq: int, pos: string): (r: Result<bool>)
    ensures |spans| < lowerFreq ==> r == Ok(false)
    ensures |spans| >= lowerFreq && pos == "any" ==> r == Ok(true)
    ensures |spans| >= lowerFreq && pos == "begin" && spans != [] ==> r == Ok(spans[0].0 == 0)
    ensures |spans| >= lowerFreq && pos == "end" && spans != [] ==> r == Ok(spans[|spans| - 1].1 == textLen)
    ensures |spans| >= lowerFreq && (pos == "begin" || pos == "end") && spans == [] ==> r == Err(IndexError)
    ensures |spans| >= lowerFreq && pos != "any" && pos != "begin" && pos != "end" ==> r == Err(ValueError)
  {
    if |spans| < lowerFreq then Ok(false)
    else if pos == "any" then Ok(true)
    else if pos == "begin" then (if spans == [] then Err(IndexError) else Ok(spans[0].0 == 0))
    else if pos == "end" then (if spans == [] then Err(IndexError) else Ok(spans[|spans| - 1].1 == textLen))
    else Err(ValueError)
  }

  /** `multi_parse` as written: the joined pattern is iterated, so each of its characters must be a whole match. */
  function FuzzyMultiAsWritten(condition: seq<string>, matches: seq<string>): bool {
    var joined := Text.Join(JoinBar(condition));
    forall i :: 0 <= i < |joined| ==> [joined[i]] in matches
  }

  /** `'|'.join(condition)` as its pieces. */
  function JoinBar(condition: seq<string>): seq<string> {
    if |condition| <= 1 then condition else [condition[0], "|"] + JoinBar(condition[1..])
  }

  /** A keyword that occurs in the text is still reported missing. */
  lemma FuzzyMultiMissesKeyword()
    ensures !FuzzyMultiAsWritten(["hi"], ["hi"])
  {
    var joined := Text.Join(JoinBar(["hi"]));
    assert joined == "hi";
    assert [joined[0]] == "h" && |"h"| != |"hi"|;
  }

  /** `multi_parse` checking each keyword of the condition against the matches. */
  function FuzzyMulti(condition: seq<string>, matches: seq<string>): (r: bool)
    ensures r <==> forall k :: 0 <= k < |condition| ==> condition[k] in matches
  {
    forall k :: 0 <= k < |condition| ==> condition[k] in matches
  }

  /** The same input passes once the keywords are checked. */
  lemma FuzzyMultiFindsKeyword()
    ensures FuzzyMulti(["hi"], ["hi"])
  {
  }
}

=== FILE: executor.dfy ===
/**
 * The command executor of bot/core/Executor.py: the loaded commands and
 * their alias map, the per-command lock kept in the command's state, and
 * `call`, which resolves a name, obtains a session by the command's
 * session rule and runs the command in it.
 */
module Executor {
  import opened Wrap
  import CmdTable
  import BotSession

  /** A command's session rule: none (a one-shot session), an attribute name or chain, or a custom method. */
  datatype Rule = NoRule | AttrRule(name: string) | TupleRule(names: seq<string>) | MethodRule(m: (BotSession.Obj, BotSession.Obj) -> bool)

  /** A loaded command: its aliases and its session rule. */
  datatype Cmd = Cmd(aliases: seq<string>, rule: Rule)

  /** How `call` ends: an unknown name, a refusal echoed back, a run whose session is released, or a command that raised. */
  datatype Called = Unknown | Refused(cmdName: string) | Ran(cmdName: string, session: BotSession.BotSession) | CmdRaised(cmdName: string)
    | Failed(error: Exc)

  /** The sessions of the given spaces. */
  ghost function SessionsOf(spaces: set<BotSession.SessionSpace>): set<object>
    reads spaces
  {
    set sp, s | sp in spaces && s in sp.sessions :: s
  }

  class ExecInterface {
    var cmdMap: map<string, Cmd>
    var aliasMap: map<string, string>
    /** The `LOCK` entry of each command's state. */
    var locks: map<string, CmdTable.Lock>
    /** The sessions space of each command in the bot store. */
    var spaces: map<string, BotSession.SessionSpace>

    /** As loaded: every alias names a command, and every command has its space. */
    ghost predicate Valid()
      reads this
    {
      (forall a :: a in aliasMap ==> aliasMap[a] in cmdMap)
      && (forall n :: n in cmdMap ==> n in spaces)
    }

    constructor(cmdMap: map<string, Cmd>, aliasMap: map<string, string>, spaces: map<string, BotSession.SessionSpace>)
      ensures this.cmdMap == cmdMap && this.aliasMap == aliasMap && this.spaces == spaces && locks == map[]
    {
      this.cmdMap := cmdMap;
      this.aliasMap := aliasMap;
      this.spaces := spaces;
      locks := map[];
    }

    /** `get_cmd_aliases`: the aliases of the command a name or alias resolves to, as a new list. */
    function GetCmdAliases(name: string): (r: Result<seq<string>>)
      reads this
      ensures CmdTable.ResolveAliasFirst(aliasMap, cmdMap.Keys, name).Err? ==> r == Err(BotUnknownCmdName)
      ensures r.Ok? ==> (var c := CmdTable.ResolveAliasFirst(aliasMap, cmdMap.Keys, name).value; c in cmdMap && r.value == cmdMap[c].aliases)
      ensures Valid() ==> (r.Ok? <==> CmdTable.ResolveAliasFirst(aliasMap, cmdMap.Keys, name).Ok?)
    {
      var c :- CmdTable.ResolveAliasFirst(aliasMap, cmdMap.Keys, name);
      if c in cmdMap then Ok(cmdMap[c].aliases) else Err(KeyError)
    }

    /** `get_cmd_lock`: the command's lock, created on first request and the same object ever after. */
    method GetCmdLock(name: string) returns (r: Result<CmdTable.Lock>)
      modifies this
      ensures cmdMap == old(cmdMap) && aliasMap == old(aliasMap) && spaces == old(spaces)
      ensures CmdTable.ResolveAliasFirst(aliasMap, cmdMap.Keys, name).Err? ==> r == Err(BotUnknownCmdName) && locks == old(locks)
      ensures CmdTable.ResolveAliasFirst(aliasMap, cmdMap.Keys, name).Ok? ==>
        var c := CmdTable.ResolveAliasFirst(aliasMap, cmdMap.Keys, name).value;
        c in locks && r == Ok(locks[c])
        && (c in old(locks) ==> locks == old(locks))
        && (c !in old(locks) ==> fresh(locks[c]) && !locks[c].threaded && locks == old(locks)[c := locks[c]])
    {
      var c := CmdTable.ResolveAliasFirst(aliasMap, cmdMap.Keys, name);
      if c.Err? {
        return Err(c.error);
      }
      if c.value !in locks {
        var l := new CmdTable.Lock(false);
        locks := locks[c.value := l];
      }
      r := Ok(locks[c.value]);
    }

    /** Two requests for a command's lock, by name or alias, give the same lock. */
    method GetCmdLockTwice(name: string, alias: string) returns (a: Result<CmdTable.Lock>, b: Result<CmdTable.Lock>)
      requires alias in aliasMap && aliasMap[alias] == name && name !in aliasMap && name in cmdMap
      modifies this
      ensures a.Ok? && b.Ok? && a.value == b.value
    {
      a := GetCmdLock(name);
      b := GetCmdLock(alias);
    }

    /**
     * `__get_session`: no rule gives a one-shot session in no space; an
     * attribute name or chain, or a custom method, looks the event up in
     * the command's space, after creating the lock of whatever command
     * the name resolves to once more.
     */
    method GetSessionFor(cmdName: string, event: BotSession.Obj, attrs: BotSession.Attrs)
      returns (got: Result<Option<BotSession.BotSession>>)
      requires cmdName in cmdMap && cmdName in spaces
      modifies this, spaces.Values, SessionsOf(spaces.Values)
      ensures cmdMap == old(cmdMap) && aliasMap == old(aliasMap) && spaces == old(spaces)
      ensures cmdMap[cmdName].rule.NoRule? ==> got.Ok? && got.value.Some? && fresh(got.value.value) && locks == old(locks)
      ensures !cmdMap[cmdName].rule.NoRule? ==> CmdTable.ResolveAliasFirst(aliasMap, cmdMap.Keys, cmdName).value in locks
      ensures got.Ok? && got.value.Some? ==> (got.value.value.activated
        && (fresh(got.value.value) || got.value.value in old(SessionsOf(spaces.Values))))
    {
      var rule := cmdMap[cmdName].rule;
      if rule.NoRule? {
        got := BotSession.GetSession(event, null, None, None, attrs);
      } else {
        var space := spaces[cmdName];
        assert forall s :: s in space.sessions ==> s in SessionsOf(spaces.Values);
        var _ := GetCmdLock(cmdName);
        if rule.MethodRule? {
          got := BotSession.GetSession(event, space, None, Some(rule.m), attrs);
        } else {
          var check := if rule.AttrRule? then BotSession.AttrName(rule.name) else BotSession.AttrTuple(rule.names);
          got := BotSession.GetSession(event, space, Some(check), None, attrs);
        }
      }
    }

    /**
     * `call`: an unknown name returns quietly; otherwise a session is
     * obtained by the command's rule. Without a session the refusal is
     * echoed; with one the command runs, and the session is released
     * unless the command raised.
     */
    method Call(name: string, event: BotSession.Obj, attrs: BotSession.Attrs, cmdRaises: bool) returns (r: Called)
      requires Valid()
      modifies this, spaces.Values, SessionsOf(spaces.Values)
      ensures CmdTable.ResolveAliasFirst(old(aliasMap), old(cmdMap).Keys, name).Err? ==> r == Unknown && locks == old(locks)
      ensures CmdTable.ResolveAliasFirst(old(aliasMap), old(cmdMap).Keys, name).Ok? ==>
        var c := CmdTable.ResolveAliasFirst(old(aliasMap), old(cmdMap).Keys, name).value;
        !r.Unknown?
        && (r.Refused? ==> r.cmdName == c && !old(cmdMap[c].rule).NoRule?)
        && (r.Ran? ==> r.cmdName == c && !r.session.activated && !cmdRaises)
        && (r.CmdRaised? ==> r.cmdName == c && cmdRaises)
        && (!old(cmdMap[c].rule).NoRule? ==> CmdTable.ResolveAliasFirst(old(aliasMap), old(cmdMap).Keys, c).value in locks)
        && (old(cmdMap[c].rule).NoRule? ==> r.Ran? || r.CmdRaised?)
      ensures cmdMap == old(cmdMap) && aliasMap == old(aliasMap)
    {
      var c := CmdTable.ResolveAliasFirst(aliasMap, cmdMap.Keys, name);
      if c.Err? {
        return Unknown;
      }
      var cmdName := c.value;
      var got := GetSessionFor(cmdName, event, attrs);
      if got.Err? {
        return Failed(got.error);
      }
      if got.value.None? {
        return Refused(cmdName);
      }
      if cmdRaises {
        return CmdRaised(cmdName);
      }
      got.value.value.activated := false;
      r := Ran(cmdName, got.value.value);
    }
  }
}

=== FILE: interface.dfy ===
/**
 * The command interface of utils/Interface.py: name resolution, the
 * per-command locks kept in each command's state, and the prefix added to
 * the action a command answers with. The action class lives in
 * utils/Action.py, which is not part of this model; its `extract` is taken
 * to hand back the action's own params dict, as the other action classes
 * of the repository do.
 */
module Interface {
  import opened Wrap
  import opened Json
  import CmdTable
  import BotActions

  /** A loaded command: its aliases and whether it is a coroutine function. */
  datatype Cmd = Cmd(aliases: seq<string>, isCoro: bool)

  /** An action object: its type and its params dict. */
  class Action {
    var actionType: string
    var params: BotActions.Params

    constructor(actionType: string, params: BotActions.Params)
      ensures this.actionType == actionType && this.params == params
    {
      this.actionType := actionType;
      this.params := params;
    }
  }

  class ExecInterface {
    var cmdMap: map<string, Cmd>
    var aliasMap: map<string, string>
    /** The lock entries ("LOCK", "TLOCK") of each command's state. */
    var state: map<string, map<string, CmdTable.Lock>>

    constructor(cmdMap: map<string, Cmd>, aliasMap: map<string, string>)
      ensures this.cmdMap == cmdMap && this.aliasMap == aliasMap && state == map[]
    {
      this.cmdMap := cmdMap;
      this.aliasMap := aliasMap;
      state := map[];
    }

    /** `call`: the command a name or alias runs, None for an unknown name. */
    function CallTarget(name: string): (r: Option<string>)
      reads this
      ensures r.None? <==> name !in aliasMap && name !in cmdMap
      ensures name in aliasMap ==> r == Some(aliasMap[name])
      ensures name !in aliasMap && name in cmdMap ==> r == Some(name)
    {
      var c := CmdTable.ResolveAliasFirst(aliasMap, cmdMap.Keys, name);
      if c.Err? then None else Some(c.value)
    }

    /**
     * `get_cmd_lock`: a coroutine command gets the asyncio lock under
     * "LOCK", any other the thread lock under "TLOCK"; each is created on
     * first request and returned ever after.
     */
    method GetCmdLock(name: string) returns (r: Result<CmdTable.Lock>)
      modifies this
      ensures cmdMap == old(cmdMap) && aliasMap == old(aliasMap)
      ensures CmdTable.ResolveAliasFirst(aliasMap, cmdMap.Keys, name).Err? ==> r == Err(BotUnknownCmdName) && state == old(state)
      ensures CmdTable.ResolveAliasFirst(aliasMap, cmdMap.Keys, name).Ok? ==>
        var c := CmdTable.ResolveAliasFirst(aliasMap, cmdMap.Keys, name).value;
        (c !in cmdMap ==> r == Err(KeyError) && state == old(state))
        && (c in cmdMap ==>
          var key := if cmdMap[c].isCoro then "LOCK" else "TLOCK";
          c in state && key in state[c] && r == Ok(state[c][key])
          && (c in old(state) && key in old(state)[c] ==> state == old(state))
          && (!(c in old(state) && key in old(state)[c]) ==>
                fresh(state[c][key]) && state[c][key].threaded == !cmdMap[c].isCoro
                && state == old(state)[c := (if c in old(state) then old(state)[c] else map[])[key := state[c][key]]]))
    {
      var c := CmdTable.ResolveAliasFirst(aliasMap, cmdMap.Keys, name);
      if c.Err? {
        return Err(c.error);
      }
      var cmdName := c.value;
      if cmdName !in cmdMap {
        return Err(KeyError);
      }
      var key := if cmdMap[cmdName].isCoro then "LOCK" else "TLOCK";
      var entries := if cmdName in state then state[cmdName] else map[];
      if key !in entries {
        var l := new CmdTable.Lock(!cmdMap[cmdName].isCoro);
        state := state[cmdName := entries[key := l]];
      }
      r := Ok(state[cmdName][key]);
    }

    /**
     * `__add_prefix`: the action is deep-copied; when its params hold a
     * "message", the prefix is written into the original params dict,
     * which the copy then takes over, so both actions share it. Without a
     * message the copy keeps its own params.
     */
    method AddPrefix(action: Action, cmdSeq: seq<string>) returns (r: Result<Action>)
      modifies action.params
      ensures "message" !in old(action.params.entries) ==>
        r.Ok? && fresh(r.value) && fresh(r.value.params) && r.value.actionType == action.actionType
        && r.value.params.entries == old(action.params.entries) && action.params.entries == old(action.params.entries)
      ensures "message" in old(action.params.entries) ==>
        var p := CmdTable.PrefixParams(old(action.params.entries), cmdSeq);
        (p.Err? ==> r == Err(p.error) && action.params.entries == old(action.params.entries))
        && (p.Ok? ==> (r.Ok? && fresh(r.value) && r.value.actionType == action.actionType
              && r.value.params == action.params && action.params.entries == p.value))
    {
      var copyParams := new BotActions.Params();
      copyParams.entries := action.params.entries;
      var copy := new Action(action.actionType, copyParams);
      if "message" !in action.params.entries {
        return Ok(copy);
      }
      var p := CmdTable.PrefixParams(action.params.entries, cmdSeq);
      if p.Err? {
        return Err(p.error);
      }
      action.params.entries := p.value;
      copy.params := action.params;
      r := Ok(copy);
    }
  }
}

=== FILE: ipc.dfy ===
/**
 * The plugin shared objects and the plugin signal bus of
 * src/melobot/plugin/ipc.py. Reflectors, callbacks and signal handlers are
 * callables the model does not look into: they are identities (`Fn`), and
 * what awaiting a signal handler produced is a parameter.
 */
module Ipc {
  import opened Wrap
  import Json

  type Fn = nat

  /** A shared object: the reflector that reads its value and, once bound, its callback. */
  class ShareObject {
    const namespace: string
    const id: string
    var reflector: Fn
    var callback: Option<Fn>
    var cbSet: bool

    /** `__init__` followed by `_fill_ref`, as `create_so` does them. */
    constructor (namespace: string, id: string, reflector: Fn)
      ensures this.namespace == namespace && this.id == id
      ensures this.reflector == reflector && callback.None? && !cbSet
    {
      this.namespace := namespace;
      this.id := id;
      this.reflector := reflector;
      callback := None;
      cbSet := false;
    }

    /** `_fill_cb`: the callback is stored and the "callback set" event is set. */
    method FillCb(cb: Fn)
      modifies this
      ensures callback == Some(cb) && cbSet
      ensures reflector == old(reflector)
    {
      callback := Some(cb);
      cbSet := true;
    }
  }

  /** The namespaces of shared objects, each a dictionary from object id to object. */
  class PluginStore {
    var store: map<string, map<string, ShareObject>>

    constructor ()
      ensures store == map[]
    {
      store := map[];
    }

    /** Every shared object in the store. */
    function Objects(): set<ShareObject>
      reads this
    {
      set ns, id | ns in store && id in store[ns] :: store[ns][id]
    }

    /** `get`: the object stored under the namespace and id, or ShareObjError for either missing. */
    function Get(ns: string, id: string): (r: Result<ShareObject>)
      reads this
      ensures r.Ok? <==> ns in store && id in store[ns]
      ensures r.Ok? ==> r.value == store[ns][id] && r.value in Objects()
      ensures r.Err? ==> r.error == ShareObjError
    {
      if ns !in store then Err(ShareObjError)
      else if id !in store[ns] then Err(ShareObjError)
      else Ok(store[ns][id])
    }

    /**
     * `create_so`: the namespace is made on first use; an id already taken
     * in it is refused with ShareObjError and nothing changes; otherwise a
     * new object with the reflector is stored and `get` returns it, while
     * every other (namespace, id) keeps its object.
     */
    method CreateSo(reflector: Fn, ns: string, id: string) returns (r: Result<()>)
      modifies this
      ensures old(Get(ns, id)).Ok? ==> r == Err(ShareObjError) && store == old(store)
      ensures old(Get(ns, id)).Err? ==> r.Ok?
      ensures r.Ok? ==> Get(ns, id).Ok? && fresh(Get(ns, id).value)
      ensures r.Ok? ==> Get(ns, id).value.reflector == reflector && !Get(ns, id).value.cbSet
      ensures r.Ok? ==> Get(ns, id).value.namespace == ns && Get(ns, id).value.id == id
      ensures forall n, i :: (n, i) != (ns, id) ==> Get(n, i) == old(Get(n, i))
    {
      if ns !in store {
        store := store[ns := map[]];
      }
      if id in store[ns] {
        return Err(ShareObjError);
      }
      var obj := new ShareObject(ns, id, reflector);
      store := store[ns := store[ns][id := obj]];
      r := Ok(());
    }

    /**
     * `bind_cb` as written: inside PluginStore the attribute `__cb_set` is
     * name-mangled to `_PluginStore__cb_set`, which no ShareObject has, so
     * for every stored object the call raises AttributeError and no
     * callback is ever bound.
     */
    method BindCbAsWritten(ns: string, id: string, cb: Fn) returns (r: Result<()>)
      ensures ns !in store || id !in store[ns] ==> r == Err(ShareObjError)
      ensures ns in store && id in store[ns] ==> r == Err(AttributeError)
    {
      if ns !in store {
        return Err(ShareObjError);
      }
      if id !in store[ns] {
        return Err(ShareObjError);
      }
      r := Err(AttributeError);
    }

    /**
     * `bind_cb` as intended: a missing namespace or id, or an object whose
     * callback is already set, is refused with ShareObjError; otherwise the
     * object takes the callback, so a second binding is refused.
     */
    method BindCb(ns: string, id: string, cb: Fn) returns (r: Result<()>)
      modifies Objects()
      ensures r.Ok? <==> Get(ns, id).Ok? && !old(Get(ns, id).value.cbSet)
      ensures r.Err? ==> r.error == ShareObjError
      ensures r.Ok? ==> Get(ns, id).value.callback == Some(cb) && Get(ns, id).value.cbSet
      ensures r.Ok? ==> Get(ns, id).value.reflector == old(Get(ns, id).value.reflector)
      ensures r.Ok? ==> forall o :: o in Objects() && o != Get(ns, id).value ==> unchanged(o)
      ensures r.Err? ==> unchanged(Objects())
    {
      if ns !in store {
        return Err(ShareObjError);
      }
      if id !in store[ns] {
        return Err(ShareObjError);
      }
      var obj := store[ns][id];
      if obj.cbSet {
        return Err(ShareObjError);
      }
      obj.FillCb(cb);
      r := Ok(());
    }
  }

  /** A registered signal handler: the namespace and signal it answers and its coroutine function. */
  datatype SignalHandler = SignalHandler(namespace: string, signal: string, cb: Fn)

  /** How awaiting a signal handler ended: with a value, or with an exception. */
  datatype CbOutcome = Returned(v: Json.Value) | Raised

  /** The side effects of `emit`. */
  datatype EmitStep =
    | WarnNoHandler
    | CreateTask(handler: SignalHandler)
    | Await(handler: SignalHandler)
    | LogError

  /**
   * `_run_on_ctx`: the handler's value, or None with three error log lines
   * when it raised an `Exception`, so no `Exception` leaves it (a
   * `BaseException` such as cancellation is not caught and is not modelled).
   */
  function RunOnCtx(o: CbOutcome): (r: (Json.Value, seq<EmitStep>))
    ensures o.Returned? ==> r == (o.v, [])
    ensures o.Raised? ==> r.0 == Json.Null && |r.1| == 3 && forall s :: s in r.1 ==> s == LogError
  {
    match o
    case Returned(v) => (v, [])
    case Raised => (Json.Null, [LogError, LogError, LogError])
  }

  /** The signal namespaces, each a dictionary from signal name to its one handler. */
  class PluginBus {
    var store: map<string, map<string, SignalHandler>>

    constructor ()
      ensures store == map[]
    {
      store := map[];
    }

    /**
     * `register`: the namespace is made on first use; a second handler for
     * the same signal is refused with PluginSignalError and nothing changes;
     * otherwise the handler is stored and no other signal is affected.
     */
    method Register(ns: string, signal: string, func: Fn) returns (r: Result<()>)
      modifies this
      ensures r.Err? <==> ns in old(store) && signal in old(store)[ns]
      ensures r.Err? ==> r.error == PluginSignalError && store == old(store)
      ensures r.Ok? ==> ns in store && store[ns] == old(if ns in store then store[ns] else map[])[signal := SignalHandler(ns, signal, func)]
      ensures r.Ok? ==> forall n :: n in old(store) && n != ns ==> n in store && store[n] == old(store)[n]
      ensures r.Ok? ==> store.Keys == old(store).Keys + {ns}
    {
      if ns !in store {
        store := store[ns := map[]];
      }
      if signal in store[ns] {
        return Err(PluginSignalError);
      }
      store := store[ns := store[ns][signal := SignalHandler(ns, signal, func)]];
      r := Ok(());
    }

    /**
     * `emit`: an unknown namespace raises PluginSignalError; an unknown
     * signal logs a warning and gives None without running anything;
     * without `wait` the handler is started as a task and None comes back at
     * once; with `wait` the result is that of `_run_on_ctx`.
     */
    method Emit(ns: string, signal: string, wait: bool, o: CbOutcome) returns (r: Result<Json.Value>, steps: seq<EmitStep>)
      ensures r.Err? <==> ns !in store
      ensures r.Err? ==> r.error == PluginSignalError && steps == []
      ensures ns in store && signal !in store[ns] ==> r == Ok(Json.Null) && steps == [WarnNoHandler]
      ensures ns in store && signal in store[ns] && !wait ==>
        r == Ok(Json.Null) && steps == [CreateTask(store[ns][signal])]
      ensures ns in store && signal in store[ns] && wait ==>
        r == Ok(RunOnCtx(o).0) && steps == [Await(store[ns][signal])] + RunOnCtx(o).1
      ensures r.Ok? && r.value != Json.Null ==> wait && o == Returned(r.value)
    {
      if ns !in store {
        return Err(PluginSignalError), [];
      }
      if signal !in store[ns] {
        return Ok(Json.Null), [WarnNoHandler];
      }
      var handler := store[ns][signal];
      if !wait {
        return Ok(Json.Null), [CreateTask(handler)];
      }
      var (v, logs) := RunOnCtx(o);
      r, steps := Ok(v), [Await(handler)] + logs;
    }
  }
}

=== FILE: json.dfy ===
/** The JSON-like values that OneBot frames and raw events are made of. */
module Json {
  import opened Wrap

  datatype Value =
    | Null
    | Bool(b: bool)
    | Int(i: int)
    | Str(s: string)
    | List(items: seq<Value>)
    | Dict(fields: map<string, Value>)

  /** Python truthiness of a decoded JSON value. */
  predicate Truthy(v: Value) {
    match v
    case Null => false
    case Bool(b) => b
    case Int(i) => i != 0
    case Str(s) => s != ""
    case List(items) => items != []
    case Dict(fields) => fields != map[]
  }

  /** Python's `v == n` for a decoded JSON value and an int: a bool compares as 0 or 1. */
  predicate EqualsInt(v: Value, n: int) {
    v == Int(n) || (v.Bool? && n == (if v.b then 1 else 0))
  }

  /** `d.get(key)` on a dict value; anything that is not a dict holding the key gives None. */
  function Get(v: Value, key: string): Value {
    if v.Dict? && key in v.fields then v.fields[key] else Null
  }

  /** Whether `key in d` holds for a dict value. */
  predicate Has(v: Value, key: string) {
    v.Dict? && key in v.fields
  }

  /**
   * `v[key]`: the member of a dict, KeyError when the dict lacks it, and
   * TypeError when the value is not a dict at all.
   */
  function Index(v: Value, key: string): (r: Result<Value>)
    ensures r.Ok? <==> Has(v, key)
    ensures r.Ok? ==> r.value == v.fields[key]
    ensures r.Err? ==> r.error == (if v.Dict? then KeyError else TypeError)
  {
    if !v.Dict? then Err(TypeError)
    else if key in v.fields then Ok(v.fields[key])
    else Err(KeyError)
  }

  /** `event[key]` on the members of a raw event dict. */
  function Field(event: map<string, Value>, key: string): (r: Result<Value>)
    ensures key in event <==> r.Ok?
    ensures r.Ok? ==> r.value == event[key]
    ensures r.Err? ==> r.error == KeyError
  {
    if key in event then Ok(event[key]) else Err(KeyError)
  }
}

=== FILE: logic.dfy ===
/**
 * Logic modes and level enumerations (src/melobot/base/typing.py).
 *
 * `calc` combines one or two check results under a logic mode and
 * `seq_calc` folds a list of results left to right. Operands are the
 * booleans that checkers and matchers return; a missing second operand is
 * Python's `None`.
 */
module Logic {
  import opened Wrap

  datatype LogicMode = AND | OR | NOT | XOR

  /** `LogicMode.calc(logic, v1, v2)`. */
  function Calc(logic: LogicMode, v1: bool, v2: Option<bool>): (r: bool)
    ensures logic == NOT ==> r == !v1
    ensures logic != NOT && v2.None? ==> r == v1
    ensures logic == AND && v2.Some? ==> r == (v1 && v2.value)
    ensures logic == OR && v2.Some? ==> r == (v1 || v2.value)
    ensures logic == XOR && v2.Some? ==> r == (v1 != v2.value)
  {
    match logic
    case AND => if v2.Some? then v1 && v2.value else v1
    case OR => if v2.Some? then v1 || v2.value else v1
    case NOT => !v1
    case XOR => if v2.Some? then v1 != v2.value else v1
  }

  /** The left fold `calc(...calc(calc(v0, v1), v2)..., vn)` over a list of at least two values. */
  function Fold(logic: LogicMode, values: seq<bool>): bool
    requires |values| >= 2
  {
    if |values| == 2 then Calc(logic, values[0], Some(values[1]))
    else Calc(logic, Fold(logic, values[..|values| - 1]), Some(values[|values| - 1]))
  }

  /** What `seq_calc` returns: False for no values, the value itself for one, the left fold otherwise. */
  function SeqCalcSpec(logic: LogicMode, values: seq<bool>): bool {
    if |values| == 0 then false
    else if |values| == 1 then values[0]
    else Fold(logic, values)
  }

  /** `LogicMode.seq_calc`, with the source's while loop over `idx` and `res`. */
  method SeqCalc(logic: LogicMode, values: seq<bool>) returns (r: bool)
    ensures r == SeqCalcSpec(logic, values)
  {
    if |values| <= 0 {
      return false;
    } else if |values| <= 1 {
      return values[0];
    }
    var idx := 0;
    var res := false;
    while idx < |values|
      invariant idx == 0 || 2 <= idx <= |values|
      invariant idx >= 2 ==> res == Fold(logic, values[..idx])
      decreases |values| - idx
    {
      if idx == 0 {
        res := Calc(logic, values[idx], Some(values[idx + 1]));
        idx := idx + 1;
        assert values[..2] == [values[0], values[1]];
      } else {
        assert values[..idx + 1][..idx] == values[..idx];
        res := Calc(logic, res, Some(values[idx]));
      }
      idx := idx + 1;
    }
    assert values[..idx] == values;
    r := res;
  }

  /** Folding under AND is "every value holds". */
  lemma {:induction false} FoldAnd(values: seq<bool>)
    requires |values| >= 2
    ensures Fold(AND, values) <==> forall i :: 0 <= i < |values| ==> values[i]
  {
    if |values| > 2 {
      FoldAnd(values[..|values| - 1]);
    }
  }

  /** Folding under OR is "some value holds". */
  lemma {:induction false} FoldOr(values: seq<bool>)
    requires |values| >= 2
    ensures Fold(OR, values) <==> exists i :: 0 <= i < |values| && values[i]
  {
    if |values| > 2 {
      FoldOr(values[..|values| - 1]);
      var init := values[..|values| - 1];
      if exists i :: 0 <= i < |init| && init[i] {
        var i :| 0 <= i < |init| && init[i];
        assert values[i];
      }
    }
  }

  /** The number of true values, whose parity folding under XOR computes. */
  function CountTrue(values: seq<bool>): nat {
    if values == [] then 0 else CountTrue(values[..|values| - 1]) + (if values[|values| - 1] then 1 else 0)
  }

  /** Folding under XOR holds iff an odd number of the values hold. */
  lemma {:induction false} FoldXor(values: seq<bool>)
    requires |values| >= 2
    ensures Fold(XOR, values) <==> CountTrue(values) % 2 == 1
  {
    var init := values[..|values| - 1];
    if |values| > 2 {
      FoldXor(init);
    } else {
      assert init[..0] == [];
    }
  }

  /**
   * Under NOT every later value is ignored: each step negates the running
   * result, so the fold is the first value negated once per further value.
   */
  lemma {:induction false} FoldNot(values: seq<bool>)
    requires |values| >= 2
    ensures Fold(NOT, values) == if (|values| - 1) % 2 == 1 then !values[0] else values[0]
  {
    if |values| > 2 {
      FoldNot(values[..|values| - 1]);
    }
  }

  /** The user permission levels of `User`. */
  datatype User = OWNER | SU | WHITE | USER | BLACK

  /** The integer value of each user level. */
  function UserValue(u: User): (v: int)
    ensures u == BLACK <==> v < 0
  {
    match u
    case OWNER => 10000
    case SU => 1000
    case WHITE => 100
    case USER => 10
    case BLACK => -1
  }

  /** `PriorLevel`: MIN, MAX and MEAN, the floor-division midpoint. */
  const PRIOR_MIN: int := 0
  const PRIOR_MAX: int := 1000
  const PRIOR_MEAN: int := (PRIOR_MAX + PRIOR_MIN) / 2

  /** A command's arguments: the values (None when the command has none) and whether formatting has run. */
  datatype ParseArgs = ParseArgs(vals: Option<seq<string>>, formatted: bool)

  /** `ParseArgs(values)`: a new argument object is not yet formatted. */
  function NewParseArgs(values: Option<seq<string>>): (a: ParseArgs)
    ensures a.vals == values && !a.formatted
  {
    ParseArgs(values, false)
  }
}

=== FILE: matcher.dfy ===
/**
 * The text matchers of melobot/utils/matcher.py. Each one answers a
 * question about the plain text of a message event; the occurrence count
 * of a regex comes from the regex engine and is given as a parameter.
 */
module Matcher {
  import Text

  /** Python's normalisation of a slice bound `i` on a sequence of length `n`. */
  function PyBound(i: int, n: nat): (r: nat)
    ensures r <= n
    ensures i >= 0 ==> r == if i < n then i else n
    ensures i < 0 ==> r == if i + n > 0 then i + n else 0
  {
    if i < 0 then (if i + n > 0 then i + n else 0) else if i < n then i else n
  }

  /** `s[i:j]` with Python's negative indices and clamping. */
  function PySlice(s: string, i: int, j: int): (r: string)
    ensures |r| <= |s|
    ensures PyBound(i, |s|) < PyBound(j, |s|) ==> r == s[PyBound(i, |s|)..PyBound(j, |s|)]
    ensures PyBound(i, |s|) >= PyBound(j, |s|) ==> r == []
  {
    var a := PyBound(i, |s|);
    var b := PyBound(j, |s|);
    if a < b then s[a..b] else []
  }

  /** `StartMatcher.match`: `text[:len(target)] == target`. */
  function StartMatch(target: string, text: string): (r: bool)
    ensures r <==> Text.At(text, 0, target)
  {
    PySlice(text, 0, |target|) == target
  }

  /** `target in text`. */
  function Contains(text: string, target: string): (r: bool)
    ensures r <==> exists i :: 0 <= i <= |text| && Text.At(text, i, target)
  {
    if Text.At(text, 0, target) then true
    else if text == [] then false
    else
      var r := Contains(text[1..], target);
      forall i | 1 <= i <= |text|
        ensures Text.At(text, i, target) <==> Text.At(text[1..], i - 1, target)
      {
        AtShift(text, i, target);
      }
      if r then
        var k :| 0 <= k <= |text[1..]| && Text.At(text[1..], k, target);
        assert Text.At(text, k + 1, target);
        true
      else false
  }

  /** An occurrence at `i >= 1` is one at `i - 1` in the tail. */
  lemma AtShift(text: string, i: nat, target: string)
    requires 1 <= i <= |text|
    ensures Text.At(text, i, target) <==> Text.At(text[1..], i - 1, target)
  {
    if i + |target| <= |text| {
      assert text[1..][i - 1..i - 1 + |target|] == text[i..i + |target|];
    }
  }

  /** `ContainMatcher.match`: a substring test for frequency 1, else the regex occurrence count must be exactly the frequency. */
  function ContainMatch(target: string, freq: int, text: string, regexCount: nat): (r: bool)
    ensures freq == 1 ==> (r <==> exists i :: 0 <= i <= |text| && Text.At(text, i, target))
    ensures freq != 1 ==> (r <==> regexCount == freq)
  {
    if freq == 1 then Contains(text, target) else regexCount == freq
  }

  /** `EndMatcher.match` as written: `text[-len(target):-1] == target`. */
  function EndMatchAsWritten(target: string, text: string): bool {
    PySlice(text, -|target|, -1) == target
  }

  /** The compared slice stops one character before the end, so no non-empty target ever matches. */
  lemma EndNeverMatches(target: string, text: string)
    requires target != []
    ensures !EndMatchAsWritten(target, text)
  {
    var s := PySlice(text, -|target|, -1);
    assert |s| < |target|;
  }

  /** A message that does end with the target. */
  lemma EndMissesSuffix()
    ensures !EndMatchAsWritten("bye", "goodbye") && EndMatch("bye", "goodbye")
  {
    EndNeverMatches("bye", "goodbye");
    assert "goodbye"[4..] == "bye";
  }

  /** `EndMatcher.match` comparing the last `len(target)` characters, as `text.endswith(target)` does. */
  function EndMatch(target: string, text: string): (r: bool)
    ensures r <==> |target| <= |text| && Text.At(text, |text| - |target|, target)
  {
    |target| <= |text| && text[|text| - |target|..] == target
  }

  /** `FullMatcher.match`: string equality. */
  function FullMatch(target: string, text: string): (r: bool)
    ensures r <==> text == target
  {
    text == target
  }

  /** A full match is also a start match, an end match and a frequency-1 contain match. */
  lemma FullImpliesOthers(target: string, text: string, regexCount: nat)
    requires FullMatch(target, text)
    ensures StartMatch(target, text)
    ensures EndMatch(target, text)
    ensures ContainMatch(target, 1, text, regexCount)
  {
    assert Text.At(text, 0, target);
  }

  /** A start match is a frequency-1 contain match. */
  lemma StartImpliesContain(target: string, text: string, regexCount: nat)
    requires StartMatch(target, text)
    ensures ContainMatch(target, 1, text, regexCount)
  {
  }
}

=== FILE: melobot_event.dfy ===
/**
 * The events of melobot/models/event.py, the generation before
 * src/melobot/models/event.py. The builder, the temporary-source lookup,
 * the message-kind predicates, the sender's role predicates and the
 * response fields are the same code as in the later file and come from
 * SrcEvent; what differs is modelled here: the builder converts a text
 * before reading it, `_get_text` also accepts a CQ string, the sender has
 * no fallback for an empty sender, and the response predicates compare the
 * raw retcode with HTTP-like codes.
 */
module MelobotEvent {
  import opened Wrap
  import opened Json
  import Text
  import CqCode
  import SrcEvent

  /** `BotEventBuilder.build`: a text is parsed first and a dict is used as it is, then classified. */
  function BuildKind(input: SrcEvent.RawInput): (r: Result<SrcEvent.Kind>)
    ensures input.DictInput? && input.d.Dict? ==> r == Ok(SrcEvent.Classify(input.d))
    ensures r == SrcEvent.BuildKind(input)
  {
    var raw :- SrcEvent.RawOf(input);
    if !raw.Dict? then Err(AttributeError) else Ok(SrcEvent.Classify(raw))
  }

  /** The `is_*` predicates of BotEvent: each is an isinstance test on the built class. */
  function IsMsg(k: SrcEvent.Kind): bool { k == SrcEvent.MessageKind }
  function IsReq(k: SrcEvent.Kind): bool { k == SrcEvent.RequestKind }
  function IsNotice(k: SrcEvent.Kind): bool { k == SrcEvent.NoticeKind }
  function IsMeta(k: SrcEvent.Kind): bool { k == SrcEvent.MetaKind }
  function IsResp(k: SrcEvent.Kind): bool { k == SrcEvent.ResponseKind }

  /** Exactly one of the five predicates holds for a built event, and a raw event without post_type is a response. */
  lemma ExactlyOneKind(input: SrcEvent.RawInput)
    requires BuildKind(input).Ok?
    ensures var k := BuildKind(input).value;
      (if IsMsg(k) then 1 else 0) + (if IsReq(k) then 1 else 0) + (if IsNotice(k) then 1 else 0)
      + (if IsMeta(k) then 1 else 0) + (if IsResp(k) then 1 else 0) == 1
    ensures !Has(SrcEvent.RawOf(input).value, "post_type") ==> IsResp(BuildKind(input).value)
  {
  }

  // ---------------------------------------------------------------- CQ strings

  /**
   * Where the regex `\[CQ:.*?\]` closes a code whose body starts at `i`:
   * the first ']' from there, provided no line break comes before it (`.`
   * does not match one).
   */
  function CloseAt(s: string, i: nat): (r: Option<nat>)
    ensures r.Some? ==> i <= r.value < |s| && s[r.value] == ']'
    ensures r.Some? ==> forall k :: i <= k < r.value ==> s[k] != ']' && s[k] != '\n'
    ensures r.None? ==> forall j :: i <= j < |s| && s[j] == ']' ==> exists k :: i <= k < j && s[k] == '\n'
    decreases |s| - i
  {
    if i >= |s| then None
    else if s[i] == ']' then Some(i)
    else if s[i] == '\n' then None
    else CloseAt(s, i + 1)
  }

  /** `re.sub(r"\[CQ:.*?\]", "", s)`: every CQ code removed, scanning once from the left. */
  function StripCq(s: string): (r: string)
    ensures |r| <= |s|
    decreases |s|
  {
    if s == [] then []
    else if |s| >= 4 && s[..4] == "[CQ:" && CloseAt(s, 4).Some? then StripCq(s[CloseAt(s, 4).value + 1..])
    else [s[0]] + StripCq(s[1..])
  }

  /** A text with no "[CQ:" in it is left unchanged. */
  lemma {:induction false} StripCqNoCode(s: string)
    requires forall i :: 0 <= i < |s| ==> !Text.At(s, i, "[CQ:")
    ensures StripCq(s) == s
    decreases |s|
  {
    if s != [] {
      assert !Text.At(s, 0, "[CQ:");
      forall i | 0 <= i < |s[1..]|
        ensures !Text.At(s[1..], i, "[CQ:")
      {
        assert !Text.At(s, i + 1, "[CQ:");
        if i + 4 <= |s[1..]| {
          assert s[1..][i..i + 4] == s[i + 1..i + 5];
        }
      }
      StripCqNoCode(s[1..]);
      assert s == [s[0]] + s[1..];
    }
  }

  /** A code at the front is dropped whole: "[CQ:" and a body without ']' or line break, then ']'. */
  lemma StripCqCode(body: string, rest: string)
    requires forall k :: 0 <= k < |body| ==> body[k] != ']' && body[k] != '\n'
    ensures StripCq("[CQ:" + body + "]" + rest) == StripCq(rest)
  {
    var s := "[CQ:" + body + "]" + rest;
    assert s[..4] == "[CQ:";
    assert forall k :: 4 <= k < 4 + |body| ==> s[k] == body[k - 4];
    assert s[4 + |body|] == ']';
    CloseAtFirst(s, 4, 4 + |body|);
    assert s[4 + |body| + 1..] == rest;
  }

  lemma {:induction false} CloseAtFirst(s: string, i: nat, j: nat)
    requires i <= j < |s| && s[j] == ']'
    requires forall k :: i <= k < j ==> s[k] != ']' && s[k] != '\n'
    ensures CloseAt(s, i) == Some(j)
    decreases j - i
  {
    if i < j {
      CloseAtFirst(s, i + 1, j);
    }
  }

  /** `_get_cq_content`: the raw content with the four entities turned back; `.replace` on a non-string raises. */
  function CqContent(rawContent: Value): (r: Result<string>)
    ensures r.Ok? <==> rawContent.Str?
    ensures r.Ok? ==> r.value == CqCode.AntiEscape(rawContent.s)
  {
    if rawContent.Str? then Ok(CqCode.AntiEscape(rawContent.s)) else Err(AttributeError)
  }

  /** What `_get_text` gives for each kind of content. */
  function ContentText(content: Value): Result<string> {
    if content.Str? then Ok(CqCode.AntiEscape(StripCq(content.s)))
    else if content.List? then SrcEvent.TextOf(content.items)
    else if content == Dict(map[]) then Ok("")
    else Err(TypeError)
  }

  /**
   * `_get_text`: on a CQ string, the codes removed and the entities turned
   * back; on a list of segments, the loop over the text segments of the
   * later generation; iterating anything else fails on the first item.
   */
  method GetText(content: Value) returns (r: Result<string>)
    ensures r == ContentText(content)
    ensures content.Str? ==> r == Ok(CqCode.AntiEscape(StripCq(content.s)))
    ensures content.List? ==> r == SrcEvent.TextOf(content.items)
    ensures !content.Str? && !content.List? ==> r == (if content == Dict(map[]) then Ok("") else Err(TypeError))
  {
    if content.Str? {
      return Ok(CqCode.AntiEscape(StripCq(content.s)));
    }
    if content.List? {
      r := SrcEvent.GetText(content.items);
      return;
    }
    r := if content == Dict(map[]) then Ok("") else Err(TypeError);
  }

  // ---------------------------------------------------------------- message events

  /** The sender of this generation: every field is read, with no fallback for a missing one. */
  function SenderOf(raw: Value, isGroup: bool, isGroupAnonym: bool): (r: Result<SrcEvent.Sender>)
    ensures r.Ok? ==> r.value.nickname.Some? && r.value.sex.Some? && r.value.age.Some?
    ensures r.Ok? ==> r.value.isGroup == isGroup && (r.value.group.Some? <==> isGroup)
    ensures r.Ok? && isGroup && isGroupAnonym ==> SrcEvent.IsAnonymMember(r.value) == Ok(true)
  {
    var snd :- Index(raw, "sender");
    var id :- Index(snd, "user_id");
    var nick :- Index(snd, "nickname");
    var sex :- Index(snd, "sex");
    var age :- Index(snd, "age");
    var g :- if !isGroup then Ok(None)
      else if isGroupAnonym then
        (var area :- Index(snd, "area");
         var level :- Index(snd, "level");
         var anon :- Index(raw, "anonymous");
         var aid :- Index(anon, "id");
         var name :- Index(anon, "name");
         var flag :- Index(anon, "flag");
         Ok(Some(SrcEvent.GroupInfo(Str(""), area, level, Str("anonymous"), Str(""), Some((aid, name, flag))))))
      else
        (var card :- Index(snd, "card");
         var area :- Index(snd, "area");
         var level :- Index(snd, "level");
         var role :- Index(snd, "role");
         var title :- Index(snd, "title");
         Ok(Some(SrcEvent.GroupInfo(card, area, level, role, title, None))));
    Ok(SrcEvent.Sender(id, Some(nick), Some(sex), Some(age), g, isGroup, raw))
  }

  datatype MsgEvent = MsgEvent(
    botId: Value,
    id: Value,
    rawContent: Value,
    content: Value,
    font: Value,
    text: string,
    cqContent: string,
    tempSrc: Option<string>,
    sender: SrcEvent.Sender,
    groupId: Option<Value>)

  /**
   * The event `MsgEvent._init` builds from `raw`: the steps in source
   * order, the first one that fails raising its error.
   */
  function MessageOf(raw: Value): (r: Result<MsgEvent>)
    requires raw.Dict?
    ensures var m := raw.fields;
      "message_id" in m && "raw_message" in m && "message" in m && "font" in m && ContentText(m["message"]).Ok?
      && CqContent(m["raw_message"]).Ok? && SrcEvent.TempSrc(raw).Err? ==>
        r == Err(SrcEvent.TempSrc(raw).error)
  {
    var id :- Index(raw, "message_id");
    var rawContent :- Index(raw, "raw_message");
    var content :- Index(raw, "message");
    var font :- Index(raw, "font");
    var text :- ContentText(content);
    var cq :- CqContent(rawContent);
    var tempSrc :- SrcEvent.TempSrc(raw);
    var isGroup :- SrcEvent.IsGroup(raw);
    var isAnonym :- SrcEvent.IsGroupAnonym(raw);
    var sender :- SenderOf(raw, isGroup, isAnonym);
    var groupId :- if isGroup then (var g :- Index(raw, "group_id"); Ok(Some(g))) else Ok(None);
    Ok(MsgEvent(Get(raw, "self_id"), id, rawContent, content, font, text, cq, tempSrc, sender, groupId))
  }

  /**
   * `MsgEvent._init`: id, raw content, content and font are read as they
   * are, then the text and the CQ content derived, the temporary source
   * looked up, the sender built and, for group messages only, the group id
   * read; the first failure raises.
   */
  method MessageInit(raw: Value) returns (r: Result<MsgEvent>)
    requires raw.Dict?
    ensures r == MessageOf(raw)
    ensures r.Ok? ==> Has(raw, "message_id") && Has(raw, "raw_message") && Has(raw, "message") && Has(raw, "font")
    ensures r.Ok? ==> r.value.content == raw.fields["message"] && r.value.rawContent == raw.fields["raw_message"]
    ensures r.Ok? && raw.fields["message"].Str? ==> r.value.text == CqCode.AntiEscape(StripCq(raw.fields["message"].s))
    ensures r.Ok? && raw.fields["message"].List? ==> Ok(r.value.text) == SrcEvent.TextOf(raw.fields["message"].items)
    ensures r.Ok? ==> Ok(r.value.cqContent) == CqContent(raw.fields["raw_message"])
    ensures r.Ok? ==> Ok(r.value.tempSrc) == SrcEvent.TempSrc(raw)
    ensures r.Ok? ==> (r.value.groupId.Some? <==> SrcEvent.IsGroup(raw) == Ok(true))
    ensures r.Ok? ==> (SrcEvent.IsGroupAnonym(raw).Ok?
      && Ok(r.value.sender) == SenderOf(raw, SrcEvent.IsGroup(raw) == Ok(true), SrcEvent.IsGroupAnonym(raw).value))
    ensures !Has(raw, "message_id") ==> r == Err(KeyError)
  {
    var id := Index(raw, "message_id");
    if id.Err? {
      return Err(id.error);
    }
    var rawContent := Index(raw, "raw_message");
    if rawContent.Err? {
      return Err(rawContent.error);
    }
    var content := Index(raw, "message");
    if content.Err? {
      return Err(content.error);
    }
    var font := Index(raw, "font");
    if font.Err? {
      return Err(font.error);
    }
    var text := GetText(content.value);
    if text.Err? {
      return Err(text.error);
    }
    var cq := CqContent(rawContent.value);
    if cq.Err? {
      return Err(cq.error);
    }
    var tempSrc := SrcEvent.TempSrc(raw);
    if tempSrc.Err? {
      return Err(tempSrc.error);
    }
    var isGroup := SrcEvent.IsGroup(raw);
    if isGroup.Err? {
      return Err(isGroup.error);
    }
    var isAnonym := SrcEvent.IsGroupAnonym(raw);
    if isAnonym.Err? {
      return Err(isAnonym.error);
    }
    var sender := SenderOf(raw, isGroup.value, isAnonym.value);
    if sender.Err? {
      return Err(sender.error);
    }
    var groupId: Option<Value> := None;
    if isGroup.value {
      var g := Index(raw, "group_id");
      if g.Err? {
        return Err(g.error);
      }
      groupId := Some(g.value);
    }
    r := Ok(MsgEvent(Get(raw, "self_id"), id.value, rawContent.value, content.value, font.value,
      text.value, cq.value, tempSrc.value, sender.value, groupId));
  }

  // ---------------------------------------------------------------- responses

  /** `RespEvent.is_ok` as written: the raw retcode compared with 200. */
  function IsOkAsWritten(e: SrcEvent.ResponseEvent): bool { e.status == Int(200) }
  function IsProcessingAsWritten(e: SrcEvent.ResponseEvent): bool { e.status == Int(202) }
  function IsFailedAsWritten(e: SrcEvent.ResponseEvent): bool { e.status == Int(500) }

  /**
   * OneBot 11 reports success with retcode 0 and asynchronous processing
   * with retcode 1, so as written a successful response is neither ok nor
   * failed, and a response with retcode 100 is not failed either.
   */
  lemma SuccessIsNotOk(raw: map<string, Value>)
    ensures var e := SrcEvent.ResponseInit(Dict(raw["retcode" := Int(0)])).value;
      !IsOkAsWritten(e) && !IsFailedAsWritten(e) && !IsProcessingAsWritten(e)
    ensures !IsFailedAsWritten(SrcEvent.ResponseInit(Dict(raw["retcode" := Int(100)])).value)
  {
  }

  /**
   * The status the predicates are meant to read: a retcode equal to 0 is
   * 200, one equal to 1 is 202, anything else 500. Python's `==` makes a
   * JSON `false` equal to 0 and `true` equal to 1.
   */
  function Status(retcode: Value): (s: int)
    ensures s == 200 <==> EqualsInt(retcode, 0)
    ensures s == 202 <==> EqualsInt(retcode, 1)
    ensures s == 200 || s == 202 || s == 500
    ensures retcode.Bool? ==> s == (if retcode.b then 202 else 200)
  {
    if EqualsInt(retcode, 0) then 200 else if EqualsInt(retcode, 1) then 202 else 500
  }

  function IsOk(e: SrcEvent.ResponseEvent): bool { Status(e.status) == 200 }
  function IsProcessing(e: SrcEvent.ResponseEvent): bool { Status(e.status) == 202 }
  function IsFailed(e: SrcEvent.ResponseEvent): bool { Status(e.status) == 500 }

  /** With the status mapped, every response is exactly one of ok, processing and failed, and success is ok. */
  lemma ExactlyOneStatus(e: SrcEvent.ResponseEvent)
    ensures (if IsOk(e) then 1 else 0) + (if IsProcessing(e) then 1 else 0) + (if IsFailed(e) then 1 else 0) == 1
    ensures IsOk(e) <==> EqualsInt(e.status, 0)
  {
  }
}

=== FILE: melobot_parser.dfy ===
/**
 * The command parser of melobot/utils/parser.py, the generation before
 * src/melobot/utils/parser.py: the same purify and split, but the
 * constructor reports errors as BotValueError and `parse` keeps every
 * group, command name included, as a list of argument objects.
 */
module MelobotParser {
  import opened Wrap
  import TokenSplit
  import CmdParser

  datatype Parser = Parser(start: seq<string>, sep: seq<string>)

  /**
   * `CmdParser(cmd_start, cmd_sep)`: overlapping tokens are refused first;
   * then `cmd_sep + cmd_start` fails for a string and a list mixed, and
   * tokens with a banned character are refused.
   */
  function New(cmdStart: TokenSplit.TokenArg, cmdSep: TokenSplit.TokenArg): (r: Result<Parser>)
    ensures TokenSplit.Overlap(TokenSplit.TokenList(cmdStart), TokenSplit.TokenList(cmdSep)) ==> r == Err(BotValueError)
    ensures !TokenSplit.Overlap(TokenSplit.TokenList(cmdStart), TokenSplit.TokenList(cmdSep)) && cmdStart.One? != cmdSep.One? ==> r == Err(TypeError)
    ensures r.Ok? <==> (!TokenSplit.Overlap(TokenSplit.TokenList(cmdStart), TokenSplit.TokenList(cmdSep))
      && cmdStart.One? == cmdSep.One? && !CmdParser.HasBanned(TokenSplit.JoinArg(cmdSep) + TokenSplit.JoinArg(cmdStart)))
    ensures r.Ok? ==> r.value.start == TokenSplit.TokenList(cmdStart) && r.value.sep == TokenSplit.TokenList(cmdSep)
  {
    var start := TokenSplit.TokenList(cmdStart);
    var sep := TokenSplit.TokenList(cmdSep);
    if TokenSplit.Overlap(start, sep) then Err(BotValueError)
    else if cmdStart.One? != cmdSep.One? then Err(TypeError)
    else if CmdParser.HasBanned(TokenSplit.JoinArg(cmdSep) + TokenSplit.JoinArg(cmdStart)) then Err(BotValueError)
    else Ok(Parser(start, sep))
  }

  /** `_parse`: the command groups of the purified text, None when there is none. */
  function ParseGroups(p: Parser, text: string): (r: Option<seq<seq<string>>>)
    ensures r.None? <==> TokenSplit.Groups(CmdParser.Purify(text), p.start, p.sep, CmdParser.NUL) == []
    ensures r.Some? ==> r.value == TokenSplit.Groups(CmdParser.Purify(text), p.start, p.sep, CmdParser.NUL) && r.value != []
  {
    var groups := TokenSplit.Groups(CmdParser.Purify(text), p.start, p.sep, CmdParser.NUL);
    if groups == [] then None else Some(groups)
  }

  /** `ParseArgs(params)`: the values of a group, its command name first. */
  datatype ParseArgs = ParseArgs(vals: seq<string>)

  function ArgsList(groups: seq<seq<string>>): (r: seq<ParseArgs>)
    ensures |r| == |groups| && forall j :: 0 <= j < |groups| ==> r[j].vals == groups[j]
  {
    seq(|groups|, j requires 0 <= j < |groups| => ParseArgs(groups[j]))
  }

  /** `parse`: one argument object per group, in text order, or None. */
  function Parse(p: Parser, text: string): (r: Option<seq<ParseArgs>>)
    ensures r.None? <==> ParseGroups(p, text).None?
    ensures r.Some? ==> |r.value| == |ParseGroups(p, text).value| > 0
    ensures r.Some? ==> forall j :: 0 <= j < |r.value| ==> r.value[j].vals == ParseGroups(p, text).value[j]
  {
    var groups := ParseGroups(p, text);
    if groups.None? then None
    else Some(ArgsList(groups.value))
  }

  /** Each argument object holds a whole group: a non-empty list whose first value is the command name and none of whose values holds a token. */
  lemma ParseKeepsNames(p: Parser, text: string)
    requires Parse(p, text).Some?
    ensures forall j :: 0 <= j < |Parse(p, text).value| ==>
      TokenSplit.CleanGroup(Parse(p, text).value[j].vals, p.start, p.sep, CmdParser.NUL)
  {
    TokenSplit.GroupsClean(CmdParser.Purify(text), p.start, p.sep, CmdParser.NUL);
  }
}

=== FILE: models_plugin.dfy ===
/**
 * The plugin base class and the message handler of melobot/models/plugin.py.
 *
 * As in CorePlugin, the checker, matcher and parser answer for the event
 * at hand through an `Answers` value, and `BotSessionManager.try_attach`,
 * `get` and `make_temp` (awaits whose targets are outside this model)
 * answer through inputs. Scheduling `_run` is the `Schedule` call.
 *
 * This file comes from a different revision than melobot/models/session.py.
 * That session.py has no `try_attach`, `make_temp`, `bind` or six-argument
 * `get`, so the manager answering here is not `ModelsSession`.
 */
module ModelsPlugin {
  import opened Wrap
  import opened Logic
  import CorePlugin
  import ModelsSession

  type Callback = CorePlugin.Callback

  /** The constructor arguments of `MsgEventHandler`, in the order `on_message` lists them. */
  datatype MsgArgs = MsgArgs(
    hasMatcher: bool,
    hasParser: bool,
    hasChecker: bool,
    priority: int,
    timeout: Option<int>,
    block: bool,
    temp: bool,
    hasRule: bool,
    hold: bool,
    directRouse: bool,
    conflictWait: bool,
    conflictCb: Callback,
    overtimeCb: Callback)

  /** The three checks of the `MsgEventHandler` constructor, in source order. */
  function CheckArgs(a: MsgArgs): (r: Result<()>)
    ensures r.Ok? <==>
      a.hasMatcher != a.hasParser
      && (!a.hasRule ==> !a.hold && !a.directRouse && !a.conflictWait && !CorePlugin.Truthy(a.conflictCb))
      && !(a.conflictWait && CorePlugin.Truthy(a.conflictCb))
    ensures r.Err? ==> (r.error == BotValueError <==> a.hasMatcher == a.hasParser)
    ensures r.Err? ==> r.error == BotValueError || r.error == BotException
  {
    if (!a.hasMatcher && !a.hasParser) || (a.hasMatcher && a.hasParser) then Err(BotValueError)
    else if !a.hasRule && (a.hold || a.directRouse || a.conflictWait || a.conflictCb != CorePlugin.NoCallback) then Err(BotException)
    else if a.conflictWait && a.conflictCb != CorePlugin.NoCallback then Err(BotException)
    else Ok(())
  }

  /**
   * A handler that was built has a session rule whenever it holds sessions,
   * rouses directly, waits on conflicts or has a conflict callback, and
   * never both waits and has a conflict callback.
   */
  lemma {:induction false} BuiltHandlerSessionOptions(a: MsgArgs)
    requires CheckArgs(a).Ok?
    ensures a.hold || a.directRouse || a.conflictWait || CorePlugin.Truthy(a.conflictCb) ==> a.hasRule
    ensures CorePlugin.Truthy(a.conflictCb) ==> !a.conflictWait
  {
    assert a.hasMatcher != a.hasParser;
  }

  /** What the checker, `try_attach`, the matcher and the parser answer for the event at hand. */
  datatype Answers = Answers(check: bool, attached: bool, matched: bool, parsed: Option<seq<ParseArgs>>)

  /** The calls `evoke` makes, in order. `StoreArgs` is `event._store_args(self, args)`. */
  datatype Call = CheckCall | TryAttach | MatchCall | ParseCall | StoreArgs(args: seq<ParseArgs>) | Schedule

  datatype Matched = Matched(ok: bool, calls: seq<Call>)

  /** `_verify`: the checker's answer, or True without a checker. */
  function VerifyOk(a: MsgArgs, ans: Answers): (ok: bool)
    ensures ok <==> !a.hasChecker || ans.check
  {
    !a.hasChecker || ans.check
  }

  /** `_match`: the matcher's answer, or whether the parser gave arguments, which are then stored. */
  function Match(a: MsgArgs, ans: Answers): (m: Matched)
    ensures a.hasMatcher ==> m == Matched(ans.matched, [MatchCall])
    ensures !a.hasMatcher && a.hasParser ==> m.ok == ans.parsed.Some?
    ensures forall args :: StoreArgs(args) in m.calls <==> !a.hasMatcher && a.hasParser && ans.parsed == Some(args)
    ensures !a.hasMatcher && !a.hasParser ==> m == Matched(false, [])
  {
    if a.hasMatcher then Matched(ans.matched, [MatchCall])
    else if a.hasParser then
      if ans.parsed.Some? then Matched(true, [ParseCall, StoreArgs(ans.parsed.value)])
      else Matched(false, [ParseCall])
    else Matched(false, [])
  }

  /** One `evoke`: its answer, the handler's new `is_valid`, and the calls made. */
  datatype Evoked = Evoked(accepted: bool, isValid: bool, calls: seq<Call>)

  function EvokeSpec(a: MsgArgs, isValid: bool, ans: Answers): Evoked {
    var checked := if a.hasChecker then [CheckCall] else [];
    if !VerifyOk(a, ans) then Evoked(false, isValid, checked)
    else
      var roused := checked + (if a.directRouse then [TryAttach] else []);
      if a.directRouse && ans.attached then Evoked(true, isValid, roused)
      else if !isValid then Evoked(false, isValid, roused)
      else
        var m := Match(a, ans);
        if !m.ok then Evoked(false, isValid, roused + m.calls)
        else if !a.temp then Evoked(true, isValid, roused + m.calls + [Schedule])
        else Evoked(true, false, roused + m.calls + [Schedule])
  }

  /**
   * The checker is asked first and a rejection ends `evoke`; with
   * `direct_rouse`, an attachment is accepted before `is_valid` and the
   * matcher are consulted; `_run` is scheduled exactly when the event is
   * accepted without an attachment, and only then can `is_valid` change.
   */
  lemma {:induction false} EvokeOrder(a: MsgArgs, isValid: bool, ans: Answers)
    requires CheckArgs(a).Ok?
    ensures a.hasChecker ==> EvokeSpec(a, isValid, ans).calls[0] == CheckCall
    ensures a.hasChecker && !ans.check ==> EvokeSpec(a, isValid, ans) == Evoked(false, isValid, [CheckCall])
    ensures VerifyOk(a, ans) && a.directRouse && ans.attached ==>
      var e := EvokeSpec(a, isValid, ans);
      e.accepted && e.isValid == isValid && MatchCall !in e.calls && ParseCall !in e.calls && Schedule !in e.calls
    ensures !(a.directRouse && ans.attached) ==>
      (Schedule in EvokeSpec(a, isValid, ans).calls <==> EvokeSpec(a, isValid, ans).accepted)
    ensures EvokeSpec(a, isValid, ans).isValid != isValid ==> a.temp && isValid && Schedule in EvokeSpec(a, isValid, ans).calls
    ensures Schedule in EvokeSpec(a, isValid, ans).calls ==> isValid && !(a.directRouse && ans.attached)
  {
    var e := EvokeSpec(a, isValid, ans);
    if a.hasChecker {
      assert e.calls[0] == CheckCall;
    }
  }

  /** Arguments reach the event only when the parser produced them and the handler got that far. */
  lemma {:induction false} ArgsStoredOnlyOnParse(a: MsgArgs, isValid: bool, ans: Answers, args: seq<ParseArgs>)
    requires CheckArgs(a).Ok?
    ensures StoreArgs(args) in EvokeSpec(a, isValid, ans).calls <==>
      a.hasParser && ans.parsed == Some(args) && VerifyOk(a, ans) && !(a.directRouse && ans.attached) && isValid
  {
    var checked := if a.hasChecker then [CheckCall] else [];
    var roused := checked + (if a.directRouse then [TryAttach] else []);
    assert StoreArgs(args) !in roused;
    var m := Match(a, ans);
    if VerifyOk(a, ans) && !(a.directRouse && ans.attached) && isValid {
      assert StoreArgs(args) in roused + m.calls <==> StoreArgs(args) in m.calls;
      assert StoreArgs(args) in roused + m.calls + [Schedule] <==> StoreArgs(args) in m.calls;
    }
  }

  /** The answers of `evoke` to a run of events, each with its own answers. */
  function Replay(a: MsgArgs, isValid: bool, answers: seq<Answers>): seq<Evoked>
    decreases |answers|
  {
    if answers == [] then []
    else
      var e := EvokeSpec(a, isValid, answers[0]);
      [e] + Replay(a, e.isValid, answers[1..])
  }

  function Scheduled(es: seq<Evoked>): nat {
    if es == [] then 0 else (if Schedule in es[0].calls then 1 else 0) + Scheduled(es[1..])
  }

  /**
   * A temporary handler schedules `_run` at most once over any run of
   * events, and never once it is invalid; attachments by `direct_rouse`
   * can still be accepted after that.
   */
  lemma {:induction false} TempRunsAtMostOnce(a: MsgArgs, isValid: bool, answers: seq<Answers>)
    requires CheckArgs(a).Ok? && a.temp
    ensures Scheduled(Replay(a, isValid, answers)) <= 1
    ensures !isValid ==> Scheduled(Replay(a, isValid, answers)) == 0
    decreases |answers|
  {
    if answers != [] {
      var e := EvokeSpec(a, isValid, answers[0]);
      EvokeOrder(a, isValid, answers[0]);
      TempRunsAtMostOnce(a, e.isValid, answers[1..]);
    }
  }

  /** The event's `_args_map`, keyed by handler (melobot/interface/models.py). */
  class MsgEvent {
    var argsMap: map<nat, seq<ParseArgs>>

    constructor ()
      ensures argsMap == map[]
    {
      argsMap := map[];
    }

    method StoreArgs(handler: nat, args: seq<ParseArgs>)
      modifies this`argsMap
      ensures argsMap == old(argsMap)[handler := args]
    {
      argsMap := argsMap[handler := args];
    }
  }

  /** How an awaited callback ended: `TimedOut` only for the executor, which alone has a timeout. */
  type ExecOutcome = CorePlugin.ExecOutcome

  /** What the awaits of `_run` answer. */
  datatype RunAnswers = RunAnswers(
    attached: bool,
    session: Option<nat>,
    tempSession: nat,
    conflictRaised: bool,
    exec: ExecOutcome,
    overtimeRaised: bool)

  /** The side effects of `_run`, in order; `Log` is the error report of the outer `except`. */
  datatype Step =
    | TryAttachStep
    | GetSession
    | MakeTemp
    | ConflictCallback(temp: nat)
    | Execute(session: nat)
    | Overtime(session: nat)
    | Log
    | Recycle(session: nat, alive: bool)

  /**
   * The side effects of `_run`: the outer `try`/`except`/`finally` catches
   * and logs every exception, and the `finally` recycles the session
   * whenever one was obtained, with `alive` set to `session_hold`.
   */
  function RunSteps(args: MsgArgs, r: RunAnswers): seq<Step> {
    var attach := if args.directRouse then [] else [TryAttachStep];
    if !args.directRouse && r.attached then attach
    else if r.session.None? then
      attach + [GetSession] + ConflictSteps(args, r)
    else
      attach + [GetSession] + [Execute(r.session.value)] + Handled(args, r) + [Recycle(r.session.value, args.hold)]
  }

  /** Without a session: the temporary session and the conflict callback, when one is set. */
  function ConflictSteps(args: MsgArgs, r: RunAnswers): seq<Step> {
    if CorePlugin.Truthy(args.conflictCb) then
      [MakeTemp, ConflictCallback(r.tempSession)] + (if r.conflictRaised then [Log] else [])
    else []
  }

  /** After the executor: the log of its exception, or the overtime callback and the log of its own. */
  function Handled(args: MsgArgs, r: RunAnswers): seq<Step>
    requires r.session.Some?
  {
    if r.exec == CorePlugin.Raised then [Log]
    else if r.exec == CorePlugin.TimedOut && CorePlugin.Truthy(args.overtimeCb) then
      [Overtime(r.session.value)] + (if r.overtimeRaised then [Log] else [])
    else []
  }

  /** Without direct_rouse, an attachment to a waiting session ends the run right after the attempt. */
  lemma RunAttached(args: MsgArgs, r: RunAnswers)
    requires !args.directRouse && r.attached
    ensures RunSteps(args, r) == [TryAttachStep]
  {
  }

  /** No session: nothing runs, and only a set conflict callback is called, on a temporary session. */
  lemma RunWithoutSession(args: MsgArgs, r: RunAnswers)
    requires (args.directRouse || !r.attached) && r.session.None?
    ensures forall x :: x in RunSteps(args, r) ==> !x.Execute? && !x.Recycle? && !x.Overtime?
    ensures ConflictCallback(r.tempSession) in RunSteps(args, r) <==> CorePlugin.Truthy(args.conflictCb)
    ensures Log in RunSteps(args, r) <==> CorePlugin.Truthy(args.conflictCb) && r.conflictRaised
  {
    var steps := RunSteps(args, r);
    var attach := if args.directRouse then [] else [TryAttachStep];
    assert steps == attach + [GetSession] + ConflictSteps(args, r);
    assert forall x :: x in steps <==> x in attach || x == GetSession || x in ConflictSteps(args, r);
  }

  /**
   * With a session: the executor runs in it, the session is recycled as
   * the very last step with `alive` set to session_hold, and no other
   * step recycles.
   */
  lemma RunRecyclesLast(args: MsgArgs, r: RunAnswers)
    requires (args.directRouse || !r.attached) && r.session.Some?
    ensures Execute(r.session.value) in RunSteps(args, r)
    ensures RunSteps(args, r)[|RunSteps(args, r)| - 1] == Recycle(r.session.value, args.hold)
    ensures forall i :: 0 <= i < |RunSteps(args, r)| - 1 ==> !RunSteps(args, r)[i].Recycle?
  {
    var steps := RunSteps(args, r);
    var attach := if args.directRouse then [] else [TryAttachStep];
    var pre := attach + [GetSession] + [Execute(r.session.value)] + Handled(args, r);
    assert steps == pre + [Recycle(r.session.value, args.hold)];
    assert Execute(r.session.value) in pre;
    assert forall x :: x in pre ==> !x.Recycle?;
    forall i | 0 <= i < |steps| - 1 ensures !steps[i].Recycle? {
      assert steps[i] == pre[i];
    }
  }

  /**
   * With a session: the overtime callback runs iff the executor timed out
   * and one is set, and an error is logged iff the executor raised or the
   * overtime callback did.
   */
  lemma RunHandlesOutcome(args: MsgArgs, r: RunAnswers)
    requires (args.directRouse || !r.attached) && r.session.Some?
    ensures Overtime(r.session.value) in RunSteps(args, r) <==>
      r.exec == CorePlugin.TimedOut && CorePlugin.Truthy(args.overtimeCb)
    ensures Log in RunSteps(args, r) <==>
      r.exec == CorePlugin.Raised || (r.exec == CorePlugin.TimedOut && CorePlugin.Truthy(args.overtimeCb) && r.overtimeRaised)
  {
    var steps := RunSteps(args, r);
    var attach := if args.directRouse then [] else [TryAttachStep];
    var h := Handled(args, r);
    assert steps == attach + [GetSession] + [Execute(r.session.value)] + h + [Recycle(r.session.value, args.hold)];
    assert forall x :: x in steps <==>
      x in attach || x == GetSession || x == Execute(r.session.value) || x in h || x == Recycle(r.session.value, args.hold);
  }

  /** Every executed session is the one `_run` obtained. */
  lemma RunExecutesOwnSession(args: MsgArgs, r: RunAnswers)
    ensures forall x :: x in RunSteps(args, r) && x.Execute? ==> r.session == Some(x.session)
  {
    var steps := RunSteps(args, r);
    var attach := if args.directRouse then [] else [TryAttachStep];
    if !(!args.directRouse && r.attached) {
      if r.session.None? {
        assert forall x :: x in steps ==> x in attach || x == GetSession || x in ConflictSteps(args, r);
      } else {
        var h := Handled(args, r);
        assert steps == attach + [GetSession] + [Execute(r.session.value)] + h + [Recycle(r.session.value, args.hold)];
        assert forall x :: x in steps ==>
          x in attach || x == GetSession || x == Execute(r.session.value) || x in h || x == Recycle(r.session.value, args.hold);
      }
    }
  }

  class MsgEventHandler {
    const id: nat
    const args: MsgArgs
    var isValid: bool

    constructor (id: nat, args: MsgArgs)
      requires CheckArgs(args).Ok?
      ensures this.id == id && this.args == args && isValid
    {
      this.id := id;
      this.args := args;
      isValid := true;
    }

    /** `evoke`, with the parser's arguments written onto `event` under this handler's key. */
    method Evoke(event: MsgEvent, ans: Answers) returns (accepted: bool, calls: seq<Call>)
      modifies this`isValid, event`argsMap
      ensures EvokeSpec(args, old(isValid), ans) == Evoked(accepted, isValid, calls)
      ensures forall xs :: StoreArgs(xs) in calls ==> event.argsMap == old(event.argsMap)[id := xs]
      ensures (forall xs :: StoreArgs(xs) !in calls) ==> event.argsMap == old(event.argsMap)
    {
      calls := [];
      if args.hasChecker {
        calls := calls + [CheckCall];
        if !ans.check {
          return false, calls;
        }
      }
      ghost var checked := calls;
      if args.directRouse {
        calls := calls + [TryAttach];
        if ans.attached {
          return true, calls;
        }
      }
      assert calls == checked + (if args.directRouse then [TryAttach] else []);
      if !isValid {
        return false, calls;
      }
      var m := Match(args, ans);
      if m.ok && !args.hasMatcher {
        event.StoreArgs(id, ans.parsed.value);
      }
      calls := calls + m.calls;
      if !m.ok {
        return false, calls;
      }
      calls := calls + [Schedule];
      if !args.temp {
        return true, calls;
      }
      isValid := false;
      return true, calls;
    }

    /** `_run`, step by step; the properties of the steps are the lemmas about `RunSteps`. */
    method Run(r: RunAnswers) returns (steps: seq<Step>)
      ensures steps == RunSteps(args, r)
    {
      steps := [];
      if !args.directRouse {
        steps := steps + [TryAttachStep];
        if r.attached {
          return;
        }
      }
      steps := steps + [GetSession];
      if r.session.None? {
        var conflict: seq<Step> := [];
        if CorePlugin.Truthy(args.conflictCb) {
          conflict := [MakeTemp, ConflictCallback(r.tempSession)];
          if r.conflictRaised {
            conflict := conflict + [Log];
          }
        }
        assert conflict == ConflictSteps(args, r);
        steps := steps + conflict;
        return;
      }
      var s := r.session.value;
      var handled: seq<Step> := [];
      if r.exec == CorePlugin.Raised {
        handled := [Log];
      } else if r.exec == CorePlugin.TimedOut && CorePlugin.Truthy(args.overtimeCb) {
        handled := [Overtime(s)];
        if r.overtimeRaised {
          handled := handled + [Log];
        }
      }
      assert handled == Handled(args, r);
      steps := steps + [Execute(s)] + handled + [Recycle(s, args.hold)];
    }
  }

  /** A member `inspect.getmembers` reports: a handler constructor, a hook constructor, or anything else. */
  datatype HandlerCons = HandlerCons(executorIsCoroutine: bool, params: MsgArgs)
  datatype RunnerCons = RunnerCons(hookIsCoroutine: bool)
  datatype Member = HandlerMember(h: HandlerCons) | RunnerMember(r: RunnerCons) | OtherMember

  function HandlersOf(members: seq<Member>): (hs: seq<HandlerCons>)
    ensures |hs| <= |members|
  {
    if members == [] then []
    else (if members[0].HandlerMember? then [members[0].h] else []) + HandlersOf(members[1..])
  }

  function RunnersOf(members: seq<Member>): (rs: seq<RunnerCons>)
    ensures |rs| <= |members|
  {
    if members == [] then []
    else (if members[0].RunnerMember? then [members[0].r] else []) + RunnersOf(members[1..])
  }

  /** `_init` collects exactly the handler and hook constructors among the members. */
  lemma {:induction false} MembersCollected(members: seq<Member>)
    ensures forall h :: h in HandlersOf(members) <==> HandlerMember(h) in members
    ensures forall r :: r in RunnersOf(members) <==> RunnerMember(r) in members
  {
    if members != [] {
      MembersCollected(members[1..]);
      assert members == [members[0]] + members[1..];
    }
  }

  lemma {:induction false} HandlersOfSnoc(members: seq<Member>, m: Member)
    ensures HandlersOf(members + [m]) == HandlersOf(members) + (if m.HandlerMember? then [m.h] else [])
    decreases |members|
  {
    if members != [] {
      assert (members + [m])[1..] == members[1..] + [m];
      HandlersOfSnoc(members[1..], m);
    }
  }

  lemma {:induction false} RunnersOfSnoc(members: seq<Member>, m: Member)
    ensures RunnersOf(members + [m]) == RunnersOf(members) + (if m.RunnerMember? then [m.r] else [])
    decreases |members|
  {
    if members != [] {
      assert (members + [m])[1..] == members[1..] + [m];
      RunnersOfSnoc(members[1..], m);
    }
  }

  /** What `_attr_check` accepts of one handler constructor: async executor, and callbacks None or async. */
  predicate HandlerConsOk(h: HandlerCons) {
    h.executorIsCoroutine && h.params.overtimeCb != CorePlugin.NotCoroutine && h.params.conflictCb != CorePlugin.NotCoroutine
  }

  predicate AttrsOk(id: Option<string>, executors: seq<HandlerCons>, hooks: seq<RunnerCons>) {
    id.Some?
    && (forall i :: 0 <= i < |executors| ==> HandlerConsOk(executors[i]))
    && (forall i :: 0 <= i < |hooks| ==> hooks[i].hookIsCoroutine)
  }

  /** The index of the first constructor whose handler cannot be built, or the length when all can. */
  function FirstBad(hs: seq<HandlerCons>): (k: nat)
    ensures k <= |hs|
    ensures forall j :: 0 <= j < k ==> CheckArgs(hs[j].params).Ok?
    ensures k < |hs| ==> CheckArgs(hs[k].params).Err?
  {
    if hs == [] then 0
    else if CheckArgs(hs[0].params).Err? then 0
    else 1 + FirstBad(hs[1..])
  }

  lemma {:induction false} FirstBadAt(hs: seq<HandlerCons>, i: nat)
    requires i < |hs| && CheckArgs(hs[i].params).Err?
    requires forall j :: 0 <= j < i ==> CheckArgs(hs[j].params).Ok?
    ensures FirstBad(hs) == i
    decreases i
  {
    if i > 0 {
      FirstBadAt(hs[1..], i - 1);
    }
  }

  /** A hook runner, built from its constructor (its class is outside this model). */
  class HookRunner {
    const cons: RunnerCons
    constructor (cons: RunnerCons)
      ensures this.cons == cons
    {
      this.cons := cons;
    }
  }

  /** One hook runner per hook constructor, in order. */
  method MakeRunners(hooks: seq<RunnerCons>) returns (rs: seq<HookRunner>)
    ensures |rs| == |hooks| && forall i :: 0 <= i < |hooks| ==> rs[i].cons == hooks[i]
  {
    rs := [];
    for i := 0 to |hooks|
      invariant |rs| == i && forall j :: 0 <= j < i ==> rs[j].cons == hooks[j]
    {
      var x := new HookRunner(hooks[i]);
      rs := rs + [x];
    }
  }

  /** The empty session tables `register` adds for the handlers with ids `lo` to `lo + n - 1`. */
  function NewSpaces(lo: nat, n: nat): (r: map<ModelsSession.Handler, set<ModelsSession.BotSession>>)
    ensures forall h :: h in r <==> lo <= h < lo + n
    ensures forall h :: h in r ==> r[h] == {}
  {
    if n == 0 then map[] else NewSpaces(lo, n - 1)[lo + n - 1 := {}]
  }

  /**
   * The session manager once the handlers with ids `lo` to `lo + n - 1`
   * have been registered on tables that held `storage`, `hupStorage` and
   * `locks`, none of them with an id from `lo` on.
   */
  ghost predicate RegisteredFrom(sessions: ModelsSession.BotSessionManager,
                                 storage: map<ModelsSession.Handler, set<ModelsSession.BotSession>>,
                                 hupStorage: map<ModelsSession.Handler, set<ModelsSession.BotSession>>,
                                 locks: set<ModelsSession.Handler>, lo: nat, n: nat)
    reads sessions
  {
    sessions.Valid()
    && (forall h :: h in storage ==> h < lo)
    && sessions.storage == storage + NewSpaces(lo, n)
    && sessions.hupStorage == hupStorage + NewSpaces(lo, n)
    && sessions.locks == locks + NewSpaces(lo, n).Keys
  }

  /** `BotSessionManager.register(handler)` for the next new handler, whose id is `lo + n`: it succeeds. */
  method RegisterNew(sessions: ModelsSession.BotSessionManager,
                     ghost storage: map<ModelsSession.Handler, set<ModelsSession.BotSession>>,
                     ghost hupStorage: map<ModelsSession.Handler, set<ModelsSession.BotSession>>,
                     ghost locks: set<ModelsSession.Handler>, lo: nat, n: nat)
    requires RegisteredFrom(sessions, storage, hupStorage, locks, lo, n)
    modifies sessions
    ensures RegisteredFrom(sessions, storage, hupStorage, locks, lo, n + 1)
  {
    NewSpacesNext(storage, lo, n);
    NewSpacesNext(hupStorage, lo, n);
    var reg := sessions.Register(lo + n);
    assert reg.Ok?;
  }

  /** Before any handler is registered. */
  lemma RegisteredNone(sessions: ModelsSession.BotSessionManager, lo: nat)
    requires sessions.Valid() && forall h :: h in sessions.storage ==> h < lo
    ensures RegisteredFrom(sessions, sessions.storage, sessions.hupStorage, sessions.locks, lo, 0)
  {
    assert sessions.storage + NewSpaces(lo, 0) == sessions.storage;
    assert sessions.hupStorage + NewSpaces(lo, 0) == sessions.hupStorage;
  }

  lemma NewSpacesNext(m: map<ModelsSession.Handler, set<ModelsSession.BotSession>>, lo: nat, i: nat)
    ensures (m + NewSpaces(lo, i))[lo + i := {}] == m + NewSpaces(lo, i + 1)
    ensures (m.Keys + NewSpaces(lo, i).Keys) + {lo + i} == m.Keys + NewSpaces(lo, i + 1).Keys
  {
  }

  class Plugin {
    var id: Option<string>
    var executors: seq<HandlerCons>
    var hooks: seq<RunnerCons>
    var handlers: seq<MsgEventHandler>
    var runners: seq<HookRunner>

    constructor ()
      ensures id == None && executors == [] && hooks == []
    {
      id := None;
      executors := [];
      hooks := [];
      handlers := [];
      runners := [];
    }

    /** `_init`: appends every handler constructor and hook constructor, in the order `getmembers` lists them. */
    method Init(members: seq<Member>)
      modifies this`executors, this`hooks
      ensures executors == old(executors) + HandlersOf(members)
      ensures hooks == old(hooks) + RunnersOf(members)
    {
      for i := 0 to |members|
        invariant executors == old(executors) + HandlersOf(members[..i])
        invariant hooks == old(hooks) + RunnersOf(members[..i])
      {
        var m := members[i];
        assert members[..i + 1] == members[..i] + [m];
        HandlersOfSnoc(members[..i], m);
        RunnersOfSnoc(members[..i], m);
        ghost var hs, rs := HandlersOf(members[..i]), RunnersOf(members[..i]);
        match m
        case HandlerMember(h) =>
          executors := executors + [h];
          assert executors == old(executors) + (hs + [h]);
        case RunnerMember(r) =>
          hooks := hooks + [r];
          assert hooks == old(hooks) + (rs + [r]);
        case OtherMember =>
      }
      assert members[..|members|] == members;
    }

    /** `_attr_check`: an id, async executors, None-or-async callbacks, and async hooks. */
    method AttrCheck() returns (r: Result<()>)
      ensures r.Ok? <==> AttrsOk(id, executors, hooks)
      ensures r.Err? ==> r.error == BotException
    {
      if id.None? {
        return Err(BotException);
      }
      for i := 0 to |executors|
        invariant forall j :: 0 <= j < i ==> HandlerConsOk(executors[j])
      {
        var h := executors[i];
        if !h.executorIsCoroutine {
          return Err(BotException);
        }
        if h.params.overtimeCb == CorePlugin.NotCoroutine {
          return Err(BotException);
        }
        if h.params.conflictCb == CorePlugin.NotCoroutine {
          return Err(BotException);
        }
      }
      for i := 0 to |hooks|
        invariant forall j :: 0 <= j < i ==> hooks[j].hookIsCoroutine
      {
        if !hooks[i].hookIsCoroutine {
          return Err(BotException);
        }
      }
      r := Ok(());
    }

    /**
     * `_build`: one handler per handler constructor, in order, each
     * registered with the session manager as soon as it is built, until a
     * constructor raises, which propagates and leaves the handlers built so
     * far in place and `runners` untouched; then one runner per hook.
     * Handlers are new objects, so their ids (`firstId` on) are not yet
     * registered.
     */
    method Build(firstId: nat, sessions: ModelsSession.BotSessionManager) returns (r: Result<()>)
      requires sessions.Valid() && forall h :: h in sessions.storage ==> h < firstId
      modifies this`handlers, this`runners, sessions
      ensures var k := FirstBad(executors);
        |handlers| == k
        && (forall i :: 0 <= i < k ==> handlers[i].args == executors[i].params && handlers[i].id == firstId + i && handlers[i].isValid)
        && (r.Ok? <==> k == |executors|)
        && (r.Err? ==> r.error == CheckArgs(executors[k].params).error && runners == old(runners))
        && (r.Ok? ==> |runners| == |hooks| && forall i :: 0 <= i < |hooks| ==> runners[i].cons == hooks[i])
      ensures RegisteredFrom(sessions, old(sessions.storage), old(sessions.hupStorage), old(sessions.locks), firstId, FirstBad(executors))
    {
      var built: seq<MsgEventHandler> := [];
      handlers := built;
      RegisteredNone(sessions, firstId);
      for i := 0 to |executors|
        invariant i <= FirstBad(executors)
        invariant handlers == built && |built| == i
        invariant forall j :: 0 <= j < i ==> built[j].args == executors[j].params && built[j].id == firstId + j && built[j].isValid
        invariant runners == old(runners)
        invariant RegisteredFrom(sessions, old(sessions.storage), old(sessions.hupStorage), old(sessions.locks), firstId, i)
      {
        var c := CheckArgs(executors[i].params);
        if c.Err? {
          FirstBadAt(executors, i);
          return Err(c.error);
        }
        var h := new MsgEventHandler(firstId + i, executors[i].params);
        built := built + [h];
        handlers := built;
        RegisterNew(sessions, old(sessions.storage), old(sessions.hupStorage), old(sessions.locks), firstId, i);
      }
      assert FirstBad(executors) == |executors|;
      var rs := MakeRunners(hooks);
      runners := rs;
      r := Ok(());
    }

    /** `build`: `_init`, then `_attr_check`, then `_build`; a failing check builds nothing. */
    method BuildAll(members: seq<Member>, firstId: nat, sessions: ModelsSession.BotSessionManager) returns (r: Result<()>)
      requires sessions.Valid() && forall h :: h in sessions.storage ==> h < firstId
      modifies this, sessions
      ensures sessions.Valid()
      ensures executors == old(executors) + HandlersOf(members) && hooks == old(hooks) + RunnersOf(members)
      ensures !AttrsOk(id, executors, hooks) ==>
        r == Err(BotException) && handlers == old(handlers) && runners == old(runners) && unchanged(sessions)
      ensures AttrsOk(id, executors, hooks) ==>
        (r.Ok? <==> FirstBad(executors) == |executors|) && |handlers| == FirstBad(executors)
        && RegisteredFrom(sessions, old(sessions.storage), old(sessions.hupStorage), old(sessions.locks), firstId, FirstBad(executors))
    {
      Init(members);
      r := AttrCheck();
      if r.Err? {
        return;
      }
      r := Build(firstId, sessions);
    }
  }
}

=== FILE: models_session.dfy ===
/**
 * Sessions and the session manager of melobot/models/session.py.
 *
 * A session belongs to the space of the handler that made it (its space
 * tag), or to none for one-shot sessions. The manager keeps, per
 * registered handler, the set of active sessions (STORAGE) and the set of
 * suspended ones (HUP_STORAGE); a session moves between the two when it is
 * suspended and roused. Events are identities (`Ev`), a session rule is a
 * function of the session's last event and the new event, the clock
 * reading of a suspension is a parameter, and the arguments that
 * `handler._pop_args` hands back are a parameter too. The wait of a
 * conflicting lookup on a busy session is an await: the lookup stops there
 * (`Outcome.Wait`) and `ResumeOnRule` carries on once the session is free.
 */
module ModelsSession {
  import opened Wrap
  import opened Logic
  import Json

  type Handler = nat
  type Ev = nat

  /** A session rule's `verify(s.event, event)`. */
  type Rule = (Option<Ev>, Ev) -> bool

  /** `next(reversed(xs))`, with the StopIteration turned into None: the last element, if any. */
  function Last<T>(xs: seq<T>): (r: Option<T>)
    ensures r.None? <==> xs == []
    ensures r.Some? ==> r.value == xs[|xs| - 1] && r.value in xs
  {
    if xs == [] then None else Some(xs[|xs| - 1])
  }

  class BotSession {
    var store: map<string, Json.Value>
    var hupTimes: seq<int>
    var events: seq<Ev>
    var argsList: seq<Option<ParseArgs>>
    var free: bool
    var awake: bool
    var expired: bool
    const spaceTag: Option<Handler>

    constructor (handler: Option<Handler>)
      ensures spaceTag == handler
      ensures store == map[] && hupTimes == [] && events == [] && argsList == []
      ensures free && awake && !expired
    {
      spaceTag := handler;
      store := map[];
      hupTimes := [];
      events := [];
      argsList := [];
      free := true;
      awake := true;
      expired := false;
    }

    /** `_append_records`: the event and the arguments the handler hands back, one record each. */
    method AppendRecords(event: Ev, popped: Option<ParseArgs>)
      modifies this`events, this`argsList
      ensures events == old(events) + [event] && argsList == old(argsList) + [popped]
    {
      events := events + [event];
      argsList := argsList + [popped];
    }

    /** The `event` property: the last recorded event, None when there is none. */
    function Event(): Option<Ev>
      reads this
    {
      Last(events)
    }

    /** `store_get`: a missing key raises KeyError. */
    method StoreGet(key: string) returns (r: Result<Json.Value>)
      ensures key in store ==> r == Ok(store[key])
      ensures key !in store ==> r == Err(KeyError)
    {
      if key in store {
        return Ok(store[key]);
      }
      return Err(KeyError);
    }

    method StoreAdd(key: string, val: Json.Value)
      modifies this`store
      ensures store == old(store)[key := val]
    {
      store := store[key := val];
    }

    /** `store_update`: the new entries win over the old ones. */
    method StoreUpdate(m: map<string, Json.Value>)
      modifies this`store
      ensures store.Keys == old(store).Keys + m.Keys
      ensures forall k :: k in m ==> store[k] == m[k]
      ensures forall k :: k in old(store) && k !in m ==> store[k] == old(store)[k]
    {
      store := store + m;
    }

    /** `store_remove`: `dict.pop` without a default raises KeyError on a missing key. */
    method StoreRemove(key: string) returns (r: Result<()>)
      modifies this`store
      ensures key in old(store) ==> r.Ok? && store == old(store) - {key}
      ensures key !in old(store) ==> r == Err(KeyError) && store == old(store)
    {
      if key !in store {
        return Err(KeyError);
      }
      store := store - {key};
      r := Ok(());
    }

    method StoreClear()
      modifies this`store
      ensures store == map[]
    {
      store := map[];
    }
  }

  /** Move `s` out of `src[h]` and into `dst[h]`. */
  function Move(src: map<Handler, set<BotSession>>, dst: map<Handler, set<BotSession>>, h: Handler, s: BotSession):
    (r: (map<Handler, set<BotSession>>, map<Handler, set<BotSession>>))
    requires h in src && h in dst
    ensures r.0.Keys == src.Keys && r.1.Keys == dst.Keys
    ensures s !in r.0[h] && s in r.1[h]
    ensures r.0[h] == src[h] - {s} && r.1[h] == dst[h] + {s}
    ensures forall k :: k in src && k != h ==> r.0[k] == src[k]
    ensures forall k :: k in dst && k != h ==> r.1[k] == dst[k]
  {
    (src[h := src[h] - {s}], dst[h := dst[h] + {s}])
  }

  /** Moving a session back where it came from restores both maps. */
  lemma {:induction false} MoveBack(src: map<Handler, set<BotSession>>, dst: map<Handler, set<BotSession>>, h: Handler, s: BotSession)
    requires h in src && h in dst && s in src[h] && s !in dst[h]
    ensures var m := Move(src, dst, h, s); Move(m.1, m.0, h, s) == (dst, src)
  {
    var m := Move(src, dst, h, s);
    var back := Move(m.1, m.0, h, s);
    assert back.0[h] == dst[h];
    assert back.1[h] == src[h];
    assert back.0 == dst;
    assert back.1 == src;
  }

  /** What `_get_on_rule` decides; `Attached` is the literal 'attached', `Rejected` is None. */
  datatype Outcome = Attached | Got(session: BotSession) | Rejected | Wait(session: BotSession)

  class BotSessionManager {
    var storage: map<Handler, set<BotSession>>
    var hupStorage: map<Handler, set<BotSession>>
    var locks: set<Handler>

    /**
     * The three tables have the same handlers; no session is both active
     * and suspended; every session in a handler's space carries that
     * handler's tag.
     */
    ghost predicate Valid()
      reads this
    {
      storage.Keys == hupStorage.Keys == locks
      && (forall h :: h in storage ==> storage[h] !! hupStorage[h])
      && (forall h, s :: h in storage && s in storage[h] ==> s.spaceTag == Some(h))
      && (forall h, s :: h in hupStorage && s in hupStorage[h] ==> s.spaceTag == Some(h))
    }

    constructor ()
      ensures storage == map[] && hupStorage == map[] && locks == {}
      ensures Valid()
    {
      storage := map[];
      hupStorage := map[];
      locks := {};
    }

    /** `register`: empty tables for a new handler; a second registration raises. */
    method Register(h: Handler) returns (r: Result<()>)
      requires Valid()
      modifies this
      ensures Valid()
      ensures old(h in storage) ==> r == Err(BotException) && unchanged(this)
      ensures old(h !in storage) ==>
        r.Ok? && storage == old(storage)[h := {}] && hupStorage == old(hupStorage)[h := {}] && locks == old(locks) + {h}
    {
      if h in storage {
        return Err(BotException);
      }
      storage := storage[h := {}];
      locks := locks + {h};
      hupStorage := hupStorage[h := {}];
      r := Ok(());
    }

    /**
     * `_hup`: one-shot and expired sessions cannot be suspended; otherwise
     * one suspension time is recorded, the awake flag cleared, and the
     * session moved from its space's active set to its suspended set
     * (`set.remove` raises KeyError when it is not active there).
     */
    method Hup(s: BotSession, now: int) returns (r: Result<()>)
      requires Valid()
      modifies this, s
      ensures Valid()
      ensures s.spaceTag.None? || old(s.expired) ==> r == Err(BotException) && unchanged(this) && unchanged(s)
      ensures s.spaceTag.Some? && !old(s.expired) ==>
        s.hupTimes == old(s.hupTimes) + [now] && !s.awake
        && s.events == old(s.events) && s.store == old(s.store) && s.free == old(s.free) && !s.expired
      ensures s.spaceTag.Some? && !old(s.expired) ==>
        var h := s.spaceTag.value;
        if h in old(storage) && s in old(storage[h]) then
          r.Ok? && (storage, hupStorage) == Move(old(storage), old(hupStorage), h, s) && locks == old(locks)
        else
          r == Err(KeyError) && storage == old(storage) && hupStorage == old(hupStorage) && locks == old(locks)
    {
      if s.spaceTag.None? || s.expired {
        return Err(BotException);
      }
      s.hupTimes := s.hupTimes + [now];
      s.awake := false;
      var h := s.spaceTag.value;
      if h !in storage || s !in storage[h] {
        return Err(KeyError);
      }
      storage := storage[h := storage[h] - {s}];
      hupStorage := hupStorage[h := hupStorage[h] + {s}];
      r := Ok(());
    }

    /** `_rouse`: the move back from suspended to active, setting the awake flag. */
    method Rouse(s: BotSession) returns (r: Result<()>)
      requires Valid()
      modifies this, s`awake
      ensures Valid()
      ensures s.spaceTag.Some? && s.spaceTag.value in old(hupStorage) && s in old(hupStorage[s.spaceTag.value]) ==>
        r.Ok? && s.awake && locks == old(locks)
        && (hupStorage, storage) == Move(old(hupStorage), old(storage), s.spaceTag.value, s)
      ensures !(s.spaceTag.Some? && s.spaceTag.value in old(hupStorage) && s in old(hupStorage[s.spaceTag.value])) ==>
        r == Err(KeyError) && unchanged(this) && s.awake == old(s.awake)
    {
      if s.spaceTag.None? || s.spaceTag.value !in hupStorage || s !in hupStorage[s.spaceTag.value] {
        return Err(KeyError);
      }
      var h := s.spaceTag.value;
      hupStorage := hupStorage[h := hupStorage[h] - {s}];
      storage := storage[h := storage[h] + {s}];
      s.awake := true;
      r := Ok(());
    }

    /**
     * `_expire`: the first call clears events, suspension times and store
     * and marks the session expired; a call on an expired session does
     * nothing, so expiring twice is expiring once.
     */
    method Expire(s: BotSession)
      modifies s`events, s`hupTimes, s`store, s`expired
      ensures s.expired
      ensures old(s.expired) ==> unchanged(s)
      ensures !old(s.expired) ==> s.events == [] && s.hupTimes == [] && s.store == map[]
    {
      if !s.expired {
        s.events := [];
        s.hupTimes := [];
        s.StoreClear();
        s.expired := true;
      }
    }

    /**
     * `recycle`: the session always becomes free; it leaves its space only
     * when it has one and is expired (KeyError when it is not in it).
     */
    method Recycle(s: BotSession) returns (r: Result<()>)
      requires Valid()
      modifies this, s`free
      ensures Valid() && s.free && locks == old(locks) && hupStorage == old(hupStorage)
      ensures s.spaceTag.None? || !s.expired ==> r.Ok? && storage == old(storage)
      ensures s.spaceTag.Some? && s.expired ==>
        var h := s.spaceTag.value;
        if h in old(storage) && s in old(storage[h]) then r.Ok? && storage == old(storage)[h := old(storage[h]) - {s}]
        else r == Err(KeyError) && storage == old(storage)
    {
      s.free := true;
      if s.spaceTag.None? || !s.expired {
        return Ok(());
      }
      var h := s.spaceTag.value;
      if h !in storage || s !in storage[h] {
        return Err(KeyError);
      }
      storage := storage[h := storage[h] - {s}];
      r := Ok(());
    }

    /**
     * `_make`: a new free, awake session of `handler`'s space holding the
     * event, if any, as its only record, and added to the handler's active
     * set when `intoSpace`. With an event but no handler, `_append_records`
     * calls `_pop_args` on None and raises AttributeError.
     */
    method Make(event: Option<Ev>, handler: Option<Handler>, popped: Option<ParseArgs>, intoSpace: bool) returns (r: Result<BotSession>)
      requires Valid()
      requires intoSpace ==> handler.Some? && handler.value in storage
      modifies this
      ensures Valid() && locks == old(locks) && hupStorage == old(hupStorage)
      ensures event.Some? && handler.None? ==> r == Err(AttributeError) && storage == old(storage)
      ensures !(event.Some? && handler.None?) ==> r.Ok? && fresh(r.value)
      ensures r.Ok? ==>
        var s := r.value;
        s.spaceTag == handler && s.free && s.awake && !s.expired && s.store == map[] && s.hupTimes == []
        && s.events == (if event.Some? then [event.value] else [])
        && s.argsList == (if event.Some? then [popped] else [])
        && storage == (if intoSpace then old(storage)[handler.value := old(storage[handler.value]) + {s}] else old(storage))
    {
      var s := new BotSession(handler);
      if event.Some? {
        if handler.None? {
          return Err(AttributeError);
        }
        s.AppendRecords(event.value, popped);
      }
      if intoSpace {
        storage := storage[handler.value := storage[handler.value] + {s}];
      }
      r := Ok(s);
    }

    /** The first loop of `_get_on_rule`: some suspended session whose last event the rule matches with `event`. */
    method FindSuspended(h: Handler, rule: Rule, event: Ev) returns (found: Option<BotSession>)
      requires h in hupStorage
      ensures found.Some? ==> found.value in hupStorage[h] && rule(found.value.Event(), event)
      ensures found.None? ==> forall s :: s in hupStorage[h] ==> !rule(s.Event(), event)
    {
      var remaining := hupStorage[h];
      found := None;
      while remaining != {}
        invariant remaining <= hupStorage[h]
        invariant forall s :: s in hupStorage[h] - remaining ==> !rule(s.Event(), event)
        decreases |remaining|
      {
        var s :| s in remaining;
        if rule(s.Event(), event) {
          return Some(s);
        }
        remaining := remaining - {s};
      }
    }

    /** The second loop: some active, unexpired session whose last event the rule matches with `event`. */
    method FindActive(h: Handler, rule: Rule, event: Ev) returns (found: Option<BotSession>)
      requires h in storage
      ensures found.Some? ==> found.value in storage[h] && rule(found.value.Event(), event) && !found.value.expired
      ensures found.None? ==> forall s :: s in storage[h] ==> !rule(s.Event(), event) || s.expired
    {
      var remaining := storage[h];
      found := None;
      while remaining != {}
        invariant remaining <= storage[h]
        invariant forall s :: s in storage[h] - remaining ==> !rule(s.Event(), event) || s.expired
        decreases |remaining|
      {
        var s :| s in remaining;
        if rule(s.Event(), event) && !s.expired {
          return Some(s);
        }
        remaining := remaining - {s};
      }
    }

    /**
     * `_get_on_rule`: a matching suspended session wins, gets the event and
     * is roused ('attached'); else a matching active, unexpired session is
     * used when free (it gets the event); a busy one gives None without
     * waiting, or the wait; with no match a new session holding the event
     * joins the space. `chosen` is the session the decision is about.
     */
    method GetOnRule(h: Handler, rule: Rule, wait: bool, event: Ev, popped: Option<ParseArgs>)
      returns (o: Outcome, chosen: BotSession)
      requires Valid() && h in storage
      modifies this, storage[h], hupStorage[h]
      ensures Valid() && locks == old(locks)
      ensures o.Attached? ==>
        chosen in old(hupStorage[h]) && rule(old(chosen.Event()), event)
        && (hupStorage, storage) == Move(old(hupStorage), old(storage), h, chosen)
        && chosen.events == old(chosen.events) + [event] && chosen.awake
      ensures (exists s :: s in old(hupStorage[h]) && rule(old(s.Event()), event)) <==> o.Attached?
      ensures !o.Attached? ==> hupStorage == old(hupStorage)
      ensures o.Got? || o.Wait? ==> chosen == o.session
      ensures o.Rejected? || o.Wait? || (o.Got? && chosen in old(storage[h])) ==>
        chosen in old(storage[h]) && rule(old(chosen.Event()), event) && !chosen.expired && storage == old(storage)
      ensures o.Got? && chosen in old(storage[h]) ==> old(chosen.free) && chosen.events == old(chosen.events) + [event]
      ensures o.Rejected? ==> !old(chosen.free) && !wait && unchanged(chosen)
      ensures o.Wait? ==> !old(chosen.free) && wait && unchanged(chosen)
      ensures o.Got? && chosen !in old(storage[h]) ==>
        fresh(chosen) && chosen.events == [event] && chosen.spaceTag == Some(h)
        && storage == old(storage)[h := old(storage[h]) + {chosen}]
        && forall s :: s in old(storage[h]) ==> !rule(old(s.Event()), event) || old(s.expired)
    {
      var sus := FindSuspended(h, rule, event);
      if sus.Some? {
        chosen := sus.value;
        AttachTo(h, chosen, event, popped);
        return Attached, chosen;
      }
      o, chosen := GetActiveOnRule(h, rule, wait, event, popped);
    }

    /** A suspended session that matched gets the event and is roused back into the active space. */
    method AttachTo(h: Handler, s: BotSession, event: Ev, popped: Option<ParseArgs>)
      requires Valid() && h in hupStorage && s in hupStorage[h]
      modifies this, s
      ensures Valid() && locks == old(locks)
      ensures (hupStorage, storage) == Move(old(hupStorage), old(storage), h, s)
      ensures s.events == old(s.events) + [event] && s.awake
    {
      s.AppendRecords(event, popped);
      var r := Rouse(s);
    }

    /** `_get_on_rule` once no suspended session matched: the active sessions are searched next. */
    method GetActiveOnRule(h: Handler, rule: Rule, wait: bool, event: Ev, popped: Option<ParseArgs>)
      returns (o: Outcome, chosen: BotSession)
      requires Valid() && h in storage
      modifies this, storage[h]
      ensures Valid() && locks == old(locks) && hupStorage == old(hupStorage) && !o.Attached?
      ensures o.Got? || o.Wait? ==> chosen == o.session
      ensures o.Rejected? || o.Wait? || (o.Got? && chosen in old(storage[h])) ==>
        chosen in old(storage[h]) && rule(old(chosen.Event()), event) && !chosen.expired && storage == old(storage)
      ensures o.Got? && chosen in old(storage[h]) ==> old(chosen.free) && chosen.events == old(chosen.events) + [event]
      ensures o.Rejected? ==> !old(chosen.free) && !wait && unchanged(chosen)
      ensures o.Wait? ==> !old(chosen.free) && wait && unchanged(chosen)
      ensures o.Got? && chosen !in old(storage[h]) ==>
        fresh(chosen) && chosen.events == [event] && chosen.spaceTag == Some(h)
        && storage == old(storage)[h := old(storage[h]) + {chosen}]
        && forall s :: s in old(storage[h]) ==> !rule(old(s.Event()), event) || old(s.expired)
    {
      var act := FindActive(h, rule, event);
      if act.None? {
        var made := Make(Some(event), Some(h), popped, true);
        return Got(made.value), made.value;
      }
      chosen := act.value;
      if chosen.free {
        chosen.AppendRecords(event, popped);
        return Got(chosen), chosen;
      }
      if !wait {
        return Rejected, chosen;
      }
      return Wait(chosen), chosen;
    }

    /**
     * The rest of `_get_on_rule` once the busy session is free again: an
     * expired one is replaced by a new session in the space, otherwise it
     * gets the event. Back in `get`, still under the handler's lock, the
     * session handed out is marked busy.
     */
    method ResumeOnRule(h: Handler, s: BotSession, event: Ev, popped: Option<ParseArgs>) returns (got: BotSession)
      requires Valid() && h in storage
      modifies this, s`events, s`argsList, s`free
      ensures Valid() && locks == old(locks) && hupStorage == old(hupStorage)
      ensures !got.free
      ensures old(s.expired) ==>
        fresh(got) && got.events == [event] && storage == old(storage)[h := old(storage[h]) + {got}] && unchanged(s)
      ensures !old(s.expired) ==> got == s && s.events == old(s.events) + [event] && storage == old(storage)
    {
      if s.expired {
        var made := Make(Some(event), Some(h), popped, true);
        made.value.free := false;
        return made.value;
      }
      s.AppendRecords(event, popped);
      s.free := false;
      return s;
    }

    /**
     * `get`: with a registered handler that has a rule (and `forbid_rule`
     * unset), the lookup by rule, under the handler's lock; otherwise a
     * one-shot session outside any space. Every session it returns is
     * marked busy. An unregistered handler raises KeyError at the lock lookup.
     */
    method Get(event: Ev, handler: Option<Handler>, rule: Option<Rule>, forbidRule: bool, wait: bool, popped: Option<ParseArgs>)
      returns (r: Result<Outcome>)
      requires Valid()
      modifies this, if handler.Some? && handler.value in storage then storage[handler.value] + hupStorage[handler.value] else {}
      ensures Valid() && locks == old(locks)
      ensures handler.Some? && handler.value !in old(locks) ==> r == Err(KeyError) && unchanged(this)
      ensures r.Ok? && r.value.Got? ==> !r.value.session.free
      ensures r.Ok? && !(handler.Some? && rule.Some? && !forbidRule) ==>
        r.value.Got? && fresh(r.value.session) && r.value.session.spaceTag == handler
        && storage == old(storage) && hupStorage == old(hupStorage)
      ensures handler.None? ==> r == Err(AttributeError) && storage == old(storage)
      ensures r.Ok? && handler.Some? && rule.Some? && !forbidRule ==>
        var h, rl := handler.value, rule.value;
        (r.value.Attached? <==> exists s :: s in old(hupStorage[h]) && rl(old(s.Event()), event))
        && (r.value.Attached? ==>
              (exists s :: s in old(hupStorage[h]) && rl(old(s.Event()), event)
                 && (hupStorage, storage) == Move(old(hupStorage), old(storage), h, s)))
        && (!r.value.Attached? ==> hupStorage == old(hupStorage))
        && (r.value.Got? && r.value.session in old(storage[h]) ==>
              rl(old(r.value.session.Event()), event) && !r.value.session.expired && old(r.value.session.free)
              && r.value.session.events == old(r.value.session.events) + [event] && storage == old(storage))
        && (r.value.Got? && r.value.session !in old(storage[h]) ==>
              fresh(r.value.session) && r.value.session.events == [event]
              && storage == old(storage)[h := old(storage[h]) + {r.value.session}]
              && forall s :: s in old(storage[h]) ==> !rl(old(s.Event()), event) || old(s.expired))
        && (r.value.Rejected? ==> !wait && storage == old(storage))
        && (r.value.Wait? ==>
              wait && r.value.session in old(storage[h]) && rl(old(r.value.session.Event()), event)
              && !r.value.session.expired && !old(r.value.session.free) && unchanged(r.value.session)
              && storage == old(storage))
    {
      if handler.Some? && handler.value !in locks {
        return Err(KeyError);
      }
      if handler.Some? && rule.Some? && !forbidRule {
        var o, chosen := GetOnRule(handler.value, rule.value, wait, event, popped);
        if o.Got? {
          o.session.free := false;
        }
        return Ok(o);
      }
      var made := Make(Some(event), handler, popped, false);
      if made.Err? {
        return Err(made.error);
      }
      made.value.free := false;
      r := Ok(Got(made.value));
    }
  }
}

=== FILE: monitor.dfy ===
/**
 * The monitor of core/Monitor.py, as far as it computes: the running
 * time split into days, hours, minutes and seconds and shown as
 * zero-padded fields, and the list of core coroutines it holds. The clock
 * is a parameter: the elapsed whole seconds.
 */
module Monitor {
  import Text

  /** Elapsed time as shown: days, hours, minutes and seconds. */
  datatype Uptime = Uptime(days: int, hours: int, mins: int, secs: int)

  /** The split `bot_running_time` makes with floor division and modulo; it adds back up to the elapsed seconds. */
  function SplitTime(worked: int): (u: Uptime)
    ensures u.days * 86400 + u.hours * 3600 + u.mins * 60 + u.secs == worked
    ensures 0 <= u.hours < 24 && 0 <= u.mins < 60 && 0 <= u.secs < 60
    ensures worked >= 0 ==> u.days >= 0
  {
    Uptime(worked / 3600 / 24, worked / 3600 % 24, worked / 60 % 60, worked % 60)
  }

  /** No other split with the same bounds adds up to the same time. */
  lemma SplitTimeUnique(worked: int, u: Uptime)
    requires u.days * 86400 + u.hours * 3600 + u.mins * 60 + u.secs == worked
    requires 0 <= u.hours < 24 && 0 <= u.mins < 60 && 0 <= u.secs < 60
    ensures u == SplitTime(worked)
  {
    var q2 := u.days * 24 + u.hours;
    var q1 := q2 * 60 + u.mins;
    DivBy60(worked, q1, u.secs);
    DivBy3600(worked, q2, u.mins * 60 + u.secs);
    DivBy60(q1, q2, u.mins);
    DivBy24(q2, u.days, u.hours);
  }

  lemma DivBy60(x: int, q: int, r: int)
    requires 0 <= r < 60 && x == q * 60 + r
    ensures x / 60 == q && x % 60 == r
  {
  }

  lemma DivBy3600(x: int, q: int, r: int)
    requires 0 <= r < 3600 && x == q * 3600 + r
    ensures x / 3600 == q
  {
  }

  lemma DivBy24(x: int, q: int, r: int)
    requires 0 <= r < 24 && x == q * 24 + r
    ensures x / 24 == q && x % 24 == r
  {
  }

  /** A leading zero does not change a digit string's value. */
  lemma {:induction false} LeadingZero(s: string)
    requires Text.IsDigits(s)
    ensures Text.IsDigits("0" + s) && Text.DigitsValue("0" + s) == Text.DigitsValue(s)
  {
    var t := "0" + s;
    if |s| > 1 {
      LeadingZero(s[..|s| - 1]);
      assert t[..|t| - 1] == "0" + s[..|s| - 1];
    } else {
      assert t[..|t| - 1] == "0";
    }
  }

  /** `format_nums` on one number: below 10 a '0' goes in front. A non-negative number gets at least two digits that read back as it. */
  function Pad(n: int): (s: string)
    ensures n >= 0 ==> |s| >= 2 && Text.IsDigits(s) && Text.DigitsValue(s) == n
    ensures 0 <= n < 100 ==> |s| == 2
  {
    if n >= 10 then
      Text.DecStrValue(n);
      assert Text.IsDigits(Text.DecStr(n / 10));
      Text.IntStr(n)
    else if n >= 0 then
      Text.DecStrValue(n);
      LeadingZero(Text.DecStr(n));
      "0" + Text.IntStr(n)
    else "0" + Text.IntStr(n)
  }

  /** `bot_running_time`: the four padded fields joined with ':'. */
  function RunningTime(worked: int): string
  {
    var u := SplitTime(worked);
    Text.JoinSep([Pad(u.days), Pad(u.hours), Pad(u.mins), Pad(u.secs)], ":")
  }

  /**
   * `s` reads back as `total` seconds: the last three fields take two
   * characters each after a ':', and the four fields, as days, hours,
   * minutes and seconds, add up to `total`.
   */
  predicate ReadsBack(s: string, total: int) {
    |s| >= 11 && s[|s| - 9] == ':' && s[|s| - 6] == ':' && s[|s| - 3] == ':'
    && Text.IsDigits(s[..|s| - 9]) && Text.IsDigits(s[|s| - 8..|s| - 6])
    && Text.IsDigits(s[|s| - 5..|s| - 3]) && Text.IsDigits(s[|s| - 2..])
    && Text.DigitsValue(s[..|s| - 9]) * 86400 + Text.DigitsValue(s[|s| - 8..|s| - 6]) * 3600
       + Text.DigitsValue(s[|s| - 5..|s| - 3]) * 60 + Text.DigitsValue(s[|s| - 2..]) == total
  }

  /** The running time of a non-negative elapsed time reads back as that many seconds. */
  lemma RunningTimeReadBack(worked: int)
    requires worked >= 0
    ensures ReadsBack(RunningTime(worked), worked)
  {
    var u := SplitTime(worked);
    FieldsReadBack(u.days, u.hours, u.mins, u.secs);
  }

  /** The read-back of four padded fields, for any field values within their bounds. */
  lemma FieldsReadBack(days: int, hours: int, mins: int, secs: int)
    requires days >= 0 && 0 <= hours < 24 && 0 <= mins < 60 && 0 <= secs < 60
    ensures ReadsBack(Text.JoinSep([Pad(days), Pad(hours), Pad(mins), Pad(secs)], ":"),
                      days * 86400 + hours * 3600 + mins * 60 + secs)
  {
    var d, h, m, c := Pad(days), Pad(hours), Pad(mins), Pad(secs);
    JoinFour(d, h, m, c);
    DigitFieldsReadBack(d, h, m, c);
  }

  /** Four digit strings joined with ':', the last three two wide, read back field by field. */
  lemma DigitFieldsReadBack(d: string, h: string, m: string, c: string)
    requires |d| >= 2 && |h| == 2 && |m| == 2 && |c| == 2
    requires Text.IsDigits(d) && Text.IsDigits(h) && Text.IsDigits(m) && Text.IsDigits(c)
    ensures ReadsBack(d + ":" + (h + ":" + (m + ":" + c)),
                      Text.DigitsValue(d) * 86400 + Text.DigitsValue(h) * 3600 + Text.DigitsValue(m) * 60 + Text.DigitsValue(c))
  {
    FieldsAt(d, h, m, c);
  }

  lemma JoinFour(d: string, h: string, m: string, c: string)
    ensures Text.JoinSep([d, h, m, c], ":") == d + ":" + (h + ":" + (m + ":" + c))
  {
    assert [d, h, m, c][1..] == [h, m, c] && [h, m, c][1..] == [m, c] && [m, c][1..] == [c];
    assert Text.JoinSep([m, c], ":") == m + ":" + c;
    assert Text.JoinSep([h, m, c], ":") == h + ":" + (m + ":" + c);
  }

  /** Where the fields of `d:h:m:c` sit when the last three are two characters wide. */
  lemma FieldsAt(d: string, h: string, m: string, c: string)
    requires |h| == 2 && |m| == 2 && |c| == 2
    ensures var s := d + ":" + (h + ":" + (m + ":" + c));
      |s| == |d| + 9 && s[|s| - 9] == ':' && s[|s| - 6] == ':' && s[|s| - 3] == ':'
      && s[..|s| - 9] == d && s[|s| - 8..|s| - 6] == h && s[|s| - 5..|s| - 3] == m && s[|s| - 2..] == c
  {
    var s := d + ":" + (h + ":" + (m + ":" + c));
    var n := |d|;
    assert s[..n] == d;
    assert s[n + 1..n + 3] == h;
    assert s[n + 4..n + 6] == m;
    assert s[n + 7..] == c;
  }

  class BotMonitor {
    /** The core coroutines handed over by the linker and handler. */
    var corolist: seq<nat>

    constructor()
      ensures corolist == []
    {
      corolist := [];
    }

    /** `hold_coros`: the coroutines are appended in argument order. */
    method HoldCoros(coros: seq<nat>)
      modifies this
      ensures corolist == old(corolist) + coros
    {
      var i := 0;
      while i < |coros|
        invariant i <= |coros|
        invariant corolist == old(corolist) + coros[..i]
      {
        corolist := corolist + [coros[i]];
        i := i + 1;
      }
      assert coros[..i] == coros;
    }
  }
}

=== FILE: onebot.dfy ===
/**
 * The OneBot 11 action frame that every generation of the framework sends
 * over the websocket: `{"action": <name>, "params": <object>}` plus an
 * `"echo"` member when the caller waits for the response (OneBot 11,
 * communication/ws.md).
 */
module OneBot {
  import opened Wrap
  import opened Json

  /** The frame for an action, with `echo` given only when it is to be present. */
  function ActionFrame(action: string, params: Value, echo: Option<string>): (f: Value)
    ensures f.Dict?
    ensures "action" in f.fields && f.fields["action"] == Str(action)
    ensures "params" in f.fields && f.fields["params"] == params
    ensures "echo" in f.fields <==> echo.Some?
    ensures echo.Some? ==> f.fields["echo"] == Str(echo.value)
    ensures forall k :: k in f.fields ==> k == "action" || k == "params" || k == "echo"
  {
    var base := map["action" := Str(action), "params" := params];
    if echo.Some? then Dict(base["echo" := Str(echo.value)]) else Dict(base)
  }

  /** `if resp_id: obj["echo"] = resp_id`: the echo a response id yields, absent for None and for "". */
  function EchoOf(respId: Option<string>): (e: Option<string>)
    ensures e.Some? <==> respId.Some? && respId.value != ""
    ensures e.Some? ==> e == respId
  {
    if respId.Some? && respId.value != "" then respId else None
  }
}

=== FILE: plugin_init.dfy ===
/**
 * The plugin class of src/melobot/plugin/init.py: the registration
 * decorators, which record what a plugin offers in five lists, and
 * `_self_build`, which publishes those records in a proxy and refuses a
 * plugin that binds a callback to a shared object it does not own.
 *
 * A decorator factory (`on_message(...)`, `on_share(...)`, ...) is a pure
 * function of its arguments: it yields the decorator, which carries what
 * the closure `make_args` captured. Applying the decorator to a function is
 * the method that appends to the plugin's list. Executors, reflectors,
 * callbacks, parsers and user checkers or matchers are identities (`Fn`).
 */
module PluginInit {
  import opened Wrap
  import Logic

  type Fn = nat

  /** The handler class a registration record names. */
  datatype HandlerType = AllEventHandler | MsgEventHandler | ReqEventHandler | NoticeEventHandler | MetaEventHandler

  /** A matcher target: one string or a list of strings. */
  datatype Target = OneTarget(s: string) | ManyTargets(ss: seq<string>)

  /** The matchers a decorator may hold: one given by the user, or one the decorator builds. */
  datatype Matcher =
    | UserMatcher(f: Fn)
    | StartMatcher(target: Target, mode: Logic.LogicMode)
    | ContainMatcher(target: Target, mode: Logic.LogicMode)
    | FullMatcher(target: Target, mode: Logic.LogicMode)
    | EndMatcher(target: Target, mode: Logic.LogicMode)
    | RegexMatcher(pattern: string)

  /** The checkers a decorator may hold; `And(l, r)` is `l & r`. */
  datatype Checker =
    | UserChecker(f: Fn)
    | AtChecker(qid: Option<int>)
    | FriendReqChecker
    | GroupReqChecker
    | NoticeTypeChecker(noticeType: string)
    | And(l: Checker, r: Checker)

  /** Whether a checker passes, given the verdict of each checker that is not a conjunction. */
  predicate Holds(c: Checker, leaf: Checker -> bool) {
    match c
    case And(l, r) => Holds(l, leaf) && Holds(r, leaf)
    case _ => leaf(c)
  }

  /** The options every handler decorator takes, in the order of its parameter list. */
  datatype Opts = Opts(
    priority: int,
    block: bool,
    temp: bool,
    sessionRule: Option<Fn>,
    sessionHold: bool,
    directRouse: bool,
    conflictWait: bool,
    conflictCb: Option<Fn>)

  /** The parameter list of a record: message handlers lead with matcher and parser. */
  datatype Params =
    | MsgParams(matcher: Option<Matcher>, parser: Option<Fn>, checker: Option<Checker>, opts: Opts)
    | EventParams(checker: Option<Checker>, opts: Opts)

  /** What an event handler decorator captured. */
  datatype HandlerDecorator = HandlerDecorator(handlerType: HandlerType, params: Params)

  /** `EventHandlerArgs`: an executor, the handler class and its parameter list. */
  datatype EventHandlerArgs = EventHandlerArgs(executor: Fn, handlerType: HandlerType, params: Params)

  /** A reflector as stored: the decorated coroutine function, or a plain function made async. */
  datatype Reflector = CoroutineFn(f: Fn) | ToAsync(f: Fn)

  datatype ShareObjArgs = ShareObjArgs(namespace: string, id: string, reflector: Reflector)
  datatype ShareObjCbArgs = ShareObjCbArgs(namespace: string, id: string, cb: Fn)
  datatype SignalHandlerArgs = SignalHandlerArgs(func: Fn, namespace: string, signal: string)

  datatype BotLife = LOADED | CONNECTED | BEFORE_CLOSE | BEFORE_STOP | EVENT_BUILT | ACTION_PRESEND
  datatype HookRunnerArgs = HookRunnerArgs(func: Fn, lifeType: BotLife)

  /** The checker of the decorators that add a built-in one: the built-in alone, or it and the user's. */
  function WithBuiltin(builtin: Checker, checker: Option<Checker>): (c: Checker)
    requires !builtin.And? && !builtin.UserChecker?
    ensures forall leaf :: Holds(c, leaf) <==> leaf(builtin) && (checker.None? || Holds(checker.value, leaf))
  {
    if checker.Some? then And(builtin, checker.value) else builtin
  }

  /** `on_event`: any event, with the user's checker. */
  function OnEvent(checker: Option<Checker>, opts: Opts): (d: HandlerDecorator)
    ensures d.handlerType == AllEventHandler && d.params == EventParams(checker, opts)
  {
    HandlerDecorator(AllEventHandler, EventParams(checker, opts))
  }

  /** `on_message`: the user's matcher, parser and checker. */
  function OnMessage(matcher: Option<Fn>, parser: Option<Fn>, checker: Option<Checker>, opts: Opts): (d: HandlerDecorator)
    ensures d.handlerType == MsgEventHandler && d.params.MsgParams?
    ensures d.params.matcher.Some? <==> matcher.Some?
    ensures matcher.Some? ==> d.params.matcher == Some(UserMatcher(matcher.value))
    ensures d.params.parser == parser && d.params.checker == checker && d.params.opts == opts
  {
    var m := if matcher.Some? then Some(UserMatcher(matcher.value)) else None;
    HandlerDecorator(MsgEventHandler, MsgParams(m, parser, checker, opts))
  }

  /** `on_every_message`: a message handler with neither matcher nor parser. */
  function OnEveryMessage(checker: Option<Checker>, opts: Opts): (d: HandlerDecorator)
    ensures d.handlerType == MsgEventHandler && d.params.MsgParams?
    ensures d.params.matcher.None? && d.params.parser.None?
    ensures d.params.checker == checker && d.params.opts == opts
  {
    HandlerDecorator(MsgEventHandler, MsgParams(None, None, checker, opts))
  }

  /** `on_at_qq`: the at-checker for `qid`, conjoined with the user's checker when there is one. */
  function OnAtQq(qid: Option<int>, matcher: Option<Fn>, parser: Option<Fn>, checker: Option<Checker>, opts: Opts): (d: HandlerDecorator)
    ensures d.handlerType == MsgEventHandler && d.params.MsgParams? && d.params.checker.Some?
    ensures forall leaf :: Holds(d.params.checker.value, leaf) <==> leaf(AtChecker(qid)) && (checker.None? || Holds(checker.value, leaf))
    ensures d.params.parser == parser && d.params.opts == opts
    ensures d.params.matcher.Some? <==> matcher.Some?
  {
    var m := if matcher.Some? then Some(UserMatcher(matcher.value)) else None;
    HandlerDecorator(MsgEventHandler, MsgParams(m, parser, Some(WithBuiltin(AtChecker(qid), checker)), opts))
  }

  /** The decorators that build their own matcher from a target: that matcher, and no parser. */
  function OnTargetMatch(m: Matcher, checker: Option<Checker>, opts: Opts): (d: HandlerDecorator)
    ensures d.handlerType == MsgEventHandler && d.params.MsgParams?
    ensures d.params.matcher == Some(m) && d.params.parser.None?
    ensures d.params.checker == checker && d.params.opts == opts
  {
    HandlerDecorator(MsgEventHandler, MsgParams(Some(m), None, checker, opts))
  }

  /** `on_start_match`. */
  function OnStartMatch(target: Target, mode: Logic.LogicMode, checker: Option<Checker>, opts: Opts): (d: HandlerDecorator)
    ensures d.params.MsgParams? && d.params.matcher == Some(StartMatcher(target, mode)) && d.params.parser.None?
  {
    OnTargetMatch(StartMatcher(target, mode), checker, opts)
  }

  /** `on_contain_match`. */
  function OnContainMatch(target: Target, mode: Logic.LogicMode, checker: Option<Checker>, opts: Opts): (d: HandlerDecorator)
    ensures d.params.MsgParams? && d.params.matcher == Some(ContainMatcher(target, mode)) && d.params.parser.None?
  {
    OnTargetMatch(ContainMatcher(target, mode), checker, opts)
  }

  /** `on_full_match`. */
  function OnFullMatch(target: Target, mode: Logic.LogicMode, checker: Option<Checker>, opts: Opts): (d: HandlerDecorator)
    ensures d.params.MsgParams? && d.params.matcher == Some(FullMatcher(target, mode)) && d.params.parser.None?
  {
    OnTargetMatch(FullMatcher(target, mode), checker, opts)
  }

  /** `on_end_match`. */
  function OnEndMatch(target: Target, mode: Logic.LogicMode, checker: Option<Checker>, opts: Opts): (d: HandlerDecorator)
    ensures d.params.MsgParams? && d.params.matcher == Some(EndMatcher(target, mode)) && d.params.parser.None?
  {
    OnTargetMatch(EndMatcher(target, mode), checker, opts)
  }

  /** `on_regex_match`. */
  function OnRegexMatch(pattern: string, checker: Option<Checker>, opts: Opts): (d: HandlerDecorator)
    ensures d.params.MsgParams? && d.params.matcher == Some(RegexMatcher(pattern)) && d.params.parser.None?
  {
    OnTargetMatch(RegexMatcher(pattern), checker, opts)
  }

  /** `on_request` and `on_meta_event`: the user's checker, for request or meta events. */
  function OnPlain(t: HandlerType, checker: Option<Checker>, opts: Opts): (d: HandlerDecorator)
    requires t == ReqEventHandler || t == MetaEventHandler
    ensures d.handlerType == t && d.params == EventParams(checker, opts)
  {
    HandlerDecorator(t, EventParams(checker, opts))
  }

  /**
   * `on_friend_request`, `on_group_request` and `on_notice`: a built-in
   * checker, conjoined with the user's when there is one.
   */
  function OnBuiltinChecked(t: HandlerType, builtin: Checker, checker: Option<Checker>, opts: Opts): (d: HandlerDecorator)
    requires (t == ReqEventHandler && (builtin == FriendReqChecker || builtin == GroupReqChecker))
          || (t == NoticeEventHandler && builtin.NoticeTypeChecker?)
    ensures d.handlerType == t && d.params.EventParams? && d.params.checker.Some? && d.params.opts == opts
    ensures forall leaf :: Holds(d.params.checker.value, leaf) <==> leaf(builtin) && (checker.None? || Holds(checker.value, leaf))
  {
    HandlerDecorator(t, EventParams(Some(WithBuiltin(builtin, checker)), opts))
  }

  /** The proxy `_self_build` publishes. */
  datatype PluginProxy = PluginProxy(
    id: string,
    version: string,
    desc: string,
    doc: string,
    keywords: seq<string>,
    url: string,
    shares: seq<(string, string)>,
    shareCbs: seq<(string, string)>,
    signalMethods: seq<(string, string)>)

  function SharePairs(xs: seq<ShareObjArgs>): (r: seq<(string, string)>)
    ensures |r| == |xs| && forall i :: 0 <= i < |xs| ==> r[i] == (xs[i].namespace, xs[i].id)
  {
    if xs == [] then [] else [(xs[0].namespace, xs[0].id)] + SharePairs(xs[1..])
  }

  function CbPairs(xs: seq<ShareObjCbArgs>): (r: seq<(string, string)>)
    ensures |r| == |xs| && forall i :: 0 <= i < |xs| ==> r[i] == (xs[i].namespace, xs[i].id)
  {
    if xs == [] then [] else [(xs[0].namespace, xs[0].id)] + CbPairs(xs[1..])
  }

  function SignalPairs(xs: seq<SignalHandlerArgs>): (r: seq<(string, string)>)
    ensures |r| == |xs| && forall i :: 0 <= i < |xs| ==> r[i] == (xs[i].namespace, xs[i].signal)
  {
    if xs == [] then [] else [(xs[0].namespace, xs[0].signal)] + SignalPairs(xs[1..])
  }

  /** `all(False for pair in cbs if pair not in shares)`, element by element. */
  function AllOwned(cbs: seq<(string, string)>, shares: seq<(string, string)>): bool {
    if cbs == [] then true else cbs[0] in shares && AllOwned(cbs[1..], shares)
  }

  /** The check passes exactly when every callback pair names an object of the plugin's own. */
  lemma {:induction false} AllOwnedIff(cbs: seq<(string, string)>, shares: seq<(string, string)>)
    ensures AllOwned(cbs, shares) <==> forall i :: 0 <= i < |cbs| ==> cbs[i] in shares
  {
    if cbs != [] {
      AllOwnedIff(cbs[1..], shares);
      assert forall i :: 1 <= i < |cbs| ==> cbs[i] == cbs[1..][i - 1];
    }
  }

  class BotPlugin {
    const id: string
    const version: string
    const desc: string
    const keywords: seq<string>
    const url: string
    const pdoc: string
    var handlerArgs: seq<EventHandlerArgs>
    var signalArgs: seq<SignalHandlerArgs>
    var shareArgs: seq<ShareObjArgs>
    var shareCbArgs: seq<ShareObjCbArgs>
    var hookArgs: seq<HookRunnerArgs>
    var proxy: Option<PluginProxy>

    /** `__init__`: no keywords means an empty list, every registration list starts empty, and there is no proxy yet. */
    constructor (id: string, version: string, desc: string, doc: string, keywords: Option<seq<string>>, url: string)
      ensures this.id == id && this.version == version && this.desc == desc && pdoc == doc && this.url == url
      ensures this.keywords == (if keywords.Some? then keywords.value else [])
      ensures handlerArgs == [] && signalArgs == [] && shareArgs == [] && shareCbArgs == [] && hookArgs == []
      ensures proxy.None?
    {
      this.id := id;
      this.version := version;
      this.desc := desc;
      this.keywords := if keywords.Some? then keywords.value else [];
      this.url := url;
      pdoc := doc;
      handlerArgs := [];
      signalArgs := [];
      shareArgs := [];
      shareCbArgs := [];
      hookArgs := [];
      proxy := None;
    }

    /** Applying an event handler decorator: one record is appended and the executor comes back unchanged. */
    method DecorateHandler(d: HandlerDecorator, executor: Fn) returns (ret: Fn)
      modifies this
      ensures ret == executor
      ensures handlerArgs == old(handlerArgs) + [EventHandlerArgs(executor, d.handlerType, d.params)]
      ensures signalArgs == old(signalArgs) && shareArgs == old(shareArgs) && shareCbArgs == old(shareCbArgs)
      ensures hookArgs == old(hookArgs) && proxy == old(proxy)
    {
      handlerArgs := handlerArgs + [EventHandlerArgs(executor, d.handlerType, d.params)];
      ret := executor;
    }

    /** `on_signal(namespace, signal)` applied to a function. */
    method OnSignal(namespace: string, signal: string, func: Fn) returns (ret: Fn)
      modifies this
      ensures ret == func
      ensures signalArgs == old(signalArgs) + [SignalHandlerArgs(func, namespace, signal)]
      ensures handlerArgs == old(handlerArgs) && shareArgs == old(shareArgs) && shareCbArgs == old(shareCbArgs)
      ensures hookArgs == old(hookArgs) && proxy == old(proxy)
    {
      signalArgs := signalArgs + [SignalHandlerArgs(func, namespace, signal)];
      ret := func;
    }

    /**
     * `on_share`: with a reflector the object is recorded at once, with the
     * reflector made async, and None comes back; without one nothing is
     * recorded yet and the decorator comes back.
     */
    method OnShare(namespace: string, id: string, reflector: Option<Fn>) returns (dec: Option<(string, string)>)
      modifies this
      ensures reflector.Some? ==> dec.None? && shareArgs == old(shareArgs) + [ShareObjArgs(namespace, id, ToAsync(reflector.value))]
      ensures reflector.None? ==> dec == Some((namespace, id)) && shareArgs == old(shareArgs)
      ensures handlerArgs == old(handlerArgs) && signalArgs == old(signalArgs) && shareCbArgs == old(shareCbArgs)
      ensures hookArgs == old(hookArgs) && proxy == old(proxy)
    {
      if reflector.Some? {
        shareArgs := shareArgs + [ShareObjArgs(namespace, id, ToAsync(reflector.value))];
        return None;
      }
      dec := Some((namespace, id));
    }

    /** The decorator `on_share` returned, applied to a coroutine function. */
    method DecorateShare(dec: (string, string), func: Fn) returns (ret: Fn)
      modifies this
      ensures ret == func
      ensures shareArgs == old(shareArgs) + [ShareObjArgs(dec.0, dec.1, CoroutineFn(func))]
      ensures handlerArgs == old(handlerArgs) && signalArgs == old(signalArgs) && shareCbArgs == old(shareCbArgs)
      ensures hookArgs == old(hookArgs) && proxy == old(proxy)
    {
      shareArgs := shareArgs + [ShareObjArgs(dec.0, dec.1, CoroutineFn(func))];
      ret := func;
    }

    /** `on_share_affected(namespace, id)` applied to a function. */
    method OnShareAffected(namespace: string, id: string, func: Fn) returns (ret: Fn)
      modifies this
      ensures ret == func
      ensures shareCbArgs == old(shareCbArgs) + [ShareObjCbArgs(namespace, id, func)]
      ensures handlerArgs == old(handlerArgs) && signalArgs == old(signalArgs) && shareArgs == old(shareArgs)
      ensures hookArgs == old(hookArgs) && proxy == old(proxy)
    {
      shareCbArgs := shareCbArgs + [ShareObjCbArgs(namespace, id, func)];
      ret := func;
    }

    /** `on_bot_life(type)` applied to a function; `on_plugins_loaded` and the other shorthands fix the type. */
    method OnBotLife(lifeType: BotLife, func: Fn) returns (ret: Fn)
      modifies this
      ensures ret == func
      ensures hookArgs == old(hookArgs) + [HookRunnerArgs(func, lifeType)]
      ensures handlerArgs == old(handlerArgs) && signalArgs == old(signalArgs) && shareArgs == old(shareArgs)
      ensures shareCbArgs == old(shareCbArgs) && proxy == old(proxy)
    {
      hookArgs := hookArgs + [HookRunnerArgs(func, lifeType)];
      ret := func;
    }

    /**
     * `_self_build`: the proxy is published first, with the (namespace, id)
     * pairs of the shares and callbacks and the (namespace, signal) pairs
     * of the signal handlers; then PluginInitError is raised exactly when
     * some callback pair is not among the plugin's own shares.
     */
    method SelfBuild() returns (r: Result<()>)
      modifies this
      ensures proxy.Some?
      ensures proxy.value.id == id && proxy.value.keywords == keywords
      ensures proxy.value.shares == SharePairs(shareArgs) && proxy.value.shareCbs == CbPairs(shareCbArgs)
      ensures proxy.value.signalMethods == SignalPairs(signalArgs)
      ensures r.Err? <==> exists i :: 0 <= i < |shareCbArgs| && (shareCbArgs[i].namespace, shareCbArgs[i].id) !in SharePairs(shareArgs)
      ensures r.Err? ==> r.error == PluginInitError
      ensures handlerArgs == old(handlerArgs) && signalArgs == old(signalArgs) && shareArgs == old(shareArgs)
      ensures shareCbArgs == old(shareCbArgs) && hookArgs == old(hookArgs)
    {
      var p := PluginProxy(id, version, desc, pdoc, keywords, url,
        SharePairs(shareArgs), CbPairs(shareCbArgs), SignalPairs(signalArgs));
      proxy := Some(p);
      AllOwnedIff(p.shareCbs, p.shares);
      if !AllOwned(p.shareCbs, p.shares) {
        return Err(PluginInitError);
      }
      r := Ok(());
    }
  }
}

=== FILE: plugins_handler.dfy ===
/**
 * The event handlers of melobot/plugins/handler.py. Their checks are those
 * of the handlers in melobot/core/plugin.py, so the configuration, the
 * oracle answers and `_verify`'s specification come from CorePlugin; what
 * this generation adds is the public `handle`, which asks the session
 * manager itself, with the handler's rule for the real session and without
 * one for the temporary session of the conflict callback.
 */
module PluginsHandler {
  import opened Wrap
  import CorePlugin

  /** The side effects of `handle`, in order. `GetSession(ruled)` is one `BotSessionManager.get`. */
  datatype Step =
    | GetSession(ruled: bool)
    | ConflictCallback(session: nat)
    | Execute(session: nat)
    | Overtime(session: nat)
    | Recycle(session: nat)

  /** What the awaits of `handle` answer: the session, the temporary session, how the callbacks ended. */
  datatype HandleAnswers = HandleAnswers(
    session: Option<nat>,
    tempSession: nat,
    exec: CorePlugin.ExecOutcome,
    overtimeRaised: bool)

  /** Whether `handle` returns normally, or the exception of a callback propagates out of it. */
  predicate Propagates(c: CorePlugin.HandlerConfig, r: HandleAnswers) {
    r.session.Some?
    && (r.exec == CorePlugin.Raised
        || (r.exec == CorePlugin.TimedOut && CorePlugin.Truthy(c.overtimeCb) && r.overtimeRaised))
  }

  class EventHandler {
    const config: CorePlugin.HandlerConfig

    /** The constructors: a message handler needs exactly one of matcher and parser. */
    constructor (config: CorePlugin.HandlerConfig)
      requires CorePlugin.CheckConfig(config).Ok?
      ensures this.config == config
    {
      this.config := config;
    }

    /**
     * `verify`: a rejecting checker ends it; then the matcher decides, or
     * the parser's result is written onto the event and the answer is
     * whether there was one; request and notice handlers answer with their
     * checker, or True without one.
     */
    method Verify(a: CorePlugin.Answers) returns (ok: bool, calls: seq<CorePlugin.Call>)
      requires CorePlugin.CheckConfig(config).Ok?
      ensures CorePlugin.Verdict(ok, calls) == CorePlugin.Verify(config, a)
      ensures config.cls != CorePlugin.MsgClass ==> (ok <==> !config.hasChecker || a.check)
      ensures config.cls == CorePlugin.MsgClass && config.hasParser && (!config.hasChecker || a.check) ==>
        calls[|calls| - 1] == CorePlugin.SetArgs(a.parsed) && ok == a.parsed.Some?
    {
      calls := [];
      if config.hasChecker {
        calls := [CorePlugin.CheckCall];
        if !a.check {
          return false, calls;
        }
      }
      if config.cls != CorePlugin.MsgClass {
        return true, calls;
      }
      if config.hasMatcher {
        return a.matched, calls + [CorePlugin.MatchCall];
      }
      if config.hasParser {
        return a.parsed.Some?, calls + [CorePlugin.ParseCall, CorePlugin.SetArgs(a.parsed)];
      }
      return false, calls;
    }

    /**
     * `handle`: without a session only the conflict callback runs, in a
     * temporary session, and nothing is recycled; with one the executor
     * runs, then the overtime callback if it timed out, then `recycle`,
     * which an exception from either callback skips.
     */
    method Handle(r: HandleAnswers) returns (steps: seq<Step>)
      ensures |steps| >= 1 && steps[0] == GetSession(true)
      ensures r.session.None? ==>
        steps == [GetSession(true)] + (if CorePlugin.Truthy(config.conflictCb) then [GetSession(false), ConflictCallback(r.tempSession)] else [])
      ensures r.session.Some? ==> |steps| >= 2 && steps[1] == Execute(r.session.value) && GetSession(false) !in steps
      ensures r.session.Some? ==> (Recycle(r.session.value) in steps <==> !Propagates(config, r))
      ensures forall i :: 0 <= i < |steps| && steps[i].Recycle? ==> i == |steps| - 1 && r.session == Some(steps[i].session)
      ensures r.session.Some? ==>
        (Overtime(r.session.value) in steps <==> r.exec == CorePlugin.TimedOut && CorePlugin.Truthy(config.overtimeCb))
    {
      steps := [GetSession(true)];
      if r.session.None? {
        if CorePlugin.Truthy(config.conflictCb) {
          steps := steps + [GetSession(false), ConflictCallback(r.tempSession)];
        }
        return;
      }
      var s := r.session.value;
      steps := steps + [Execute(s)];
      if r.exec == CorePlugin.Raised {
        return;
      }
      if r.exec == CorePlugin.TimedOut && CorePlugin.Truthy(config.overtimeCb) {
        steps := steps + [Overtime(s)];
        if r.overtimeRaised {
          return;
        }
      }
      steps := steps + [Recycle(s)];
    }
  }
}

=== FILE: resource.dfy ===
/**
 * The resource node of melobot/models/resource.py: a single value with an
 * optional loader and disposer, loaded once and disposed once by the
 * first call that succeeds. What calling the loader or the disposer does
 * is taken as given (`Store.Call`, `Store.Disposal`), since what they do
 * is outside the model; either may raise.
 */
module ModelsResource {
  import opened Wrap
  import Store

  class BotResource {
    const crtTime: int
    var value: Store.Obj
    /** What calling the loader does, or None without a loader. */
    const loader: Option<Store.Call>
    /** What calling the disposer does, or None without a disposer. */
    const disposer: Option<Store.Disposal>
    var disposed: bool
    var loaded: bool

    constructor(now: int, value: Store.Obj, loader: Option<Store.Call>, disposer: Option<Store.Disposal>)
      ensures crtTime == now && this.value == value && this.loader == loader && this.disposer == disposer
      ensures !disposed && !loaded
    {
      crtTime := now;
      this.value := value;
      this.loader := loader;
      this.disposer := disposer;
      disposed := false;
      loaded := false;
    }

    /**
     * `load` as written: an async loader is awaited, but its coroutine
     * object is what is stored. A raising loader's exception propagates
     * with nothing changed.
     */
    method LoadAsWritten() returns (called: bool, r: Result<()>)
      modifies this
      ensures called <==> !old(loaded) && loader.Some?
      ensures disposed == old(disposed)
      ensures r.Err? <==> called && loader.value.Raises?
      ensures r.Err? ==> r.error == loader.value.e && loaded == old(loaded) && value == old(value)
      ensures r.Ok? ==> loaded
      ensures called && r.Ok? ==> Store.StoredAsWritten(loader.value) == Ok(value)
      ensures !called ==> value == old(value)
    {
      called := false;
      r := Ok(());
      if !loaded {
        if loader.Some? {
          called := true;
          match Store.StoredAsWritten(loader.value)
          case Err(e) =>
            r := Err(e);
          case Ok(v) =>
            value := v;
            loaded := true;
        } else {
          loaded := true;
        }
      }
    }

    /**
     * `load`, storing what the loader's call awaits to: a call on a
     * resource not yet loaded runs the loader, if any, and leaves the
     * resource loaded; without a loader the value stays as it was. A
     * raising loader's exception propagates and the resource stays as it
     * was, not loaded.
     */
    method Load() returns (called: bool, r: Result<()>)
      modifies this
      ensures called <==> !old(loaded) && loader.Some?
      ensures disposed == old(disposed)
      ensures r.Err? <==> called && loader.value.Raises?
      ensures r.Err? ==> r.error == loader.value.e && loaded == old(loaded) && value == old(value)
      ensures r.Ok? ==> loaded
      ensures called && r.Ok? ==> Store.Stored(loader.value) == Ok(value)
      ensures !called ==> value == old(value)
    {
      called := false;
      r := Ok(());
      if !loaded {
        if loader.Some? {
          called := true;
          match Store.Stored(loader.value)
          case Err(e) =>
            r := Err(e);
          case Ok(v) =>
            value := v;
            loaded := true;
        } else {
          loaded := true;
        }
      }
    }

    /**
     * `dispose`: a call on a resource not yet disposed runs the disposer,
     * if any, and with or without one drops the value and marks the
     * resource disposed; later calls do nothing. A raising disposer's
     * exception propagates and the resource stays as it was, not disposed.
     */
    method Dispose() returns (called: bool, r: Result<()>)
      modifies this
      ensures called <==> !old(disposed) && disposer.Some?
      ensures loaded == old(loaded)
      ensures r.Err? <==> called && disposer.value.DisposeRaises?
      ensures r.Err? ==> r.error == disposer.value.e && disposed == old(disposed) && value == old(value)
      ensures r.Ok? ==> disposed
      ensures r.Ok? && !old(disposed) ==> value == Store.NoneObj
      ensures old(disposed) ==> value == old(value)
    {
      called := false;
      r := Ok(());
      if !disposed {
        if disposer.Some? {
          called := true;
          match disposer.value
          case DisposeRaises(e) =>
            r := Err(e);
          case Disposes =>
            value := Store.NoneObj;
            disposed := true;
        } else {
          value := Store.NoneObj;
          disposed := true;
        }
      }
    }

    /**
     * Loading twice: after a first call that succeeds the second calls no
     * loader and changes nothing; after a first call whose loader raises,
     * the second calls the loader again and raises the same exception.
     */
    method LoadTwice() returns (first: bool, r1: Result<()>, second: bool, r2: Result<()>)
      modifies this
      ensures r1.Ok? ==> !second && r2.Ok? && loaded
      ensures r1.Ok? && first ==> loader.Some? && Store.Stored(loader.value) == Ok(value)
      ensures r1.Err? ==> first && second && r2 == r1 && !loaded
    {
      first, r1 := Load();
      ghost var v := value;
      second, r2 := Load();
      assert r1.Ok? ==> value == v;
    }

    /**
     * Disposing twice: after a first call that succeeds the second calls
     * no disposer and the value is None; after a first call whose disposer
     * raises, the second calls the disposer again and raises the same
     * exception.
     */
    method DisposeTwice() returns (first: bool, r1: Result<()>, second: bool, r2: Result<()>)
      modifies this
      ensures first <==> old(!disposed) && disposer.Some?
      ensures r1.Ok? ==> !second && r2.Ok? && disposed && (old(!disposed) ==> value == Store.NoneObj)
      ensures r1.Err? ==> first && second && r2 == r1 && !disposed
    {
      first, r1 := Dispose();
      second, r2 := Dispose();
    }
  }
}

=== FILE: responder.dfy ===
/**
 * The action responder of melobot/core/responder.py: it sends actions
 * through the bound sender and keeps a table from response id to the
 * future of the caller waiting for that response. A future is an identity
 * (`Fut`) and is either pending or resolved with the response that came
 * for it. The responder's ready signal is set by `bind`; until then every
 * operation is suspended at its first await and changes nothing.
 */
module Responder {
  import opened Wrap
  import Json

  type Fut = nat

  /** A response event: the id it echoes back, if any, and its raw frame. */
  datatype RespEvent = RespEvent(id: Option<string>, raw: Json.Value)

  /** An action as far as the responder sees it: the id its response will carry, and the frame. */
  datatype Action = Action(respId: Option<string>, frame: Json.Value)

  /** The response table: the key is the action's `resp_id`, which may be None. */
  type Table = map<Option<string>, Fut>

  /** How a call of a coroutine ended: still suspended, returned, or raised. */
  datatype Progress = Suspended | Returned | Raised(error: Exc)

  /** `resp_table[action.resp_id] = fut`: one entry under that id, replacing any earlier one. */
  function Insert(t: Table, respId: Option<string>, fut: Fut): (r: Table)
    ensures respId in r && r[respId] == fut
    ensures r.Keys == t.Keys + {respId}
    ensures forall k :: k in t && k != respId ==> r[k] == t[k]
  {
    t[respId := fut]
  }

  /**
   * The table part of `dispatch`: None when the response carries no id
   * (nothing to do), Err(BotUnexceptedObj) when its id has no entry,
   * otherwise the future to resolve and the table without that entry.
   */
  function Resolve(t: Table, id: Option<string>): (r: Option<Result<(Fut, Table)>>)
    ensures r.None? <==> id.None?
    ensures r.Some? && r.value.Err? <==> id.Some? && id !in t
    ensures r.Some? && r.value.Err? ==> r.value.error == BotUnexceptedObj
    ensures r.Some? && r.value.Ok? ==>
      id in t && r.value.value.0 == t[id] && r.value.value.1.Keys == t.Keys - {id}
      && forall k :: k in t && k != id ==> r.value.value.1[k] == t[k]
  {
    if id.None? then None
    else if id in t then Some(Ok((t[id], t - {id})))
    else Some(Err(BotUnexceptedObj))
  }

  /**
   * A response to an action that was waited on, with the same id, resolves
   * the future that `take_action_wait` handed out and takes the table back
   * to what it was, minus any earlier entry under that id.
   */
  lemma InsertThenResolve(t: Table, k: string, fut: Fut)
    ensures Resolve(Insert(t, Some(k), fut), Some(k)) == Some(Ok((fut, t - {Some(k)})))
  {
    assert Insert(t, Some(k), fut) - {Some(k)} == t - {Some(k)};
  }

  /**
   * An action waited on without a response id is filed under None, which
   * no response reaches: whatever a response resolves was already in the
   * table before that entry was added.
   */
  lemma NoIdNeverResolved(t: Table, fut: Fut, id: Option<string>)
    ensures Resolve(Insert(t, None, fut), id).Some? && Resolve(Insert(t, None, fut), id).value.Ok? ==>
      id in t && Resolve(Insert(t, None, fut), id).value.value.0 == t[id]
  {
  }

  class BotResponder {
    var respTable: Table
    /** The futures that have been resolved, with their response. */
    var resolved: map<Fut, RespEvent>
    var nextFut: Fut
    var ready: bool
    /** The actions passed to the sender, in order. */
    var sent: seq<Action>

    /** Every future in the table was handed out, is still pending, and is filed under one id only. */
    ghost predicate Valid()
      reads this
    {
      (forall f :: f in resolved ==> f < nextFut)
      && (forall k :: k in respTable ==> respTable[k] < nextFut && respTable[k] !in resolved)
      && (forall k1, k2 :: k1 in respTable && k2 in respTable && k1 != k2 ==> respTable[k1] != respTable[k2])
    }

    constructor ()
      ensures respTable == map[] && resolved == map[] && sent == [] && !ready
      ensures Valid()
    {
      respTable := map[];
      resolved := map[];
      nextFut := 0;
      ready := false;
      sent := [];
    }

    /** `bind`: the sender is bound and the ready signal set. */
    method Bind()
      modifies this
      ensures ready
      ensures respTable == old(respTable) && resolved == old(resolved) && sent == old(sent) && nextFut == old(nextFut)
    {
      ready := true;
    }

    /**
     * `dispatch`: a response without id is ignored; one whose id has an
     * entry resolves that entry's future with the response and removes
     * only that entry; one whose id has none raises BotUnexceptedObj and
     * leaves the table as it was.
     */
    method Dispatch(resp: RespEvent) returns (p: Progress)
      requires Valid()
      modifies this
      ensures Valid()
      ensures !ready ==> p == Suspended
      ensures ready && resp.id.None? ==> p == Returned
      ensures ready && resp.id.Some? && resp.id !in old(respTable) ==> p == Raised(BotUnexceptedObj)
      ensures p != Returned || resp.id.None? ==> respTable == old(respTable) && resolved == old(resolved)
      ensures ready && resp.id.Some? && resp.id in old(respTable) ==>
        p == Returned
        && respTable == old(respTable) - {resp.id}
        && resolved == old(resolved)[old(respTable)[resp.id] := resp]
      ensures sent == old(sent) && nextFut == old(nextFut) && ready == old(ready)
    {
      if !ready {
        return Suspended;
      }
      var res := Resolve(respTable, resp.id);
      if res.None? {
        return Returned;
      }
      if res.value.Err? {
        return Raised(res.value.error);
      }
      var (fut, rest) := res.value.value;
      resolved := resolved[fut := resp];
      respTable := rest;
      p := Returned;
    }

    /** `take_action`: the action is sent and nothing is recorded. */
    method TakeAction(action: Action) returns (p: Progress)
      modifies this
      ensures !ready ==> p == Suspended && sent == old(sent)
      ensures ready ==> p == Returned && sent == old(sent) + [action]
      ensures respTable == old(respTable) && resolved == old(resolved) && nextFut == old(nextFut) && ready == old(ready)
    {
      if !ready {
        return Suspended;
      }
      sent := sent + [action];
      p := Returned;
    }

    /**
     * `take_action_wait`: a new pending future is filed under the action's
     * response id, replacing any earlier entry for it, the action is sent,
     * and the future is returned.
     */
    method TakeActionWait(action: Action) returns (p: Progress, fut: Option<Fut>)
      requires Valid()
      modifies this
      ensures Valid()
      ensures !ready ==> p == Suspended && fut.None? && respTable == old(respTable) && sent == old(sent)
      ensures ready ==> p == Returned && fut == Some(old(nextFut)) && fut.value !in resolved
      ensures ready ==> respTable == Insert(old(respTable), action.respId, old(nextFut)) && sent == old(sent) + [action]
      ensures resolved == old(resolved) && ready == old(ready)
    {
      if !ready {
        return Suspended, None;
      }
      var f := nextFut;
      respTable := Insert(respTable, action.respId, f);
      nextFut := nextFut + 1;
      sent := sent + [action];
      p, fut := Returned, Some(f);
    }
  }
}

=== FILE: src_event.dfy ===
/**
 * The events of src/melobot/models/event.py: the builder that classifies a
 * raw OneBot event by its `post_type`, and the message, request, notice,
 * meta and response events it builds.
 *
 * Raw events are JSON values and every `raw["key"]` is `Json.Index`, so a
 * missing key is the KeyError the source raises. What `json.loads` makes of
 * a text and what the CQ-code helpers of the sibling module `cq`
 * (`to_cq_arr`, `to_cq_str`) return are parameters.
 */
module SrcEvent {
  import opened Wrap
  import opened Json
  import Text

  /** What `build` is given: a JSON text, with what `json.loads` makes of it, or a dict. */
  datatype RawInput = JsonText(text: string, parsed: Result<Value>) | DictInput(d: Value)

  datatype Kind = MessageKind | RequestKind | NoticeKind | MetaKind | ResponseKind

  /** The event class `build` picks for a raw event, by `raw.get("post_type")`. */
  function Classify(raw: Value): (k: Kind)
    ensures k == MessageKind <==> Get(raw, "post_type") == Str("message_sent") || Get(raw, "post_type") == Str("message")
    ensures k == RequestKind <==> Get(raw, "post_type") == Str("request")
    ensures k == NoticeKind <==> Get(raw, "post_type") == Str("notice")
    ensures k == MetaKind <==> Get(raw, "post_type") == Str("meta_event")
    ensures !Has(raw, "post_type") ==> k == ResponseKind
  {
    var etype := Get(raw, "post_type");
    if etype == Str("message_sent") || etype == Str("message") then MessageKind
    else if etype == Str("request") then RequestKind
    else if etype == Str("notice") then NoticeKind
    else if etype == Str("meta_event") then MetaKind
    else ResponseKind
  }

  /**
   * The raw dict `build` works on, as written: `raw` is assigned only in
   * the branch for a text, so for a dict the first read of `raw` raises
   * UnboundLocalError.
   */
  function RawOfAsWritten(input: RawInput): (r: Result<Value>)
    ensures input.DictInput? ==> r == Err(UnboundLocalError)
    ensures input.JsonText? ==> r == input.parsed
  {
    match input
    case JsonText(_, parsed) => parsed
    case DictInput(_) => Err(UnboundLocalError)
  }

  /** The raw dict `build` is meant to work on: the parsed text, or the dict itself. */
  function RawOf(input: RawInput): (r: Result<Value>)
    ensures input.DictInput? ==> r == Ok(input.d)
    ensures input.JsonText? ==> r == input.parsed
  {
    match input
    case JsonText(_, parsed) => parsed
    case DictInput(d) => Ok(d)
  }

  /** The class `build` picks; `.get` on a parsed value that is not a dict raises AttributeError. */
  function BuildKind(input: RawInput): (r: Result<Kind>)
    ensures r.Ok? <==> RawOf(input).Ok? && RawOf(input).value.Dict?
    ensures r.Ok? ==> r.value == Classify(RawOf(input).value)
  {
    var raw :- RawOf(input);
    if !raw.Dict? then Err(AttributeError) else Ok(Classify(raw))
  }

  /**
   * The two agree on texts, but no dict ever gets past the as-written
   * builder, while the intended one classifies it: a dict whose post_type
   * is "message" yields a message event.
   */
  lemma DictInputNeverBuilds(text: string, parsed: Result<Value>, d: map<string, Value>)
    ensures RawOfAsWritten(JsonText(text, parsed)) == RawOf(JsonText(text, parsed))
    ensures RawOfAsWritten(DictInput(Dict(d))).Err?
    ensures BuildKind(DictInput(Dict(d["post_type" := Str("message")]))) == Ok(MessageKind)
  {
  }

  // ---------------------------------------------------------------- message content

  /** The int coercion of `_format_to_array`: a string of digits, or '-' and digits, becomes an int. */
  function Coerce(v: Value): (r: Value)
    ensures !v.Str? ==> r == v
    ensures v.Str? && !Text.IsIntLiteral(v.s) ==> r == v
    ensures v.Str? && Text.IsIntLiteral(v.s) ==> r == Int(Text.ParseInt(v.s))
  {
    if v.Str? && Text.IsIntLiteral(v.s) then Int(Text.ParseInt(v.s)) else v
  }

  /** A number written out by `str` comes back as that number; coercing twice is coercing once. */
  lemma CoerceRoundTrip(i: int, v: Value)
    ensures Coerce(Str(Text.IntStr(i))) == Int(i)
    ensures Coerce(Coerce(v)) == Coerce(v)
  {
    Text.IntStrRoundTrip(i);
  }

  /** One segment after `_format_to_array`: text segments untouched, every value of the others coerced. */
  function FormatItem(item: Value): (r: Result<Value>)
    ensures r.Ok? ==> r.value.Dict? && Index(r.value, "type") == Index(item, "type")
    ensures r.Ok? && Index(item, "type") == Ok(Str("text")) ==> r.value == item
    ensures r.Ok? && Index(item, "type") != Ok(Str("text")) ==>
      Index(item, "data").Ok? && item.fields["data"].Dict? && "data" in r.value.fields
      && r.value.fields == item.fields["data" := r.value.fields["data"]]
      && r.value.fields["data"].Dict? && r.value.fields["data"].fields.Keys == item.fields["data"].fields.Keys
      && forall k :: k in item.fields["data"].fields ==> r.value.fields["data"].fields[k] == Coerce(item.fields["data"].fields[k])
  {
    var t :- Index(item, "type");
    if t == Str("text") then Ok(item)
    else
      var data :- Index(item, "data");
      if !data.Dict? then Err(AttributeError)
      else Ok(Dict(item.fields["data" := Dict(map k | k in data.fields :: Coerce(data.fields[k]))]))
  }

  /** `_format_to_array` on a list: every segment formatted, the first failure raised. */
  function FormatAll(items: seq<Value>): (r: Result<seq<Value>>)
    ensures r.Ok? ==> |r.value| == |items|
  {
    if items == [] then Ok([])
    else
      var x :- FormatItem(items[0]);
      var rest :- FormatAll(items[1..]);
      Ok([x] + rest)
  }

  /** Formatting a formatted segment changes nothing. */
  lemma FormatItemIdempotent(item: Value)
    requires FormatItem(item).Ok?
    ensures FormatItem(FormatItem(item).value) == FormatItem(item)
  {
    var f := FormatItem(item).value;
    if Index(item, "type") != Ok(Str("text")) {
      var d := f.fields["data"].fields;
      forall k | k in d
        ensures Coerce(d[k]) == d[k]
      {
        CoerceRoundTrip(0, item.fields["data"].fields[k]);
      }
      assert (map k | k in d :: Coerce(d[k])) == d;
      assert f.fields["data" := Dict(d)] == f.fields;
    }
  }

  /** `Ok(acc + r)`, or the exception of `r`. */
  function Prepend<T>(acc: seq<T>, r: Result<seq<T>>): Result<seq<T>> {
    if r.Err? then Err(r.error) else Ok(acc + r.value)
  }

  lemma PrependAssoc<T>(a: seq<T>, b: seq<T>, r: Result<seq<T>>)
    ensures Prepend(a, Prepend(b, r)) == Prepend(a + b, r)
    ensures Prepend([], r) == r
  {
    if r.Ok? {
      assert a + (b + r.value) == (a + b) + r.value;
      assert [] + r.value == r.value;
    }
  }

  /** What `_format_to_array` gives for each kind of content. */
  function ContentOf(content: Value, cqArr: seq<Value>): Result<seq<Value>> {
    if content.Str? then Ok(cqArr)
    else if content.List? then FormatAll(content.items)
    else if content == Dict(map[]) then Ok([])
    else Err(TypeError)
  }

  /**
   * `_format_to_array`: a string goes through `to_cq_arr` (its result is
   * `cqArr`); a list has its segments formatted in place, one by one;
   * iterating anything else fails on the first item, so only an empty
   * dict gets through, with nothing in it.
   */
  method FormatToArray(content: Value, cqArr: seq<Value>) returns (r: Result<seq<Value>>)
    ensures r == ContentOf(content, cqArr)
  {
    if content.Str? {
      return Ok(cqArr);
    }
    if !content.List? {
      return if content == Dict(map[]) then Ok([]) else Err(TypeError);
    }
    var items := content.items;
    var done: seq<Value> := [];
    var i := 0;
    assert items[0..] == items;
    PrependAssoc([], [], FormatAll(items));
    while i < |items|
      invariant 0 <= i <= |items| && |done| == i
      invariant FormatAll(items) == Prepend(done, FormatAll(items[i..]))
    {
      assert items[i..][0] == items[i] && items[i..][1..] == items[i + 1..];
      var x := FormatItem(items[i]);
      if x.Err? {
        assert FormatAll(items[i..]) == Err(x.error);
        return Err(x.error);
      }
      assert FormatAll(items[i..]) == Prepend([x.value], FormatAll(items[i + 1..]));
      PrependAssoc(done, [x.value], FormatAll(items[i + 1..]));
      done := done + [x.value];
      i := i + 1;
    }
    assert items[i..] == [] && done + [] == done;
    r := Ok(done);
  }

  /** The `text` values of the text segments, in order; a missing key raises. */
  function TextParts(items: seq<Value>): Result<seq<Value>> {
    if items == [] then Ok([])
    else
      var t :- Index(items[0], "type");
      if t == Str("text") then
        var data :- Index(items[0], "data");
        var text :- Index(data, "text");
        var rest :- TextParts(items[1..]);
        Ok([text] + rest)
      else TextParts(items[1..])
  }

  /** `"".join(parts)`: TypeError unless every part is a string. */
  function JoinValues(parts: seq<Value>): (r: Result<string>)
    ensures r.Ok? <==> forall i :: 0 <= i < |parts| ==> parts[i].Str?
  {
    if parts == [] then Ok("")
    else if !parts[0].Str? then Err(TypeError)
    else
      var rest :- JoinValues(parts[1..]);
      Ok(parts[0].s + rest)
  }

  /** `_get_text`: the texts of the text segments, in order, joined. */
  function TextOf(items: seq<Value>): Result<string> {
    var parts :- TextParts(items);
    JoinValues(parts)
  }

  /** The text of two runs of segments is the text of the first followed by that of the second. */
  lemma {:induction false} TextPartsAppend(a: seq<Value>, b: seq<Value>)
    requires TextParts(a).Ok? && TextParts(b).Ok?
    ensures TextParts(a + b) == Ok(TextParts(a).value + TextParts(b).value)
  {
    if a == [] {
      assert a + b == b;
      assert [] + TextParts(b).value == TextParts(b).value;
    } else {
      assert (a + b)[0] == a[0] && (a + b)[1..] == a[1..] + b;
      TextPartsAppend(a[1..], b);
      var t := Index(a[0], "type").value;
      if t == Str("text") {
        var text := Index(Index(a[0], "data").value, "text").value;
        assert TextParts(a) == Ok([text] + TextParts(a[1..]).value);
        assert TextParts(a + b) == Ok([text] + TextParts(a[1..] + b).value);
        assert [text] + (TextParts(a[1..]).value + TextParts(b).value)
          == ([text] + TextParts(a[1..]).value) + TextParts(b).value;
      }
    }
  }

  /** Formatting never changes which segments are text or what they say. */
  lemma {:induction false} FormatKeepsText(items: seq<Value>)
    requires FormatAll(items).Ok?
    ensures TextParts(FormatAll(items).value) == TextParts(items)
  {
    if items != [] {
      var x := FormatItem(items[0]).value;
      var rest := FormatAll(items[1..]).value;
      FormatKeepsText(items[1..]);
      assert FormatAll(items).value == [x] + rest;
      assert ([x] + rest)[0] == x && ([x] + rest)[1..] == rest;
    }
  }

  /** `_get_text`: a loop collecting the text of each text segment, then the join. */
  method GetText(items: seq<Value>) returns (r: Result<string>)
    ensures r == TextOf(items)
  {
    var parts: seq<Value> := [];
    var i := 0;
    assert items[0..] == items;
    PrependAssoc([], [], TextParts(items));
    while i < |items|
      invariant 0 <= i <= |items|
      invariant TextParts(items) == Prepend(parts, TextParts(items[i..]))
    {
      assert items[i..][0] == items[i] && items[i..][1..] == items[i + 1..];
      var t := Index(items[i], "type");
      if t.Err? {
        assert TextParts(items[i..]) == Err(t.error);
        return Err(t.error);
      }
      if t.value == Str("text") {
        var data := Index(items[i], "data");
        if data.Err? {
          assert TextParts(items[i..]) == Err(data.error);
          return Err(data.error);
        }
        var text := Index(data.value, "text");
        if text.Err? {
          assert TextParts(items[i..]) == Err(text.error);
          return Err(text.error);
        }
        assert TextParts(items[i..]) == Prepend([text.value], TextParts(items[i + 1..]));
        PrependAssoc(parts, [text.value], TextParts(items[i + 1..]));
        parts := parts + [text.value];
      } else {
        assert TextParts(items[i..]) == TextParts(items[i + 1..]);
      }
      i := i + 1;
    }
    assert items[i..] == [] && parts + [] == parts;
    r := JoinValues(parts);
  }

  // ---------------------------------------------------------------- message kinds

  /** `raw["message_type"] == mt`, and then, only if it holds, `raw["sub_type"] == st`. */
  function MsgTypeIs(raw: Value, mt: string, st: Option<string>): (r: Result<bool>)
    ensures r.Ok? && r.value ==> Index(raw, "message_type") == Ok(Str(mt))
    ensures Index(raw, "message_type").Ok? && Index(raw, "message_type").value != Str(mt) ==> r == Ok(false)
  {
    var t :- Index(raw, "message_type");
    if t != Str(mt) then Ok(false)
    else if st.None? then Ok(true)
    else
      var s :- Index(raw, "sub_type");
      Ok(s == Str(st.value))
  }

  function IsPrivate(raw: Value): Result<bool> { MsgTypeIs(raw, "private", None) }
  function IsFriend(raw: Value): Result<bool> { MsgTypeIs(raw, "private", Some("friend")) }
  function IsGroup(raw: Value): Result<bool> { MsgTypeIs(raw, "group", None) }
  function IsGroupNormal(raw: Value): Result<bool> { MsgTypeIs(raw, "group", Some("normal")) }
  function IsGroupAnonym(raw: Value): Result<bool> { MsgTypeIs(raw, "group", Some("anonymous")) }
  function IsGroupSelf(raw: Value): Result<bool> { MsgTypeIs(raw, "group", Some("group_self")) }
  function IsGroupTemp(raw: Value): Result<bool> { MsgTypeIs(raw, "private", Some("group")) }
  function IsGroupNotice(raw: Value): Result<bool> { MsgTypeIs(raw, "group", Some("notice")) }

  /** A message is private or group, never both; friend and group-temporary messages are private, the group kinds are group. */
  lemma MessageKinds(raw: Value)
    ensures IsPrivate(raw).Ok? <==> IsGroup(raw).Ok?
    ensures IsPrivate(raw).Ok? ==> !(IsPrivate(raw).value && IsGroup(raw).value)
    ensures IsFriend(raw) == Ok(true) || IsGroupTemp(raw) == Ok(true) ==> IsPrivate(raw) == Ok(true)
    ensures (IsGroupNormal(raw) == Ok(true) || IsGroupAnonym(raw) == Ok(true) || IsGroupSelf(raw) == Ok(true)
      || IsGroupNotice(raw) == Ok(true)) ==> IsGroup(raw) == Ok(true)
  {
  }

  /** The names of the temporary-message sources; 5 has none. */
  const TEMP_SRC_MAP: map<int, string> := map[
    0 := "群聊", 1 := "QQ咨询", 2 := "查找", 3 := "QQ电影", 4 := "热聊",
    6 := "验证消息", 7 := "多人聊天", 8 := "约会", 9 := "通讯录"]

  /**
   * `temp_src`: None unless `raw.get("temp_source")` is truthy, and then the
   * name of that source (true is the key 1). A list or dict cannot be a
   * key at all (TypeError); any other code the map lacks is a KeyError.
   */
  function TempSrc(raw: Value): (r: Result<Option<string>>)
    ensures !Truthy(Get(raw, "temp_source")) ==> r == Ok(None)
    ensures Get(raw, "temp_source").Int? && Get(raw, "temp_source").i in TEMP_SRC_MAP && Get(raw, "temp_source").i != 0 ==>
      r == Ok(Some(TEMP_SRC_MAP[Get(raw, "temp_source").i]))
    ensures var t := Get(raw, "temp_source");
      Truthy(t) && (t.List? || t.Dict?) ==> r == Err(TypeError)
    ensures var t := Get(raw, "temp_source");
      Truthy(t) && (t.Str? || (t.Int? && t.i !in TEMP_SRC_MAP)) ==> r == Err(KeyError)
  {
    var t := Get(raw, "temp_source");
    if !Truthy(t) then Ok(None)
    else if t.Int? && t.i in TEMP_SRC_MAP then Ok(Some(TEMP_SRC_MAP[t.i]))
    else if t == Bool(true) then Ok(Some(TEMP_SRC_MAP[1]))
    else if t.List? || t.Dict? then Err(TypeError)
    else Err(KeyError)
  }

  /** Source 0 is in the map, but the truthiness test skips it, so it reads as no temporary source at all. */
  lemma TempSourceZero(raw: map<string, Value>)
    ensures 0 in TEMP_SRC_MAP
    ensures TempSrc(Dict(raw["temp_source" := Int(0)])) == Ok(None)
    ensures TempSrc(Dict(raw["temp_source" := Int(5)])) == Err(KeyError)
  {
  }

  // ---------------------------------------------------------------- sender

  /** A group sender's fields; the anonymous id, name and flag exist only for anonymous messages. */
  datatype GroupInfo = GroupInfo(card: Value, area: Value, level: Value, role: Value, title: Value, anonym: Option<(Value, Value, Value)>)

  /** `MessageEvent.Sender`; `group` is None when its group attributes were never set. */
  datatype Sender = Sender(id: Value, nickname: Option<Value>, sex: Option<Value>, age: Option<Value>, group: Option<GroupInfo>, isGroup: bool, raw: Value)

  /** `len(x)` of a JSON value, TypeError for values without a length. */
  function Len(v: Value): Result<nat> {
    match v
    case Str(s) => Ok(|s|)
    case List(items) => Ok(|items|)
    case Dict(fields) => Ok(|fields.Keys|)
    case _ => Err(TypeError)
  }

  /** `raw[key]` when the key is present, None otherwise. */
  function Optional(v: Value, key: string): Option<Value> {
    if Has(v, key) then Some(v.fields[key]) else None
  }

  /** The group part of a non-empty sender. */
  function GroupInfoOf(raw: Value, snd: Value, isGroupAnonym: bool): Result<GroupInfo> {
    if isGroupAnonym then
      var area :- Index(snd, "area");
      var level :- Index(snd, "level");
      var anon :- Index(raw, "anonymous");
      var aid :- Index(anon, "id");
      var name :- Index(anon, "name");
      var flag :- Index(anon, "flag");
      Ok(GroupInfo(Str(""), area, level, Str("anonymous"), Str(""), Some((aid, name, flag))))
    else
      var card :- Index(snd, "card");
      var area := if Has(snd, "area") then snd.fields["area"] else Str("");
      var level :- Index(snd, "level");
      var role :- Index(snd, "role");
      var title :- Index(snd, "title");
      Ok(GroupInfo(card, area, level, role, title, None))
  }

  /**
   * `Sender.__init__`: an empty sender takes its id from the event's
   * `user_id` and has no nickname, sex or age; otherwise the sender's own
   * fields, with sex and age optional and the group fields for group
   * messages.
   */
  function SenderOf(raw: Value, isGroup: bool, isGroupAnonym: bool): (r: Result<Sender>)
    ensures r.Ok? ==> r.value.isGroup == isGroup && r.value.raw == raw
    ensures r.Ok? && r.value.group.Some? ==> isGroup
  {
    var snd :- Index(raw, "sender");
    var n :- Len(snd);
    if n == 0 then
      var id :- Index(raw, "user_id");
      Ok(Sender(id, None, None, None, None, isGroup, raw))
    else
      var id :- Index(snd, "user_id");
      var nick :- Index(snd, "nickname");
      var g :- if isGroup then (var gi :- GroupInfoOf(raw, snd, isGroupAnonym); Ok(Some(gi))) else Ok(None);
      Ok(Sender(id, Some(nick), Optional(snd, "sex"), Optional(snd, "age"), g, isGroup, raw))
  }

  /** An empty sender: the id is the event's `user_id` and nickname, sex and age are None. */
  lemma EmptySender(raw: Value, isGroup: bool, isGroupAnonym: bool)
    requires Index(raw, "sender") == Ok(Dict(map[])) && Has(raw, "user_id")
    ensures SenderOf(raw, isGroup, isGroupAnonym).Ok?
    ensures var s := SenderOf(raw, isGroup, isGroupAnonym).value;
      s.id == raw.fields["user_id"] && s.nickname.None? && s.sex.None? && s.age.None? && s.group.None?
  {
    assert Len(Dict(map[])) == Ok(0);
  }

  /** The role test behind the group predicates: False outside groups, AttributeError when the role was never set. */
  function RoleIn(s: Sender, roles: set<string>): Result<bool> {
    if !s.isGroup then Ok(false)
    else if s.group.None? then Err(AttributeError)
    else Ok(s.group.value.role.Str? && s.group.value.role.s in roles)
  }

  function IsGroupOwner(s: Sender): Result<bool> { RoleIn(s, {"owner"}) }
  function IsGroupAdmin(s: Sender): Result<bool> { RoleIn(s, {"admin", "owner"}) }
  function OnlyGroupMember(s: Sender): Result<bool> { RoleIn(s, {"member"}) }
  function IsAnonymMember(s: Sender): Result<bool> { RoleIn(s, {"anonymous"}) }

  /** `is_bot`: the sender's id is the event's `self_id`. */
  function IsBot(s: Sender): (r: Result<bool>)
    ensures r.Ok? <==> Has(s.raw, "self_id")
    ensures r.Ok? ==> (r.value <==> s.id == s.raw.fields["self_id"])
  {
    var selfId :- Index(s.raw, "self_id");
    Ok(s.id == selfId)
  }

  /**
   * Outside groups every role predicate is False; an owner is an admin;
   * owner, plain member and anonymous exclude each other.
   */
  lemma SenderRoles(s: Sender)
    ensures !s.isGroup ==>
      IsGroupOwner(s) == Ok(false) && IsGroupAdmin(s) == Ok(false) && OnlyGroupMember(s) == Ok(false) && IsAnonymMember(s) == Ok(false)
    ensures IsGroupOwner(s) == Ok(true) ==> IsGroupAdmin(s) == Ok(true)
    ensures IsGroupOwner(s) == Ok(true) ==> OnlyGroupMember(s) == Ok(false) && IsAnonymMember(s) == Ok(false)
    ensures OnlyGroupMember(s) == Ok(true) ==> IsAnonymMember(s) == Ok(false) && IsGroupAdmin(s) == Ok(false)
  {
  }

  /** A sender built for an anonymous group message is an anonymous member. */
  lemma AnonymousSender(raw: Value)
    requires SenderOf(raw, true, true).Ok? && SenderOf(raw, true, true).value.group.Some?
    ensures IsAnonymMember(SenderOf(raw, true, true).value) == Ok(true)
  {
  }

  // ---------------------------------------------------------------- events

  /** The results of the CQ-code helpers for this event: `to_cq_arr` of a text and `to_cq_str` of a list. */
  datatype CqOracle = CqOracle(arr: seq<Value>, str: string)

  datatype MessageEvent = MessageEvent(
    botId: Value,
    id: Value,
    rawContent: string,
    content: seq<Value>,
    text: string,
    font: Value,
    tempSrc: Option<string>,
    sender: Sender,
    groupId: Option<Value>,
    raw: Value)

  /**
   * The event `MessageEvent.__init__` builds from `raw`: the steps in
   * source order, the first one that fails raising its error.
   */
  function MessageOf(raw: Value, cq: CqOracle): (r: Result<MessageEvent>)
    requires raw.Dict?
    ensures var m := raw.fields;
      "message_id" in m && "raw_message" in m && "message" in m && ContentOf(m["message"], cq.arr).Ok?
      && TextOf(ContentOf(m["message"], cq.arr).value).Ok? && "font" in m && TempSrc(raw).Err? ==>
        r == Err(TempSrc(raw).error)
  {
    var id :- Index(raw, "message_id");
    var rm :- Index(raw, "raw_message");
    var msg :- Index(raw, "message");
    var content :- ContentOf(msg, cq.arr);
    var text :- TextOf(content);
    var font :- Index(raw, "font");
    var tempSrc :- TempSrc(raw);
    var isGroup :- IsGroup(raw);
    var isAnonym :- IsGroupAnonym(raw);
    var sender :- SenderOf(raw, isGroup, isAnonym);
    var groupId :- if isGroup then (var g :- Index(raw, "group_id"); Ok(Some(g))) else Ok(None);
    var newRaw := if msg.List? then Dict(raw.fields["message" := List(content)]) else raw;
    Ok(MessageEvent(Get(raw, "self_id"), id, if rm.Str? then rm.s else cq.str, content, text,
      font, tempSrc, sender, groupId, newRaw))
  }

  /**
   * `MessageEvent.__init__`: the message id, the content in both forms,
   * its text, the font, the temporary source, the sender and, for group
   * messages only, the group id, in that order, the first missing key
   * raising. A list message is formatted in place, so the event's raw
   * dict holds the formatted segments.
   */
  method MessageInit(raw: Value, cq: CqOracle) returns (r: Result<MessageEvent>)
    requires raw.Dict?
    ensures r == MessageOf(raw, cq)
    ensures r.Ok? <==>
      Has(raw, "message_id") && Has(raw, "raw_message") && Has(raw, "message")
      && ContentOf(raw.fields["message"], cq.arr).Ok?
      && TextOf(ContentOf(raw.fields["message"], cq.arr).value).Ok?
      && Has(raw, "font") && TempSrc(raw).Ok? && IsGroup(raw).Ok? && IsGroupAnonym(raw).Ok?
      && SenderOf(raw, IsGroup(raw).value, IsGroupAnonym(raw).value).Ok?
      && (IsGroup(raw).value ==> Has(raw, "group_id"))
    ensures r.Ok? ==> TextOf(r.value.content).Ok? && r.value.text == TextOf(r.value.content).value
    ensures r.Ok? ==> r.value.tempSrc == TempSrc(raw).value
    ensures r.Ok? ==> (r.value.groupId.Some? <==> IsGroup(raw) == Ok(true))
    ensures r.Ok? && r.value.groupId.Some? ==> r.value.groupId.value == raw.fields["group_id"]
    ensures r.Ok? ==> r.value.sender == SenderOf(raw, IsGroup(raw).value, IsGroupAnonym(raw).value).value
    ensures r.Ok? ==> r.value.content == ContentOf(raw.fields["message"], cq.arr).value
    ensures r.Ok? ==> r.value.raw == (if raw.fields["message"].List? then Dict(raw.fields["message" := List(r.value.content)]) else raw)
    ensures r.Ok? ==> r.value.rawContent == (if raw.fields["raw_message"].Str? then raw.fields["raw_message"].s else cq.str)
    ensures r.Ok? ==> r.value.botId == Get(raw, "self_id")
  {
    var id := Index(raw, "message_id");
    if id.Err? {
      return Err(id.error);
    }
    var rm := Index(raw, "raw_message");
    if rm.Err? {
      return Err(rm.error);
    }
    var rawContent := if rm.value.Str? then rm.value.s else cq.str;
    var msg := Index(raw, "message");
    if msg.Err? {
      return Err(msg.error);
    }
    var content := FormatToArray(msg.value, cq.arr);
    if content.Err? {
      return Err(content.error);
    }
    var newRaw := if msg.value.List? then Dict(raw.fields["message" := List(content.value)]) else raw;
    var text := GetText(content.value);
    if text.Err? {
      return Err(text.error);
    }
    var font := Index(raw, "font");
    if font.Err? {
      return Err(font.error);
    }
    var tempSrc := TempSrc(raw);
    if tempSrc.Err? {
      return Err(tempSrc.error);
    }
    var isGroup := IsGroup(raw);
    if isGroup.Err? {
      return Err(isGroup.error);
    }
    var isAnonym := IsGroupAnonym(raw);
    if isAnonym.Err? {
      return Err(isAnonym.error);
    }
    var sender := SenderOf(raw, isGroup.value, isAnonym.value);
    if sender.Err? {
      return Err(sender.error);
    }
    var groupId: Option<Value> := None;
    if isGroup.value {
      var g := Index(raw, "group_id");
      if g.Err? {
        return Err(g.error);
      }
      groupId := Some(g.value);
    }
    r := Ok(MessageEvent(Get(raw, "self_id"), id.value, rawContent, content.value, text.value,
      font.value, tempSrc.value, sender.value, groupId, newRaw));
  }

  /** A request event; the `from_*` and request fields are None where `_init` never sets them. */
  datatype RequestEvent = RequestEvent(
    botId: Value,
    fromId: Option<Value>,
    fromGroupId: Option<Value>,
    comment: Option<Value>,
    flag: Option<Value>,
    groupReqType: Option<Value>,
    raw: Value)

  /** `RequestEvent._init`: friend requests have no group; group requests add the group and the sub type. */
  function RequestInit(raw: Value): (r: Result<RequestEvent>)
    ensures r.Ok? ==> Has(raw, "request_type")
    ensures r.Ok? && raw.fields["request_type"] == Str("friend") ==>
      r.value.fromGroupId.None? && r.value.groupReqType.None? && r.value.fromId.Some? && r.value.flag.Some?
    ensures r.Ok? && raw.fields["request_type"] == Str("group") ==>
      Has(raw, "group_id") && Has(raw, "sub_type") && r.value.fromGroupId == Some(raw.fields["group_id"]) && r.value.groupReqType == Some(raw.fields["sub_type"])
    ensures r.Ok? && raw.fields["request_type"] != Str("friend") && raw.fields["request_type"] != Str("group") ==>
      r.value.fromId.None? && r.value.fromGroupId.None? && r.value.flag.None?
  {
    var rt :- Index(raw, "request_type");
    if rt == Str("friend") then
      var uid :- Index(raw, "user_id");
      var comment :- Index(raw, "comment");
      var flag :- Index(raw, "flag");
      Ok(RequestEvent(Get(raw, "self_id"), Some(uid), None, Some(comment), Some(flag), None, raw))
    else if rt == Str("group") then
      var st :- Index(raw, "sub_type");
      var uid :- Index(raw, "user_id");
      var gid :- Index(raw, "group_id");
      var comment :- Index(raw, "comment");
      var flag :- Index(raw, "flag");
      Ok(RequestEvent(Get(raw, "self_id"), Some(uid), Some(gid), Some(comment), Some(flag), Some(st), raw))
    else
      Ok(RequestEvent(Get(raw, "self_id"), None, None, None, None, None, raw))
  }

  /**
   * The repair at the start of `NoticeEvent.__init__`: an event with a
   * `target_id` and no `user_id` gets the target as its user; every other
   * event is left as it is.
   */
  function FixUserId(raw: Value): (r: Value)
    requires raw.Dict?
    ensures r.Dict?
    ensures Has(raw, "target_id") && !Has(raw, "user_id") ==> r.fields == raw.fields["user_id" := raw.fields["target_id"]]
    ensures !(Has(raw, "target_id") && !Has(raw, "user_id")) ==> r == raw
    ensures Has(raw, "user_id") ==> r == raw
  {
    if "target_id" in raw.fields && "user_id" !in raw.fields then Dict(raw.fields["user_id" := raw.fields["target_id"]]) else raw
  }

  /** After the repair an event with a target has a user, and repairing again changes nothing. */
  lemma FixUserIdIdempotent(raw: Value)
    requires raw.Dict?
    ensures Has(raw, "target_id") ==> Has(FixUserId(raw), "user_id")
    ensures FixUserId(FixUserId(raw)) == FixUserId(raw)
  {
  }

  /** The kinds of notice `NoticeEvent._init` tells apart, in the order its `elif` chain tests them. */
  datatype NoticeType =
    | FriendRecall | GroupRecall | GroupIncrease | GroupDecrease | GroupAdmin | GroupUpload
    | GroupBan | FriendAdd | Poke | LuckyKing | Honor | Title | GroupCard | OfflineFile
    | ClientStatus | Essence | OtherNotice

  /** The `notice_type`, and for the system notices the `sub_type`, that each kind's `is_*` test compares with. */
  function TypeName(t: NoticeType): (string, Option<string>)
  {
    match t
    case FriendRecall => ("friend_recall", None)
    case GroupRecall => ("group_recall", None)
    case GroupIncrease => ("group_increase", None)
    case GroupDecrease => ("group_decrease", None)
    case GroupAdmin => ("group_admin", None)
    case GroupUpload => ("group_upload", None)
    case GroupBan => ("group_ban", None)
    case FriendAdd => ("friend_add", None)
    case Poke => ("notify", Some("poke"))
    case LuckyKing => ("notify", Some("lucky_king"))
    case Honor => ("notify", Some("honor"))
    case Title => ("notify", Some("title"))
    case GroupCard => ("group_card", None)
    case OfflineFile => ("offline_file", None)
    case ClientStatus => ("client_status", None)
    case Essence => ("essence", None)
    case OtherNotice => ("", None)
  }

  /** Whether the event's type fields name the kind `t`. */
  predicate Matches(ev: Value, t: NoticeType)
  {
    t != OtherNotice && Get(ev, "notice_type") == Str(TypeName(t).0)
    && (TypeName(t).1.Some? ==> Get(ev, "sub_type") == Str(TypeName(t).1.value))
  }

  /**
   * The `is_*` tests of `_init`'s `elif` chain. Each reads `notice_type`,
   * and the system-notice tests, which come after every other test that
   * can hold for "notify", read `sub_type` once it is "notify". So the
   * chain raises KeyError without `notice_type`, or with "notify" and no
   * `sub_type`, and otherwise picks the kind those two name, if any.
   */
  function NoticeTypeOf(ev: Value): (r: Result<NoticeType>)
    requires ev.Dict?
    ensures r.Ok? <==> Has(ev, "notice_type") && (ev.fields["notice_type"] == Str("notify") ==> Has(ev, "sub_type"))
    ensures r.Err? ==> r.error == KeyError
  {
    var nt :- Index(ev, "notice_type");
    if nt == Str("notify") then
      var st :- Index(ev, "sub_type");
      if st == Str("poke") then Ok(Poke)
      else if st == Str("lucky_king") then Ok(LuckyKing)
      else if st == Str("honor") then Ok(Honor)
      else if st == Str("title") then Ok(Title)
      else Ok(OtherNotice)
    else if nt == Str("friend_recall") then Ok(FriendRecall)
    else if nt == Str("group_recall") then Ok(GroupRecall)
    else if nt == Str("group_increase") then Ok(GroupIncrease)
    else if nt == Str("group_decrease") then Ok(GroupDecrease)
    else if nt == Str("group_admin") then Ok(GroupAdmin)
    else if nt == Str("group_upload") then Ok(GroupUpload)
    else if nt == Str("group_ban") then Ok(GroupBan)
    else if nt == Str("friend_add") then Ok(FriendAdd)
    else if nt == Str("group_card") then Ok(GroupCard)
    else if nt == Str("offline_file") then Ok(OfflineFile)
    else if nt == Str("client_status") then Ok(ClientStatus)
    else if nt == Str("essence") then Ok(Essence)
    else Ok(OtherNotice)
  }

  /** A kind the chain picks is one the type fields name. */
  lemma NoticeTypeSound(ev: Value)
    requires ev.Dict? && NoticeTypeOf(ev).Ok?
    ensures NoticeTypeOf(ev).value != OtherNotice ==> Matches(ev, NoticeTypeOf(ev).value)
  {
  }

  /** A kind the type fields name is the one the chain picks. */
  lemma NoticeTypeComplete(ev: Value, t: NoticeType)
    requires ev.Dict? && NoticeTypeOf(ev).Ok?
    ensures Matches(ev, t) ==> NoticeTypeOf(ev).value == t
  {
    match t
    case FriendRecall =>
    case GroupRecall =>
    case GroupIncrease =>
    case GroupDecrease =>
    case GroupAdmin =>
    case GroupUpload =>
    case GroupBan =>
    case FriendAdd =>
    case Poke =>
    case LuckyKing =>
    case Honor =>
    case Title =>
    case GroupCard =>
    case OfflineFile =>
    case ClientStatus =>
    case Essence =>
    case OtherNotice =>
  }

  /** The chain picks exactly the kind the type fields name, and no branch when they name none. */
  lemma NoticeTypeExact(ev: Value)
    requires ev.Dict? && NoticeTypeOf(ev).Ok?
    ensures forall t :: t != OtherNotice ==> (NoticeTypeOf(ev).value == t <==> Matches(ev, t))
    ensures NoticeTypeOf(ev).value == OtherNotice <==> forall u :: !Matches(ev, u)
  {
    forall t
      ensures t != OtherNotice ==> (NoticeTypeOf(ev).value == t <==> Matches(ev, t))
    {
      NoticeTypeSound(ev);
      NoticeTypeComplete(ev, t);
    }
    if NoticeTypeOf(ev).value != OtherNotice {
      assert Matches(ev, NoticeTypeOf(ev).value);
    }
  }

  /** The top-level keys of the raw event each branch of `_init` reads, in the order it reads them. */
  function FieldsRead(t: NoticeType): seq<string>
  {
    match t
    case FriendRecall => ["user_id", "message_id"]
    case GroupRecall => ["user_id", "group_id", "operator_id", "message_id"]
    case GroupIncrease => ["sub_type", "user_id", "group_id", "operator_id"]
    case GroupDecrease => ["sub_type", "user_id", "group_id", "operator_id"]
    case GroupAdmin => ["sub_type", "user_id", "group_id"]
    case GroupUpload => ["user_id", "group_id", "file"]
    case GroupBan => ["user_id", "group_id", "operator_id", "sub_type", "duration"]
    case FriendAdd => ["user_id"]
    case Poke => ["target_id", "user_id"]
    case LuckyKing => ["target_id", "group_id", "user_id"]
    case Honor => ["honor_type", "user_id", "group_id"]
    case Title => ["title", "user_id", "group_id"]
    case GroupCard => ["card_old", "card_new", "user_id", "group_id"]
    case OfflineFile => ["user_id", "file"]
    case ClientStatus => ["online", "client"]
    case Essence => ["sub_type", "sender_id", "group_id", "operator_id", "message_id"]
    case OtherNotice => []
  }

  /** The key `notice_user_id` is read from in each branch; the client-status branch and no branch set none. */
  function UserKey(t: NoticeType): Option<string>
  {
    match t
    case Poke => Some("target_id")
    case LuckyKing => Some("target_id")
    case Essence => Some("sender_id")
    case ClientStatus => None
    case OtherNotice => None
    case _ => Some("user_id")
  }

  /** The key `notice_operator_id` is read from: the poker and the red-packet sender are the event's `user_id`. */
  function OperatorKey(t: NoticeType): Option<string>
  {
    match t
    case GroupRecall => Some("operator_id")
    case GroupIncrease => Some("operator_id")
    case GroupDecrease => Some("operator_id")
    case GroupBan => Some("operator_id")
    case Essence => Some("operator_id")
    case Poke => Some("user_id")
    case LuckyKing => Some("user_id")
    case _ => None
  }

  /** The key `notice_group_id` is read from, outside pokes, whose group is read only when present. */
  function GroupKey(t: NoticeType): Option<string>
  {
    match t
    case FriendRecall => None
    case FriendAdd => None
    case Poke => None
    case OfflineFile => None
    case ClientStatus => None
    case OtherNotice => None
    case _ => Some("group_id")
  }

  /** The key `notice_msg_id` is read from: only recalls and essence changes concern a message. */
  function MsgKey(t: NoticeType): Option<string>
  {
    match t
    case FriendRecall => Some("message_id")
    case GroupRecall => Some("message_id")
    case Essence => Some("message_id")
    case _ => None
  }

  /** Every key an attribute is read from is among the keys its branch reads. */
  lemma AttributeKeysRead(t: NoticeType)
    ensures UserKey(t).Some? ==> UserKey(t).value in FieldsRead(t)
    ensures OperatorKey(t).Some? ==> OperatorKey(t).value in FieldsRead(t)
    ensures GroupKey(t).Some? ==> GroupKey(t).value in FieldsRead(t)
    ensures MsgKey(t).Some? ==> MsgKey(t).value in FieldsRead(t)
  {
  }

  /** `v[k]` for a key that may be absent from the table, as an optional read. */
  function ReadAt(ev: Value, k: Option<string>): Option<Value>
  {
    if k.Some? then Some(Get(ev, k.value)) else None
  }

  /** `NoticeEvent.File`: name and size always; id and busid for group uploads, the url for offline files. */
  datatype NoticeFile = NoticeFile(name: Value, size: Value, id: Option<Value>, busid: Option<Value>, url: Option<Value>)

  /** `NoticeEvent.File(rawEvent, isGroup)`, each field read from `rawEvent["file"]`. */
  function FileOf(ev: Value, isGroup: bool): (r: Result<NoticeFile>)
    ensures !Has(ev, "file") ==> r.Err?
    ensures ev.Dict? && !Has(ev, "file") ==> r == Err(KeyError)
    ensures Has(ev, "file") && !ev.fields["file"].Dict? ==> r == Err(TypeError)
    ensures Has(ev, "file") ==>
      var f := ev.fields["file"];
      (r.Ok? <==> Has(f, "name") && Has(f, "size") && (if isGroup then Has(f, "id") && Has(f, "busid") else Has(f, "url")))
    ensures r.Ok? ==> var f := ev.fields["file"];
      r.value.name == f.fields["name"] && r.value.size == f.fields["size"]
      && (r.value.id.Some? <==> isGroup) && (r.value.url.Some? <==> !isGroup)
  {
    var f :- Index(ev, "file");
    var name :- Index(f, "name");
    var size :- Index(f, "size");
    if isGroup then
      var id :- Index(f, "id");
      var busid :- Index(f, "busid");
      Ok(NoticeFile(name, size, Some(id), Some(busid), None))
    else
      var url :- Index(f, "url");
      Ok(NoticeFile(name, size, None, None, Some(url)))
  }

  /** `NoticeEvent.Client`: the online flag and the client's id, name and kind. */
  datatype NoticeClient = NoticeClient(online: Value, id: Value, name: Value, kind: Value)

  /** `NoticeEvent.Client(rawEvent)`: `online`, then three fields of `rawEvent["client"]`. */
  function ClientOf(ev: Value): (r: Result<NoticeClient>)
    ensures r.Ok? <==>
      Has(ev, "online") && Has(ev, "client")
      && Has(ev.fields["client"], "app_id") && Has(ev.fields["client"], "device_name") && Has(ev.fields["client"], "device_kind")
    ensures r.Ok? ==>
      r.value.online == ev.fields["online"] && r.value.id == ev.fields["client"].fields["app_id"]
      && r.value.name == ev.fields["client"].fields["device_name"] && r.value.kind == ev.fields["client"].fields["device_kind"]
  {
    var online :- Index(ev, "online");
    var c :- Index(ev, "client");
    var id :- Index(c, "app_id");
    var name :- Index(c, "device_name");
    var kind :- Index(c, "device_kind");
    Ok(NoticeClient(online, id, name, kind))
  }

  /**
   * A notice event: every attribute `_init` may set is None where the
   * branch taken does not set it; `raw` is the repaired event.
   */
  datatype NoticeEvent = NoticeEvent(
    botId: Value,
    userId: Option<Value>,
    groupId: Option<Value>,
    operatorId: Option<Value>,
    msgId: Option<Value>,
    joinGroupType: Option<Value>,
    leaveGroupType: Option<Value>,
    adminChangeType: Option<Value>,
    groupBanType: Option<Value>,
    banTime: Option<Value>,
    honorChangeType: Option<Value>,
    newTitle: Option<Value>,
    oldCard: Option<Value>,
    newCard: Option<Value>,
    file: Option<NoticeFile>,
    client: Option<NoticeClient>,
    essenceChangeType: Option<Value>,
    raw: Value)

  /** `ev[k]` for each key in turn: the values read, or KeyError at the first missing key. */
  function ReadAll(ev: Value, keys: seq<string>): (r: Result<seq<Value>>)
    requires ev.Dict?
    ensures r.Ok? <==> forall k :: k in keys ==> Has(ev, k)
    ensures r.Err? ==> r.error == KeyError
    ensures r.Ok? ==> |r.value| == |keys| && forall i :: 0 <= i < |keys| ==> keys[i] in ev.fields && r.value[i] == ev.fields[keys[i]]
  {
    if keys == [] then Ok([])
    else
      var v :- Index(ev, keys[0]);
      var rest :- ReadAll(ev, keys[1..]);
      Ok([v] + rest)
  }

  /**
   * The attributes one branch of `_init` sets, each from the key it reads
   * (present once `ReadAll` has read the branch's keys), then the file or
   * client record it builds, whose reads may still raise. A poke takes
   * `group_id` only when present.
   */
  function NoticeFields(botId: Value, ev: Value, t: NoticeType): (r: Result<NoticeEvent>)
    ensures t != GroupUpload && t != OfflineFile && t != ClientStatus ==> r.Ok?
    ensures r.Ok? ==> r.value.raw == ev && r.value.botId == botId
  {
    var e := NoticeEvent(botId, None, None, None, None, None, None, None, None, None, None, None, None, None, None, None, None, ev);
    match t
    case FriendRecall => Ok(e.(userId := Some(Get(ev, "user_id")), msgId := Some(Get(ev, "message_id"))))
    case GroupRecall =>
      Ok(e.(userId := Some(Get(ev, "user_id")), groupId := Some(Get(ev, "group_id")), operatorId := Some(Get(ev, "operator_id")),
            msgId := Some(Get(ev, "message_id"))))
    case GroupIncrease =>
      Ok(e.(joinGroupType := Some(Get(ev, "sub_type")), userId := Some(Get(ev, "user_id")), groupId := Some(Get(ev, "group_id")),
            operatorId := Some(Get(ev, "operator_id"))))
    case GroupDecrease =>
      Ok(e.(leaveGroupType := Some(Get(ev, "sub_type")), userId := Some(Get(ev, "user_id")), groupId := Some(Get(ev, "group_id")),
            operatorId := Some(Get(ev, "operator_id"))))
    case GroupAdmin =>
      Ok(e.(adminChangeType := Some(Get(ev, "sub_type")), userId := Some(Get(ev, "user_id")), groupId := Some(Get(ev, "group_id"))))
    case GroupUpload =>
      var file :- FileOf(ev, true);
      Ok(e.(userId := Some(Get(ev, "user_id")), groupId := Some(Get(ev, "group_id")), file := Some(file)))
    case GroupBan =>
      Ok(e.(userId := Some(Get(ev, "user_id")), groupId := Some(Get(ev, "group_id")), operatorId := Some(Get(ev, "operator_id")),
            groupBanType := Some(Get(ev, "sub_type")), banTime := Some(Get(ev, "duration"))))
    case FriendAdd => Ok(e.(userId := Some(Get(ev, "user_id"))))
    case Poke =>
      Ok(e.(userId := Some(Get(ev, "target_id")), operatorId := Some(Get(ev, "user_id")),
            groupId := if Has(ev, "group_id") then Some(Get(ev, "group_id")) else None))
    case LuckyKing =>
      Ok(e.(userId := Some(Get(ev, "target_id")), groupId := Some(Get(ev, "group_id")), operatorId := Some(Get(ev, "user_id"))))
    case Honor =>
      Ok(e.(honorChangeType := Some(Get(ev, "honor_type")), userId := Some(Get(ev, "user_id")), groupId := Some(Get(ev, "group_id"))))
    case Title =>
      Ok(e.(newTitle := Some(Get(ev, "title")), userId := Some(Get(ev, "user_id")), groupId := Some(Get(ev, "group_id"))))
    case GroupCard =>
      Ok(e.(oldCard := Some(Get(ev, "card_old")), newCard := Some(Get(ev, "card_new")), userId := Some(Get(ev, "user_id")),
            groupId := Some(Get(ev, "group_id"))))
    case OfflineFile =>
      var file :- FileOf(ev, false);
      Ok(e.(userId := Some(Get(ev, "user_id")), file := Some(file)))
    case ClientStatus =>
      var c :- ClientOf(ev);
      Ok(e.(client := Some(c)))
    case Essence =>
      Ok(e.(essenceChangeType := Some(Get(ev, "sub_type")), userId := Some(Get(ev, "sender_id")), groupId := Some(Get(ev, "group_id")),
            operatorId := Some(Get(ev, "operator_id")), msgId := Some(Get(ev, "message_id"))))
    case OtherNotice => Ok(e)
  }

  /** The attributes a branch sets are read from the keys the tables name; only uploads carry a file, only client changes a client. */
  lemma NoticeAttributes(botId: Value, ev: Value, t: NoticeType)
    requires NoticeFields(botId, ev, t).Ok?
    ensures var e := NoticeFields(botId, ev, t).value;
      e.userId == ReadAt(ev, UserKey(t)) && e.operatorId == ReadAt(ev, OperatorKey(t))
      && e.groupId == (if t == Poke then (if Has(ev, "group_id") then Some(Get(ev, "group_id")) else None) else ReadAt(ev, GroupKey(t)))
      && e.msgId == ReadAt(ev, MsgKey(t))
      && (e.file.Some? <==> t == GroupUpload || t == OfflineFile) && (e.client.Some? <==> t == ClientStatus)
  {
    match t
    case FriendRecall =>
    case GroupRecall =>
    case GroupIncrease =>
    case GroupDecrease =>
    case GroupAdmin =>
    case GroupUpload =>
    case GroupBan =>
    case FriendAdd =>
    case Poke =>
    case LuckyKing =>
    case Honor =>
    case Title =>
    case GroupCard =>
    case OfflineFile =>
    case ClientStatus =>
    case Essence =>
    case OtherNotice =>
  }

  /**
   * `NoticeEvent.__init__`: the user-id repair, then `_init`. The tests of
   * the `elif` chain read only `notice_type` and `sub_type`, so the branch
   * is picked first (`NoticeTypeOf`); its reads follow in source order
   * and the first missing key raises KeyError.
   */
  function NoticeInit(raw: Value): (r: Result<NoticeEvent>)
    requires raw.Dict?
    ensures NoticeTypeOf(FixUserId(raw)).Err? ==> r == Err(KeyError)
    ensures var ev := FixUserId(raw); var t := NoticeTypeOf(ev);
      t.Ok? && (exists k :: k in FieldsRead(t.value) && !Has(ev, k)) ==> r == Err(KeyError)
    ensures var ev := FixUserId(raw); var t := NoticeTypeOf(ev);
      (t.Ok? && t.value != GroupUpload && t.value != OfflineFile && t.value != ClientStatus
       && (forall k :: k in FieldsRead(t.value) ==> Has(ev, k))) ==> r.Ok?
    ensures r.Ok? ==> r.value.raw == FixUserId(raw) && r.value.botId == Get(raw, "self_id")
    ensures r.Ok? ==> var ev := FixUserId(raw); var t := NoticeTypeOf(ev).value;
      (forall k :: k in FieldsRead(t) ==> Has(ev, k))
      && r.value.userId == ReadAt(ev, UserKey(t))
      && r.value.operatorId == ReadAt(ev, OperatorKey(t))
      && r.value.groupId == (if t == Poke then (if Has(ev, "group_id") then Some(Get(ev, "group_id")) else None) else ReadAt(ev, GroupKey(t)))
      && r.value.msgId == ReadAt(ev, MsgKey(t))
      && (r.value.file.Some? <==> t == GroupUpload || t == OfflineFile)
      && (r.value.client.Some? <==> t == ClientStatus)
  {
    var ev := FixUserId(raw);
    var t :- NoticeTypeOf(ev);
    var _ :- ReadAll(ev, FieldsRead(t));
    var e :- NoticeFields(Get(raw, "self_id"), ev, t);
    NoticeAttributes(Get(raw, "self_id"), ev, t);
    Ok(e)
  }

  /** A notice without `notice_type`, such as `{"post_type": "notice"}`, raises KeyError at the first `is_*` test. */
  lemma NoticeWithoutType(raw: Value)
    requires raw.Dict? && !Has(raw, "notice_type")
    ensures NoticeInit(raw) == Err(KeyError)
  {
  }

  /** A response event: the echoed id and the data only when present and truthy. */
  datatype ResponseEvent = ResponseEvent(id: Option<Value>, status: Value, data: Option<Value>, raw: Value)

  /** `ResponseEvent._init`. */
  function ResponseInit(raw: Value): (r: Result<ResponseEvent>)
    ensures r.Ok? <==> Has(raw, "retcode")
    ensures r.Ok? ==> r.value.status == raw.fields["retcode"] && r.value.raw == raw
    ensures r.Ok? ==> (r.value.id.Some? <==> Has(raw, "echo") && Truthy(raw.fields["echo"]))
    ensures r.Ok? && r.value.id.Some? ==> r.value.id.value == raw.fields["echo"]
    ensures r.Ok? ==> (r.value.data.Some? <==> Has(raw, "data") && Truthy(raw.fields["data"]))
    ensures r.Ok? && r.value.data.Some? ==> r.value.data.value == raw.fields["data"]
  {
    var status :- Index(raw, "retcode");
    var id := if Has(raw, "echo") && Truthy(raw.fields["echo"]) then Some(raw.fields["echo"]) else None;
    var data := if Has(raw, "data") && Truthy(raw.fields["data"]) then Some(raw.fields["data"]) else None;
    Ok(ResponseEvent(id, status, data, raw))
  }

  /** `is_ok`: the raw status is "ok". */
  function IsOk(e: ResponseEvent): Result<bool> {
    var s :- Index(e.raw, "status");
    Ok(s == Str("ok"))
  }

  /** `is_failed`: the raw status is not "ok". */
  function IsFailed(e: ResponseEvent): Result<bool> {
    var s :- Index(e.raw, "status");
    Ok(s != Str("ok"))
  }

  /** `is_processing`: status code 202. */
  function IsProcessing(e: ResponseEvent): bool {
    e.status == Int(202)
  }

  /** Every response with a status is exactly one of ok and failed. */
  lemma OkFailedComplementary(e: ResponseEvent)
    ensures IsOk(e).Ok? <==> IsFailed(e).Ok?
    ensures IsOk(e).Ok? ==> IsOk(e).value != IsFailed(e).value
  {
  }

  /** A built event. */
  datatype Event =
    | Message(m: MessageEvent)
    | Request(q: RequestEvent)
    | Notice(n: NoticeEvent)
    | Meta(botId: Value, raw: Value)
    | Response(p: ResponseEvent)

  function KindOf(e: Event): Kind {
    match e
    case Message(_) => MessageKind
    case Request(_) => RequestKind
    case Notice(_) => NoticeKind
    case Meta(_, _) => MetaKind
    case Response(_) => ResponseKind
  }

  /**
   * `BotEventBuilder.build`, on the raw dict as intended: the class
   * `Classify` picks, constructed, its constructor's error propagated.
   */
  method Build(input: RawInput, cq: CqOracle) returns (r: Result<Event>)
    ensures BuildKind(input).Err? ==> r.Err? && r.error == BuildKind(input).error
    ensures BuildKind(input) == Ok(MessageKind) ==>
      var m := MessageOf(RawOf(input).value, cq);
      r == if m.Ok? then Ok(Message(m.value)) else Err(m.error)
    ensures BuildKind(input) == Ok(RequestKind) ==>
      var q := RequestInit(RawOf(input).value);
      r == if q.Ok? then Ok(Request(q.value)) else Err(q.error)
    ensures BuildKind(input) == Ok(NoticeKind) ==>
      var n := NoticeInit(RawOf(input).value);
      r == if n.Ok? then Ok(Notice(n.value)) else Err(n.error)
    ensures BuildKind(input) == Ok(MetaKind) ==>
      r == Ok(Meta(Get(RawOf(input).value, "self_id"), RawOf(input).value))
    ensures BuildKind(input) == Ok(ResponseKind) ==>
      var p := ResponseInit(RawOf(input).value);
      r == if p.Ok? then Ok(Response(p.value)) else Err(p.error)
    ensures r.Ok? ==> BuildKind(input) == Ok(KindOf(r.value))
    ensures r.Ok? && r.value.Response? ==> ResponseInit(RawOf(input).value).Ok? && r.value == Response(ResponseInit(RawOf(input).value).value)
    ensures r.Ok? && r.value.Request? ==> RequestInit(RawOf(input).value).Ok? && r.value == Request(RequestInit(RawOf(input).value).value)
    ensures r.Ok? && r.value.Notice? ==> r.value.n.raw == FixUserId(RawOf(input).value)
  {
    var kind := BuildKind(input);
    if kind.Err? {
      return Err(kind.error);
    }
    var raw := RawOf(input).value;
    match kind.value {
      case MessageKind =>
        var m := MessageInit(raw, cq);
        r := if m.Ok? then Ok(Message(m.value)) else Err(m.error);
      case RequestKind =>
        var q := RequestInit(raw);
        r := if q.Ok? then Ok(Request(q.value)) else Err(q.error);
      case NoticeKind =>
        var n := NoticeInit(raw);
        r := if n.Ok? then Ok(Notice(n.value)) else Err(n.error);
      case MetaKind =>
        r := Ok(Meta(Get(raw, "self_id"), raw));
      case ResponseKind =>
        var p := ResponseInit(raw);
        r := if p.Ok? then Ok(Response(p.value)) else Err(p.error);
    }
  }
}

=== FILE: store.dfy ===
/**
 * The bot store of bot/common/Store.py: the global meta record, of which
 * only the working status may change; the resource tree, whose nodes are
 * loaded once and disposed once; and the Snowflake-style id generator.
 * The resource tree is modelled as a value: each node holds its info
 * record and its children in the order they were added, as the node's
 * attribute dict keeps them.
 */
module Store {
  import opened Wrap
  import opened Json

  // ---------------------------------------------------------------------
  // GlobalMeta

  /** The global meta record: fixed project facts and the working status. */
  class GlobalMeta {
    var fields: map<string, Value>

    /** The record as built; the root path depends on where the package lies on disk. */
    constructor(rootPath: string)
      ensures fields == map[
        "version" := Str("2.0.0-Alpha4 (dev-edition)"),
        "developer" := Str("AiCorein"),
        "proj_name" := Str("Qbot-MeloBot"),
        "proj_url" := Str("https://github.com/AiCorein/Qbot-MeloBot"),
        "root_path" := Str(rootPath),
        "kernel_timeout" := Int(5),
        "prior_queue_len" := Int(2),
        "working_status" := Bool(true)]
    {
      fields := map[
        "version" := Str("2.0.0-Alpha4 (dev-edition)"),
        "developer" := Str("AiCorein"),
        "proj_name" := Str("Qbot-MeloBot"),
        "proj_url" := Str("https://github.com/AiCorein/Qbot-MeloBot"),
        "root_path" := Str(rootPath),
        "kernel_timeout" := Int(5),
        "prior_queue_len" := Int(2),
        "working_status" := Bool(true)];
    }

    /** `__setattr__`: only `working_status` may be assigned; any other name raises PermissionError and changes nothing. */
    method SetAttr(name: string, value: Value) returns (r: Result<()>)
      modifies this
      ensures name == "working_status" ==> r.Ok? && fields == old(fields)[name := value]
      ensures name != "working_status" ==> r == Err(PermissionError) && fields == old(fields)
    {
      if name != "working_status" {
        return Err(PermissionError);
      }
      fields := fields[name := value];
      r := Ok(());
    }
  }

  // ---------------------------------------------------------------------
  // Loaders and the objects they leave behind

  /** A Python object in a resource's value slot: None, some data, or a coroutine object. */
  datatype Obj = NoneObj | Data(d: int) | CoroObj(id: nat)

  /**
   * What calling a loader gives back: a value at once, a coroutine that
   * awaits to one, or an exception, raised by the call or by the await.
   */
  datatype Call = Returns(v: Obj) | Coroutine(id: nat, awaited: Obj) | Raises(e: Exc)

  /** What calling a disposer does: it finishes, at once or once awaited, or it raises. */
  datatype Disposal = Disposes | DisposeRaises(e: Exc)

  /** The value a loader's call leaves in the slot as written: the coroutine is awaited, but the coroutine object is what is kept. */
  function StoredAsWritten(c: Call): Result<Obj>
  {
    match c
    case Returns(v) => Ok(v)
    case Coroutine(id, _) => Ok(CoroObj(id))
    case Raises(e) => Err(e)
  }

  /** The value a loader's call is meant to leave: the value itself, or what the coroutine awaits to. */
  function Stored(c: Call): Result<Obj>
  {
    match c
    case Returns(v) => Ok(v)
    case Coroutine(_, awaited) => Ok(awaited)
    case Raises(e) => Err(e)
  }

  /** The two agree exactly on plain values and raising calls (and on the degenerate coroutine that awaits to itself). */
  lemma StoredAgreement(c: Call)
    ensures StoredAsWritten(c) == Stored(c) <==> c.Returns? || c.Raises? || c.awaited == CoroObj(c.id)
  {
  }

  /** An async loader whose coroutine awaits to 42 leaves the coroutine object behind, not 42. */
  lemma AsyncLoaderKeepsCoroutine()
    ensures StoredAsWritten(Coroutine(1, Data(42))) == Ok(CoroObj(1))
    ensures Stored(Coroutine(1, Data(42))) == Ok(Data(42))
  {
  }

  // ---------------------------------------------------------------------
  // ResourceInfo

  /**
   * A node's info record. `crtTime` is the creation clock reading; `typ`
   * is "class" for a grouping node and "resource" for a node with a value;
   * `load` and `dispose` are what calling the loader and the disposer,
   * when given, does.
   */
  datatype Info = Info(crtTime: int, value: Obj, typ: string, load: Option<Call>, dispose: Option<Disposal>, disposed: bool, loaded: bool)

  /** An attribute assignment on an info record. */
  datatype InfoAttr =
    | CrtTimeAttr(t: int)
    | TypeAttr(s: string)
    | ValueAttr(o: Obj)
    | LoadAttr(l: Option<Call>)
    | DisposeAttr(d: Option<Disposal>)
    | DisposedAttr(b: bool)
    | LoadedAttr(b: bool)

  /** `ResourceInfo.__setattr__`: `crt_time` and `type` raise PermissionError; every other attribute is assigned. */
  function SetInfo(info: Info, a: InfoAttr): (r: Result<Info>)
    ensures r.Err? <==> a.CrtTimeAttr? || a.TypeAttr?
    ensures r.Err? ==> r.error == PermissionError
    ensures r.Ok? ==> r.value.crtTime == info.crtTime && r.value.typ == info.typ
    ensures a.ValueAttr? ==> r == Ok(info.(value := a.o))
    ensures a.LoadAttr? ==> r == Ok(info.(load := a.l))
    ensures a.DisposeAttr? ==> r == Ok(info.(dispose := a.d))
    ensures a.DisposedAttr? ==> r == Ok(info.(disposed := a.b))
    ensures a.LoadedAttr? ==> r == Ok(info.(loaded := a.b))
  {
    match a
    case CrtTimeAttr(_) => Err(PermissionError)
    case TypeAttr(_) => Err(PermissionError)
    case ValueAttr(o) => Ok(info.(value := o))
    case LoadAttr(l) => Ok(info.(load := l))
    case DisposeAttr(d) => Ok(info.(dispose := d))
    case DisposedAttr(b) => Ok(info.(disposed := b))
    case LoadedAttr(b) => Ok(info.(loaded := b))
  }

  // ---------------------------------------------------------------------
  // BotResource

  /** A resource node: its info record and its named children in insertion order. */
  datatype Resource = Resource(info: Info, children: seq<(string, Resource)>)

  /** `BotResource(value, load, dispose)`: a node without a value is a "class" node. */
  function NewResource(now: int, value: Obj, load: Option<Call>, dispose: Option<Disposal>): (r: Resource)
    ensures r.info.typ == "class" <==> value == NoneObj
    ensures r.info.value == value && r.info.load == load && r.info.dispose == dispose
    ensures !r.info.loaded && !r.info.disposed && r.children == []
  {
    Resource(Info(now, value, if value == NoneObj then "class" else "resource", load, dispose, false, false), [])
  }

  /** The position of the first child called `name`, if any. */
  function Find(cs: seq<(string, Resource)>, name: string): (r: Option<nat>)
    ensures r.Some? ==> r.value < |cs| && cs[r.value].0 == name && forall j :: 0 <= j < r.value ==> cs[j].0 != name
    ensures r.None? ==> forall j :: 0 <= j < |cs| ==> cs[j].0 != name
  {
    if |cs| == 0 then None
    else if cs[0].0 == name then Some(0)
    else match Find(cs[1..], name)
      case None => None
      case Some(i) => Some(i + 1)
  }

  /** The child a node holds under `name`, if any. */
  function Child(r: Resource, name: string): Option<Resource>
  {
    match Find(r.children, name)
    case None => None
    case Some(i) => Some(r.children[i].1)
  }

  /** Appending a child leaves every earlier lookup alone and makes the new one findable. */
  lemma FindAppend(cs: seq<(string, Resource)>, c: (string, Resource), n: string)
    ensures Find(cs + [c], n) == (if Find(cs, n).Some? then Find(cs, n) else if c.0 == n then Some(|cs|) else None)
  {
    assert forall j :: 0 <= j < |cs| ==> (cs + [c])[j] == cs[j];
    assert (cs + [c])[|cs|] == c;
  }

  /** Replacing the first child called `name` keeps every lookup of another name. */
  lemma FindReplace(cs: seq<(string, Resource)>, i: nat, c: (string, Resource), n: string)
    requires Find(cs, c.0) == Some(i)
    ensures Find(cs[i := c], n) == Find(cs, n)
  {
    assert forall j :: 0 <= j < |cs| ==> cs[i := c][j].0 == cs[j].0;
  }

  /** `__getattr__`: reading a child by name; an absent child is created as an empty "class" node and kept under that name. */
  function GetAttr(r: Resource, name: string, now: int): (out: (Resource, Resource))
    ensures Child(r, name).Some? ==> out.0 == Child(r, name).value && out.1 == r
    ensures Child(r, name).None? ==>
      out.0 == NewResource(now, NoneObj, None, None) && out.1 == r.(children := r.children + [(name, out.0)])
    ensures Child(out.1, name) == Some(out.0)
    ensures forall n :: n != name ==> Child(out.1, n) == Child(r, n)
  {
    match Find(r.children, name)
    case Some(i) => (r.children[i].1, r)
    case None =>
      var c := NewResource(now, NoneObj, None, None);
      var out := r.(children := r.children + [(name, c)]);
      assert forall n :: Find(out.children, n) == (if Find(r.children, n).Some? then Find(r.children, n) else if name == n then Some(|r.children|) else None) by {
        forall n { FindAppend(r.children, (name, c), n); }
      }
      (c, out)
  }

  /** The right-hand side of an attribute assignment: a resource node, or a bare object. */
  datatype Assigned = Node(res: Resource) | Plain(o: Obj)

  /**
   * `__setattr__`: only a resource node may be assigned, and never under
   * `_info`; both refusals raise ValueError. An existing child is replaced
   * in place, a new one is added last.
   */
  function SetAttr(r: Resource, name: string, v: Assigned): (out: Result<Resource>)
    ensures out.Err? <==> v.Plain? || name == "_info"
    ensures out.Err? ==> out.error == ValueError
    ensures out.Ok? ==> out.value.info == r.info && Child(out.value, name) == Some(v.res)
    ensures out.Ok? ==> forall n :: n != name ==> Child(out.value, n) == Child(r, n)
  {
    if v.Plain? then Err(ValueError)
    else if name == "_info" then Err(ValueError)
    else match Find(r.children, name)
      case Some(i) =>
        var cs := r.children[i := (name, v.res)];
        assert forall n :: Find(cs, n) == Find(r.children, n) by {
          forall n { FindReplace(r.children, i, (name, v.res), n); }
        }
        Ok(r.(children := cs))
      case None =>
        var cs := r.children + [(name, v.res)];
        assert forall n :: Find(cs, n) == (if Find(r.children, n).Some? then Find(r.children, n) else if name == n then Some(|r.children|) else None) by {
          forall n { FindAppend(r.children, (name, v.res), n); }
        }
        Ok(r.(children := cs))
  }

  /** The children `__get_attrs` hands out: every attribute but `_info` and one called `__iter__`. */
  predicate Listed(c: (string, Resource))
  {
    c.0 != "__iter__"
  }

  /** `num`: 1 for a "resource" node; for a "class" node, the sum over its listed children. */
  function Num(r: Resource): nat
    decreases r, |r.children| + 1
  {
    if r.info.typ == "resource" then 1 else NumFrom(r, 0)
  }

  /** The sum of `Num` over the listed children from position `i` on. */
  function NumFrom(r: Resource, i: nat): nat
    requires i <= |r.children|
    decreases r, |r.children| - i
  {
    if i == |r.children| then 0
    else (if Listed(r.children[i]) then Num(r.children[i].1) else 0) + NumFrom(r, i + 1)
  }

  /** `num` as the source computes it, a loop over the children. */
  method CountResources(r: Resource) returns (count: nat)
    ensures count == Num(r)
    decreases r
  {
    if r.info.typ == "resource" {
      return 1;
    }
    count := 0;
    var i := 0;
    while i < |r.children|
      invariant i <= |r.children|
      invariant count + NumFrom(r, i) == NumFrom(r, 0)
    {
      if Listed(r.children[i]) {
        var n := CountResources(r.children[i].1);
        count := count + n;
      }
      i := i + 1;
    }
  }

  /** An empty "class" node counts no resources. */
  lemma EmptyClassCountsZero(r: Resource)
    requires r.info.typ != "resource" && r.children == []
    ensures Num(r) == 0
  {
  }

  lemma {:induction false} NumFromAppend(r: Resource, c: (string, Resource), i: nat)
    requires i <= |r.children|
    ensures NumFrom(r.(children := r.children + [c]), i) == NumFrom(r, i) + (if Listed(c) then Num(c.1) else 0)
    decreases |r.children| - i
  {
    var r' := r.(children := r.children + [c]);
    if i == |r.children| {
      assert r'.children[i] == c;
    } else {
      assert r'.children[i] == r.children[i];
      NumFromAppend(r, c, i + 1);
    }
  }

  /** Reading an absent child never changes how many resources a node counts. */
  lemma {:induction false} GetAttrKeepsNum(r: Resource, name: string, now: int)
    ensures Num(GetAttr(r, name, now).1) == Num(r)
  {
    if Child(r, name).None? && r.info.typ != "resource" {
      NumFromAppend(r, (name, NewResource(now, NoneObj, None, None)), 0);
    }
  }

  /** Assigning a new listed child to a "class" node adds that child's count. */
  lemma {:induction false} SetAttrAddsNum(r: Resource, name: string, child: Resource)
    requires r.info.typ != "resource" && Child(r, name).None? && name != "_info" && name != "__iter__"
    ensures SetAttr(r, name, Node(child)).Ok?
    ensures Num(SetAttr(r, name, Node(child)).value) == Num(r) + Num(child)
  {
    assert Find(r.children, name).None?;
    NumFromAppend(r, (name, child), 0);
  }

  /** `val`: a non-None argument is stored; the stored value is returned. */
  function Val(r: Resource, v: Obj): (out: (Obj, Resource))
    ensures out.1.children == r.children && out.1.info == r.info.(value := out.0)
    ensures v != NoneObj ==> out.0 == v
    ensures v == NoneObj ==> out.0 == r.info.value && out.1 == r
  {
    if v != NoneObj then (v, r.(info := r.info.(value := v))) else (r.info.value, r)
  }

  // ---------------------------------------------------------------------
  // load_all and dispose_all

  /** One node's step of `load_all` as written: an async loader's coroutine object is what is stored. */
  function LoadNodeAsWritten(info: Info): (out: Result<Info>)
    ensures out.Err? <==> !info.loaded && info.load.Some? && info.load.value.Raises?
    ensures out.Ok? ==> out.value.loaded && (info.loaded ==> out.value == info)
    ensures out.Ok? && !info.loaded && info.load.Some? ==> StoredAsWritten(info.load.value) == Ok(out.value.value)
  {
    if info.loaded then Ok(info)
    else if info.load.Some? then
      var v :- StoredAsWritten(info.load.value);
      Ok(info.(value := v, loaded := true, typ := "resource"))
    else Ok(info.(loaded := true))
  }

  /**
   * One node's step of `load_all`, storing what the loader's call awaits
   * to: a node not yet loaded calls its loader, if any, and becomes a
   * loaded "resource" node. A raising loader's exception propagates and
   * the node stays as it was, not loaded. A loaded node is left alone.
   */
  function LoadNode(info: Info): (out: Result<Info>)
    ensures out.Err? <==> !info.loaded && info.load.Some? && info.load.value.Raises?
    ensures out.Err? ==> out.error == info.load.value.e
    ensures out.Ok? ==> out.value.loaded
    ensures info.loaded ==> out == Ok(info)
    ensures !info.loaded && info.load.None? ==> out == Ok(info.(loaded := true))
    ensures !info.loaded && info.load.Some? && Stored(info.load.value).Ok? ==>
      out == Ok(info.(value := Stored(info.load.value).value, loaded := true, typ := "resource"))
  {
    if info.loaded then Ok(info)
    else if info.load.Some? then
      var v :- Stored(info.load.value);
      Ok(info.(value := v, loaded := true, typ := "resource"))
    else Ok(info.(loaded := true))
  }

  /** The as-written step and the intended one differ only for an async loader. */
  lemma LoadNodeDiffers(info: Info)
    ensures LoadNodeAsWritten(info) != LoadNode(info) <==>
      !info.loaded && info.load.Some? && StoredAsWritten(info.load.value) != Stored(info.load.value)
  {
  }

  /**
   * One node's step of `dispose_all`: a node not yet disposed calls its
   * disposer, if any, and drops its value; without a disposer the value
   * stays. A raising disposer's exception propagates and the node stays
   * as it was, not disposed. A disposed node is left alone.
   */
  function DisposeNode(info: Info): (out: Result<Info>)
    ensures out.Err? <==> !info.disposed && info.dispose.Some? && info.dispose.value.DisposeRaises?
    ensures out.Err? ==> out.error == info.dispose.value.e
    ensures out.Ok? ==> out.value.disposed
    ensures info.disposed ==> out == Ok(info)
    ensures !info.disposed && info.dispose == Some(Disposes) ==> out == Ok(info.(value := NoneObj, disposed := true))
    ensures !info.disposed && info.dispose.None? ==> out == Ok(info.(disposed := true))
  {
    if info.disposed then Ok(info)
    else match info.dispose
      case Some(DisposeRaises(e)) => Err(e)
      case Some(Disposes) => Ok(info.(value := NoneObj, disposed := true))
      case None => Ok(info.(disposed := true))
  }

  /**
   * A node step applied to a node and then, recursively, to every listed
   * child in order, with the exception that stopped it, if any. A raising
   * step leaves its node as it was and ends the walk: the nodes already
   * stepped keep their new state and the rest are not reached.
   */
  function Walk(f: Info -> Result<Info>, r: Resource): (out: (Resource, Option<Exc>))
    ensures |out.0.children| == |r.children|
    ensures f(r.info).Err? ==> out == (r, Some(f(r.info).error))
    ensures f(r.info).Ok? ==> out.0.info == f(r.info).value
    decreases r, |r.children| + 1
  {
    match f(r.info)
    case Err(e) => (r, Some(e))
    case Ok(info) =>
      var rest := WalkFrom(f, r, 0);
      (Resource(info, rest.0), rest.1)
  }

  /** `Walk` over the children from position `i` on; unlisted children are kept as they are, and so is every child after a raising one. */
  function WalkFrom(f: Info -> Result<Info>, r: Resource, i: nat): (out: (seq<(string, Resource)>, Option<Exc>))
    requires i <= |r.children|
    ensures |out.0| == |r.children| - i
    decreases r, |r.children| - i
  {
    if i == |r.children| then ([], None)
    else
      var c := r.children[i];
      if !Listed(c) then
        var rest := WalkFrom(f, r, i + 1);
        ([c] + rest.0, rest.1)
      else
        var sub := Walk(f, c.1);
        if sub.1.Some? then ([(c.0, sub.0)] + r.children[i + 1..], sub.1)
        else
          var rest := WalkFrom(f, r, i + 1);
          ([(c.0, sub.0)] + rest.0, rest.1)
  }

  /** `load_all`, storing what each loader awaits to: the tree it leaves and the exception it raises, if any. */
  function LoadAll(r: Resource): (Resource, Option<Exc>)
  {
    Walk(LoadNode, r)
  }

  /** `load_all` as written. */
  function LoadAllAsWritten(r: Resource): (Resource, Option<Exc>)
  {
    Walk(LoadNodeAsWritten, r)
  }

  /** `dispose_all`: the tree it leaves and the exception it raises, if any. */
  function DisposeAll(r: Resource): (Resource, Option<Exc>)
  {
    Walk(DisposeNode, r)
  }

  /** Every node `load_all` or `dispose_all` reaches satisfies `p`. */
  ghost predicate Every(p: Info -> bool, r: Resource)
    decreases r
  {
    p(r.info) && forall i :: 0 <= i < |r.children| && Listed(r.children[i]) ==> Every(p, r.children[i].1)
  }

  /** A walk that raises nothing leaves every reached node in a state the step always produces. */
  lemma {:induction false} WalkEstablishes(f: Info -> Result<Info>, p: Info -> bool, r: Resource)
    requires forall x :: f(x).Ok? ==> p(f(x).value)
    ensures Walk(f, r).1.None? ==> Every(p, Walk(f, r).0)
    decreases r, |r.children| + 1
  {
    if f(r.info).Ok? {
      WalkFromEstablishes(f, p, r, 0);
    }
  }

  lemma {:induction false} WalkFromEstablishes(f: Info -> Result<Info>, p: Info -> bool, r: Resource, i: nat)
    requires forall x :: f(x).Ok? ==> p(f(x).value)
    requires i <= |r.children|
    ensures WalkFrom(f, r, i).1.None? ==>
      forall j :: 0 <= j < |r.children| - i && Listed(WalkFrom(f, r, i).0[j]) ==> Every(p, WalkFrom(f, r, i).0[j].1)
    decreases r, |r.children| - i
  {
    if i < |r.children| {
      var c := r.children[i];
      if Listed(c) {
        WalkEstablishes(f, p, c.1);
      }
      WalkFromEstablishes(f, p, r, i + 1);
    }
  }

  /** A walk ended by a raising step leaves some reached node outside `p`, when the step raises only outside `p`. */
  lemma {:induction false} WalkFails(f: Info -> Result<Info>, p: Info -> bool, r: Resource)
    requires forall x :: f(x).Err? ==> !p(x)
    ensures Walk(f, r).1.Some? ==> !Every(p, Walk(f, r).0)
    decreases r, |r.children| + 1
  {
    if f(r.info).Ok? {
      WalkFromFails(f, p, r, 0);
      var out := WalkFrom(f, r, 0);
      if out.1.Some? {
        var j :| 0 <= j < |out.0| && Listed(out.0[j]) && !Every(p, out.0[j].1);
        assert Walk(f, r).0.children[j] == out.0[j];
      }
    }
  }

  lemma {:induction false} WalkFromFails(f: Info -> Result<Info>, p: Info -> bool, r: Resource, i: nat)
    requires forall x :: f(x).Err? ==> !p(x)
    requires i <= |r.children|
    ensures WalkFrom(f, r, i).1.Some? ==>
      exists j :: 0 <= j < |r.children| - i && Listed(WalkFrom(f, r, i).0[j]) && !Every(p, WalkFrom(f, r, i).0[j].1)
    decreases r, |r.children| - i
  {
    if i < |r.children| {
      var c := r.children[i];
      var out := WalkFrom(f, r, i);
      if Listed(c) && Walk(f, c.1).1.Some? {
        WalkFails(f, p, c.1);
        assert Listed(out.0[0]) && !Every(p, out.0[0].1);
      } else {
        WalkFromFails(f, p, r, i + 1);
        var rest := WalkFrom(f, r, i + 1);
        if rest.1.Some? {
          var j :| 0 <= j < |rest.0| && Listed(rest.0[j]) && !Every(p, rest.0[j].1);
          assert out.0[j + 1] == rest.0[j];
        }
      }
    }
  }

  /** A walk whose step fixes every node satisfying `p` changes nothing and raises nothing in a tree where every reached node satisfies `p`. */
  lemma {:induction false} WalkFixes(f: Info -> Result<Info>, p: Info -> bool, r: Resource)
    requires forall x :: p(x) ==> f(x) == Ok(x)
    requires Every(p, r)
    ensures Walk(f, r) == (r, None)
    decreases r, |r.children| + 1
  {
    WalkFromFixes(f, p, r, 0);
    assert r.children[0..] == r.children;
  }

  lemma {:induction false} WalkFromFixes(f: Info -> Result<Info>, p: Info -> bool, r: Resource, i: nat)
    requires forall x :: p(x) ==> f(x) == Ok(x)
    requires Every(p, r)
    requires i <= |r.children|
    ensures WalkFrom(f, r, i) == (r.children[i..], None)
    decreases r, |r.children| - i
  {
    if i < |r.children| {
      var c := r.children[i];
      if Listed(c) {
        WalkFixes(f, p, c.1);
      }
      WalkFromFixes(f, p, r, i + 1);
      assert r.children[i..] == [c] + r.children[i + 1..];
    }
  }

  /**
   * Walking again the tree a walk left gives the same tree and the same
   * outcome, when the step fixes what it produces: after a walk that
   * raised nothing a second changes nothing, and after one ended by a
   * raising step the second reaches that node again and raises again.
   */
  lemma {:induction false} WalkTwice(f: Info -> Result<Info>, r: Resource)
    requires forall x :: f(x).Ok? ==> f(f(x).value) == f(x)
    ensures Walk(f, Walk(f, r).0) == Walk(f, r)
    decreases r, |r.children| + 1
  {
    if f(r.info).Ok? {
      var out := Walk(f, r);
      assert out.0.children[0..] == WalkFrom(f, r, 0).0;
      WalkFromTwice(f, r, out.0, 0);
    }
  }

  lemma {:induction false} WalkFromTwice(f: Info -> Result<Info>, r: Resource, r2: Resource, i: nat)
    requires forall x :: f(x).Ok? ==> f(f(x).value) == f(x)
    requires i <= |r.children| && i <= |r2.children|
    requires r2.children[i..] == WalkFrom(f, r, i).0
    ensures WalkFrom(f, r2, i) == WalkFrom(f, r, i)
    decreases r, |r.children| - i
  {
    if i < |r.children| {
      var c := r.children[i];
      assert r2.children[i] == WalkFrom(f, r, i).0[0];
      assert r2.children[i + 1..] == r2.children[i..][1..];
      if Listed(c) {
        WalkTwice(f, c.1);
        if Walk(f, c.1).1.None? {
          WalkFromTwice(f, r, r2, i + 1);
        }
      } else {
        WalkFromTwice(f, r, r2, i + 1);
      }
    }
  }

  predicate IsLoaded(x: Info) { x.loaded }

  predicate IsDisposed(x: Info) { x.disposed }

  /**
   * `load_all` run twice. When the first raises nothing, every reached
   * node is loaded and the second changes nothing. When the first is ended
   * by a raising loader, some node is left unloaded, and the second
   * reaches the same loader again and raises the same exception.
   */
  lemma LoadAllOnce(r: Resource)
    ensures LoadAll(r).1.None? ==> Every(IsLoaded, LoadAll(r).0)
    ensures LoadAll(r).1.Some? ==> !Every(IsLoaded, LoadAll(r).0)
    ensures LoadAll(LoadAll(r).0) == LoadAll(r)
  {
    WalkEstablishes(LoadNode, IsLoaded, r);
    WalkFails(LoadNode, IsLoaded, r);
    WalkTwice(LoadNode, r);
  }

  /**
   * `dispose_all` run twice. When the first raises nothing, every reached
   * node is disposed and the second changes nothing. When the first is
   * ended by a raising disposer, some node is left undisposed, and the
   * second reaches the same disposer again and raises the same exception.
   */
  lemma DisposeAllOnce(r: Resource)
    ensures DisposeAll(r).1.None? ==> Every(IsDisposed, DisposeAll(r).0)
    ensures DisposeAll(r).1.Some? ==> !Every(IsDisposed, DisposeAll(r).0)
    ensures DisposeAll(DisposeAll(r).0) == DisposeAll(r)
  {
    WalkEstablishes(DisposeNode, IsDisposed, r);
    WalkFails(DisposeNode, IsDisposed, r);
    WalkTwice(DisposeNode, r);
  }

  /**
   * After a `load_all` that raises nothing every reached node is loaded,
   * and a root with a loader waiting is a "resource" node; a raising root
   * loader leaves the whole tree as it was.
   */
  lemma LoadAllMarksResources(r: Resource)
    ensures LoadAll(r).1.None? ==> Every(IsLoaded, LoadAll(r).0)
    ensures !r.info.loaded && r.info.load.Some? && !r.info.load.value.Raises? ==> LoadAll(r).0.info.typ == "resource"
    ensures !r.info.loaded && r.info.load.Some? && r.info.load.value.Raises? ==> LoadAll(r) == (r, Some(r.info.load.value.e))
  {
    WalkEstablishes(LoadNode, IsLoaded, r);
  }

  // ---------------------------------------------------------------------
  // IdWorker

  const MAX_WORKER_ID := 7
  const MAX_DATACENTER_ID := 31
  const SEQUENCE_MASK := 4095
  const START_EPOCH := 1064980800000

  /**
   * The id's bit layout: the timestamp's offset from the epoch shifted
   * left by 20, the datacenter by 15, the worker by 12, then the sequence.
   * With the fields inside their widths the shifted fields occupy
   * disjoint bits, so their bitwise or is their sum.
   */
  function Compose(ts: int, datacenterId: int, workerId: int, sequence: int): int
  {
    (ts - START_EPOCH) * 1048576 + datacenterId * 32768 + workerId * 4096 + sequence
  }

  /** Shifting an id right and masking gives each field back. */
  lemma ComposeFields(ts: int, datacenterId: int, workerId: int, sequence: int)
    requires 0 <= datacenterId <= MAX_DATACENTER_ID && 0 <= workerId <= MAX_WORKER_ID && 0 <= sequence <= SEQUENCE_MASK
    ensures Compose(ts, datacenterId, workerId, sequence) % 4096 == sequence
    ensures (Compose(ts, datacenterId, workerId, sequence) / 4096) % 8 == workerId
    ensures (Compose(ts, datacenterId, workerId, sequence) / 32768) % 32 == datacenterId
    ensures Compose(ts, datacenterId, workerId, sequence) / 1048576 == ts - START_EPOCH
  {
    var id := Compose(ts, datacenterId, workerId, sequence);
    var a := (ts - START_EPOCH) * 256 + datacenterId * 8 + workerId;
    assert id == a * 4096 + sequence;
    assert id / 4096 == a;
    var b := (ts - START_EPOCH) * 32 + datacenterId;
    assert a == b * 8 + workerId;
    assert id / 32768 == b;
    assert id / 1048576 == ts - START_EPOCH;
  }

  /** A later timestamp, or a larger sequence in the same millisecond, gives a larger id. */
  lemma ComposeMonotone(ts1: int, s1: int, ts2: int, s2: int, datacenterId: int, workerId: int)
    requires 0 <= s1 <= SEQUENCE_MASK && 0 <= s2 <= SEQUENCE_MASK
    requires ts1 < ts2 || (ts1 == ts2 && s1 < s2)
    ensures Compose(ts1, datacenterId, workerId, s1) < Compose(ts2, datacenterId, workerId, s2)
  {
  }

  /** The Snowflake id generator. */
  class IdWorker {
    const datacenterId: int
    const workerId: int
    var sequence: int
    /** The last millisecond an id was made in; -1 before the first. */
    var lastTimestamp: int

    ghost predicate Valid()
      reads this
    {
      0 <= workerId <= MAX_WORKER_ID && 0 <= datacenterId <= MAX_DATACENTER_ID
      && lastTimestamp >= -1 && (lastTimestamp >= 0 ==> 0 <= sequence <= SEQUENCE_MASK)
    }

    constructor(datacenterId: int, workerId: int, sequence: int)
      requires 0 <= workerId <= MAX_WORKER_ID && 0 <= datacenterId <= MAX_DATACENTER_ID
      ensures Valid()
      ensures this.datacenterId == datacenterId && this.workerId == workerId
      ensures this.sequence == sequence && lastTimestamp == -1
    {
      this.datacenterId := datacenterId;
      this.workerId := workerId;
      this.sequence := sequence;
      lastTimestamp := -1;
    }

    /** The id made by the last successful call. */
    function LastId(): int
      reads this
    {
      Compose(lastTimestamp, datacenterId, workerId, sequence)
    }

    /**
     * `get_id`, at clock reading `now`; `next` is the reading on which the
     * wait for a later millisecond ends, used only when the sequence wraps.
     * A reading earlier than the last raises ValueError and changes nothing.
     * In the same millisecond the sequence steps by one modulo 4096, and
     * when it wraps to 0 the id moves to the later millisecond; a new
     * millisecond restarts it at 0. Every id exceeds the one before.
     */
    method GetId(now: nat, next: nat) returns (r: Result<int>)
      requires Valid()
      requires next > now
      modifies this
      ensures Valid()
      ensures now < old(lastTimestamp) ==>
        r == Err(ValueError) && sequence == old(sequence) && lastTimestamp == old(lastTimestamp)
      ensures now == old(lastTimestamp) ==>
        r.Ok? && sequence == (old(sequence) + 1) % 4096 && lastTimestamp == (if sequence == 0 then next else now)
      ensures now > old(lastTimestamp) ==> r.Ok? && sequence == 0 && lastTimestamp == now
      ensures r.Ok? ==> r.value == LastId() && (old(lastTimestamp) >= 0 ==> r.value > old(LastId()))
    {
      var timestamp := now;
      if timestamp < lastTimestamp {
        return Err(ValueError);
      }
      if timestamp == lastTimestamp {
        sequence := (sequence + 1) % (SEQUENCE_MASK + 1);
        if sequence == 0 {
          timestamp := next;
        }
      } else {
        sequence := 0;
      }
      if old(lastTimestamp) >= 0 {
        ComposeMonotone(old(lastTimestamp), old(sequence), timestamp, sequence, datacenterId, workerId);
      }
      lastTimestamp := timestamp;
      r := Ok(Compose(timestamp, datacenterId, workerId, sequence));
    }
  }

  /** `IdWorker.__init__`: a worker id outside 0..7 or a datacenter id outside 0..31 raises ValueError. */
  method NewIdWorker(datacenterId: int, workerId: int, sequence: int) returns (r: Result<IdWorker>)
    ensures r.Err? <==> !(0 <= workerId <= MAX_WORKER_ID && 0 <= datacenterId <= MAX_DATACENTER_ID)
    ensures r.Err? ==> r.error == ValueError
    ensures r.Ok? ==> (fresh(r.value) && r.value.Valid() && r.value.lastTimestamp == -1
      && r.value.datacenterId == datacenterId && r.value.workerId == workerId && r.value.sequence == sequence)
  {
    if workerId > MAX_WORKER_ID || workerId < 0 {
      return Err(ValueError);
    }
    if datacenterId > MAX_DATACENTER_ID || datacenterId < 0 {
      return Err(ValueError);
    }
    var w := new IdWorker(datacenterId, workerId, sequence);
    r := Ok(w);
  }

  /** Two successful calls in a row, at non-decreasing readings, give increasing ids. */
  method TwoIds(w: IdWorker, now1: nat, next1: nat, now2: nat, next2: nat) returns (a: Result<int>, b: Result<int>)
    requires w.Valid() && next1 > now1 && next2 > now2
    modifies w
    ensures a.Ok? && b.Ok? ==> a.value < b.value
  {
    a := w.GetId(now1, next1);
    b := w.GetId(now2, next2);
  }
}

=== FILE: text.dfy ===
/**
 * The string operations of Python that the framework's text handling
 * relies on: decimal digits and `int(s)`, `str(n)`, `"".join`, and
 * `str.replace`, which replaces the non-overlapping occurrences of a
 * pattern from left to right.
 */
module Text {

  /** An ASCII decimal digit; Python's `str.isdigit` and `\d` also accept other Unicode digits, which this model does not. */
  predicate IsDigit(c: char) {
    '0' <= c <= '9'
  }

  /** `s.isdigit()` for ASCII text: non-empty and decimal digits only. */
  predicate IsDigits(s: string) {
    |s| > 0 && forall i :: 0 <= i < |s| ==> IsDigit(s[i])
  }

  /** The strings `int(s)` accepts as written by the framework's coercions: digits, or '-' and digits. */
  predicate IsIntLiteral(s: string) {
    IsDigits(s) || (|s| >= 2 && s[0] == '-' && IsDigits(s[1..]))
  }

  /** The value of a string of decimal digits, most significant first. */
  function DigitsValue(s: string): nat
    requires forall i :: 0 <= i < |s| ==> IsDigit(s[i])
  {
    if s == [] then 0
    else
      assert IsDigit(s[|s| - 1]);
      DigitsValue(s[..|s| - 1]) * 10 + (s[|s| - 1] as int - '0' as int)
  }

  /** `int(s)` on an integer literal. */
  function ParseInt(s: string): int
    requires IsIntLiteral(s)
  {
    if IsDigits(s) then DigitsValue(s) else -(DigitsValue(s[1..]) as int)
  }

  function DigitChar(d: nat): (c: char)
    requires d < 10
    ensures IsDigit(c) && c as int - '0' as int == d
  {
    ('0' as int + d) as char
  }

  /** `str(n)` for a natural number: its decimal digits without leading zeros. */
  function DecStr(n: nat): (s: string)
    ensures IsDigits(s)
    ensures |s| > 1 ==> s[0] != '0'
  {
    if n < 10 then [DigitChar(n)] else DecStr(n / 10) + [DigitChar(n % 10)]
  }

  /** `str(i)` for any integer. */
  function IntStr(i: int): (s: string)
    ensures IsIntLiteral(s)
  {
    if i >= 0 then DecStr(i) else "-" + DecStr(-i)
  }

  /** Reading back the digits that `str` wrote gives the number. */
  lemma {:induction false} DecStrValue(n: nat)
    ensures DigitsValue(DecStr(n)) == n
  {
    if n >= 10 {
      DecStrValue(n / 10);
      var s := DecStr(n);
      assert s[..|s| - 1] == DecStr(n / 10);
    }
  }

  /** `int(str(i)) == i`. */
  lemma IntStrRoundTrip(i: int)
    ensures ParseInt(IntStr(i)) == i
  {
    if i >= 0 {
      DecStrValue(i);
    } else {
      DecStrValue(-i);
      assert IntStr(i)[1..] == DecStr(-i);
    }
  }

  /** `sep.join(parts)`. */
  function JoinSep(parts: seq<string>, sep: string): (r: string)
    ensures parts == [] ==> r == ""
    ensures |parts| == 1 ==> r == parts[0]
  {
    if parts == [] then ""
    else if |parts| == 1 then parts[0]
    else parts[0] + sep + JoinSep(parts[1..], sep)
  }

  /** `"".join(parts)`. */
  function Join(parts: seq<string>): (s: string)
    ensures parts == [] ==> s == ""
  {
    if parts == [] then "" else parts[0] + Join(parts[1..])
  }

  lemma {:induction false} JoinAppend(a: seq<string>, b: seq<string>)
    ensures Join(a + b) == Join(a) + Join(b)
  {
    if a == [] {
      assert a + b == b;
    } else {
      JoinAppend(a[1..], b);
      assert (a + b)[1..] == a[1..] + b;
    }
  }

  /** Whether `pat` occurs in `s` at position `i`. */
  predicate At(s: string, i: nat, pat: string) {
    i + |pat| <= |s| && s[i..i + |pat|] == pat
  }

  /** `s.replace(pat, rep)`: occurrences replaced left to right, without overlap. */
  function Replace(s: string, pat: string, rep: string): (r: string)
    requires |pat| > 0
    decreases |s|
  {
    if |s| < |pat| then s
    else if s[..|pat|] == pat then rep + Replace(s[|pat|..], pat, rep)
    else [s[0]] + Replace(s[1..], pat, rep)
  }

  /** Replacing a single character: every character of the result is that of `s` or comes from `rep`. */
  lemma {:induction false} ReplaceCharRemoves(s: string, c: char, rep: string, d: char)
    requires d != c && d !in rep
    ensures (d in Replace(s, [c], rep)) <==> d in s
    ensures c !in rep ==> c !in Replace(s, [c], rep)
    decreases |s|
  {
    if |s| >= 1 {
      ReplaceCharRemoves(s[1..], c, rep, d);
      assert s == [s[0]] + s[1..];
    }
  }

  /** An occurrence in a suffix is an occurrence in the whole, shifted by the dropped prefix. */
  lemma AtDrop(s: string, k: nat, i: nat, pat: string)
    requires k <= |s|
    ensures At(s[k..], i, pat) <==> At(s, i + k, pat)
  {
    if i + |pat| <= |s| - k {
      assert s[k..][i..i + |pat|] == s[i + k..i + k + |pat|];
    }
  }

  /** A pattern that does not occur leaves the string as it is. */
  lemma {:induction false} ReplaceAbsent(s: string, pat: string, rep: string)
    requires |pat| > 0
    requires forall i :: 0 <= i < |s| ==> !At(s, i, pat)
    ensures Replace(s, pat, rep) == s
    decreases |s|
  {
    if |s| >= |pat| {
      assert !At(s, 0, pat);
      forall i | 0 <= i < |s[1..]|
        ensures !At(s[1..], i, pat)
      {
        assert !At(s, i + 1, pat);
        AtDrop(s, 1, i, pat);
      }
      ReplaceAbsent(s[1..], pat, rep);
      assert s == [s[0]] + s[1..];
    }
  }

  /**
   * Replacing in a concatenation replaces in each part, provided no
   * occurrence of the pattern straddles the joint.
   */
  lemma {:induction false} ReplaceConcat(a: string, b: string, pat: string, rep: string)
    requires |pat| > 0
    requires forall i :: 0 <= i < |a| && |a| < i + |pat| ==> !At(a + b, i, pat)
    ensures Replace(a + b, pat, rep) == Replace(a, pat, rep) + Replace(b, pat, rep)
    decreases |a|
  {
    if a == [] {
      assert a + b == b;
    } else if |a| >= |pat| && a[..|pat|] == pat {
      assert (a + b)[..|pat|] == pat;
      assert (a + b)[|pat|..] == a[|pat|..] + b;
      forall i | 0 <= i < |a[|pat|..]| && |a[|pat|..]| < i + |pat|
        ensures !At(a[|pat|..] + b, i, pat)
      {
        assert !At(a + b, i + |pat|, pat);
        AtDrop(a + b, |pat|, i, pat);
      }
      ReplaceConcat(a[|pat|..], b, pat, rep);
    } else {
      if |a + b| >= |pat| {
        if |a| >= |pat| {
          assert (a + b)[..|pat|] == a[..|pat|];
        } else {
          assert !At(a + b, 0, pat);
        }
      }
      assert (a + b)[1..] == a[1..] + b;
      forall i | 0 <= i < |a[1..]| && |a[1..]| < i + |pat|
        ensures !At(a[1..] + b, i, pat)
      {
        assert !At(a + b, i + 1, pat);
        AtDrop(a + b, 1, i, pat);
      }
      ReplaceConcat(a[1..], b, pat, rep);
      if |a| < |pat| {
        ReplaceShort(a[1..], pat, rep);
      }
      assert [a[0]] + a[1..] == a;
    }
  }

  lemma ReplaceShort(s: string, pat: string, rep: string)
    requires 0 < |pat| && |s| < |pat|
    ensures Replace(s, pat, rep) == s
  {
  }

  /** `s.split(sep)`: the pieces between the non-overlapping occurrences of `sep`, found left to right. */
  function Split(s: string, sep: string): (r: seq<string>)
    requires |sep| > 0
    ensures |r| >= 1
    decreases |s|
  {
    if s == [] then [""]
    else if At(s, 0, sep) then [""] + Split(s[|sep|..], sep)
    else
      var t := Split(s[1..], sep);
      [[s[0]] + t[0]] + t[1..]
  }

  /** Splitting on a one-character separator, one character at a time. */
  lemma SplitMarkCons(c: char, t: string, mark: char)
    ensures c == mark ==> Split([c] + t, [mark]) == [""] + Split(t, [mark])
    ensures c != mark ==> (Split([c] + t, [mark]) ==
      [[c] + Split(t, [mark])[0]] + Split(t, [mark])[1..])
  {
    var s := [c] + t;
    assert s[1..] == t;
    assert At(s, 0, [mark]) <==> c == mark by {
      assert |s| >= 1 ==> s[0..1] == [c];
    }
  }

  /** Gluing a first piece in front of a joined list extends that list's first piece. */
  lemma JoinSepHead(h: string, t: seq<string>, sep: string)
    requires |t| >= 1
    ensures JoinSep([h + t[0]] + t[1..], sep) == h + JoinSep(t, sep)
  {
    var u := [h + t[0]] + t[1..];
    if |t| > 1 {
      assert u[1..] == t[1..];
    }
  }

  /** Joining the pieces of a split with the separator gives the text back. */
  lemma {:induction false} SplitJoin(s: string, sep: string)
    requires |sep| > 0
    ensures JoinSep(Split(s, sep), sep) == s
    decreases |s|
  {
    if s == [] {
    } else if At(s, 0, sep) {
      var t := Split(s[|sep|..], sep);
      SplitJoin(s[|sep|..], sep);
      assert Split(s, sep) == [""] + t;
      assert ([""] + t)[1..] == t;
      assert s == s[..|sep|] + s[|sep|..];
    } else {
      var t := Split(s[1..], sep);
      SplitJoin(s[1..], sep);
      JoinSepHead([s[0]], t, sep);
      assert s == [s[0]] + s[1..];
    }
  }

  /** The first piece of a split is a prefix of the text. */
  lemma SplitFirstPrefix(s: string, sep: string)
    requires |sep| > 0
    ensures |Split(s, sep)[0]| <= |s| && s[..|Split(s, sep)[0]|] == Split(s, sep)[0]
  {
    var r := Split(s, sep);
    SplitJoin(s, sep);
    if |r| > 1 {
      assert s == r[0] + (sep + JoinSep(r[1..], sep));
    }
  }

  /** No piece of a split contains the separator: every occurrence was cut out, left to right. */
  lemma {:induction false} SplitPiecesFree(s: string, sep: string)
    requires |sep| > 0
    ensures forall k, i :: 0 <= k < |Split(s, sep)| && 0 <= i ==> !At(Split(s, sep)[k], i, sep)
    decreases |s|
  {
    var r := Split(s, sep);
    if s == [] {
    } else if At(s, 0, sep) {
      SplitPiecesFree(s[|sep|..], sep);
      assert r == [""] + Split(s[|sep|..], sep);
    } else {
      var t := Split(s[1..], sep);
      SplitPiecesFree(s[1..], sep);
      SplitFirstPrefix(s[1..], sep);
      var h := [s[0]] + t[0];
      assert r == [h] + t[1..];
      assert h == s[..|h|] && h[1..] == t[0];
      forall i | 0 <= i
        ensures !At(h, i, sep)
      {
        if i == 0 {
          AtPrefix(s, h, sep);
        } else {
          AtDrop(h, 1, i - 1, sep);
        }
      }
      forall k, i | 0 <= k < |r| && 0 <= i
        ensures !At(r[k], i, sep)
      {
        if k > 0 {
          assert r[k] == t[k];
        }
      }
    }
  }

  /** An occurrence at the start of a prefix is one at the start of the whole. */
  lemma AtPrefix(s: string, p: string, pat: string)
    requires |p| <= |s| && p == s[..|p|]
    ensures At(p, 0, pat) ==> At(s, 0, pat)
  {
    if |pat| <= |p| {
      assert p[..|pat|] == s[..|pat|];
    }
  }

  /** Splitting a text that starts with a piece free of the one-character separator. */
  lemma {:induction false} SplitFreePrefix(p: string, c: char, t: string)
    requires c !in p
    ensures Split(p + t, [c]) == [p + Split(t, [c])[0]] + Split(t, [c])[1..]
    decreases |p|
  {
    if p != [] {
      SplitFreePrefix(p[1..], c, t);
      SplitMarkCons(p[0], p[1..] + t, c);
      assert p + t == [p[0]] + (p[1..] + t);
      assert [p[0]] + (p[1..] + Split(t, [c])[0]) == p + Split(t, [c])[0];
    } else {
      var u := Split(t, [c]);
      assert p + t == t && p + u[0] == u[0];
      assert u == [u[0]] + u[1..];
    }
  }

  /** Over a one-character separator absent from every piece, split undoes join. */
  lemma {:induction false} SplitOfJoin(parts: seq<string>, c: char)
    requires |parts| >= 1
    requires forall k :: 0 <= k < |parts| ==> c !in parts[k]
    ensures Split(JoinSep(parts, [c]), [c]) == parts
  {
    if |parts| == 1 {
      SplitFreePrefix(parts[0], c, "");
      assert parts[0] + "" == parts[0];
    } else {
      var rest := JoinSep(parts[1..], [c]);
      SplitOfJoin(parts[1..], c);
      SplitMarkCons(c, rest, c);
      assert JoinSep(parts, [c]) == parts[0] + ([c] + rest);
      SplitFreePrefix(parts[0], c, [c] + rest);
      var u := Split([c] + rest, [c]);
      assert u == [""] + parts[1..];
      assert u[0] == "" && u[1..] == parts[1..];
      assert parts[0] + u[0] == parts[0];
      assert parts == [parts[0]] + parts[1..];
    }
  }
}

=== FILE: token_split.dfy ===
/**
 * The literal-token command splitting shared by the command parsers
 * (src/melobot/utils/parser.py, melobot/utils/parser.py and
 * utils/cmdParser.py). Each parser compiles its start or separator tokens
 * into one regex alternation of escaped literals, substitutes a marker
 * character for every match, splits on the marker and drops the empty
 * pieces. An alternation of literals matches at the leftmost position, and
 * at that position the first token in list order wins; that is the
 * scan `Sub` performs.
 */
module TokenSplit {
  import opened Wrap
  import Text

  /** `s.lstrip(chars)`: a suffix of `s` that does not start with one of `chars`. */
  function StripLeft(s: string, chars: string): (r: string)
    ensures |r| <= |s| && r == s[|s| - |r|..]
    ensures r == [] || r[0] !in chars
  {
    if s != [] && s[0] in chars then StripLeft(s[1..], chars) else s
  }

  /** `s.rstrip(chars)`: a prefix of `s` that does not end with one of `chars`. */
  function StripRight(s: string, chars: string): (r: string)
    ensures |r| <= |s| && r == s[..|r|]
    ensures r == [] || r[|r| - 1] !in chars
  {
    if s != [] && s[|s| - 1] in chars then StripRight(s[..|s| - 1], chars) else s
  }

  /** `s.strip(chars)`: a piece of `s` that neither starts nor ends with one of `chars`. */
  function Strip(s: string, chars: string): (r: string)
    ensures r == [] || (r[0] !in chars && r[|r| - 1] !in chars)
    ensures |r| <= |s|
  {
    var t := StripLeft(s, chars);
    var r := StripRight(t, chars);
    assert r != [] ==> r[0] == t[0];
    r
  }

  /** The first token, in list order, that occurs at the start of `s`; an empty token matches nowhere. */
  function FirstToken(s: string, tokens: seq<string>): (r: Option<nat>)
    ensures r.Some? ==> r.value < |tokens| && |tokens[r.value]| > 0 && Text.At(s, 0, tokens[r.value])
    ensures r.Some? ==> forall k :: 0 <= k < r.value && |tokens[k]| > 0 ==> !Text.At(s, 0, tokens[k])
    ensures r.None? <==> forall k :: 0 <= k < |tokens| && |tokens[k]| > 0 ==> !Text.At(s, 0, tokens[k])
  {
    if tokens == [] then None
    else if |tokens[0]| > 0 && Text.At(s, 0, tokens[0]) then Some(0)
    else
      var r := FirstToken(s, tokens[1..]);
      assert forall k :: 1 <= k < |tokens| ==> tokens[k] == tokens[1..][k - 1];
      if r.Some? then Some(r.value + 1) else None
  }

  /** `regex.sub(mark, s)`: every token match, scanned left to right, replaced by the marker. */
  function Sub(s: string, tokens: seq<string>, mark: char): string
    decreases |s|
  {
    if s == [] then []
    else match FirstToken(s, tokens)
      case Some(k) => [mark] + Sub(s[|tokens[k]|..], tokens, mark)
      case None => [s[0]] + Sub(s[1..], tokens, mark)
  }

  /** `re.split(mark, ...)` on the substituted string. */
  function Pieces(s: string, tokens: seq<string>, mark: char): (r: seq<string>)
    ensures |r| >= 1
  {
    Text.Split(Sub(s, tokens, mark), [mark])
  }

  /** `filter(lambda x: x != '', xs)`. */
  function NonEmpty(xs: seq<string>): (r: seq<string>)
    ensures forall j :: 0 <= j < |r| ==> r[j] != "" && r[j] in xs
    ensures r == [] <==> forall j :: 0 <= j < |xs| ==> xs[j] == ""
  {
    if xs == [] then []
    else
      var rest := NonEmpty(xs[1..]);
      assert forall j :: 1 <= j < |xs| ==> xs[j] == xs[1..][j - 1];
      if xs[0] != "" then [xs[0]] + rest else rest
  }

  /** `_split_string`: the non-empty pieces, without the first when `popFirst`. */
  function SplitString(s: string, tokens: seq<string>, mark: char, popFirst: bool): seq<string> {
    var pieces := Pieces(s, tokens, mark);
    NonEmpty(if popFirst then pieces[1..] else pieces)
  }

  /** No non-empty token occurs anywhere in `p`. */
  predicate Clean(p: string, tokens: seq<string>) {
    forall i: nat, k :: i < |p| && 0 <= k < |tokens| && |tokens[k]| > 0 ==> !Text.At(p, i, tokens[k])
  }

  lemma CleanPrefix(s: string, n: nat, u: seq<string>)
    requires n <= |s| && Clean(s, u)
    ensures Clean(s[..n], u)
  {
    forall i: nat, k | i < n && 0 <= k < |u| && |u[k]| > 0
      ensures !Text.At(s[..n], i, u[k])
    {
      if Text.At(s[..n], i, u[k]) {
        assert s[i..i + |u[k]|] == s[..n][i..i + |u[k]|];
        assert Text.At(s, i, u[k]);
      }
    }
  }

  lemma CleanSuffix(s: string, n: nat, u: seq<string>)
    requires n <= |s| && Clean(s, u)
    ensures Clean(s[n..], u)
  {
    forall i: nat, k | i < |s[n..]| && 0 <= k < |u| && |u[k]| > 0
      ensures !Text.At(s[n..], i, u[k])
    {
      if Text.At(s[n..], i, u[k]) {
        assert s[n + i..n + i + |u[k]|] == s[n..][i..i + |u[k]|];
        assert Text.At(s, n + i, u[k]);
      }
    }
  }

  /** A clean piece stays clean when the character in front of it starts no token. */
  lemma ConsClean(s: string, h: string, q0: string, tokens: seq<string>)
    requires s != [] && FirstToken(s, tokens).None?
    requires h == [s[0]] + q0 && |h| <= |s| && h == s[..|h|]
    requires Clean(q0, tokens)
    ensures Clean(h, tokens)
  {
    forall i: nat, k | i < |h| && 0 <= k < |tokens| && |tokens[k]| > 0
      ensures !Text.At(h, i, tokens[k])
    {
      if i == 0 {
        assert |tokens[k]| <= |h| ==> h[0..|tokens[k]|] == s[0..|tokens[k]|];
      } else if Text.At(h, i, tokens[k]) {
        assert h[i..i + |tokens[k]|] == q0[i - 1..i - 1 + |tokens[k]|];
        assert Text.At(q0, i - 1, tokens[k]);
      }
    }
  }

  /**
   * The pieces of `s` carry no token and no marker, and keep every
   * property of `s` that rules out the tokens `u`; the first piece is the
   * text of `s` up to its first token or marker.
   */
  lemma {:induction false} PiecesClean(s: string, tokens: seq<string>, mark: char, u: seq<string>)
    requires Clean(s, u)
    ensures var p := Pieces(s, tokens, mark);
      |p[0]| <= |s| && p[0] == s[..|p[0]|]
    ensures var p := Pieces(s, tokens, mark);
      |p[0]| < |s| ==> s[|p[0]|] == mark || FirstToken(s[|p[0]|..], tokens).Some?
    ensures var p := Pieces(s, tokens, mark);
      forall j :: 0 <= j < |p| ==> Clean(p[j], tokens) && Clean(p[j], u) && mark !in p[j]
    decreases |s|
  {
    var p := Pieces(s, tokens, mark);
    if s == [] {
      assert p == [""];
    } else {
      match FirstToken(s, tokens)
      case Some(k) =>
        var n := |tokens[k]|;
        CleanSuffix(s, n, u);
        PiecesClean(s[n..], tokens, mark, u);
        Text.SplitMarkCons(mark, Sub(s[n..], tokens, mark), mark);
        assert p == [""] + Pieces(s[n..], tokens, mark);
        assert s[0..] == s;
      case None =>
        CleanSuffix(s, 1, u);
        PiecesClean(s[1..], tokens, mark, u);
        var q := Pieces(s[1..], tokens, mark);
        Text.SplitMarkCons(s[0], Sub(s[1..], tokens, mark), mark);
        if s[0] == mark {
          assert p == [""] + q;
          assert s[0..] == s;
        } else {
          assert p == [[s[0]] + q[0]] + q[1..];
          var h := [s[0]] + q[0];
          assert h == s[..|h|];
          if |h| < |s| {
            assert s[|h|] == s[1..][|q[0]|];
            assert s[|h|..] == s[1..][|q[0]|..];
          }
          CleanPrefix(s, |h|, u);
          ConsClean(s, h, q[0], tokens);
          forall j | 0 <= j < |p|
            ensures Clean(p[j], tokens) && Clean(p[j], u) && mark !in p[j]
          {
            if j > 0 {
              assert p[j] == q[j];
            }
          }
        }
    }
  }

  /** Every piece `_split_string` returns is non-empty, free of the tokens and the marker, and of any token `s` was free of. */
  lemma SplitStringClean(s: string, tokens: seq<string>, mark: char, popFirst: bool, u: seq<string>)
    requires Clean(s, u)
    ensures forall j :: 0 <= j < |SplitString(s, tokens, mark, popFirst)| ==>
      var x := SplitString(s, tokens, mark, popFirst)[j];
      x != "" && Clean(x, tokens) && Clean(x, u) && mark !in x
  {
    PiecesClean(s, tokens, mark, u);
  }

  /** With `popFirst`, the text before the first token or marker is dropped. */
  lemma PopFirstDropsPrefix(s: string, tokens: seq<string>, mark: char)
    ensures var lead := Pieces(s, tokens, mark)[0];
      |lead| <= |s| && lead == s[..|lead|] && (|lead| < |s| ==> s[|lead|] == mark || FirstToken(s[|lead|..], tokens).Some?)
    ensures SplitString(s, tokens, mark, true) == NonEmpty(Pieces(s, tokens, mark)[1..])
  {
    assert Clean(s, []);
    PiecesClean(s, tokens, mark, []);
  }

  /** `filter(lambda x: x != [], groups)`. */
  function NonEmptyGroups(groups: seq<seq<string>>): (r: seq<seq<string>>)
    ensures forall j :: 0 <= j < |r| ==> r[j] != [] && r[j] in groups
    ensures r == [] <==> forall j :: 0 <= j < |groups| ==> groups[j] == []
  {
    if groups == [] then []
    else
      var rest := NonEmptyGroups(groups[1..]);
      assert forall j :: 1 <= j < |groups| ==> groups[j] == groups[1..][j - 1];
      if groups[0] != [] then [groups[0]] + rest else rest
  }

  /** Each command string split on the separators, in order. */
  function SplitEach(cmds: seq<string>, sep: seq<string>, mark: char): (r: seq<seq<string>>)
    ensures |r| == |cmds| && forall j :: 0 <= j < |cmds| ==> r[j] == SplitString(cmds[j], sep, mark, false)
  {
    seq(|cmds|, j requires 0 <= j < |cmds| => SplitString(cmds[j], sep, mark, false))
  }

  /** The body of `_parse` after purifying: the non-empty command groups in text order. */
  function Groups(text: string, start: seq<string>, sep: seq<string>, mark: char): seq<seq<string>> {
    NonEmptyGroups(SplitEach(SplitString(text, start, mark, true), sep, mark))
  }

  /** Every group is non-empty, and none of its pieces is empty or holds a start token, a separator token or the marker. */
  predicate CleanGroup(g: seq<string>, start: seq<string>, sep: seq<string>, mark: char) {
    g != [] && forall i :: 0 <= i < |g| ==> g[i] != "" && Clean(g[i], start) && Clean(g[i], sep) && mark !in g[i]
  }

  lemma GroupsClean(text: string, start: seq<string>, sep: seq<string>, mark: char)
    ensures forall j :: 0 <= j < |Groups(text, start, sep, mark)| ==> CleanGroup(Groups(text, start, sep, mark)[j], start, sep, mark)
  {
    var cmds := SplitString(text, start, mark, true);
    assert Clean(text, []);
    SplitStringClean(text, start, mark, true, []);
    var each := SplitEach(cmds, sep, mark);
    forall j | 0 <= j < |each|
      ensures forall i :: 0 <= i < |each[j]| ==>
        each[j][i] != "" && Clean(each[j][i], start) && Clean(each[j][i], sep) && mark !in each[j][i]
    {
      SplitStringClean(cmds[j], sep, mark, false, start);
    }
  }

  /** A `cmd_start`/`cmd_sep` argument: one token as a string, or a list of tokens. */
  datatype TokenArg = One(token: string) | Many(tokens: seq<string>)

  /** `x if isinstance(x, list) else [x]`. */
  function TokenList(a: TokenArg): seq<string> {
    if a.One? then [a.token] else a.tokens
  }

  /** `"".join(x)`, which is the string itself for a string. */
  function JoinArg(a: TokenArg): string {
    if a.One? then a.token else Text.Join(a.tokens)
  }

  /** `set(sep_tokens) & set(start_tokens)` is not empty. */
  predicate Overlap(start: seq<string>, sep: seq<string>) {
    exists i, j :: 0 <= i < |start| && 0 <= j < |sep| && start[i] == sep[j]
  }
}

=== FILE: types_models.dfy ===
/**
 * The event base class and the handler base class of melobot/types/models.py.
 * This generation's argument map answers `-1` where the newer one answers
 * `Void`; the map discipline itself is the one `BaseAbc` specifies.
 */
module TypesModels {
  import opened Wrap
  import opened Logic
  import BaseAbc
  import Json

  /** What `_get_args` returns: a stored argument group, or the sentinel `-1`. */
  datatype ArgsOrMinusOne = MinusOne | Args(group: map<string, ParseArgs>)

  /** `_get_args`: -1 before any store and for parser ids never stored. */
  function GetArgs(m: Option<map<nat, map<string, ParseArgs>>>, parserId: nat): (r: ArgsOrMinusOne)
    ensures r.MinusOne? <==> BaseAbc.GetArgs(m, parserId).Void?
    ensures r.Args? ==> r.group == BaseAbc.GetArgs(m, parserId).value
  {
    match BaseAbc.GetArgs(m, parserId)
    case Void => MinusOne
    case Found(g) => Args(g)
  }

  /** After `_store_args(p, a)`, `_get_args(p)` is `a`; other ids are unaffected; a second store overwrites. */
  lemma StoreThenGet(m: Option<map<nat, map<string, ParseArgs>>>, p: nat, a: map<string, ParseArgs>, q: nat, b: map<string, ParseArgs>)
    ensures GetArgs(BaseAbc.StoreArgs(m, p, a), p) == Args(a)
    ensures q != p ==> GetArgs(BaseAbc.StoreArgs(m, p, a), q) == GetArgs(m, q)
    ensures GetArgs(BaseAbc.StoreArgs(BaseAbc.StoreArgs(m, p, a), p, b), p) == Args(b)
    ensures GetArgs(None, p) == MinusOne
  {
    BaseAbc.StoreThenGet(m, p, a, q, b);
  }

  class BotEvent {
    const raw: Json.Value
    const eventType: string
    var argsMap: Option<map<nat, map<string, ParseArgs>>>

    constructor (raw: Json.Value, eventType: string)
      ensures this.raw == raw && this.eventType == eventType && argsMap == None
    {
      this.raw := raw;
      this.eventType := eventType;
      argsMap := None;
    }

    function GetArgsOf(parserId: nat): ArgsOrMinusOne
      reads this
    {
      GetArgs(argsMap, parserId)
    }

    /** `_store_args`: creates the map on first use and overwrites without a duplicate check. */
    method StoreArgsOf(parserId: nat, group: map<string, ParseArgs>)
      modifies this`argsMap
      ensures argsMap == BaseAbc.StoreArgs(old(argsMap), parserId, group)
      ensures GetArgsOf(parserId) == Args(group)
    {
      if argsMap.None? {
        argsMap := Some(map[]);
      }
      argsMap := Some(argsMap.value[parserId := group]);
    }

    predicate IsMsg() { eventType == "message" }
    predicate IsReq() { eventType == "request" }
    predicate IsNotice() { eventType == "notice" }
    predicate IsMeta() { eventType == "meta" }
    predicate IsResp() { eventType == "response" }
  }

  /** The type string decides the predicates: at most one holds, and each holds exactly for its string. */
  lemma TypePredicates(e: BotEvent)
    ensures e.IsMsg() <==> e.eventType == "message"
    ensures (if e.IsMsg() then 1 else 0) + (if e.IsReq() then 1 else 0) + (if e.IsNotice() then 1 else 0)
      + (if e.IsMeta() then 1 else 0) + (if e.IsResp() then 1 else 0) <= 1
  {
  }

  /** The fields every event handler starts with. */
  class IEventHandler {
    const setBlock: bool
    const timeout: Option<int>
    const priority: int
    const isTemp: bool
    var isValid: bool

    /** `IEventHandler.__init__`; the source's defaults are priority 1, no timeout, not blocking, not temporary. */
    constructor (priority: int, timeout: Option<int>, setBlock: bool, temp: bool)
      ensures this.priority == priority && this.timeout == timeout && this.setBlock == setBlock
      ensures isTemp == temp && isValid
    {
      this.setBlock := setBlock;
      this.timeout := timeout;
      this.priority := priority;
      isTemp := temp;
      isValid := true;
    }
  }

  /** The source's default constructor arguments. */
  const DEFAULT_PRIORITY: int := 1
}

=== FILE: wrap.dfy ===
/** Optional values, results and the exception kinds raised by the bot framework. */
module Wrap {

  /** A value that may be absent (Python's `None`). */
  datatype Option<+T> = None | Some(value: T)

  /** The exception classes the modelled code raises, built-in and framework-defined. */
  datatype Exc =
    | KeyError
    | IndexError
    | TypeError
    | ValueError
    | AttributeError
    | StopIteration
    | UnboundLocalError
    | PermissionError
    | BotException
    | BotValueError
    | BotActionError
    | BotCheckerError
    | BotMatcherError
    | TryFlagFailed
    | ShareObjError
    | PluginSignalError
    | PluginInitError
    | BotUnexceptedObj
    | BotUnexpectFormat
    | BotUnexpectedEvent
    | BotUnknownCmdName
    | BotUnsupportCmdFlag
    | ArgParseError

  /** The outcome of an operation that either returns a value or raises. */
  datatype Result<+T> = Ok(value: T) | Err(error: Exc) {
    /** Lets `:-` pass an exception on, as a Python `raise` unwinds the caller. */
    predicate IsFailure() { Err? }

    function PropagateFailure<U>(): Result<U>
      requires Err?
    {
      Err(error)
    }

    function Extract(): T
      requires Ok?
    {
      value
    }
  }
}
